=== FILE: README.md ===
# HPL2 engine core, modelled in Dafny

This project models the sequential bookkeeping of the HPL2 engine, the
C++ engine behind Amnesia: The Dark Descent, and of its Python shader
build script. Dafny proves properties of each model. Most of the
engine records GPU commands through foreign APIs. What is modelled is
the logic around those calls:

- **Byte buffers** (`bytes.dfy`, `graphics_buffer.dfy`, `asset_buffer.dfy`,
  `buffer_index.dfy`, `legacy_vertex_buffer.dfy`): the growable byte vectors
  behind `GraphicsBuffer`, `AssetBuffer`, `BufferIndex` and
  `LegacyVertexBuffer`.
  - Their raw, index and structured views are classes.
  - Every write is stated as the new byte vector: which bytes change and which keep their value.
  - Index and structured reads round-trip through a little-endian encoding that wraps to 16 or 32 bits.
- **Index patterns** (`index_patterns.dfy`, `mesh_utility.dfy`,
  `mesh_creator.dfy`, `particle_emitter.dfy`, `rope_entity.dfy`,
  `billboard.dfy`, `draw_packet.dfy`):
  - the side strips and caps of ring meshes;
  - the plane and box builders, the box corner order, the sky box and the wireframe conversion;
  - the quad pattern of particles and rope segments;
  - the billboard's two-sided quad.
  Each pattern is a pure sequence, and the methods that write it into a
  buffer view are proved to write exactly that sequence. The particle pool
  (`CreateParticle`, `SwapRemove`, `KillInstantly`) is a class whose
  vector stays a permutation of the particles allocated. The draw packets
  of particles, ropes and billboards are proved to stay inside the
  vertices and indices allocated.
- **Skinning** (`sub_mesh.dfy`):
  - `cSubMesh::Compile` packs vertex-bone pairs into four slots per vertex and normalises the weights;
  - after packing, every vertex holds its first four pairs;
  - after normalising, the weights of every vertex that has a bone sum to one;
  - `CreateCollideShape` builds the collide shape from the colliders.
- **Materials** (`material.dfy`, `material_manager.dfy`):
  - the material ID free list;
  - `SetType` and the variables it creates;
  - the version counter and the guards on blend and depth settings;
  - the UV-animation list;
  - the case-insensitive attribute parsers, with their fallback values.
- **Handles and textures** (`forge_handles.dfy`, `forge_texture.dfy`,
  `image.dfy`):
  - the reference-counted `RefHandle`, whose counter is proved to equal the number of handles holding it;
  - the pixel-format mappings to The Forge and to bgfx;
  - the texture descriptions built from bitmaps.
- **Renderer bookkeeping** (`renderer.dfy`, `renderer_core.dfy`,
  `renderer_deferred.dfy`, `renderer_deferred2.dfy`):
  - shadow-map resolution caps and distance tiers;
  - the least-recently-used choice of a shadow map and its redraw test;
  - the node and light sort orders, proved to be strict weak orders;
  - the sampler-slot encoding, proved to be injective;
  - the per-frame object slots, the occlusion-query pool, and the `uint32_t` range allocator.
- **Shader build script** (`shader_compile.dfy`):
  - how a shader's variant axes expand into named builds, and which builds a missing required bit skips;
  - the compiler jobs each build becomes on each platform;
  - the queue of compiler processes, drained when more than 100 are pending, which exits at the first compiler error.

Engine objects are modelled by number. Float data
is either modelled as reals or left out, as each file's header says.
Vertex components that are stored as bytes are modelled by their bit
patterns.

## Model

| member | source | states |
|---|---|---|
| Bytes.Resized | HPL2/include/graphics/GraphicsBuffer.h:189-199 | `std::vector::resize`: exactly n bytes, the old bytes that fit are kept and the new ones are zero |
| Bytes.Grown | HPL2/include/graphics/GraphicsBuffer.h:26-30 | `testAndResize`: the new size is the larger of the old size and the request; the old bytes are a prefix; a request that is not larger changes nothing; added bytes are zero |
| Bytes.Overwrite | HPL2/include/graphics/GraphicsBuffer.h:73-85 | the `std::copy` into the vector: same length, the copied range holds the source, every other byte is unchanged |
| Bytes.WriteAtEffect | HPL2/include/graphics/GraphicsBuffer.h:73-85 | a grow-then-copy write leaves the vector max(old size, end of write) long with the written bytes readable at their range |
| Bytes.WriteAtPreserves | HPL2/include/graphics/GraphicsBuffer.h:73-85 | any byte range wholly before or after the written range keeps its old bytes |
| Bytes.DecodeEncode | HPL2/include/graphics/GraphicsBuffer.h:227-270 | a little-endian store of width bytes loads back as the value modulo 2^(8*width) |
| Bytes.EncodeDecode | HPL2/include/graphics/GraphicsBuffer.h:227-270 | storing the value a load produced writes back exactly the loaded bytes |
| Bytes.U16RoundTrip | HPL2/include/graphics/GraphicsBuffer.h:264-270 | a `uint16_t` store and load gives the value modulo 2^16 |
| Bytes.U32RoundTrip | HPL2/include/graphics/GraphicsBuffer.h:256-262 | a `uint32_t` store and load gives back every 32-bit value |
| Bytes.SlotRoundTrip | HPL2/include/graphics/GraphicsBuffer.h:252-270 | after storing into slot i, the slot exists and reads back the value cut to the slot width |
| Bytes.SlotFrame | HPL2/include/graphics/GraphicsBuffer.h:252-270 | storing into one slot leaves every other existing slot's value unchanged |
| Bytes.StructuredTarget | HPL2/include/graphics/GraphicsBuffer.h:338-341 | the structured target offset is below 2^32 and equals offset + index*stride when that sum does not wrap |
| GraphicsBuffer.IndexWidth | HPL2/include/graphics/GraphicsBuffer.h:252-270 | the slot width is 2 or 4 bytes, and 2^(8*width) is 2^16 for Uint16 and 2^32 for Uint32 |
| GraphicsBuffer.GraphicsBuffer.constructor | HPL2/include/graphics/GraphicsBuffer.h:44 | a new resource buffer holds no bytes |
| GraphicsBuffer.GraphicsBuffer.CreateViewRaw | HPL2/include/graphics/GraphicsBuffer.h:422-424 | a fresh raw view over this buffer at the given offset |
| GraphicsBuffer.GraphicsBuffer.CreateIndexView | HPL2/include/graphics/GraphicsBuffer.h:418-420 | a fresh index view over this buffer with the given offset and index type |
| GraphicsBuffer.GraphicsBuffer.CreateStructuredView | HPL2/include/graphics/GraphicsBuffer.h:413-416 | a fresh structured view; a stride of 0 becomes the element size |
| GraphicsBuffer.BufferRawView.constructor | HPL2/include/graphics/GraphicsBuffer.h:57-60 | the view records its buffer and offset |
| GraphicsBuffer.BufferRawView.WriteRaw | HPL2/include/graphics/GraphicsBuffer.h:73-85 | the buffer grows to max(old size, end of write), the bytes land at the sum of the two offsets, and every other old byte is unchanged |
| GraphicsBuffer.BufferRawView.NumBytes | HPL2/include/graphics/GraphicsBuffer.h:149-153 | the result fits in 32 bits and, when the offset is inside the buffer, offset + result is the buffer size |
| GraphicsBuffer.BufferIndexView.constructor | HPL2/include/graphics/GraphicsBuffer.h:165-169 | the view records its buffer, offset and index type |
| GraphicsBuffer.BufferIndexView.ResizeElements | HPL2/include/graphics/GraphicsBuffer.h:189-199 | the buffer is resized to end right after n slots: slots 0..n-1 exist and slot n does not |
| GraphicsBuffer.BufferIndexView.Get | HPL2/include/graphics/GraphicsBuffer.h:227-237 | a stored index fits in 32 bits, and in 16 bits for a Uint16 view |
| GraphicsBuffer.BufferIndexView.Write | HPL2/include/graphics/GraphicsBuffer.h:252-270 | the slot exists afterwards and `Get` returns the value (mod 2^16 for Uint16); every other existing slot keeps its value; the buffer never shrinks |
| GraphicsBuffer.BufferStructuredView.constructor | HPL2/include/graphics/GraphicsBuffer.h:309-313 | the view records buffer, offset, stride and element size; the stride is at least the element size (the source's ASSERT) |
| GraphicsBuffer.BufferStructuredView.NumElements | HPL2/include/graphics/GraphicsBuffer.h:334-336 | the count is the number of whole strides between the offset and the end of the buffer |
| GraphicsBuffer.BufferStructuredView.Get | HPL2/include/graphics/GraphicsBuffer.h:396-401 | an element read is exactly sizeof(T) bytes |
| GraphicsBuffer.BufferStructuredView.Write | HPL2/include/graphics/GraphicsBuffer.h:338-345 | the element exists afterwards and `Get` returns the written value; no byte outside its sizeof(T) range changes |
| GraphicsBuffer.BufferStructuredView.WriteSpan | HPL2/include/graphics/GraphicsBuffer.h:354-361 | the span's bytes are written contiguously from element index's offset, as the code does |
| GraphicsBuffer.BufferStructuredView.WriteSpanStrided | HPL2/include/graphics/GraphicsBuffer.h:338-361 | the corrected span write: each element k reads back with `Get(index+k)` |
| GraphicsBuffer.BufferStructuredView.ResizeElements | HPL2/include/graphics/GraphicsBuffer.h:370-380 | the buffer ends after n strides (a uint32 sum); without wrap-around the view then counts exactly n elements |
| GraphicsBuffer.ResizedCount | HPL2/include/graphics/GraphicsBuffer.h:370-380 | after the resize the element count is n |
| GraphicsBuffer.StridedStep | HPL2/include/graphics/GraphicsBuffer.h:338-345 | writing element k into its own slot keeps elements index..index+k-1 readable |
| GraphicsBuffer.SpanWriteIgnoresStride | HPL2/include/graphics/GraphicsBuffer.h:354-361 | with 4-byte elements 8 bytes apart, the span write puts element 1 at byte 4, and `Get(1)` still reads zeros |
| AssetBuffer.IndexSize | HPL2/include/graphics/AssetBuffer.h:163-183 | the slot width gives 2^16 slot values for Uint16 and 2^32 for Uint32 |
| AssetBuffer.AssetBuffer.constructor | HPL2/include/graphics/AssetBuffer.h:36 | a new asset buffer holds no bytes |
| AssetBuffer.AssetBuffer.CreateViewRaw | HPL2/include/graphics/AssetBuffer.h:260-262 | a fresh raw view at the offset, which must lie inside the buffer |
| AssetBuffer.AssetBuffer.CreateIndexView | HPL2/include/graphics/AssetBuffer.h:256-258 | a fresh index view with the offset and index type |
| AssetBuffer.AssetBuffer.CreateStructuredView | HPL2/include/graphics/AssetBuffer.h:252-254 | a fresh structured view; a stride of 0 becomes the element size |
| AssetBuffer.BufferRawView.constructor | HPL2/include/graphics/AssetBuffer.h:48-52 | the view records buffer and offset; the offset is asserted to lie inside the buffer |
| AssetBuffer.BufferRawView.WriteRaw | HPL2/include/graphics/AssetBuffer.h:65-69 | the buffer grows to max(old size, end of write), the bytes land at the sum of the two offsets, and every other old byte is unchanged |
| AssetBuffer.BufferRawView.NumBytes | HPL2/include/graphics/AssetBuffer.h:97 | the result fits in 32 bits and, with the offset inside the buffer, offset + result is the buffer size |
| AssetBuffer.BufferIndexView.constructor | HPL2/include/graphics/AssetBuffer.h:105-109 | the view records buffer, offset and index type |
| AssetBuffer.BufferIndexView.ResizeElements | HPL2/include/graphics/AssetBuffer.h:130-139 | the buffer ends right after n slots: slots 0..n-1 exist and slot n does not |
| AssetBuffer.BufferIndexView.Get | HPL2/include/graphics/AssetBuffer.h:152-162 | a stored index fits in 32 bits, and in 16 bits for a Uint16 view |
| AssetBuffer.BufferIndexView.Write | HPL2/include/graphics/AssetBuffer.h:163-183 | the slot exists afterwards and reads back the value (mod 2^16 for Uint16); every other existing slot keeps its value |
| AssetBuffer.BufferStructuredView.constructor | HPL2/include/graphics/AssetBuffer.h:193-197 | the view records buffer, offset, stride and element size, with stride >= sizeof(T) as asserted |
| AssetBuffer.BufferStructuredView.NumElements | HPL2/include/graphics/AssetBuffer.h:218-220 | the count is the number of whole strides between the offset and the end of the buffer |
| AssetBuffer.BufferStructuredView.Get | HPL2/include/graphics/AssetBuffer.h:244-247 | an element read is exactly sizeof(T) bytes |
| AssetBuffer.BufferStructuredView.Write | HPL2/include/graphics/AssetBuffer.h:222-227 | the element reads back with `Get`; no byte outside its sizeof(T) range changes |
| AssetBuffer.BufferStructuredView.WriteSpan | HPL2/include/graphics/AssetBuffer.h:229-234 | the span's bytes are written contiguously from element index's offset |
| AssetBuffer.BufferStructuredView.ResizeElements | HPL2/include/graphics/AssetBuffer.h:236-238 | the buffer ends after n strides (a uint32 sum); without wrap-around the view then counts exactly n elements |
| BufferIndex.GetIndexSize | HPL2/core/sources/graphics/BufferIndex.cpp:8-21 | 2 bytes for Uint16 and 4 for Uint32, so a slot holds values below 2^16 or 2^32 |
| BufferIndex.AppendDecoded | HPL2/core/sources/graphics/BufferIndex.cpp:91-105 | appending one encoded index to a whole number of slots adds exactly one slot, holding the value cut to the slot width |
| BufferIndex.AppendRunDecoded | HPL2/core/sources/graphics/BufferIndex.cpp:107-113 | appending a run of encoded values to a whole number of slots adds one slot per value, in order, each holding its value cut to the slot width |
| BufferIndex.RunCount | HPL2/core/sources/graphics/BufferIndex.cpp:107-113 | n more slots of w bytes add n to the element count and leave the remainder as it was |
| BufferIndex.SetDecoded | HPL2/core/sources/graphics/BufferIndex.cpp:137-152 | storing into an existing slot keeps the length and replaces that one index |
| BufferIndex.BufferIndex.constructor | HPL2/core/sources/graphics/BufferIndex.cpp:28-38 | the buffer keeps its format and the given bytes |
| BufferIndex.BufferIndex.NumberElements | HPL2/core/sources/graphics/BufferIndex.cpp:164-167 | the count is the number of whole slots in the byte vector |
| BufferIndex.BufferIndex.Indices | HPL2/core/sources/graphics/BufferIndex.cpp:71-90 | the decoded indices number exactly `NumberElements()` |
| BufferIndex.BufferIndex.Resize | HPL2/core/sources/graphics/BufferIndex.cpp:51-54 | the vector is resized to count slots: `NumberElements()` is count and the buffer stays slot-aligned |
| BufferIndex.BufferIndex.Append | HPL2/core/sources/graphics/BufferIndex.cpp:91-105 | the encoded value is appended, the count rises by one, and the index list gains the value cut to the slot width |
| BufferIndex.BufferIndex.AppendRange | HPL2/core/sources/graphics/BufferIndex.cpp:107-113 | on any buffer, including one built from an odd number of raw bytes, the values' encodings are appended in order and the count rises by one per value; on a buffer of whole indices the index list gains every value in order, each cut to the slot width |
| BufferIndex.BufferIndex.SetIndex | HPL2/core/sources/graphics/BufferIndex.cpp:137-152 | asserts the slot exists; only that index changes, to the value cut to the slot width; the length and the bytes of a trailing partial slot are kept |
| BufferIndex.BufferIndex.SetRange | HPL2/core/sources/graphics/BufferIndex.cpp:115-135 | asserts offset + length fits; the run of slots from offset is replaced by the values and everything else is kept, the bytes of a trailing partial slot included |
| BufferIndex.BufferIndexView.Whole | HPL2/core/sources/graphics/BufferIndex.cpp:184-189 | a view over the whole buffer, or an empty view for a null buffer |
| BufferIndex.BufferIndexView.constructor | HPL2/core/sources/graphics/BufferIndex.cpp:191-204 | a sub-range view; asserted to fit in the buffer, or to be empty without one |
| BufferIndex.BufferIndexView.GetNumElements | HPL2/core/sources/graphics/BufferIndex.cpp:244-247 | the count is zero exactly when the view is empty |
| BufferIndex.BufferIndexView.Elements | HPL2/core/sources/graphics/BufferIndex.cpp:249-274 | the view's indices are the window offset..offset+count of the buffer's, or none when empty |
| BufferIndex.BufferIndexView.SetIndex | HPL2/core/sources/graphics/BufferIndex.cpp:214-220 | view slot index is buffer slot offset+index: only that index changes, in the buffer and in the window |
| BufferIndex.BufferIndexView.SetRange | HPL2/core/sources/graphics/BufferIndex.cpp:206-212 | forwards to the buffer at the view's offset plus the given one: that run is replaced, everything else kept |
| LegacyVertexBuffer.GetSizeFromHPL | HPL2/core/sources/impl/LegacyVertexBuffer.cpp:57-70 | 4 bytes for Float and Int, 1 for Byte, and 0 exactly for an unlisted format |
| LegacyVertexBuffer.FloatToInt | HPL2/core/sources/impl/LegacyVertexBuffer.cpp:160 | `static_cast<int>` of a float bit pattern: always an `int`, and 0 for every magnitude below 1 |
| LegacyVertexBuffer.FloatToIntExamples | HPL2/core/sources/impl/LegacyVertexBuffer.cpp:160 | the conversion truncates toward zero: 0.0, 0.5, 1.0 and -1.0 give 0, 0, 1 and -1 |
| LegacyVertexBuffer.FloatToIntWholeExamples | HPL2/core/sources/impl/LegacyVertexBuffer.cpp:160 | whole floats keep their value: 3.0 and 255.0 give 3 and 255 |
| LegacyVertexBuffer.ComponentBytes | HPL2/core/sources/impl/LegacyVertexBuffer.cpp:143-168 | one component takes exactly `GetSizeFromHPL(format)` bytes |
| LegacyVertexBuffer.ZeroComponent | HPL2/core/sources/impl/LegacyVertexBuffer.cpp:145-169 | a missing component (written as 0) is all zero bytes in every format |
| LegacyVertexBuffer.Components | HPL2/core/sources/impl/LegacyVertexBuffer.cpp:145-167 | exactly `num` components: the given values first, zeros after them, extra values dropped |
| LegacyVertexBuffer.EncodeComponents | HPL2/core/sources/impl/LegacyVertexBuffer.cpp:145-167 | a run of components takes its count times the component size |
| LegacyVertexBuffer.EncodedComponentAt | HPL2/core/sources/impl/LegacyVertexBuffer.cpp:145-167 | component k of the run sits at bytes [k*size, (k+1)*size) |
| LegacyVertexBuffer.VertexElement.Stride | HPL2/core/sources/impl/LegacyVertexBuffer.cpp:180-182 | the stride is 0 exactly for an unlisted format or no components, and otherwise at least the component count |
| LegacyVertexBuffer.VertexElement.NumElements | HPL2/core/sources/impl/LegacyVertexBuffer.cpp:184-186 | the count is the number of whole strides in the shadow data |
| LegacyVertexBuffer.Find | HPL2/core/sources/impl/LegacyVertexBuffer.cpp:284-291 | the `std::find_if` by kind: the first element of that kind, or none exactly when no element has it |
| LegacyVertexBuffer.Kinds | HPL2/core/sources/impl/LegacyVertexBuffer.cpp:358-360 | the union of the elements' flags: exactly the kinds some element has |
| LegacyVertexBuffer.Selected | HPL2/core/sources/impl/LegacyVertexBuffer.cpp:592-597 | the elements whose flag is in the mask, and only those, in order |
| LegacyVertexBuffer.SelectedDistinct | HPL2/core/sources/impl/LegacyVertexBuffer.cpp:592-597 | copying a subset of elements keeps each kind at most once |
| LegacyVertexBuffer.SelectedKinds | HPL2/core/sources/impl/LegacyVertexBuffer.cpp:592-597 | the copy holds exactly the kinds of the original that are in the mask |
| LegacyVertexBuffer.FindSnoc | HPL2/core/sources/impl/LegacyVertexBuffer.cpp:429-445 | after appending an element, lookup finds the old match if any, else the new element if it has the kind |
| LegacyVertexBuffer.AppendVertex | HPL2/core/sources/impl/LegacyVertexBuffer.cpp:137-177 | the inner loop appends exactly the bytes of `num` components (values then zeros) to the shadow data |
| LegacyVertexBuffer.Pushed | HPL2/core/sources/impl/LegacyVertexBuffer.cpp:137-177 | pushing a vertex keeps the element's kind, format, count and program variable index |
| LegacyVertexBuffer.PushedElements | HPL2/core/sources/impl/LegacyVertexBuffer.cpp:137-177 | only the first element of the kind changes, and it receives the pushed vertex |
| LegacyVertexBuffer.PushAddsOneVertex | HPL2/core/sources/impl/LegacyVertexBuffer.cpp:137-186 | a push adds exactly one stride, so `NumElements` rises by one |
| LegacyVertexBuffer.PushedComponent | HPL2/core/sources/impl/LegacyVertexBuffer.cpp:137-177 | component k of the new vertex holds the bytes of value k, or of 0 when fewer values were given |
| LegacyVertexBuffer.Vec4DropsW | HPL2/core/sources/impl/LegacyVertexBuffer.cpp:194-198 | for a 4-float position, `AddVertexVec4f` as written stores 0 as the fourth component, while pushing w would store 1.0's bytes |
| LegacyVertexBuffer.Vec4StoresW | HPL2/core/sources/impl/LegacyVertexBuffer.cpp:194-198 | the corrected push of x, y, z, w stores w's bytes as the fourth component |
| LegacyVertexBuffer.SelectedSnoc | HPL2/core/sources/impl/LegacyVertexBuffer.cpp:592-597 | the copy loop's step: one more element adds it exactly when its flag is in the mask |
| LegacyVertexBuffer.LegacyVertexBuffer.constructor | HPL2/core/sources/impl/LegacyVertexBuffer.cpp:125-131 | a new buffer has no elements, no indices and no flags set |
| LegacyVertexBuffer.LegacyVertexBuffer.PushVertexElements | HPL2/core/sources/impl/LegacyVertexBuffer.cpp:137-177 | the first element of the kind receives one vertex; everything else is unchanged |
| LegacyVertexBuffer.LegacyVertexBuffer.AddVertexVec3f | HPL2/core/sources/impl/LegacyVertexBuffer.cpp:188-192 | sets the element's update flag and pushes x, y, z |
| LegacyVertexBuffer.LegacyVertexBuffer.AddVertexVec4f | HPL2/core/sources/impl/LegacyVertexBuffer.cpp:194-198 | as written: sets the update flag and pushes only x, y, z; w is ignored |
| LegacyVertexBuffer.LegacyVertexBuffer.AddVertexVec4fWithW | HPL2/core/sources/impl/LegacyVertexBuffer.cpp:194-198 | corrected: sets the update flag and pushes x, y, z, w |
| LegacyVertexBuffer.LegacyVertexBuffer.AddVertexColor | HPL2/core/sources/impl/LegacyVertexBuffer.cpp:200-204 | sets the update flag and pushes r, g, b, a |
| LegacyVertexBuffer.LegacyVertexBuffer.AddIndex | HPL2/core/sources/impl/LegacyVertexBuffer.cpp:206-209 | appends the index and marks the indices for upload |
| LegacyVertexBuffer.LegacyVertexBuffer.UpdateData | HPL2/core/sources/impl/LegacyVertexBuffer.cpp:365-368 | ORs the given kinds into the update flags and the index flag into the index update |
| LegacyVertexBuffer.LegacyVertexBuffer.GetElementNum | HPL2/core/sources/impl/LegacyVertexBuffer.cpp:284-292 | the component count of the element of that kind, 0 when there is none |
| LegacyVertexBuffer.LegacyVertexBuffer.GetElementFormat | HPL2/core/sources/impl/LegacyVertexBuffer.cpp:294-302 | the format of the element of that kind, the last enum value when there is none |
| LegacyVertexBuffer.LegacyVertexBuffer.GetElementProgramVarIndex | HPL2/core/sources/impl/LegacyVertexBuffer.cpp:304-312 | the program variable index of the element of that kind, 0 when there is none |
| LegacyVertexBuffer.LegacyVertexBuffer.GetVertexNum | HPL2/core/sources/impl/LegacyVertexBuffer.cpp:447-453 | the number of whole vertices in the position element |
| LegacyVertexBuffer.LegacyVertexBuffer.GetIndexNum | HPL2/core/sources/impl/LegacyVertexBuffer.cpp:455-457 | the number of indices |
| LegacyVertexBuffer.LegacyVertexBuffer.ResizeArray | HPL2/core/sources/impl/LegacyVertexBuffer.cpp:404-412 | the element of that kind gets exactly size components' worth of bytes and its update flag; nothing changes without one |
| LegacyVertexBuffer.LegacyVertexBuffer.ResizeIndices | HPL2/core/sources/impl/LegacyVertexBuffer.cpp:414-417 | exactly size indices, old ones kept, new ones 0, and the indices marked for upload |
| LegacyVertexBuffer.LegacyVertexBuffer.CreateElementArray | HPL2/core/sources/impl/LegacyVertexBuffer.cpp:429-445 | an already flagged kind changes nothing; otherwise the flag is set and one empty element is appended; each kind stays unique |
| LegacyVertexBuffer.LegacyVertexBuffer.CreateTangentArray | HPL2/core/sources/impl/LegacyVertexBuffer.cpp:315-342 | the tangent element exists afterwards and holds 4 floats per position vertex |
| LegacyVertexBuffer.LegacyVertexBuffer.MarkElementsDirty | HPL2/core/sources/impl/LegacyVertexBuffer.cpp:358-360 | every present element's kind is added to the update flags |
| LegacyVertexBuffer.LegacyVertexBuffer.Compile | HPL2/core/sources/impl/LegacyVertexBuffer.cpp:314-363 | returns true; marks every element and the indices for upload; with tangents requested, adds a tangent element of 4 floats per vertex |
| LegacyVertexBuffer.LegacyVertexBuffer.CreateCopy | HPL2/core/sources/impl/LegacyVertexBuffer.cpp:586-600 | given the position element that `GetVertexNum` asserts, the copy shares the indices, holds the elements in the mask (with their kinds unique), and has them all marked for upload |
| LegacyVertexBuffer.LegacyVertexBuffer.CopySelected | HPL2/core/sources/impl/LegacyVertexBuffer.cpp:592-597 | the loop appends exactly the elements whose flag is in the mask, in order, and changes nothing else in the copy |
| IndexPatterns.AsUint32 | HPL2/sources/graphics/MeshUtility.cpp:54-59 | an `int` vertex number stored in a `uint32_t` slot: below 2^32, and unchanged when already in range |
| IndexPatterns.ConcatAt | HPL2/sources/graphics/MeshUtility.cpp:49-61 | parts of equal width laid end to end: part i, entry j sits at width*i + j |
| IndexPatterns.ConcatLength | HPL2/sources/graphics/MeshUtility.cpp:49-61 | n parts of equal width take width*n entries |
| IndexPatterns.ConcatSnoc | HPL2/sources/graphics/MeshUtility.cpp:49-61 | writing one more part appends it |
| IndexPatterns.SideQuad | HPL2/sources/graphics/MeshUtility.cpp:49-76 | each side quad is six indices (two triangles) |
| IndexPatterns.QuadCount | HPL2/sources/graphics/MeshUtility.cpp:49-76 | the loop's sections-1 passes plus the closing quad give `sections` quads when sections >= 1 |
| IndexPatterns.SideQuads | HPL2/sources/graphics/MeshUtility.cpp:49-76 | `QuadCount(sections)` parts of six indices each |
| IndexPatterns.SidesShape | HPL2/sources/graphics/MeshUtility.cpp:42-81 | `WrapSides` emits 6 indices per section, each naming a vertex of the two rings [start, start + 2*sections) |
| IndexPatterns.UpperTri | HPL2/sources/graphics/MeshUtility.cpp:107-119 | each upper-cap triangle is three indices |
| IndexPatterns.LowerTri | HPL2/sources/graphics/MeshUtility.cpp:93-105 | each lower-cap triangle is three indices |
| IndexPatterns.UpperTris | HPL2/sources/graphics/MeshUtility.cpp:107-119 | `QuadCount(sections)` triangles of three indices |
| IndexPatterns.LowerTris | HPL2/sources/graphics/MeshUtility.cpp:93-105 | `QuadCount(sections)` triangles of three indices |
| IndexPatterns.CapsShape | HPL2/sources/graphics/MeshUtility.cpp:93-119 | each cap emits 3 indices per section; the lower cap is the upper cap with every triangle's winding reversed; the last upper triangle closes the fan back to the first ring vertex |
| IndexPatterns.Quad | HPL2/sources/scene/ParticleEmitter.cpp:122-129 | one quad is six indices |
| IndexPatterns.QuadParts | HPL2/sources/scene/ParticleEmitter.cpp:122-129 | n quads of six indices each |
| IndexPatterns.QuadIndicesSnoc | HPL2/sources/scene/ParticleEmitter.cpp:122-129 | n quads take 6n indices and one more quad appends its six |
| IndexPatterns.QuadsShape | HPL2/sources/scene/ParticleEmitter.cpp:122-129 | index 6i+j is corner j of quad i, quad i only names vertices 4i..4i+3, and every index is below 4n |
| MeshUtility.WriteNext | HPL2/sources/graphics/MeshUtility.cpp:55 | one `view->Write(viewIndex++, v)`: the run written so far gains v and no other slot changes |
| MeshUtility.WriteRun | HPL2/sources/graphics/MeshUtility.cpp:55-60 | consecutive writes leave exactly the values in their slots, nothing else changed |
| MeshUtility.ExtendRun | HPL2/sources/graphics/MeshUtility.cpp:55-60 | a run of writes after a run in place extends it |
| MeshUtility.AppendPart | HPL2/sources/graphics/MeshUtility.cpp:49-61 | writing part i after parts 0..i-1 leaves parts 0..i in place |
| MeshUtility.WrapSides | HPL2/sources/graphics/MeshUtility.cpp:42-81 | returns viewIndex + 6*sections and leaves the side-strip indices in those slots, nothing else changed |
| MeshUtility.WrapUpperCap | HPL2/sources/graphics/MeshUtility.cpp:107-119 | returns viewIndex + 3*sections and leaves the upper-cap fan in those slots |
| MeshUtility.WrapLowerCap | HPL2/sources/graphics/MeshUtility.cpp:93-105 | returns viewIndex + 3*sections and leaves the lower-cap fan in those slots |
| MeshUtility.ZeroCount | HPL2/sources/graphics/MeshUtility.cpp:391-398 | counts the zero components of p1 - p2, at most three |
| MeshUtility.CreatePlane | HPL2/sources/graphics/MeshUtility.cpp:371-468 | unless exactly one component of p1 - p2 is zero, returns {0, 0} and writes nothing; otherwise 4 vertices and the quad 0,1,2,2,3,0 from slot 0 |
| MeshUtility.SliceCount | HPL2/sources/graphics/MeshUtility.cpp:563-570 | a slice x = -1 or 1 holds one face direction and x = 0 holds four |
| MeshUtility.WriteFace | HPL2/sources/graphics/MeshUtility.cpp:614-620 | one face appends its quad over its four new vertices |
| MeshUtility.BoxRow | HPL2/sources/graphics/MeshUtility.cpp:565-621 | the z loop advances both counters by one quad per face direction met |
| MeshUtility.BoxSlice | HPL2/sources/graphics/MeshUtility.cpp:564-622 | the y loop does the same for a whole slice |
| MeshUtility.CreateBox | HPL2/sources/graphics/MeshUtility.cpp:513-629 | returns {24, 36}: six faces, and slots 0..35 hold the six quads' indices |
| MeshUtility.WriteQuadIndices | HPL2/sources/scene/ParticleEmitter.cpp:121-129 | quad i gets 4i,4i+1,4i+2,4i+2,4i+3,4i from slot 0 on, for every i < count |
| MeshUtility.WriteQuadAt | HPL2/sources/scene/ParticleEmitter.cpp:123-128 | one pass writes quad i's six indices right after the previous quads |
| MeshUtility.WriteFirstTriangle | HPL2/sources/scene/ParticleEmitter.cpp:123-125 | the first `j` loop appends corners 4i, 4i+1, 4i+2 after what is already written and touches no slot outside the three |
| MeshUtility.WriteSecondTriangle | HPL2/sources/scene/ParticleEmitter.cpp:126-128 | the second `j` loop appends 4i+2, 4i+3 and, for j == 4, 4i, completing quad i, and touches no slot outside the three |
| MeshCreator.AsIndices | HPL2/sources/graphics/MeshCreator.cpp:300-306 | an `int` run added with `AddIndex` is stored slot by slot as its `uint32` value |
| MeshCreator.AsIndicesAppend | HPL2/sources/graphics/MeshCreator.cpp:300-306 | adding two runs one after the other stores their concatenation |
| MeshCreator.AddRun | HPL2/sources/graphics/MeshCreator.cpp:300-306 | consecutive `AddIndex` calls append the run's values and change nothing but the index list |
| MeshCreator.AddPart | HPL2/sources/graphics/MeshCreator.cpp:296-322 | adding part i after parts 0..i-1 leaves parts 0..i appended |
| MeshCreator.WrapSides | HPL2/sources/graphics/MeshCreator.cpp:283-326 | appends exactly the side strip `SidesIndices` (6 per section, closing quad last) and nothing else |
| MeshCreator.WrapUpperCap | HPL2/sources/graphics/MeshCreator.cpp:328-340 | appends exactly the upper-cap fan |
| MeshCreator.WrapLowerCap | HPL2/sources/graphics/MeshCreator.cpp:342-355 | appends exactly the lower-cap fan, the upper fan with each triangle's winding reversed |
| MeshCreator.BoxCornerOrder | HPL2/sources/graphics/MeshCreator.cpp:259-265 | on every box face the corner order is a self-inverse permutation of 0..3, and the sky box's order (line 205) is the box's reversed |
| MeshCreator.GetBoxIdx | HPL2/sources/graphics/MeshCreator.cpp:259-265 | a corner number 0..3 maps to a corner number 0..3 |
| MeshCreator.Iota | HPL2/sources/graphics/MeshCreator.cpp:223 | 0, 1, ..., n-1 |
| MeshCreator.AddSkyBoxIndices | HPL2/sources/graphics/MeshCreator.cpp:223 | the sky box's index list is exactly 0..23 appended |
| MeshCreator.EdgeStep | HPL2/sources/graphics/MeshCreator.cpp:64-73 | writing edge i of triangle t keeps every edge written before it |
| MeshCreator.CreateWireframeVertexBuffer | HPL2/sources/graphics/MeshCreator.cpp:52-79 | the copy keeps the selected vertex arrays; the index list is resized to four times the source's; for triangle t, slots 6t+2i, 6t+2i+1 hold its edge from corner i to corner (i+1) mod 3; the second half stays zero |
| MeshCreator.WriteEdges | HPL2/sources/graphics/MeshCreator.cpp:62-75 | the loop writes every triangle's three edges and leaves the slots past 2n untouched |
| MeshCreator.SelectAll | HPL2/sources/graphics/MeshCreator.cpp:54 | copying with the source's own element flags keeps every array |
| MeshCreator.SelectSuperset | HPL2/sources/graphics/MeshCreator.cpp:54 | copying with any superset of the flags keeps every array |
| ParticleEmitter.Identities | HPL2/sources/scene/ParticleEmitter.cpp:81-84 | the pool as created: slot k holds particle k |
| ParticleEmitter.SwapRemoveKeepsPool | HPL2/sources/scene/ParticleEmitter.cpp:734-741 | removing particle i swaps it with the last live one: the pool keeps every particle (same multiset), the live prefix loses exactly particle i, and the dead tail is unchanged |
| ParticleEmitter.SwappedLive | HPL2/sources/scene/ParticleEmitter.cpp:735-739 | the swap branch: the new live prefix is the old one minus particle i |
| ParticleEmitter.ParticleEmitter.constructor | HPL2/sources/scene/ParticleEmitter.cpp:69-92 | a pool of maxParticles particles in order, none live, not dying, first copy active |
| ParticleEmitter.ParticleEmitter.WriteIndices | HPL2/sources/scene/ParticleEmitter.cpp:121-129 | the index set-up writes quad i = 4i,4i+1,4i+2,4i+2,4i+3,4i for every particle slot, from slot 0, and nothing else |
| ParticleEmitter.ParticleEmitter.CreateParticle | HPL2/sources/scene/ParticleEmitter.cpp:727-732 | a full pool gives no particle and nothing changes; otherwise the next pooled particle becomes live and the count grows by one |
| ParticleEmitter.ParticleEmitter.SwapRemove | HPL2/sources/scene/ParticleEmitter.cpp:734-741 | the pool becomes `SwapRemoved` of the old pool and the live count drops by one |
| ParticleEmitter.ParticleEmitter.KillInstantly | HPL2/sources/scene/ParticleEmitter.cpp:256-260 | capacity and live count drop to zero and the emitter is dying; the render count, the pool and the active copy are kept, so a packet resolved afterwards still draws the last frame's quads from vertex 0 |
| ParticleEmitter.ParticleEmitter.UpdateGraphicsForViewport | HPL2/sources/scene/ParticleEmitter.cpp:266-331 | with no capacity it returns true and changes nothing; otherwise the next copy becomes active and every live particle is drawn unless the alpha is not positive, in which case none is and it returns false |
| ParticleEmitter.ParticleEmitter.ResolveDrawPacket | HPL2/sources/scene/ParticleEmitter.cpp:599-614 | no packet iff nothing is to be drawn; otherwise 6 indices per drawn particle from index 0 over the active copy's 4*maxParticles vertices |
| ParticleEmitter.PacketInsideAllocation | HPL2/sources/scene/ParticleEmitter.cpp:92 | a drawn packet, including one resolved after `KillInstantly`, stays inside what the constructor allocated for the pool: at most 6 indices per pooled particle, every index naming one of the 4*render vertices of its block, and that block inside the 4*pool*copies vertices |
| RopeEntity.RopeEntity.constructor | HPL2/sources/scene/RopeEntity.cpp:43-63 | capacity and copy count as given, first copy active, no segment |
| RopeEntity.RopeEntity.WriteIndices | HPL2/sources/scene/RopeEntity.cpp:81-88 | segment i gets the quad 4i,4i+1,4i+2,4i+2,4i+3,4i for every segment slot, and nothing else is written |
| RopeEntity.RopeEntity.UpdateGraphicsForViewport | HPL2/sources/scene/RopeEntity.cpp:179-323 | the next copy becomes active; at most maxSegments particles are visited, the first opens the rope and each later one writes one segment; the segment count is min(particles, maxSegments) - 1 and never exceeds the block |
| RopeEntity.RopeEntity.ResolveDrawPacket | HPL2/sources/scene/RopeEntity.cpp:98-113 | no packet iff there is no segment; otherwise six indices per segment over the active block |
| RopeEntity.PacketInsideAllocation | HPL2/sources/scene/RopeEntity.cpp:63 | a drawn packet names only vertices of the segments written, and its block lies inside the 4*maxSegments*copies vertices allocated |
| Billboard.BillboardIndices | HPL2/sources/scene/BillBoard.cpp:69 | 6 indices, 12 for a fixed-axis billboard, as allocated |
| Billboard.BackFaceReversed | HPL2/sources/scene/BillBoard.cpp:112-127 | the front is the quad 0,1,2,2,3,0 and a fixed-axis back face is the front with each triangle's winding reversed; every index names one of the 4 vertices |
| Billboard.Flip | HPL2/sources/scene/BillBoard.cpp:121-126 | a triangle with its corners in reverse order |
| Billboard.FrameGap | HPL2/sources/scene/BillBoard.cpp:211 | the `uint32_t` frame difference wraps when the current index is behind the stamped one |
| Billboard.RefreshOnOtherFrame | HPL2/sources/scene/BillBoard.cpp:211-213 | with frame indices inside the swap chain, the refresh test passes exactly for a dirty billboard stamped by another frame |
| Billboard.NonFixedAxisDrawsNothing | HPL2/sources/scene/BillBoard.cpp:263 | as written, a billboard without a fixed axis asks to draw zero indices although six were written |
| Billboard.DrawnIndexCount | HPL2/sources/scene/BillBoard.cpp:69 | the corrected index count equals the indices written, and agrees with the code for a fixed axis |
| Billboard.DrawnIndexCountAsWritten | HPL2/sources/scene/BillBoard.cpp:263 | as written, the count asked for equals the indices written exactly for a fixed axis, and is 0 without one |
| Billboard.Billboard.constructor | HPL2/sources/scene/BillBoard.cpp:48-70 | white colour, not dirty, first copy active, frame 0, the given size and type |
| Billboard.Billboard.WriteIndices | HPL2/sources/scene/BillBoard.cpp:110-127 | writes exactly `BillboardIndices` from slot 0 |
| Billboard.Billboard.WriteFront | HPL2/sources/scene/BillBoard.cpp:112-119 | the front loops write 0,1,2 then 2,3,0 and return 6 |
| Billboard.Billboard.WriteBack | HPL2/sources/scene/BillBoard.cpp:120-127 | the back loops append 2,1,0 then 0,3,2 and return 12 |
| Billboard.Billboard.SetColor | HPL2/sources/scene/BillBoard.cpp:322-327 | the colour becomes c and the buffer is dirty iff it was or the colour changed; nothing else changes |
| Billboard.Billboard.SetHaloAlpha | HPL2/sources/scene/BillBoard.cpp:344-353 | the halo alpha becomes the argument, dirty iff it was or the value changed |
| Billboard.Billboard.SetSize | HPL2/sources/scene/BillBoard.cpp:269-273 | the size changes and the buffer is always dirty |
| Billboard.Billboard.ResolveDrawPacket | HPL2/sources/scene/BillBoard.cpp:210-266 | a dirty billboard whose stamp is at least one frame old flips copies, takes the frame's stamp and is clean again; otherwise nothing changes; the packet draws all written indices over the active copy, by the corrected count `DrawnIndexCount` rather than the count at line 263 |
| SubMesh.ResizedWith | HPL2/sources/graphics/SubMesh.cpp:115-117 | `std::vector::resize`: n entries, the old ones kept and the new ones the fill value |
| SubMesh.SpliceSlice | HPL2/sources/graphics/SubMesh.cpp:336-352 | writing vertex v's four slots changes no other vertex's slots |
| SubMesh.UpdateIsSplice | HPL2/sources/graphics/SubMesh.cpp:350-351 | one slot write is a write of its vertex's four slots |
| SubMesh.FreeSlot | HPL2/sources/graphics/SubMesh.cpp:338-345 | the first slot whose weight is 0: every earlier one is non-zero; none when all four are non-zero |
| SubMesh.PackFirstFour | HPL2/sources/graphics/SubMesh.cpp:333-352 | packing positively weighted pairs into zeroed slots leaves every vertex with its first four pairs in list order, later ones dropped |
| SubMesh.PlaceNext | HPL2/sources/graphics/SubMesh.cpp:336-352 | one more pair keeps that property |
| SubMesh.FreeSlotAfter | HPL2/sources/graphics/SubMesh.cpp:338-351 | a vertex holding k < 4 pairs has slot k free and the next pair goes there; with four it has none and the pair is dropped |
| SubMesh.PairsForPositive | HPL2/sources/graphics/SubMesh.cpp:336-352 | a vertex's pairs all name it and carry positive weights |
| SubMesh.FindFreeSlot | HPL2/sources/graphics/SubMesh.cpp:338-345 | the inner loop finds exactly `FreeSlot` of the vertex's four weights |
| SubMesh.PackBonePairs | HPL2/sources/graphics/SubMesh.cpp:336-352 | the packing loop ends with the slots `PlaceAll` describes |
| SubMesh.PrefixCount | HPL2/sources/graphics/SubMesh.cpp:362-368 | the count of leading non-zero weights: those before it are non-zero and the one at it is zero |
| SubMesh.NormalizedBeyond | HPL2/sources/graphics/SubMesh.cpp:359-382 | vertices past the loop's range keep their weights |
| SubMesh.NormalizedSlice | HPL2/sources/graphics/SubMesh.cpp:359-382 | every vertex in range has its leading weights normalised |
| SubMesh.PositiveTotal | HPL2/sources/graphics/SubMesh.cpp:362-368 | the sum of non-negative leading weights is positive when there is one |
| SubMesh.TotalScaled | HPL2/sources/graphics/SubMesh.cpp:379-381 | dividing each weight by t divides their sum by t |
| SubMesh.CountScaled | HPL2/sources/graphics/SubMesh.cpp:379-381 | dividing leading weights by a non-zero total keeps how many are non-zero |
| SubMesh.SlotsSumToOne | HPL2/sources/graphics/SubMesh.cpp:359-382 | a vertex with a bone keeps its bone count and its weights sum to 1 |
| SubMesh.NormalizedSumsToOne | HPL2/sources/graphics/SubMesh.cpp:359-382 | after the loop every vertex in range with a bone has weights summing to 1; vertices without a bone or past the range are unchanged |
| SubMesh.NormalizeVertex | HPL2/sources/graphics/SubMesh.cpp:360-381 | one pass divides the vertex's leading weights by their sum and leaves the rest |
| SubMesh.PositiveCount | HPL2/sources/graphics/SubMesh.cpp:370-381 | a vertex with a bone and a non-zero total is normalised by division |
| SubMesh.SpliceStep | HPL2/sources/graphics/SubMesh.cpp:379-381 | one division step of the inner loop |
| SubMesh.SpliceSame | HPL2/sources/graphics/SubMesh.cpp:379-381 | writing a vertex's own slots back changes nothing |
| SubMesh.SpliceTwice | HPL2/sources/graphics/SubMesh.cpp:379-381 | a second write of the same vertex's slots overrides the first |
| SubMesh.NormalizeWeights | HPL2/sources/graphics/SubMesh.cpp:359-382 | the normalisation loop ends with `Normalized` of its input |
| SubMesh.ShapeFromCollider | HPL2/sources/graphics/SubMesh.cpp:246-266 | a primitive of the collider's kind for box, sphere, cylinder and capsule, null otherwise |
| SubMesh.CreateCollideShape | HPL2/sources/graphics/SubMesh.cpp:268-284 | null without a collider, the collider's own shape for one, a compound of every collider's shape in order for more |
| SubMesh.SubMesh.constructor | HPL2/sources/graphics/SubMesh.cpp:85-88 | no bone pair, no collider, empty slot vectors, not one-sided |
| SubMesh.SubMesh.AddVertexBonePair | HPL2/sources/graphics/SubMesh.cpp:127-129 | appends the pair, nothing else changes |
| SubMesh.SubMesh.ResizeVertexBonePairs | HPL2/sources/graphics/SubMesh.cpp:115-117 | keeps the first `size` pairs and pads with value-initialised pairs |
| SubMesh.SubMesh.ClearVertexBonePairs | HPL2/sources/graphics/SubMesh.cpp:131-133 | empties the pair list only |
| SubMesh.SubMesh.AddCollider | HPL2/sources/graphics/SubMesh.cpp:139-141 | appends the collider only |
| SubMesh.SubMesh.Compile | HPL2/sources/graphics/SubMesh.cpp:288-385 | marks one-sided (never unmarks) a buffer of at most 1200 indices whose faces align; with bone pairs, resizes to four slots per vertex, packs every pair and normalises, all slots staying non-negative |
| SubMesh.PlaceAllNonNegative | HPL2/sources/graphics/SubMesh.cpp:336-352 | packing positive weights keeps every slot non-negative |
| Material.SetTypeVars | HPL2/core/sources/graphics/Material.cpp:127-142 | the corrected type change: the same type keeps the variables; another type gets fresh variables of its own, no type gets none; sound variables never go stale |
| Material.SetTypeVarsAsWritten | HPL2/core/sources/graphics/Material.cpp:127-142 | as written, the type change agrees with the corrected one except on a change to no type, where the variables are deleted but stay set (dangling) exactly when there were any; a later change to another type deletes them again (`SetTypeNullDoubleDeletes`) |
| Material.SetTypeNullDoubleDeletes | HPL2/core/sources/graphics/Material.cpp:118-142 | as written, switching from a type to none leaves the deleted variables in `mpVars`, and both the destructor and a later change to another type delete them again; the corrected change does neither |
| Material.SetTypeNeverDangles | HPL2/core/sources/graphics/Material.cpp:127-142 | with `mpVars` cleared, no sequence of type changes from sound variables leaves stale variables behind |
| Material.AxisComponent | HPL2/core/sources/graphics/Material.cpp:271-281 | X, Y and Z pick coordinate 0, 1 and 2 of the axis vector; any other axis gives the zero vector |
| Material.UvFactorOf | HPL2/core/sources/graphics/Material.cpp:339-373 | an animation of a known kind gives exactly one factor along its own axis, an unknown kind none; at clock 0 the factor is the identity |
| Material.UvFactors | HPL2/core/sources/graphics/Material.cpp:339-373 | the factors of the rebuilt UV matrix are at most one per animation, and exactly one per animation when no kind is unknown |
| Material.UvFactorsAtClockZero | HPL2/core/sources/graphics/Material.cpp:96-97 | at clock 0 every factor of the rebuilt matrix is the identity, so the first update after construction leaves the UV matrix the identity |
| Material.MaterialIdPool.constructor | HPL2/core/sources/graphics/Material.cpp:45-46 | no ID handed out and an empty free list |
| Material.MaterialIdPool.Acquire | HPL2/core/sources/graphics/Material.cpp:54-60 | the most recently freed ID is reused when there is one, otherwise the counter's next ID, which stays below `MaxMaterialID`; the ID was not held by a live material |
| Material.MaterialIdPool.Release | HPL2/core/sources/graphics/Material.cpp:120 | the ID goes back on top of the free list and is no longer live |
| Material.LiveIdsBelowLimit | HPL2/core/sources/graphics/Material.cpp:59 | every live ID fits the renderers' per-material arrays of `MaxMaterialID` entries |
| Material.Material.constructor | HPL2/core/sources/graphics/Material.cpp:51-112 | an ID from the pool, the type and its variables, additive blending for a translucent type and none otherwise, solid alpha, depth test on, no UV animation, identity UV matrix, clock 0, no textures, version 0 |
| Material.Material.Destroy | HPL2/core/sources/graphics/Material.cpp:118-125 | the ID returns to the pool's free list, the ID becomes 0 and the variables are deleted; nothing else changes |
| Material.Material.SetType | HPL2/core/sources/graphics/Material.cpp:127-142 | the same type changes nothing at all; another replaces type and variables as the corrected `SetTypeVars` says, which also clears the variables on a change to no type; every other field keeps its value |
| Material.Material.SetImage | HPL2/core/sources/graphics/Material.cpp:191-203 | the version rises by one and the slot holds the texture, or is emptied for null; every other field keeps its value |
| Material.Material.SetBlendMode | HPL2/core/sources/graphics/Material.cpp:223-228 | for a translucent type only the blend mode changes; for any other type nothing changes at all |
| Material.Material.SetAlphaMode | HPL2/core/sources/graphics/Material.cpp:230-235 | always applied, and only the alpha mode changes |
| Material.Material.SetDepthTest | HPL2/core/sources/graphics/Material.cpp:237-244 | for a translucent type only the depth test changes; for any other type nothing changes at all |
| Material.Material.AddUvAnimation | HPL2/core/sources/graphics/Material.cpp:253-258 | appends the animation and the material animates; the UV matrix, clock and every other field keep their values |
| Material.Material.ClearUvAnimations | HPL2/core/sources/graphics/Material.cpp:262-269 | no animation, not animating, identity UV matrix; every other field, the clock included, keeps its value |
| Material.Material.UpdateBeforeRendering | HPL2/core/sources/graphics/Material.cpp:246-249 | an animating material gets the UV matrix `UvFactors` of its animations at the old clock, a version one higher and the clock advanced by the step; any other material is left exactly as it was |
| Material.Material.UpdateAnimations | HPL2/core/sources/graphics/Material.cpp:339-384 | the loop rebuilds the UV matrix from the identity as `UvFactors` of the animations at the old clock, then the version rises by one and the clock advances by the step; nothing else changes |
| Material.BuildUvMatrix | HPL2/core/sources/graphics/Material.cpp:340-373 | the loop over the animations ends with exactly the factors `UvFactors` gives at that clock, in order |
| MaterialManager.LowerChar | HPL2/sources/resources/MaterialManager.cpp:534 | ASCII capitals move to lower case, every other character is kept, and the result has no capital |
| MaterialManager.Lower | HPL2/sources/resources/MaterialManager.cpp:534 | lower-cases every character and keeps the length |
| MaterialManager.LowerIdempotent | HPL2/sources/resources/MaterialManager.cpp:534 | lower-casing twice is lower-casing once |
| MaterialManager.EqualsLowerName | HPL2/sources/resources/MaterialManager.cpp:442 | a case-insensitive comparison with a lower-case name holds exactly when the string lower-cases to it |
| MaterialManager.GetType | HPL2/sources/resources/MaterialManager.cpp:441-452 | "cube", "1d" and "3d" in any case give their types; everything else, "2d" included, gives 2D |
| MaterialManager.GetTypeOfName | HPL2/sources/resources/MaterialManager.cpp:441-452 | every texture type's name, in any case, parses back to it |
| MaterialManager.GetWrap | HPL2/sources/resources/MaterialManager.cpp:482-491 | "clamp" and "clamptoedge" in any case give their modes; everything else gives Repeat |
| MaterialManager.GetWrapOfName | HPL2/sources/resources/MaterialManager.cpp:482-491 | every wrap mode's name parses back to it |
| MaterialManager.GetAnimMode | HPL2/sources/resources/MaterialManager.cpp:493-502 | "loop" and "oscillate" give their modes; everything else gives None |
| MaterialManager.GetAnimModeOfName | HPL2/sources/resources/MaterialManager.cpp:493-502 | every animation mode's name parses back to it |
| MaterialManager.GetBlendMode | HPL2/sources/resources/MaterialManager.cpp:506-525 | the five names in any case give their modes; an unknown name gives Add; None is never produced |
| MaterialManager.GetBlendModeOfName | HPL2/sources/resources/MaterialManager.cpp:506-525 | every named blend mode's name, in any case, parses back to it and is known |
| MaterialManager.GetUvAnimType | HPL2/sources/resources/MaterialManager.cpp:528-548 | a missing attribute or an unknown name gives LastEnum; otherwise the type whose name the string lower-cases to |
| MaterialManager.GetUvAnimTypeOfName | HPL2/sources/resources/MaterialManager.cpp:528-548 | every UV animation type's name parses back to it |
| MaterialManager.GetAnimAxis | HPL2/sources/resources/MaterialManager.cpp:550-568 | a missing or unknown axis gives LastEnum; x, y, z in any case give their axes |
| MaterialManager.GetAnimAxisOfName | HPL2/sources/resources/MaterialManager.cpp:550-568 | every axis's name parses back to it |
| MaterialManager.ParsersIgnoreCase | HPL2/sources/resources/MaterialManager.cpp:441-568 | every parser gives the same answer for a name and its lower-cased spelling |
| MaterialManager.GetTextureString | HPL2/sources/resources/MaterialManager.cpp:454-478 | the empty name exactly for no slot |
| MaterialManager.TextureStringsDistinct | HPL2/sources/resources/MaterialManager.cpp:454-478 | no two texture slots share a name, even ignoring case |
| MaterialManager.LiteralsLower | HPL2/sources/resources/MaterialManager.cpp:441-525 | the names the parsers compare against are already lower case |
| ForgeHandles.RefCounter.constructor | HPL2/core/include/graphics/ForgeHandles.h:24-31 | a new counter counts no reference |
| ForgeHandles.RefHandle.constructor | HPL2/core/include/graphics/ForgeHandles.h:34-36 | a null, uninitialised handle without a counter |
| ForgeHandles.RefHandle.SetResource | HPL2/core/sources/graphics/ForgeHandles.cpp:124-127 | resource creation stores the new resource in the handle and touches nothing else |
| ForgeHandles.RefHandle.Initialize | HPL2/core/include/graphics/ForgeHandles.h:63-72 | a non-null, uninitialised handle gets a fresh counter holding one reference (itself); any other handle is unchanged |
| ForgeHandles.RefHandle.TryFree | HPL2/core/include/graphics/ForgeHandles.h:74-87 | a null handle does nothing; otherwise one reference is dropped, the resource is freed exactly when it was the last, the counter still counts its holders, and the handle becomes null and uninitialised |
| ForgeHandles.RefHandle.Copy | HPL2/core/include/graphics/ForgeHandles.h:37-45 | shares handle, counter and flag; an initialised copy adds one reference and is counted |
| ForgeHandles.RefHandle.Move | HPL2/core/include/graphics/ForgeHandles.h:51-58 | takes handle, counter and flag with the count unchanged; the source becomes null and uninitialised |
| ForgeHandles.RefHandle.AssignCopyAsWritten | HPL2/core/include/graphics/ForgeHandles.h:89-97 | takes the other's handle and counter and adds a reference; the counter held before loses this handle from its holders but keeps its count, so it counts a reference nothing holds |
| ForgeHandles.RefHandle.AssignCopy | HPL2/core/include/graphics/ForgeHandles.h:89-97 | the corrected copy assignment: self-assignment changes nothing; otherwise the old reference is released (freeing the resource when it was the last) and the other's is shared and counted |
| ForgeHandles.RefHandle.AssignMoveAsWritten | HPL2/core/include/graphics/ForgeHandles.h:99-106 | releases the current reference and takes the other's; the other is nulled but keeps its initialised flag; moved into itself, a handle releases its reference and ends null, uninitialised if it held one |
| ForgeHandles.RefHandle.AssignMove | HPL2/core/include/graphics/ForgeHandles.h:99-106 | the corrected move assignment also leaves the source uninitialised, as the move constructor does; moved into itself, a handle releases its reference and ends null and uninitialised |
| ForgeHandles.NewInitialized | HPL2/core/include/graphics/ForgeHandles.h:63-72 | a new resource's handle, initialised, owns a counter with exactly one reference |
| ForgeHandles.CopyAssignLeaks | HPL2/core/include/graphics/ForgeHandles.h:89-97 | two handles to two resources: after copy assignment as written and dropping both, the second resource is freed and the first one's counter stays at 1 with nothing holding it |
| ForgeHandles.CopyAssignFreesBoth | HPL2/core/include/graphics/ForgeHandles.h:89-97 | the same sequence with the corrected assignment frees both resources |
| ForgeHandles.DropSharing | HPL2/core/include/graphics/ForgeHandles.h:74-87 | dropping two handles that share one counter holding two references frees the resource once, on the second drop, and leaves both handles without a counter |
| ForgeHandles.MovedFromCopyFails | HPL2/core/include/graphics/ForgeHandles.h:37-45 | after move assignment as written, the source claims to be initialised without a counter, so copying it fails the copy constructor's assertion; after the corrected move it can be copied |
| ForgeTexture.FromHPLPixelFormatAsWritten | HPL2/core/sources/graphics/ForgeHandles.cpp:32-99 | as written, DXT2 is described as BC2, DXT3 as BC3, DXT4 as BC4 and DXT5 as BC5; every format other than DXT2 to DXT5 maps as in the corrected mapping |
| ForgeTexture.FromHPLPixelFormat | HPL2/core/sources/graphics/ForgeHandles.cpp:32-99 | the corrected mapping: undefined exactly for RGB32 and unknown formats; DXT2/3 to BC2 and DXT4/5 to BC3 |
| ForgeTexture.ForgeAgreesWithBgfx | HPL2/core/sources/graphics/ForgeHandles.cpp:32-99 | wherever the older bgfx mapping supports a format, 16-bit formats aside, the corrected mapping stores it the same way; of the formats bgfx rejects only RGB32 stays unsupported |
| ForgeTexture.DxtMappedToWrongBlocks | HPL2/core/sources/graphics/ForgeHandles.cpp:51-56 | as written, DXT3, DXT4 and DXT5 textures get a block encoding other than the one their data is in, while DXT2 gets the right one; the corrected mapping agrees for all four |
| ForgeTexture.LoadDescAsWritten | HPL2/core/sources/graphics/ForgeHandles.cpp:102-122 | as written, the description's format is never set and stays undefined; every other field is as `LoadDesc` says |
| ForgeTexture.LoadDesc | HPL2/core/sources/graphics/ForgeHandles.cpp:102-122 | the bitmap's size; its mip count only with mipmaps; all its images for an array, six for a plain cube map, else one layer; the cube bit exactly for a cube map, whose layers are a multiple of six |
| ForgeTexture.LoadedFormatLost | HPL2/core/sources/graphics/ForgeHandles.cpp:102-122 | as written, every loaded texture of a supported format is described without its format |
| ForgeTexture.CubemapDesc | HPL2/core/sources/graphics/ForgeHandles.cpp:150-161 | the corrected cube-map description: the first bitmap's size, its format through the corrected DXT mapping, and (with mipmaps) its mip count; six layers; a cube |
| ForgeTexture.CubemapDescAsWritten | HPL2/core/sources/graphics/ForgeHandles.cpp:150-161 | as written, the same description but with the format from the as-written mapping of lines 51-56; it differs from `CubemapDesc` at most in the format, and only for DXT2 to DXT5 |
| ForgeTexture.CubemapDxtFormatWrong | HPL2/core/sources/graphics/ForgeHandles.cpp:158 | as written, a cube map whose first bitmap is DXT3, DXT4 or DXT5 is described in a block encoding its data is not in; the corrected description keeps the encoding |
| ForgeTexture.CubemapBitmapsOkAsWritten | HPL2/core/sources/graphics/ForgeHandles.cpp:168-172 | as written, with mipmaps the checks accept exactly six bitmaps of the first one's size, whatever their mip counts; without mipmaps they also demand one mip level each |
| ForgeTexture.CubemapBitmapsOk | HPL2/core/sources/graphics/ForgeHandles.cpp:168-172 | the corrected checks accept only six bitmaps of the first one's size; without mipmaps that is all they ask; with mipmaps every face has at least the levels the description asks for |
| ForgeTexture.CubemapMipCheckInverted | HPL2/core/sources/graphics/ForgeHandles.cpp:169 | as written, with mipmaps on, a face with fewer levels than the first passes the checks and the upload reads levels it lacks; the corrected check refuses it |
| ForgeTexture.CubemapMipCheckSound | HPL2/core/sources/graphics/ForgeHandles.cpp:168-172 | whatever the corrected checks accept has every mip level the upload reads |
| ForgeTexture.CubemapUploadsAsWritten | HPL2/core/sources/graphics/ForgeHandles.cpp:168-189 | as written, every face and level ends with image `layer` of the last bitmap, as each bitmap's pass overwrites all six faces |
| ForgeTexture.UploadBitmap | HPL2/core/sources/graphics/ForgeHandles.cpp:173-188 | one bitmap's pass writes every (layer, mip) below the bounds with its image, and keeps other layers |
| ForgeTexture.UploadLayer | HPL2/core/sources/graphics/ForgeHandles.cpp:174-187 | one layer's `mipLevel` loop writes every mip of that layer with the given bitmap and image, and keeps every other layer's entries |
| ForgeTexture.CubemapUploads | HPL2/core/sources/graphics/ForgeHandles.cpp:168-189 | the intended uploads: face k takes bitmap k's image at every level |
| ForgeTexture.ShiftLayer | HPL2/core/sources/graphics/ForgeHandles.cpp:173-188 | places one bitmap's single layer at face b and keeps the other faces |
| ForgeTexture.LoadFromHPLBitmap | HPL2/core/sources/graphics/ForgeHandles.cpp:102-148 | returns an initialised handle owning one reference, described by the corrected `LoadDesc`, which carries the bitmap's format |
| ForgeTexture.CreateCubemapFromHPLBitmapsAsWritten | HPL2/core/sources/graphics/ForgeHandles.cpp:150-193 | as written, the returned handle points at the resource without being initialised, so releasing it fails `TryFree`'s counter assertion; the texture is described by `CubemapDescAsWritten` |
| ForgeTexture.CreateCubemapFromHPLBitmaps | HPL2/core/sources/graphics/ForgeHandles.cpp:150-193 | the corrected loader returns an initialised handle owning one reference, described by `CubemapDesc` |
| Image.FromHPLTextureFormat | HPL2/core/sources/graphics/Image.cpp:177-235 | unknown exactly for BGR, RGB16, RGB32 and unknown formats; DXT2/3 to BC2, DXT4/5 to BC3 |
| Image.FromHPLTextureFormatAliases | HPL2/core/sources/graphics/Image.cpp:177-235 | two supported formats share a texture format only as the two variants of one DXT encoding, or as alpha and luminance of one width |
| Image.DefaultDescriptor | HPL2/core/sources/graphics/Image.cpp:19-26 | size 0, one layer, no mips, unknown format, no depth or name set |
| Image.CopyDescriptorAsWritten | HPL2/core/sources/graphics/Image.cpp:11-18 | as written, the copy keeps size, layers, mips and format but drops depth and name |
| Image.CopyDescriptor | HPL2/core/sources/graphics/Image.cpp:11-18 | the corrected copy keeps every field |
| Image.CopyLosesDepth | HPL2/core/sources/graphics/Image.cpp:11-18 | copying a descriptor with a depth or a name as written changes it; the corrected copy does not |
| Image.CreateFromBitmap | HPL2/core/sources/graphics/Image.cpp:28-37 | a single-image bitmap's size, depth and mapped format; mips exactly when it has more than one level |
| Image.AsUint16 | HPL2/core/sources/graphics/Image.cpp:39 | the `uint16_t` parameters truncate wider values |
| Image.CreateTexture2D | HPL2/core/sources/graphics/Image.cpp:39-46 | the given size (as `uint16_t`), mips, format and name; one layer |
| Image.CreateTexture3D | HPL2/core/sources/graphics/Image.cpp:48-68 | as 2D plus the depth |
| Renderer.GetShadowMapResolution | HPL2/sources/graphics/Renderer.cpp:185-196 | the wanted resolution capped at the maximum: the lower of the two |
| Renderer.RankInjective | HPL2/sources/graphics/Renderer.cpp:185-196 | distinct resolutions have distinct ranks, so the capped result is determined by its rank |
| Renderer.NodeOrderIsStrictWeak | HPL2/sources/graphics/Renderer.cpp:278-286 | the container-node order (inside the view first, then farther first) is irreflexive and transitive and its ties are exactly equal keys, as `std::sort` requires |
| Renderer.NodeBefore | HPL2/sources/graphics/Renderer.cpp:278-286 | a node inside the view comes before one outside; one outside never comes before one inside; of two on the same side, the one first is the farther |
| Renderer.IsObjectVisible | HPL2/sources/graphics/Renderer.cpp:211-231 | visible exactly when the object is visible, has every needed render flag and is outside none of the occlusion planes |
| Renderer.HasFlagsBits | HPL2/sources/graphics/Renderer.cpp:218 | having the needed flags means every bit of `needed` is set in the object's flags |
| Renderer.ClampClipRect | HPL2/sources/graphics/Renderer.cpp:88-96 | the padded rectangle's corner moved onto the screen, cut at the right and bottom edges, never narrower than the padding and the screen allow |
| RendererCore.EmptyCache | HPL2/core/include/graphics/Renderer.h:212 | a new cache names no light and has transform count -1, so no light with a real transform count matches it |
| RendererCore.SetFromLight | HPL2/core/sources/graphics/Renderer.cpp:387-399 | afterwards the cache matches the light; for a non-spot light the aspect and field of view are kept |
| RendererCore.BestShadowMapUnique | HPL2/core/sources/graphics/Renderer.cpp:658-703 | at most one map is the one `GetShadowMapData` settles on |
| RendererCore.BestShadowMapExists | HPL2/core/sources/graphics/Renderer.cpp:658-703 | a non-empty set of maps always has one: the first one caching the light, else the first with the largest frame gap |
| RendererCore.ShadowMaps.constructor | HPL2/core/include/graphics/Renderer.h:225-231 | `count` shadow maps, each with frame count 0 and an empty light cache |
| RendererCore.ShadowMaps.GetShadowMapData | HPL2/core/sources/graphics/Renderer.cpp:658-703 | a single map is returned without stamping; no map gives none; otherwise the best map is returned and stamped with the render frame, nothing else changes |
| RendererCore.ShadowMaps.ShadowMapNeedsUpdate | HPL2/core/sources/graphics/Renderer.cpp:705-742 | always for a light that occlusion-culls its casters, cache untouched; otherwise exactly when the cache no longer matches the light or its casters changed, and then the cache is refreshed from the light |
| RendererCore.RefreshSettles | HPL2/core/sources/graphics/Renderer.cpp:387-399 | a refreshed cache matches the light, and refreshing it again changes nothing |
| RendererCore.FindOcclusionObject | HPL2/core/sources/graphics/Renderer.cpp:302-327 | the found pool index is inside the pool |
| RendererCore.FindOcclusionObjectSpec | HPL2/core/sources/graphics/Renderer.cpp:302-327 | nothing is found iff no entry for the source carries the custom index; what is found is such an entry's object |
| RendererCore.RenderSettings.constructor | HPL2/core/sources/graphics/Renderer.cpp:133-143 | an empty pool, cursor 0, no entries |
| RendererCore.RenderSettings.AssignOcclusionObject | HPL2/core/sources/graphics/Renderer.cpp:277-296 | the pool grows only when every object is in use; the next object takes the custom index and a new query, is recorded under the source, and the cursor advances; the other objects are unchanged |
| RendererCore.RenderSettings.RetrieveOcclusionObjectSamples | HPL2/core/sources/graphics/Renderer.cpp:300-342 | finds the object for (source, custom index); a live query that reports visible stores its sample count and is destroyed; nothing else changes; 0 is returned on every path |
| RendererDeferred.ResolveMaterialID | HPL2/sources/graphics/RendererDeferred.cpp:131-134 | the sampler slot is a `uint32_t` |
| RendererDeferred.SettingsOfMaterialID | HPL2/sources/graphics/RendererDeferred.cpp:131-134 | decoding a slot gives a wrap and a filter inside their enumerations |
| RendererDeferred.ResolveMaterialIDRoundTrip | HPL2/sources/graphics/RendererDeferred.cpp:131-134 | with every setting inside its enumeration and all slots fitting in 32 bits, the slot is below anisotropies x filters x wraps and decodes back to the same anisotropy, wrap and filter |
| RendererDeferred.ResolveMaterialIDInjective | HPL2/sources/graphics/RendererDeferred.cpp:131-134 | two different settings never share a sampler slot |
| RendererDeferred.SortKey | HPL2/sources/graphics/RendererDeferred.cpp:334-389 | a light's sort key starts with its type's order and whether it has specular |
| RendererDeferred.LexLessIrreflexive | HPL2/sources/graphics/RendererDeferred.cpp:334-389 | no key sorts before itself |
| RendererDeferred.LexLessTransitive | HPL2/sources/graphics/RendererDeferred.cpp:334-389 | key order is transitive |
| RendererDeferred.LexLessTotal | HPL2/sources/graphics/RendererDeferred.cpp:334-389 | two different keys of one length are ordered one way or the other |
| RendererDeferred.SortIsKeyOrder | HPL2/sources/graphics/RendererDeferred.cpp:334-389 | `SortDeferredLightDefault` is exactly the lexicographic order of the sort keys: type, specular, then inside-near-plane for points, else gobo, falloff map, spot falloff or box priority, address |
| RendererDeferred.SortDeferredLightDefault | HPL2/sources/graphics/RendererDeferred.cpp:334-389 | lights of different types are ordered by type alone, and no light sorts before itself |
| RendererDeferred.PointKeyOrder | HPL2/sources/graphics/RendererDeferred.cpp:354-356 | two point lights of one specular class order by inside-near-plane alone: outside first |
| RendererDeferred.OtherKeyOrder | HPL2/sources/graphics/RendererDeferred.cpp:356-389 | two lights of a type other than point, spot and box order by gobo, then falloff map, then address |
| RendererDeferred.TailKeyOrder | HPL2/sources/graphics/RendererDeferred.cpp:356-389 | two spot or two box lights order by gobo, falloff map, then the spot falloff map or box priority, then address |
| RendererDeferred.SortTiesAreEqualKeys | HPL2/sources/graphics/RendererDeferred.cpp:334-389 | two lights tie in `SortDeferredLightDefault` exactly when their keys are equal |
| RendererDeferred.SortIsStrictWeakOrder | HPL2/sources/graphics/RendererDeferred.cpp:334-389 | the comparator handed to `std::sort` is irreflexive, transitive and its ties are transitive |
| RendererDeferred.OnlyPointLightsTie | HPL2/sources/graphics/RendererDeferred.cpp:354-389 | only point lights can tie; any other light ties only with itself |
| RendererDeferred.ObjectSlots.constructor | HPL2/sources/graphics/RendererDeferred.cpp:2394-2398 | no slots handed out, counter 0 |
| RendererDeferred.ObjectSlots.BeginFrame | HPL2/sources/graphics/RendererDeferred.cpp:2394-2398 | a new frame clears the lookup and restarts the counter at 0; the same frame keeps both; slots stay distinct and below the counter |
| RendererDeferred.ObjectSlots.SlotOf | HPL2/sources/graphics/RendererDeferred.cpp:2297-2372 | an object seen this frame gets its old slot and nothing changes; a new object gets the counter's value, which advances; no two objects ever share a slot |
| RendererDeferred.ShadowTier | HPL2/sources/graphics/RendererDeferred.cpp:3201-3244 | inside the near plane the capped resolution; beyond the no-shadow distance no shadow; beyond the low distance the low resolution, and no shadow if it already was low; beyond the medium distance one step down; the result is never above the capped resolution |
| RendererDeferred.ShadowTierMonotone | HPL2/sources/graphics/RendererDeferred.cpp:3201-3244 | a farther light never gets a shadow a nearer one does not, nor a finer resolution |
| RendererDeferred.FrameDistance | HPL2/sources/graphics/RendererDeferred.cpp:3264 | the `uint32_t` frame distance, the plain difference when no wrap-around happens |
| RendererDeferred.BestMapUnique | HPL2/sources/graphics/RendererDeferred.cpp:3253-3271 | at most one map is the one `findBestShadowMap` settles on |
| RendererDeferred.Redrawn | HPL2/sources/graphics/RendererDeferred.cpp:3290-3294 | a redrawn map names the light and keeps its frame count |
| RendererDeferred.StaleShadowOfAnotherLight | HPL2/sources/graphics/RendererDeferred.cpp:3277-3289 | a map last rendered for light 1 is reused for light 2 without a redraw when their transform counts, aspects and fields of view agree |
| RendererDeferred.RedrawKeepsOwner | HPL2/sources/graphics/RendererDeferred.cpp:3277-3294 | with the owner checked, a map kept without a redraw was rendered for this light at its current transform count, and a just-redrawn map is kept when nothing changed |
| RendererDeferred.ShadowMapPool.FindBestShadowMap | HPL2/sources/graphics/RendererDeferred.cpp:3253-3271 | returns the first map holding the light, else the first with the largest frame distance, and stamps only it with the current frame |
| RendererDeferred.ShadowMapPool.UpdateShadowMap | HPL2/sources/graphics/RendererDeferred.cpp:3277-3294 | redraws exactly when the corrected test says so, and then refreshes only that map from the light; afterwards the map names the light |
| RendererDeferred.NeedsRedrawAsWritten | HPL2/sources/graphics/RendererDeferred.cpp:3277-3289 | as written, no redraw happens only when the map's transform count is the light's, the light does not cull its casters by occlusion, and the casters are unchanged |
| RendererDeferred.NeedsRedraw | HPL2/sources/graphics/RendererDeferred.cpp:3277-3289 | the corrected test redraws whenever the as-written one does, agrees with it when the map already holds the light's shadow, and keeps a map only when it holds that light's shadow |
| RendererDeferred2.RangeSubset.Size | HPL2/include/graphics/RendererDeferred2.h:70-75 | the `uint32_t` size of the range, its length when it does not wrap |
| RendererDeferred2.SizeCountsIncrements | HPL2/include/graphics/RendererDeferred2.h:70-90 | a range ending k increments after its start has size k, across wrap-around too |
| RendererDeferred2.IndexCounter.constructor | HPL2/include/graphics/RendererDeferred2.h:77 | a counter holding the given value |
| RendererDeferred2.RangeSubsetAlloc.constructor | HPL2/include/graphics/RendererDeferred2.h:79-82 | the run starts at the counter's current value, nothing issued |
| RendererDeferred2.RangeSubsetAlloc.Increment | HPL2/include/graphics/RendererDeferred2.h:83-85 | returns the counter's old value and advances it, wrapping at 2^32 |
| RendererDeferred2.RangeSubsetAlloc.End | HPL2/include/graphics/RendererDeferred2.h:86-90 | returns the range from the run's start to the counter, whose size counts the slots issued and whose k-th slot is the k-th issued; the next run starts at the counter |
| RendererDeferred2.GetPipelineByBlendMode | HPL2/include/graphics/RendererDeferred2.h:283-300 | the additive pipeline exactly for no blend, additive and an unknown mode |
| RendererDeferred2.PipelineMatchesMode | HPL2/include/graphics/RendererDeferred2.h:283-300 | the chosen pipeline blends as the mode asks, no blend and unknown modes as additive; every pipeline is chosen by its own mode |
| ShaderCompile.ToType | HPL2/core/shader_compile.py:133-141 | a type name exactly for the three known shader types; any other value raises |
| ShaderCompile.ToD3dPrefix | HPL2/core/shader_compile.py:123-131 | a profile prefix exactly for the three known shader types; any other value raises |
| ShaderCompile.TypeNamesDistinct | HPL2/core/shader_compile.py:123-141 | the type name gives the shader type back, and distinct types get distinct names and prefixes |
| ShaderCompile.LastIndexOf | HPL2/core/shader_compile.py:173 | the last position of the character, or none when it does not occur |
| ShaderCompile.Basename | HPL2/core/shader_compile.py:173 | the part of the path after its last slash: a suffix of the path with no slash in it |
| ShaderCompile.StripExtension | HPL2/core/shader_compile.py:173 | a prefix of the file name |
| ShaderCompile.GetName | HPL2/core/shader_compile.py:172-173 | the explicit name when there is one, else a name with no directory part |
| ShaderCompile.BasenameOf | HPL2/core/shader_compile.py:173 | the base name of dir/b is b |
| ShaderCompile.StripOf | HPL2/core/shader_compile.py:173 | stripping the extension of stem.ext gives stem |
| ShaderCompile.GetNameOfPath | HPL2/core/shader_compile.py:172-173 | an unnamed shader read from dir/stem.ext is named stem |
| ShaderCompile.NatToString | HPL2/core/shader_compile.py:316 | a non-empty string of decimal digits |
| ShaderCompile.ParseNatToString | HPL2/core/shader_compile.py:316 | the decimal string reads back as the number |
| ShaderCompile.VariantName | HPL2/core/shader_compile.py:316 | a variant's name is the shader's name, an underscore and more |
| ShaderCompile.VariantNameInjective | HPL2/core/shader_compile.py:316 | two variants of one shader never share a name |
| ShaderCompile.VariantBuilds | HPL2/core/shader_compile.py:308-318 | at most one build per variant number |
| ShaderCompile.VariantZeroBuilt | HPL2/core/shader_compile.py:308-316 | variant 0 has no required bits and is always built |
| ShaderCompile.BuildNamesBelow | HPL2/core/shader_compile.py:308-316 | every build is named after a variant number in range |
| ShaderCompile.VariantBuiltIff | HPL2/core/shader_compile.py:308-318 | variant i is built exactly when all its required bits are set in i, and then with the defines of the variants whose bit is set in i |
| ShaderCompile.NotNamedBelow | HPL2/core/shader_compile.py:308-316 | no build below n is named after variant n |
| ShaderCompile.NoRequirements | HPL2/core/shader_compile.py:314 | with no required bits anywhere nothing is required |
| ShaderCompile.AllVariantsBuilt | HPL2/core/shader_compile.py:308-316 | with no required bits every variant 0..n-1 is built, in order |
| ShaderCompile.SixteenVariants | HPL2/core/shader_compile.py:305-316 | four variant bits 1, 2, 4 and 8 without requirements give the sixteen builds name_0 .. name_15 |
| ShaderCompile.ExpandVariants | HPL2/core/shader_compile.py:302-320 | the builds of a shader, its variants when it has them, and the variant numbers that are skipped have a required bit missing |
| ShaderCompile.ComputeMask | HPL2/core/shader_compile.py:305-307 | the OR of every variant bit |
| ShaderCompile.VariantOptions | HPL2/core/shader_compile.py:309-314 | the defines of the variants whose bit is set in i and the OR of their required bits |
| ShaderCompile.JobTargetsSpec | HPL2/core/shader_compile.py:193-299 | a compute shader is never built for D3D9, ESSL or SPIR-V; other shaders always for ESSL and SPIR-V and for D3D9 exactly on Windows; every shader for GLSL, for D3D11 exactly on Windows and for Metal exactly on macOS |
| ShaderCompile.JoinDefines | HPL2/core/shader_compile.py:190 | the defines joined by `;`: empty for none, starting with the first define, and as long as all defines plus one separator between each pair |
| ShaderCompile.Profile | HPL2/core/shader_compile.py:186-299 | every target but essl gets a `--profile`; the D3D profiles start with the type's D3D prefix; glsl gets 430 exactly for a compute shader, else 130 |
| ShaderCompile.JobTargets | HPL2/core/shader_compile.py:193-299 | every shader is compiled for one to five targets |
| ShaderCompile.CreateShaderJobs | HPL2/core/shader_compile.py:186-299 | an unknown shader type raises; otherwise one job per target, each with the build's name, the type's name, the shader's defines followed by the build's, and the target's `Profile` |
| ShaderCompile.BuildsJobs | HPL2/core/shader_compile.py:302-320 | a shader with builds raises exactly when its type is unknown; otherwise every build gives at least one job |
| ShaderCompile.BuildsJobsPrefix | HPL2/core/shader_compile.py:302-320 | the jobs of the first builds start the jobs of all builds |
| ShaderCompile.AllJobs | HPL2/core/shader_compile.py:302-320 | the jobs of the whole loop: when it does not raise, no shader has an unknown type and every shader gives at least one job |
| ShaderCompile.AllJobsPrefix | HPL2/core/shader_compile.py:302-320 | the jobs of the first shaders start the jobs of all shaders |
| ShaderCompile.AllJobsRaise | HPL2/core/shader_compile.py:302-320 | the script raises exactly when some shader has an unknown type |
| ShaderCompile.ShaderBuildsNonEmpty | HPL2/core/shader_compile.py:302-320 | every shader yields at least one build |
| ShaderCompile.ShaderBuilds | HPL2/core/shader_compile.py:302-320 | a shader without variants is built once, with no extra defines; one with variants at most once for each value from 0 to the OR of its variant bits |
| ShaderCompile.VariantBuildsStart | HPL2/core/shader_compile.py:308-316 | a shader whose variant 0 is built has a build |
| ShaderCompile.FirstFailure | HPL2/core/shader_compile.py:145-150 | the first process that writes to stderr, none when none does |
| ShaderCompile.PrefixFails | HPL2/core/shader_compile.py:145-150 | a failure among the first processes is a failure among all |
| ShaderCompile.ProcessQueue.constructor | HPL2/core/shader_compile.py:143-152 | no process running, none collected |
| ShaderCompile.ProcessQueue.WaitSubprocesses | HPL2/core/shader_compile.py:143-152 | waits for the processes in order; exits exactly when one of them wrote to stderr, having collected it and those before it; otherwise collects all and empties the queue |
| ShaderCompile.ProcessQueue.WrapSubprocess | HPL2/core/shader_compile.py:154-166 | with more than 100 processes queued the queue is drained first, exiting on a failure; the job is then appended |
| ShaderCompile.StartJobs | HPL2/core/shader_compile.py:154-166 | every job is queued in order unless a drain exits, which needs more than 101 processes and a failure among those collected |
| ShaderCompile.CompileShader | HPL2/core/shader_compile.py:186-320 | a shader raises exactly when its type is unknown; otherwise its jobs are queued in order unless a drain exits with code 1 |
| ShaderCompile.CompileShaders | HPL2/core/shader_compile.py:302-322 | the script raises only for an unknown shader type; otherwise it finishes exactly when no compiler run writes to stderr, else it exits with code 1 |
| ShaderCompile.CompileInto | HPL2/core/shader_compile.py:302-320 | `main()`: raises only for an unknown type; when it exits, with code 1, a job that wrote to stderr was collected and more than 101 jobs were queued in all; when it finishes, the queued and collected jobs are every shader's jobs in order |

## Left out

- GPU work is left out: command recording, pipelines, descriptor sets, fences, render targets, shader programs and the bgfx and The Forge calls. These are foreign APIs whose effects cannot be seen from the engine's code. The model keeps only the engine-side state around them.
- The `MappedBuffer` kind of `GraphicsBuffer` is left out. It writes into memory owned by the graphics API; only the CPU-side `ResourceBuffer` is modelled.
- Float arithmetic is left out.
  - Vertex positions, normals, tangents, texture coordinates and colours are float data. Only how many vertices and indices are written, and where, is modelled.
  - Weights, colours, sizes, radii, aspects and fields of view are reals, so NaN, infinities, signed zero and rounding are not part of this model.
- Renderer.ClampClipRect: projecting the bounding volume onto the screen (`cMath::GetClipRectFromBV`) and the float-to-int padding are left out. The rectangle and the padding arrive as integers.
- Texel copies are left out: the loops that move bitmap data into textures and `Image`'s GPU texture objects. Only the descriptions, formats and cube-face order are modelled.
- Log output and printed messages are left out. `GetBlendMode`, `CreateElementArray`, `RetrieveOcclusionObjectSamples`, the skipped-variant message and the compiler output print or log, which has no effect on state.
- The shader build script's side effects are left out: argument parsing, the exact command-line strings (including their stray spaces), absolute paths and `os.makedirs`. Running the compiler is the parameter `fails`, which says whether a job's run writes to stderr.
- Constants defined in headers that are not part of this model are parameters:
  - `NumberActiveCopies` of the particle emitter;
  - `NumberOfCopies` of the rope;
  - `eTextureFilter_LastEnum` and `eTextureWrap_LastEnum` in `resolveMaterialID`.
- Enum orders and values defined in headers that are not part of this model are assumptions:
  - `eLightType` is assumed to order point, spot, box;
  - each enum's named values are the ones the code uses.
- RopeEntity.RopeEntity.constructor: the initial value of `m_numberSegments` is set in a header that is not part of this model. The constructor takes it as 0, which draws nothing.
- RendererCore.RenderSettings.RetrieveOcclusionObjectSamples: the bgfx query result is the parameters `queryVisible` and `numSamples`. `cOcclusionQueryObject` is not part of this model beyond its custom index, query and sample count.
- RendererCore.FindOcclusionObject: the `std::multimap` is a list of (source, pool index) entries. Entries with equal keys are kept in insertion order, as `std::multimap` does.
- RendererCore.FrameGap is `cMath::Abs` on unbounded integers. The overflow of `int` subtraction for frame counts 2^31 apart is left out.
- RendererDeferred.ObjectSlots.SlotOf: the `uint32_t` slot counter is unbounded. More than 2^32 objects in one frame are left out.
- SubMesh.SubMesh.Compile:
  - the one-sided test's geometry is the parameter `facesAligned`; only its index-count gate is modelled;
  - pairs must have positive weights. A pair with weight 0 leaves its slot looking free, and negative weights can make the normalising sum 0. The source handles neither case specially.
- Billboard.Billboard.ResolveDrawPacket follows the corrected index count `DrawnIndexCount` (6, or 12 for a fixed axis), not the `6 * (FixedAxis ? 2 : 0)` of BillBoard.cpp:263. The as-written count is `DrawnIndexCountAsWritten`, and the "## Findings" row for that line compares the two.
- Material.Material.SetType follows the corrected `SetTypeVars`, which clears the variables when the type changes to none. Material.cpp:127-142 leaves them set; `SetTypeVarsAsWritten` and the "## Findings" row for those lines model that.
- ForgeTexture.LoadFromHPLBitmap describes the texture by the corrected `LoadDesc`, which sets the format from the bitmap. ForgeHandles.cpp:102-122 never sets it; `LoadDescAsWritten` and the "## Findings" row for those lines model that.
- RendererDeferred.ShadowMapPool.UpdateShadowMap redraws by the corrected test `NeedsRedraw`, which also compares the map's owner. RendererDeferred.cpp:3277-3289 does not; `NeedsRedrawAsWritten` and the "## Findings" row for those lines model that.
- GraphicsBuffer.BufferRawView.WriteRaw requires the two offsets to sum below 2^32. GraphicsBuffer.h:73-85 resizes to the end computed in `uint32_t`, which wraps, but copies at the unwrapped position, past the resized end; that write is undefined behaviour and is not part of this model.
- AssetBuffer.BufferRawView.WriteRaw requires the same, for the same reason (AssetBuffer.h:65-69).
- GraphicsBuffer.BufferIndexView.Get requires the whole slot to lie in the buffer. The assertion at GraphicsBuffer.h:232 and 235 checks only the slot's first byte, so a slot cut off by the end of the buffer passes it and is read past the end; that read is undefined behaviour and is not part of this model.
- AssetBuffer.BufferIndexView.Get requires the whole slot for the same reason; AssetBuffer.h:155 and 158 check only the first byte.
- MeshCreator.CreateWireframeVertexBuffer requires the source's index count to be a multiple of three. With one or two trailing indices, MeshCreator.cpp:61-73 reads the last, incomplete triangle past the end of the source list (and, for a list of one index, writes six slots into the four it resized to); those accesses are undefined behaviour and are not part of this model.
- LegacyVertexBuffer: a flag word is the set of kinds whose bit is set. Bits outside the named kinds are not part of this model.
- LegacyVertexBuffer.LegacyVertexBuffer.CreateElementArray, LegacyVertexBuffer.LegacyVertexBuffer.CreateTangentArray and LegacyVertexBuffer.LegacyVertexBuffer.Compile assume one flag bit per element kind. `GetVertexElementFlagFromEnum`, which maps a kind to its bit, is not part of this model. LegacyVertexBuffer.cpp:277-278 marks a tangent element dirty through `eVertexElementFlag_Texture1`, which suggests the tangent shares Texture1's bit. If it does, `CreateElementArray` refuses a tangent array on a buffer that already has a Texture1 element, and `Compile` with tangents then fails the assertion at line 333. The model gives the tangent its own bit, so it adds the array in that case.
- GraphicsBuffer.BufferStructuredView.Get requires the whole element to lie in the buffer. The assertion at GraphicsBuffer.h:399 checks only the element's first byte, so an element cut off by the end of the buffer passes it and is read past the end; that read is undefined behaviour and is not part of this model.
- AssetBuffer.BufferStructuredView.Get requires the whole element for the same reason; AssetBuffer.h:245 checks only the first byte.
- Billboard.Billboard.constructor: BillBoard.cpp:48-70 sets the size, type, colour and halo alpha. The start values of `m_dirtyBuffer`, `m_activeCopy` and `m_frameIndex` are set in a header that is not part of this model. The constructor assumes not dirty, copy 0 and frame 0.
- RendererCore.RenderSettings.AssignOcclusionObject: `cOcclusionQueryObject`'s constructor is not part of this model. A new pool object is assumed to start with a sample count of 0.
- RendererCore.ShadowMaps.constructor: the code that creates the shadow maps is not part of this model. `cShadowMapData` (Renderer.h:225-231) has no constructor, and each map is assumed to start with frame count 0 and an empty light cache.
- Material.UvFactors: `m_mtxUV` is kept as its list of factors. The float products of `cMath::MatrixTranslate`, `cMath::MatrixRotate`, `cMath::MatrixMul` and `sin` are not evaluated, so two factor lists with the same product (two opposite shifts, say) are different values here.
- Material.Material.SetImage, Material.Material.UpdateAnimations and Material.Material.UpdateBeforeRendering count `m_version` as an unbounded number. It is a `uint32_t` (Material.h:290) and wraps after 2^32 bumps.
- Material.Material.SetImage: the `UpdateFlags` call at Material.cpp:195, which rebuilds the texture-configuration bits of `m_info` for the shaders, is not part of this model.
- The code in HPL2/core/sources/graphics/Renderer.cpp repeats `IsObjectVisible`, `GetClipRectFromObject` and `GetShadowMapResolution` from HPL2/sources/graphics/Renderer.cpp unchanged. The model covers them once.
- Some modellable pieces are left out for length:
  - the duplicate attribute parsers in HPL2/core/sources/resources/MaterialManager.cpp;
  - the older `RefHandle` in HPL2/core/include/graphics/Pipeline.h;
  - the index set-up in HPL2/sources/scene/Beam.cpp;
  - `UniqueViewportData` in HPL2/core/include/scene/Viewport.h.
- File and XML loading, windowing, concurrency and editor code are outside the modelled core.

## Findings

| source | as written | input that shows it | evidently intended | confidence | as-written member | corrected member |
|---|---|---|---|---|---|---|
| HPL2/sources/scene/BillBoard.cpp:263 | the packet asks for `6 * (FixedAxis ? 2 : 0)` indices | any billboard without a fixed axis: 6 indices written, 0 drawn | `6 * (FixedAxis ? 2 : 1)`, the count the constructor allocates | medium, not executed | Billboard.NonFixedAxisDrawsNothing | Billboard.DrawnIndexCount |
| HPL2/core/sources/graphics/Material.cpp:127-142 | `SetType(null)` deletes the variables but leaves `mpVars` set | `SetType(t)`, then `SetType(null)`, then destroy: the variables are deleted twice | clear `mpVars` after deleting it | high, not executed | Material.SetTypeNullDoubleDeletes | Material.SetTypeVars |
| HPL2/core/sources/graphics/Image.cpp:11-18 | the copy constructor copies neither depth nor name | copy a descriptor that has a depth or a name: the copy has neither | copy every field | high, not executed | Image.CopyLosesDepth | Image.CopyDescriptor |
| HPL2/core/include/graphics/ForgeHandles.h:89-97 | copy assignment drops the old reference without releasing it | a = b for two initialised handles, then drop both: a's resource is never freed | release the old reference first, as move assignment does | high, not executed | ForgeHandles.CopyAssignLeaks | ForgeHandles.RefHandle.AssignCopy |
| HPL2/core/include/graphics/ForgeHandles.h:99-106 | move assignment leaves the source flagged initialised | a = move(b), then copy b: the copy constructor's assertion fails | clear the flag, as the move constructor does | high, not executed | ForgeHandles.MovedFromCopyFails | ForgeHandles.RefHandle.AssignMove |
| HPL2/core/sources/graphics/ForgeHandles.cpp:51-56 | DXT3 maps to BC3, DXT4 to BC4 and DXT5 to BC5, for single textures and, through line 158, for cube maps | a DXT5 bitmap becomes a two-channel BC5 texture, a DXT4 bitmap a one-channel BC4 texture; a cube map of DXT5 faces likewise | DXT2/3 to BC2 and DXT4/5 to BC3, as the bgfx mapping does | high, not executed | ForgeTexture.DxtMappedToWrongBlocks | ForgeTexture.FromHPLPixelFormat |
| HPL2/core/sources/graphics/ForgeHandles.cpp:102-122 | `LoadFromHPLBitmap` never sets the description's format | any bitmap: its texture has an undefined format | set the format from the bitmap, as the cube-map path does | high, not executed | ForgeTexture.LoadedFormatLost | ForgeTexture.LoadDesc |
| HPL2/core/sources/graphics/ForgeHandles.cpp:169 | the mip-count assertion holds trivially when mipmaps are used, the one case where it matters | mipmaps on, bitmap 0 with 5 mips and bitmap 1 with 1: accepted, and mips 1-4 of bitmap 1 are read | check that every bitmap has the first one's mip count when mipmaps are used | medium, not executed | ForgeTexture.CubemapMipCheckInverted | ForgeTexture.CubemapMipCheckSound |
| HPL2/core/sources/graphics/ForgeHandles.cpp:173-188 | each of the six bitmaps is uploaded to all six faces, from its own images 0..5 | any six bitmaps: every face ends up holding bitmap 5's image of that index | upload bitmap i to face i | medium, not executed | ForgeTexture.CubemapUploadsAsWritten | ForgeTexture.CubemapUploads |
| HPL2/core/sources/graphics/ForgeHandles.cpp:150-193 | the cube-map handle is never initialised | any six bitmaps: the handle holds a texture but no counter, so no copy of it ever frees the texture | initialise the handle, as `LoadFromHPLBitmap` does | medium, not executed | ForgeTexture.CreateCubemapFromHPLBitmapsAsWritten | ForgeTexture.CreateCubemapFromHPLBitmaps |
| HPL2/sources/graphics/RendererDeferred.cpp:3277-3289 | the redraw test does not check whose shadow the map holds | a map drawn for light 1, reused for light 2 with the same transform count, aspect and field of view, is not redrawn | check the owner, as `iRenderer::ShadowMapNeedsUpdate` does | medium, not executed | RendererDeferred.StaleShadowOfAnotherLight | RendererDeferred.RedrawKeepsOwner |
| HPL2/core/sources/impl/LegacyVertexBuffer.cpp:194-198 | `AddVertexVec4f` pushes x, y, z and drops w | a 4-component position: w is stored as 0 | push x, y, z, w | medium, not executed | LegacyVertexBuffer.Vec4DropsW | LegacyVertexBuffer.Vec4StoresW |
| HPL2/include/graphics/GraphicsBuffer.h:354-361 | the span write packs elements at `sizeof(T)` and ignores the stride (the same code is in AssetBuffer.h:229-234) | stride 8, elements of 4 bytes: `Get(1)` after writing two elements reads zeros | place element k at offset + (index+k) * stride | medium, not executed | GraphicsBuffer.SpanWriteIgnoresStride | GraphicsBuffer.BufferStructuredView.WriteSpanStrided |

=== FILE: asset_buffer.dfy ===
/**
 * `AssetBuffer` (HPL2/include/graphics/AssetBuffer.h): the CPU-only sibling of
 * `GraphicsBuffer` — a byte vector and raw, index and structured views over
 * it.  Writes grow the vector (`testAndResize`) and copy bytes in place.
 */
module AssetBuffer {
  import opened Bytes

  datatype IndexType = Uint16 | Uint32

  function IndexSize(t: IndexType): (w: nat)
    ensures Pow256(w) == if t == Uint16 then U16_MOD else U32_MOD
  {
    Pow256Values();
    match t
    case Uint16 => 2
    case Uint32 => 4
  }

  class AssetBuffer {
    var buffer: seq<byte>

    constructor ()
      ensures buffer == []
    {
      buffer := [];
    }

    /** `CreateViewRaw`; the view asserts that its offset is inside the buffer. */
    method CreateViewRaw(byteOffset: nat) returns (v: BufferRawView)
      requires byteOffset <= |buffer| && byteOffset < U32_MOD
      ensures fresh(v) && v.asset == this && v.byteOffset == byteOffset
    {
      v := new BufferRawView(this, byteOffset);
    }

    /** `CreateIndexView`. */
    method CreateIndexView(byteOffset: nat, t: IndexType) returns (v: BufferIndexView)
      requires byteOffset <= |buffer| && byteOffset < U32_MOD
      ensures fresh(v) && v.asset == this && v.byteOffset == byteOffset && v.indexType == t
    {
      v := new BufferIndexView(this, byteOffset, t);
    }

    /** `CreateStructuredView<T>`: a stride of 0 means sizeof(T). */
    method CreateStructuredView(byteOffset: nat, byteStride: nat, elemSize: nat) returns (v: BufferStructuredView)
      requires byteOffset <= |buffer| && byteOffset < U32_MOD && byteStride < U32_MOD && 0 < elemSize < U32_MOD
      requires byteStride == 0 || byteStride >= elemSize
      ensures fresh(v) && v.asset == this && v.byteOffset == byteOffset && v.elemSize == elemSize
      ensures v.byteStride == if byteStride == 0 then elemSize else byteStride
    {
      v := new BufferStructuredView(this, byteOffset, if byteStride == 0 then elemSize else byteStride, elemSize);
    }
  }

  class BufferRawView {
    const asset: AssetBuffer
    const byteOffset: nat

    constructor (asset: AssetBuffer, byteOffset: nat)
      requires byteOffset <= |asset.buffer| && byteOffset < U32_MOD
      ensures this.asset == asset && this.byteOffset == byteOffset
    {
      this.asset := asset;
      this.byteOffset := byteOffset;
    }

    /**
     * `WriteRaw`: bytes [at, at+|data|) hold `data` afterwards, where at is the
     * sum of the two offsets; every other old byte is unchanged and the buffer
     * never shrinks.  The resize adds the offsets as uint32_t but the copy adds
     * them to an iterator, so the two agree only when the sum stays below 2^32.
     */
    method WriteRaw(offset: nat, data: seq<byte>)
      requires byteOffset + offset < U32_MOD
      modifies asset
      ensures asset.buffer == WriteAt(old(asset.buffer), byteOffset + offset, data)
      ensures var at := byteOffset + offset;
        |asset.buffer| == Max(|old(asset.buffer)|, at + |data|) &&
        asset.buffer[at..at + |data|] == data &&
        forall i :: 0 <= i < |old(asset.buffer)| && !(at <= i < at + |data|) ==> asset.buffer[i] == old(asset.buffer)[i]
    {
      var at := byteOffset + offset;
      WriteAtEffect(asset.buffer, at, data);
      asset.buffer := WriteAt(asset.buffer, at, data);
    }

    /** `NumBytes`: bytes from the view's start to the end, as a uint32_t difference. */
    function NumBytes(): (n: nat)
      reads asset
      ensures n < U32_MOD
      ensures byteOffset <= |asset.buffer| < U32_MOD ==> byteOffset + n == |asset.buffer|
    {
      (|asset.buffer| - byteOffset) % U32_MOD
    }
  }

  class BufferIndexView {
    const asset: AssetBuffer
    const byteOffset: nat
    const indexType: IndexType

    constructor (asset: AssetBuffer, byteOffset: nat, t: IndexType)
      requires byteOffset <= |asset.buffer| && byteOffset < U32_MOD
      ensures this.asset == asset && this.byteOffset == byteOffset && indexType == t
    {
      this.asset := asset;
      this.byteOffset := byteOffset;
      indexType := t;
    }

    predicate HasSlot(index: nat)
      reads asset
    {
      SlotStart(byteOffset, IndexSize(indexType), index) + IndexSize(indexType) <= |asset.buffer|
    }

    /** `ResizeElements`: slots 0..n-1 exist afterwards and slot n does not. */
    method ResizeElements(n: nat)
      modifies asset
      ensures asset.buffer == Resized(old(asset.buffer), byteOffset + n * IndexSize(indexType))
      ensures forall k :: 0 <= k < n ==> HasSlot(k)
      ensures !HasSlot(n)
    {
      asset.buffer := Resized(asset.buffer, byteOffset + n * IndexSize(indexType));
      forall k | 0 <= k < n ensures HasSlot(k) {
        MulMono(k + 1, n, IndexSize(indexType));
      }
    }

    /** `Get`: the index in slot `index`, zero-extended. */
    function Get(index: nat): (v: nat)
      reads asset
      requires HasSlot(index)
      ensures v < U32_MOD
      ensures indexType == Uint16 ==> v < U16_MOD
    {
      SlotAt(asset.buffer, byteOffset, IndexSize(indexType), index)
    }

    /** `Write`: Get(index) returns the value afterwards, cut to 16 bits for Uint16. */
    method Write(index: nat, value: nat)
      requires value < U32_MOD
      modifies asset
      ensures asset.buffer == WriteSlot(old(asset.buffer), byteOffset, IndexSize(indexType), index, value)
      ensures HasSlot(index)
      ensures indexType == Uint32 ==> Get(index) == value
      ensures indexType == Uint16 ==> Get(index) == value % U16_MOD
      ensures forall j :: j != index && old(HasSlot(j)) ==> HasSlot(j) && Get(j) == old(Get(j))
    {
      var w := IndexSize(indexType);
      SlotWriteEffect(asset.buffer, byteOffset, w, index, value);
      asset.buffer := WriteSlot(asset.buffer, byteOffset, w, index, value);
    }
  }

  class BufferStructuredView {
    const asset: AssetBuffer
    const byteOffset: nat
    const byteStride: nat
    /** sizeof(T) of the element type. */
    const elemSize: nat

    constructor (asset: AssetBuffer, byteOffset: nat, byteStride: nat, elemSize: nat)
      requires byteOffset <= |asset.buffer| && byteOffset < U32_MOD && byteStride < U32_MOD
      requires 0 < elemSize <= byteStride
      ensures this.asset == asset && this.byteOffset == byteOffset
      ensures this.byteStride == byteStride && this.elemSize == elemSize
      ensures Valid()
    {
      this.asset := asset;
      this.byteOffset := byteOffset;
      this.byteStride := byteStride;
      this.elemSize := elemSize;
    }

    predicate Valid()
    {
      0 < elemSize <= byteStride && byteOffset < U32_MOD && byteStride < U32_MOD
    }

    predicate HasElement(index: nat)
      reads asset
    {
      StructuredTarget(byteOffset, index, byteStride) + elemSize <= |asset.buffer|
    }

    /** `NumBytes() / m_byteStride`: the number of whole strides after the offset. */
    function NumElements(): (n: nat)
      reads asset
      requires Valid()
      ensures byteOffset <= |asset.buffer| < U32_MOD ==> n * byteStride <= |asset.buffer| - byteOffset < (n + 1) * byteStride
    {
      ((|asset.buffer| - byteOffset) % U32_MOD) / byteStride
    }

    function Get(index: nat): (e: seq<byte>)
      reads asset
      requires HasElement(index)
      ensures |e| == elemSize
    {
      var at := StructuredTarget(byteOffset, index, byteStride);
      asset.buffer[at..at + elemSize]
    }

    /** `Write(index, value)`: Get(index) returns the value; no other old byte changes. */
    method Write(index: nat, value: seq<byte>)
      requires Valid() && |value| == elemSize
      modifies asset
      ensures asset.buffer == WriteAt(old(asset.buffer), StructuredTarget(byteOffset, index, byteStride), value)
      ensures HasElement(index) && Get(index) == value
      ensures var at := StructuredTarget(byteOffset, index, byteStride);
        forall i :: 0 <= i < |old(asset.buffer)| && !(at <= i < at + elemSize) ==> asset.buffer[i] == old(asset.buffer)[i]
    {
      var at := StructuredTarget(byteOffset, index, byteStride);
      WriteAtEffect(asset.buffer, at, value);
      asset.buffer := WriteAt(asset.buffer, at, value);
    }

    /** `Write(index, span)`: the span's bytes, packed, from element `index` on. */
    method WriteSpan(index: nat, values: seq<seq<byte>>)
      requires Valid()
      modifies asset
      ensures asset.buffer == WriteAt(old(asset.buffer), StructuredTarget(byteOffset, index, byteStride), Flatten(values))
    {
      asset.buffer := WriteAt(asset.buffer, StructuredTarget(byteOffset, index, byteStride), Flatten(values));
    }

    /** `ResizeElements`: afterwards NumElements() is n, unless the uint32_t size wraps. */
    method ResizeElements(n: nat)
      requires Valid()
      modifies asset
      ensures asset.buffer == Resized(old(asset.buffer), (byteOffset + n * byteStride) % U32_MOD)
      ensures byteOffset + n * byteStride < U32_MOD ==> NumElements() == n
    {
      asset.buffer := Resized(asset.buffer, (byteOffset + n * byteStride) % U32_MOD);
      if byteOffset + n * byteStride < U32_MOD {
        assert byteOffset + n * byteStride - byteOffset == n * byteStride;
        ModUnique(n * byteStride, byteStride, n, 0);
      }
    }
  }
}

=== FILE: billboard.dfy ===
/**
 * The buffer bookkeeping of `cBillboard` (HPL2/sources/scene/BillBoard.cpp):
 * the index pattern written at construction (one quad, and for a fixed-axis
 * billboard the same quad again with the opposite winding so it shows from
 * behind), the dirty flag its setters raise, the two vertex copies it flips
 * between when it rewrites them, and the draw packet.  Colours, alpha and
 * size are floats in the source; they are modelled as reals, so NaN and
 * signed zero are not part of this model.
 */
module Billboard {
  import opened Bytes
  import opened IndexPatterns
  import opened GraphicsBuffer
  import opened MeshUtility
  import opened Drawing

  /** `cBillboard::NumberVerts`. */
  const NumberVerts: nat := 4
  /** `ForgeRenderer::SwapChainLength`: the renderer is double buffered. */
  const SwapChainLength: nat := 2

  datatype Color = Color(r: real, g: real, b: real, a: real)

  /** The indices the constructor writes: 0,1,2,2,3,0, then 2,1,0,0,3,2 for a fixed axis. */
  function BillboardIndices(fixedAxis: bool): (s: seq<int>)
    ensures |s| == 6 * (if fixedAxis then 2 else 1)
  {
    [0, 1, 2, 2, 3, 0] + (if fixedAxis then [2, 1, 0, 0, 3, 2] else [])
  }

  /**
   * The back face of a fixed-axis billboard is the front face with each
   * triangle's winding reversed, and every index names one of the 4 vertices.
   */
  lemma BackFaceReversed(fixedAxis: bool)
    ensures forall k :: 0 <= k < |BillboardIndices(fixedAxis)| ==> 0 <= BillboardIndices(fixedAxis)[k] < NumberVerts
    ensures BillboardIndices(fixedAxis)[..6] == Quad(0)
    ensures fixedAxis ==> var s := BillboardIndices(fixedAxis);
      s[6..9] == Flip(s[..3]) && s[9..] == Flip(s[3..6])
  {
  }

  /** A triangle with its winding reversed. */
  function Flip(tri: seq<int>): (r: seq<int>)
    requires |tri| == 3
    ensures |r| == 3 && r[0] == tri[2] && r[1] == tri[1] && r[2] == tri[0]
  {
    [tri[2], tri[1], tri[0]]
  }

  /**
   * The unsigned frame gap of the buffer refresh test: `uint32_t` subtraction
   * wraps, so a frame index behind the stamped one gives a large gap.
   */
  function FrameGap(frameIndex: nat, stamped: nat): (gap: nat)
    requires frameIndex < U32_MOD && stamped < U32_MOD
    ensures gap < U32_MOD
    ensures stamped <= frameIndex ==> gap == frameIndex - stamped
    ensures frameIndex < stamped ==> gap == U32_MOD + frameIndex - stamped
  {
    (frameIndex - stamped) % U32_MOD
  }

  /**
   * With frame indices cycling through the swap chain, the refresh test
   * passes exactly for a dirty billboard whose copy was stamped by another
   * frame index than the current one.
   */
  lemma RefreshOnOtherFrame(frameIndex: nat, stamped: nat, dirty: bool)
    requires frameIndex < SwapChainLength && stamped < SwapChainLength
    ensures (FrameGap(frameIndex, stamped) >= SwapChainLength - 1 && dirty) <==> (dirty && frameIndex != stamped)
  {
  }

  /**
   * The index count the draw packet asks for, as written:
   * `6 * (FixedAxis ? 2 : 0)`.  It matches the indices written exactly for a
   * fixed-axis billboard; any other billboard draws none of its own.
   */
  function DrawnIndexCountAsWritten(fixedAxis: bool): (n: nat)
    ensures n == |BillboardIndices(fixedAxis)| <==> fixedAxis
    ensures !fixedAxis ==> n == 0
  {
    6 * (if fixedAxis then 2 else 0)
  }

  /**
   * As written, a billboard without a fixed axis asks to draw no index at
   * all, although its 6 indices were allocated and written.
   */
  lemma NonFixedAxisDrawsNothing()
    ensures DrawnIndexCountAsWritten(false) == 0
    ensures |BillboardIndices(false)| == 6
  {
  }

  /** The index count matching the constructor's allocation: `6 * (FixedAxis ? 2 : 1)`. */
  function DrawnIndexCount(fixedAxis: bool): (n: nat)
    ensures n == |BillboardIndices(fixedAxis)|
    ensures fixedAxis ==> n == DrawnIndexCountAsWritten(fixedAxis)
  {
    6 * (if fixedAxis then 2 else 1)
  }

  class Billboard {
    /** `mType == eBillboardType_FixedAxis`. */
    const fixedAxis: bool
    /** `mColor`. */
    var color: Color
    /** `mfHaloAlpha`. */
    var haloAlpha: real
    /** `mvSize`. */
    var width: real
    var height: real
    /** `mbIsVisible`. */
    var isVisible: bool
    /** `m_dirtyBuffer`: the vertex copies are stale. */
    var dirtyBuffer: bool
    /** `m_frameIndex`: the frame index that last rewrote a copy. */
    var frameIndex: nat
    /** `m_activeCopy`: which of the two vertex copies the packet draws. */
    var activeCopy: nat

    predicate Valid()
      reads this
    {
      activeCopy < 2 && frameIndex < U32_MOD
    }

    constructor (fixedAxis: bool, width: real, height: real)
      ensures Valid() && this.fixedAxis == fixedAxis && this.width == width && this.height == height
      ensures color == Color(1.0, 1.0, 1.0, 1.0) && !dirtyBuffer && activeCopy == 0 && frameIndex == 0
    {
      this.fixedAxis := fixedAxis;
      this.width := width;
      this.height := height;
      color := Color(1.0, 1.0, 1.0, 1.0);
      haloAlpha := 1.0;
      isVisible := true;
      dirtyBuffer := false;
      frameIndex := 0;
      activeCopy := 0;
    }

    /** The constructor's index set-up: `BillboardIndices(fixedAxis)` from slot 0. */
    method WriteIndices(view: BufferIndexView)
      modifies view.asset
      ensures Holds(view, 0, BillboardIndices(fixedAxis))
      ensures FramedOutside(view, 0, |BillboardIndices(fixedAxis)|)
    {
      var index := WriteFront(view);
      if fixedAxis {
        index := WriteBack(view, index);
      }
    }

    /** The two loops every billboard runs: the front quad 0,1,2,2,3,0. */
    method WriteFront(view: BufferIndexView) returns (index: nat)
      modifies view.asset
      ensures index == 6 && Holds(view, 0, BillboardIndices(false))
      ensures FramedOutside(view, 0, index)
    {
      ghost var written: seq<int> := [];
      index := 0;
      var i := 0;
      while i < 3
        invariant 0 <= i <= 3 && index == i && written == BillboardIndices(false)[..i]
        invariant Holds(view, 0, written) && FramedOutside(view, 0, index)
      {
        index := WriteNext(view, 0, written, index, i);
        written := written + [i];
        i := i + 1;
      }
      i := 2;
      while i < 5
        invariant 2 <= i <= 5 && index == i + 1 && written == BillboardIndices(false)[..i + 1]
        invariant Holds(view, 0, written) && FramedOutside(view, 0, index)
      {
        index := WriteNext(view, 0, written, index, if i == 4 then 0 else i);
        written := written + [if i == 4 then 0 else i];
        i := i + 1;
      }
      assert written == BillboardIndices(false);
    }

    /** The two loops a fixed-axis billboard adds: the back quad 2,1,0,0,3,2. */
    method WriteBack(view: BufferIndexView, at: nat) returns (index: nat)
      requires at == 6 && Holds(view, 0, BillboardIndices(false))
      modifies view.asset
      ensures index == 12 && Holds(view, 0, BillboardIndices(true))
      ensures FramedOutside(view, at, index)
    {
      ghost var written: seq<int> := BillboardIndices(false);
      index := at;
      var i := 2;
      while i >= 0
        invariant -1 <= i <= 2 && index == 8 - i && written == BillboardIndices(true)[..8 - i]
        invariant Holds(view, 0, written) && FramedOutside(view, at, index)
      {
        index := WriteNext(view, 0, written, index, i);
        written := written + [i];
        i := i - 1;
      }
      i := 4;
      while i >= 2
        invariant 1 <= i <= 4 && index == 13 - i && written == BillboardIndices(true)[..13 - i]
        invariant Holds(view, 0, written) && FramedOutside(view, at, index)
      {
        index := WriteNext(view, 0, written, index, if i == 4 then 0 else i);
        written := written + [if i == 4 then 0 else i];
        i := i - 1;
      }
      assert written == BillboardIndices(true);
    }

    /** `SetColor`: an equal colour changes nothing; another one is stored and marks the copies stale. */
    method SetColor(c: Color)
      modifies this
      ensures color == c
      ensures dirtyBuffer == (old(dirtyBuffer) || c != old(color))
      ensures haloAlpha == old(haloAlpha) && width == old(width) && height == old(height)
      ensures isVisible == old(isVisible) && frameIndex == old(frameIndex) && activeCopy == old(activeCopy)
    {
      if color == c {
        return;
      }
      dirtyBuffer := true;
      color := c;
    }

    /** `SetHaloAlpha`: an equal alpha changes nothing; another one is stored and marks the copies stale. */
    method SetHaloAlpha(alpha: real)
      modifies this
      ensures haloAlpha == alpha
      ensures dirtyBuffer == (old(dirtyBuffer) || alpha != old(haloAlpha))
      ensures color == old(color) && width == old(width) && height == old(height)
      ensures isVisible == old(isVisible) && frameIndex == old(frameIndex) && activeCopy == old(activeCopy)
    {
      if haloAlpha == alpha {
        return;
      }
      haloAlpha := alpha;
      dirtyBuffer := true;
    }

    /** `SetSize`: always marks the copies stale, even for an equal size. */
    method SetSize(w: real, h: real)
      modifies this
      ensures width == w && height == h && dirtyBuffer
      ensures color == old(color) && haloAlpha == old(haloAlpha)
      ensures isVisible == old(isVisible) && frameIndex == old(frameIndex) && activeCopy == old(activeCopy)
    {
      dirtyBuffer := true;
      width := w;
      height := h;
    }

    /** `IsVisible`: never with no positive colour channel, otherwise as flagged. */
    predicate IsVisible()
      reads this
    {
      if color.r <= 0.0 && color.g <= 0.0 && color.b <= 0.0 then false else isVisible
    }

    /**
     * `ResolveDrawPacket` at swap-chain frame index `frame`: a stale
     * billboard whose copy was not stamped by this frame index rewrites the
     * other copy, stamps it, and draws it; the packet draws every index the
     * constructor wrote over the active copy's 4 vertices.  The index count
     * is the one matching the allocation (see `DrawnIndexCountAsWritten`).
     */
    method ResolveDrawPacket(frame: nat) returns (packet: DrawPacket)
      requires Valid() && frame < U32_MOD
      modifies this
      ensures Valid()
      ensures var refresh := FrameGap(frame, old(frameIndex)) >= SwapChainLength - 1 && old(dirtyBuffer);
        (refresh ==> frameIndex == frame && activeCopy == 1 - old(activeCopy) && !dirtyBuffer) &&
        (!refresh ==> frameIndex == old(frameIndex) && activeCopy == old(activeCopy) && dirtyBuffer == old(dirtyBuffer))
      ensures packet == DrawGeometrySet(0, |BillboardIndices(fixedAxis)|, NumberVerts * activeCopy)
      ensures color == old(color) && haloAlpha == old(haloAlpha) && width == old(width) && height == old(height)
      ensures isVisible == old(isVisible)
    {
      if FrameGap(frame, frameIndex) >= SwapChainLength - 1 && dirtyBuffer {
        frameIndex := frame;
        activeCopy := (activeCopy + 1) % 2;
        dirtyBuffer := false;
      }
      packet := DrawGeometrySet(0, DrawnIndexCount(fixedAxis), activeCopy * NumberVerts);
    }
  }
}

=== FILE: buffer_index.dfy ===
/**
 * `BufferIndex` (HPL2/core/sources/graphics/BufferIndex.cpp): an index buffer
 * kept as a byte vector of 16- or 32-bit little-endian indices, and
 * `BufferIndexView`, a window [offset, offset+count) onto one.
 */
module BufferIndex {
  import opened Bytes

  datatype IndexFormatType = Uint16 | Uint32

  /** `GetIndexSize`: 2 bytes for Uint16, 4 for Uint32. */
  function GetIndexSize(format: IndexFormatType): (n: nat)
    ensures format == Uint16 ==> n == 2
    ensures format == Uint32 ==> n == 4
    ensures Pow256(n) == if format == Uint16 then U16_MOD else U32_MOD
  {
    Pow256Values();
    match format
    case Uint16 => 2
    case Uint32 => 4
  }

  /** The indices a byte vector holds, read as consecutive slots of `w` bytes. */
  ghost function Decoded(data: seq<byte>, w: nat): seq<nat>
    requires w > 0
  {
    seq(|data| / w, k => SlotOrZero(data, w, k))
  }

  /** The index in slot k, for a slot inside the vector. */
  ghost function SlotOrZero(data: seq<byte>, w: nat, k: int): nat
  {
    if 0 <= k && SlotStart(0, w, k) + w <= |data| then SlotAt(data, 0, w, k) else 0
  }

  /** Slot k < |data|/w lies wholly inside the vector. */
  lemma SlotInside(data: seq<byte>, w: nat, k: nat)
    requires w > 0 && k < |data| / w
    ensures SlotStart(0, w, k) + w <= |data|
  {
    MulMono(k + 1, |data| / w, w);
    assert (k + 1) * w == k * w + w;
  }

  /** Appending one encoded index to a whole number of slots adds one slot with that index. */
  lemma {:induction false} AppendDecoded(data: seq<byte>, w: nat, v: nat)
    requires w > 0 && |data| % w == 0
    ensures |data + EncodeLE(v, w)| / w == |data| / w + 1
    ensures Decoded(data + EncodeLE(v, w), w) == Decoded(data, w) + [v % Pow256(w)]
  {
    var n := |data| / w;
    var r := data + EncodeLE(v, w);
    ModUnique(|data|, w, n, 0);
    assert |r| == w * (n + 1) + 0;
    ModUnique(|r|, w, n + 1, 0);
    var a, b := Decoded(r, w), Decoded(data, w) + [v % Pow256(w)];
    forall k | 0 <= k < n + 1 ensures a[k] == b[k] {
      SlotInside(r, w, k);
      MulMono(k, n, w);
      if k < n {
        SlotInside(data, w, k);
        assert r[k * w..k * w + w] == data[k * w..k * w + w];
      } else {
        assert k * w == |data|;
        assert r[k * w..k * w + w] == EncodeLE(v, w);
        DecodeEncode(v, w);
      }
    }
  }

  /** Storing into an existing slot replaces that one index and keeps the length. */
  lemma SetDecoded(data: seq<byte>, w: nat, i: nat, v: nat)
    requires w > 0 && i < |data| / w
    ensures |WriteSlot(data, 0, w, i, v)| == |data|
    ensures Decoded(WriteSlot(data, 0, w, i, v), w) == Decoded(data, w)[i := v % Pow256(w)]
  {
    var r := WriteSlot(data, 0, w, i, v);
    SlotInside(data, w, i);
    WriteAtEffect(data, i * w, EncodeLE(v, w));
    var a, b := Decoded(r, w), Decoded(data, w)[i := v % Pow256(w)];
    forall k | 0 <= k < |data| / w ensures a[k] == b[k] {
      SetSlotAt(data, w, i, v, k);
    }
  }

  lemma SetSlotAt(data: seq<byte>, w: nat, i: nat, v: nat, k: nat)
    requires w > 0 && i < |data| / w && k < |data| / w
    ensures SlotOrZero(WriteSlot(data, 0, w, i, v), w, k) == if k == i then v % Pow256(w) else SlotOrZero(data, w, k)
  {
    SlotInside(data, w, k);
    if k == i {
      SlotRoundTrip(data, 0, w, i, v);
    } else {
      SlotFrame(data, 0, w, i, v, k);
    }
  }

  /** Overwriting position offset+i of a partly spliced sequence splices in one more element. */
  lemma SpliceStep(p: seq<nat>, d: seq<nat>, offset: nat, i: nat)
    requires offset + |d| <= |p| && i < |d|
    ensures |p[..offset] + d[..i] + p[offset + i..]| == |p|
    ensures (p[..offset] + d[..i] + p[offset + i..])[offset + i := d[i]] == p[..offset] + d[..i + 1] + p[offset + i + 1..]
  {
    var a := (p[..offset] + d[..i] + p[offset + i..])[offset + i := d[i]];
    var b := p[..offset] + d[..i + 1] + p[offset + i + 1..];
    assert |a| == |b|;
    forall k | 0 <= k < |a| ensures a[k] == b[k] {
    }
  }

  /** The encodings of `values`, `w` bytes each, one after another. */
  function EncodedRun(values: seq<nat>, w: nat): (r: seq<byte>)
    ensures |r| == |values| * w
  {
    if values == [] then []
    else EncodedRun(values[..|values| - 1], w) + EncodeLE(values[|values| - 1], w)
  }

  /** Each value cut to a slot of `w` bytes, as a store of it reads back. */
  function Truncated(values: seq<nat>, w: nat): (r: seq<nat>)
    ensures |r| == |values|
  {
    if values == [] then []
    else Truncated(values[..|values| - 1], w) + [values[|values| - 1] % Pow256(w)]
  }

  /** n whole slots more add n to the slot count and keep the remainder. */
  lemma RunCount(len: nat, n: nat, w: nat)
    requires w > 0
    ensures (len + n * w) / w == len / w + n && (len + n * w) % w == len % w
  {
    DivBounds(len, w);
    var q, r := len / w, len % w;
    assert len == w * q + r;
    assert len + n * w == w * (q + n) + r;
    ModUnique(len + n * w, w, q + n, r);
  }

  /**
   * Appending the encodings of a run of values to a whole number of slots
   * adds one slot per value, holding that value cut to the slot width.
   */
  lemma {:induction false} AppendRunDecoded(data: seq<byte>, values: seq<nat>, w: nat)
    requires w > 0 && |data| % w == 0
    ensures |data + EncodedRun(values, w)| % w == 0
    ensures Decoded(data + EncodedRun(values, w), w) == Decoded(data, w) + Truncated(values, w)
  {
    if values == [] {
      assert data + EncodedRun(values, w) == data;
    } else {
      AppendRunDecoded(data, values[..|values| - 1], w);
      AppendRunStep(data, values, w);
    }
  }

  /** The step of `AppendRunDecoded`: the last value's slot follows the slots of the others. */
  lemma {:induction false} AppendRunStep(data: seq<byte>, values: seq<nat>, w: nat)
    requires w > 0 && |data| % w == 0 && values != []
    requires |data + EncodedRun(values[..|values| - 1], w)| % w == 0
    requires Decoded(data + EncodedRun(values[..|values| - 1], w), w) == Decoded(data, w) + Truncated(values[..|values| - 1], w)
    ensures |data + EncodedRun(values, w)| % w == 0
    ensures Decoded(data + EncodedRun(values, w), w) == Decoded(data, w) + Truncated(values, w)
  {
    var init, last := values[..|values| - 1], values[|values| - 1];
    var front := data + EncodedRun(init, w);
    assert data + EncodedRun(values, w) == front + EncodeLE(last, w);
    assert |data + EncodedRun(values, w)| % w == 0 by {
      RunCount(|data|, |values|, w);
    }
    assert Decoded(front + EncodeLE(last, w), w) == Decoded(front, w) + [last % Pow256(w)] by {
      AppendDecoded(front, w, last);
    }
    assert Truncated(values, w) == Truncated(init, w) + [last % Pow256(w)];
  }

  /** One value more appends its encoding after whatever came before the run. */
  lemma RunSnoc(front: seq<byte>, values: seq<nat>, i: nat, w: nat)
    requires i < |values|
    ensures front + EncodedRun(values[..i + 1], w) == (front + EncodedRun(values[..i], w)) + EncodeLE(values[i], w)
  {
    assert values[..i + 1][..i] == values[..i];
  }

  class BufferIndex {
    /** `_definition.m_format`. */
    const format: IndexFormatType
    /** `_buffer`. */
    var buffer: seq<byte>

    constructor (format: IndexFormatType, data: seq<byte>)
      ensures this.format == format && buffer == data
    {
      this.format := format;
      buffer := data;
    }

    /** `NumberElements`: whole indices in the buffer. */
    function NumberElements(): (n: nat)
      reads this
      ensures n * GetIndexSize(format) <= |buffer| < (n + 1) * GetIndexSize(format)
    {
      |buffer| / GetIndexSize(format)
    }

    /** The indices the buffer holds. */
    ghost function Indices(): (s: seq<nat>)
      reads this
      ensures |s| == NumberElements()
    {
      Decoded(buffer, GetIndexSize(format))
    }

    /** The buffer is a whole number of indices (it is unless built from odd raw bytes). */
    predicate Aligned()
      reads this
    {
      |buffer| % GetIndexSize(format) == 0
    }

    /** `Resize(count)`: exactly `count` slots; the old indices that fit are kept. */
    method Resize(count: nat)
      modifies this
      ensures buffer == Resized(old(buffer), count * GetIndexSize(format))
      ensures NumberElements() == count && Aligned()
    {
      buffer := Resized(buffer, count * GetIndexSize(format));
      ModUnique(|buffer|, GetIndexSize(format), count, 0);
    }

    /** `Append`: one more index, truncated to the slot width; the element count rises by one. */
    method Append(value: nat)
      requires value < U32_MOD
      modifies this
      ensures buffer == old(buffer) + EncodeLE(value, GetIndexSize(format))
      ensures NumberElements() == old(NumberElements()) + 1
      ensures old(Aligned()) ==> Aligned() && Indices() == old(Indices()) + [value % Pow256(GetIndexSize(format))]
    {
      ghost var before := buffer;
      var w := GetIndexSize(format);
      buffer := buffer + EncodeLE(value, w);
      ModUnique(|before|, w, |before| / w, |before| % w);
      ModUnique(|buffer|, w, |before| / w + 1, |before| % w);
      if |before| % w == 0 {
        AppendDecoded(before, w, value);
      }
    }

    /**
     * `AppendRange`: `Append` of every value in order.  The bytes are the
     * values' encodings one after another, the element count rises by one
     * per value, and on a buffer of whole indices the decoded indices gain
     * each value cut to the slot width.
     */
    method AppendRange(values: seq<nat>)
      requires forall i :: 0 <= i < |values| ==> values[i] < U32_MOD
      modifies this
      ensures buffer == old(buffer) + EncodedRun(values, GetIndexSize(format))
      ensures NumberElements() == old(NumberElements()) + |values|
      ensures old(Aligned()) ==> (Aligned() && Indices() == old(Indices()) + Truncated(values, GetIndexSize(format)))
    {
      var w := GetIndexSize(format);
      var i := 0;
      while i < |values|
        invariant 0 <= i <= |values|
        invariant buffer == old(buffer) + EncodedRun(values[..i], w)
      {
        RunSnoc(old(buffer), values, i, w);
        Append(values[i]);
        i := i + 1;
      }
      assert values[..i] == values;
      RunCount(|old(buffer)|, |values|, w);
      if |old(buffer)| % w == 0 {
        AppendRunDecoded(old(buffer), values, w);
      }
    }

    /** `SetIndex`: asserts the slot exists; only that index changes. */
    method SetIndex(index: nat, value: nat)
      requires index < NumberElements() && value < U32_MOD
      modifies this
      ensures |buffer| == |old(buffer)|
      ensures Indices() == old(Indices())[index := value % Pow256(GetIndexSize(format))]
      ensures buffer[NumberElements() * GetIndexSize(format)..] == old(buffer[NumberElements() * GetIndexSize(format)..])
    {
      var w := GetIndexSize(format);
      ghost var tail := NumberElements() * w;
      SetDecoded(buffer, w, index, value);
      WriteAtPreserves(buffer, SlotStart(0, w, index), EncodeLE(value, w), tail, |buffer|);
      buffer := WriteSlot(buffer, 0, w, index, value);
    }

    /** `SetRange`: asserts offset + |data| <= NumberElements(); overwrites that run of slots only. */
    method SetRange(offset: nat, data: seq<nat>)
      requires offset + |data| <= NumberElements()
      requires forall i :: 0 <= i < |data| ==> data[i] < U32_MOD
      modifies this
      ensures |buffer| == |old(buffer)|
      ensures Indices() == old(Indices())[..offset]
        + seq(|data|, i requires 0 <= i < |data| => data[i] % Pow256(GetIndexSize(format)))
        + old(Indices())[offset + |data|..]
      ensures buffer[NumberElements() * GetIndexSize(format)..] == old(buffer[NumberElements() * GetIndexSize(format)..])
    {
      ghost var stored := seq(|data|, i requires 0 <= i < |data| => data[i] % Pow256(GetIndexSize(format)));
      ghost var before := Indices();
      ghost var tail := NumberElements() * GetIndexSize(format);
      var i := 0;
      while i < |data|
        invariant 0 <= i <= |data| && |buffer| == |old(buffer)|
        invariant Indices() == before[..offset] + stored[..i] + before[offset + i..]
        invariant tail <= |buffer| && buffer[tail..] == old(buffer)[tail..]
      {
        SetIndex(offset + i, data[i]);
        SpliceStep(before, stored, offset, i);
        i := i + 1;
      }
      assert stored[..i] == stored;
    }
  }

  class BufferIndexView {
    const indexBuffer: BufferIndex?
    const offset: nat
    const count: nat

    /** The view over a whole buffer (none when the buffer is null). */
    constructor Whole(buffer: BufferIndex?)
      ensures indexBuffer == buffer && offset == 0
      ensures count == if buffer == null then 0 else buffer.NumberElements()
    {
      indexBuffer := buffer;
      offset := 0;
      count := if buffer == null then 0 else buffer.NumberElements();
    }

    /** A sub-range; asserted to fit in the buffer, or to be empty without one. */
    constructor (buffer: BufferIndex?, offset: nat, size: nat)
      requires buffer != null ==> offset + size <= buffer.NumberElements()
      requires buffer == null ==> offset == 0 && size == 0
      ensures indexBuffer == buffer && this.offset == offset && count == size
    {
      indexBuffer := buffer;
      this.offset := offset;
      count := size;
    }

    /** `IsEmpty`: the view covers no index. */
    predicate IsEmpty()
    {
      count == 0
    }

    /** `GetNumElements`. */
    function GetNumElements(): (n: nat)
      ensures n == 0 <==> IsEmpty()
    {
      count
    }

    /** The view still fits in its buffer. */
    predicate Valid()
      reads indexBuffer
    {
      indexBuffer != null ==> offset + count <= indexBuffer.NumberElements()
    }

    /** `GetBufferUint16`/`GetBufferUint32`: the indices of the window, empty for an empty view. */
    ghost function Elements(): (s: seq<nat>)
      reads indexBuffer
      requires Valid()
      ensures |s| == count || (s == [] && (IsEmpty() || indexBuffer == null))
    {
      if IsEmpty() || indexBuffer == null then [] else indexBuffer.Indices()[offset..offset + count]
    }

    /** `SetIndex`: view slot `index` is buffer slot offset+index. */
    method SetIndex(index: nat, value: nat)
      requires indexBuffer != null && !IsEmpty() && index < count && Valid()
      requires value < U32_MOD
      modifies indexBuffer
      ensures Valid()
      ensures indexBuffer.Indices() == old(indexBuffer.Indices())[offset + index := value % Pow256(GetIndexSize(indexBuffer.format))]
      ensures Elements() == old(Elements())[index := value % Pow256(GetIndexSize(indexBuffer.format))]
    {
      indexBuffer.SetIndex(offset + index, value);
    }

    /** `SetRange`: forwards to the buffer at offset + the view offset. */
    method SetRange(at: nat, data: seq<nat>)
      requires indexBuffer != null && !IsEmpty() && at + |data| <= count && Valid()
      requires forall i :: 0 <= i < |data| ==> data[i] < U32_MOD
      modifies indexBuffer
      ensures Valid()
      ensures indexBuffer.Indices() == old(indexBuffer.Indices())[..offset + at]
        + seq(|data|, i requires 0 <= i < |data| => data[i] % Pow256(GetIndexSize(indexBuffer.format)))
        + old(indexBuffer.Indices())[offset + at + |data|..]
    {
      indexBuffer.SetRange(offset + at, data);
    }
  }
}

=== FILE: bytes.dfy ===
/**
 * Byte vectors as the engine's buffers hold them (`std::vector<uint8_t>`):
 * resizing, the grow-only `testAndResize`, overwriting a range, and the
 * little-endian encoding of the 16- and 32-bit integers stored in them.
 */
module Bytes {

  newtype byte = x: int | 0 <= x < 256

  const U16_MOD: nat := 0x1_0000
  const U32_MOD: nat := 0x1_0000_0000

  function Max(a: nat, b: nat): nat { if a < b then b else a }

  function Zeros(n: nat): (r: seq<byte>)
    ensures |r| == n
    ensures forall i :: 0 <= i < n ==> r[i] == 0
  {
    seq(n, _ => 0)
  }

  /** `std::vector::resize(n)`: keeps the first n bytes, pads with zero bytes. */
  function Resized(data: seq<byte>, n: nat): (r: seq<byte>)
    ensures |r| == n
    ensures forall i :: 0 <= i < n && i < |data| ==> r[i] == data[i]
    ensures forall i :: |data| <= i < n ==> r[i] == 0
  {
    if n <= |data| then data[..n] else data + Zeros(n - |data|)
  }

  /** `details::testAndResize`: the vector only ever grows, and only when asked for more. */
  function Grown(data: seq<byte>, reqSize: nat): (r: seq<byte>)
    ensures |r| == Max(|data|, reqSize)
    ensures |r| >= |data| && r[..|data|] == data
    ensures reqSize <= |data| ==> r == data
    ensures forall i :: |data| <= i < |r| ==> r[i] == 0
  {
    if reqSize > |data| then Resized(data, reqSize) else data
  }

  /** `std::copy(src, dst.begin() + at)` into a vector already large enough. */
  function Overwrite(data: seq<byte>, at: nat, src: seq<byte>): (r: seq<byte>)
    requires at + |src| <= |data|
    ensures |r| == |data|
    ensures r[at..at + |src|] == src
    ensures forall i :: 0 <= i < |data| && !(at <= i < at + |src|) ==> r[i] == data[i]
  {
    data[..at] + src + data[at + |src|..]
  }

  /** Grow to hold [at, at+|src|) and copy `src` there: the write every view performs. */
  function WriteAt(data: seq<byte>, at: nat, src: seq<byte>): (r: seq<byte>)
  {
    Overwrite(Grown(data, at + |src|), at, src)
  }

  /** A write leaves its bytes readable at [at, at+|src|) and nothing else changed but zero padding. */
  lemma WriteAtEffect(data: seq<byte>, at: nat, src: seq<byte>)
    ensures |WriteAt(data, at, src)| == Max(|data|, at + |src|)
    ensures WriteAt(data, at, src)[at..at + |src|] == src
    ensures forall i :: 0 <= i < |data| && !(at <= i < at + |src|) ==> WriteAt(data, at, src)[i] == data[i]
    ensures forall i :: |data| <= i < |WriteAt(data, at, src)| && !(at <= i < at + |src|) ==> WriteAt(data, at, src)[i] == 0
  {
  }

  function Pow256(n: nat): (r: nat)
    ensures r > 0
  {
    if n == 0 then 1 else 256 * Pow256(n - 1)
  }

  /** The `width` low-order bytes of v, least significant first (a little-endian store). */
  function EncodeLE(v: nat, width: nat): (r: seq<byte>)
    ensures |r| == width
  {
    if width == 0 then [] else [(v % 256) as byte] + EncodeLE(v / 256, width - 1)
  }

  /** The unsigned integer a little-endian load of these bytes gives. */
  function DecodeLE(s: seq<byte>): (r: nat)
    ensures r < Pow256(|s|)
  {
    if s == [] then 0 else s[0] as nat + 256 * DecodeLE(s[1..])
  }

  lemma ModUnique(v: nat, d: nat, q: nat, r: nat)
    requires d > 0 && v == d * q + r && r < d
    ensures v % d == r && v / d == q
  {
    var q0, r0 := v / d, v % d;
    assert d * q0 + r0 == d * q + r;
    assert d * (q0 - q) == r - r0;
    if q0 > q {
      MulAtLeast(d, q0 - q);
    } else if q0 < q {
      MulAtLeast(d, q - q0);
    }
  }

  /** The quotient q = v / d is the one with q*d <= v < (q+1)*d. */
  /** Integer division of naturals, characterised by its bounds. */
  function Quotient(v: nat, d: nat): (q: nat)
    requires d > 0
    ensures q * d <= v < (q + 1) * d
  {
    DivBounds(v, d);
    v / d
  }

  lemma DivBounds(v: nat, d: nat)
    requires d > 0
    ensures 0 <= v / d
    ensures (v / d) * d <= v < (v / d + 1) * d
  {
    var q, r := v / d, v % d;
    assert v == d * q + r;
    assert (q + 1) * d == q * d + d;
  }

  lemma MulAtLeast(d: nat, k: int)
    requires k >= 1
    ensures d * k >= d
  {
    assert d * k == d * (k - 1) + d;
  }

  /** Splitting off the lowest byte: v mod 256m = v mod 256 + 256 * ((v div 256) mod m). */
  lemma ModSplit(v: nat, m: nat)
    requires m > 0
    ensures v % (256 * m) == v % 256 + 256 * ((v / 256) % m)
  {
    var q, r := v / 256, v % 256;
    var q2, r2 := q / m, q % m;
    assert q == m * q2 + r2;
    assert v == 256 * q + r;
    assert v == (256 * m) * q2 + (256 * r2 + r) by {
      calc {
        v;
        256 * q + r;
        256 * (m * q2 + r2) + r;
        (256 * m) * q2 + (256 * r2 + r);
      }
    }
    assert 256 * r2 + r < 256 * m by {
      assert r2 <= m - 1;
      assert 256 * r2 <= 256 * (m - 1);
    }
    ModUnique(v, 256 * m, q2, 256 * r2 + r);
  }

  /** A little-endian store of `width` bytes loads back as v modulo 2^(8*width). */
  lemma {:induction false} DecodeEncode(v: nat, width: nat)
    ensures DecodeLE(EncodeLE(v, width)) == v % Pow256(width)
  {
    if width > 0 {
      var e := EncodeLE(v, width);
      assert e[1..] == EncodeLE(v / 256, width - 1);
      DecodeEncode(v / 256, width - 1);
      ModSplit(v, Pow256(width - 1));
    }
  }

  /** The bytes a load reads are exactly what a store of the loaded value writes back. */
  lemma {:induction false} EncodeDecode(s: seq<byte>)
    ensures EncodeLE(DecodeLE(s), |s|) == s
  {
    if s != [] {
      var v := DecodeLE(s);
      assert v == s[0] as nat + 256 * DecodeLE(s[1..]);
      ModUnique(v, 256, DecodeLE(s[1..]), s[0] as nat);
      EncodeDecode(s[1..]);
    }
  }

  lemma Pow256Values()
    ensures Pow256(2) == U16_MOD && Pow256(4) == U32_MOD
  {
    assert Pow256(1) == 256;
    assert Pow256(3) == 256 * 65536;
  }

  /** A 16-bit store followed by a 16-bit load yields the value truncated to 16 bits. */
  lemma U16RoundTrip(v: nat)
    ensures DecodeLE(EncodeLE(v, 2)) == v % U16_MOD
  {
    DecodeEncode(v, 2);
    Pow256Values();
  }

  /** A 32-bit store followed by a 32-bit load yields the value, for every uint32_t. */
  lemma U32RoundTrip(v: nat)
    requires v < U32_MOD
    ensures DecodeLE(EncodeLE(v, 4)) == v
  {
    DecodeEncode(v, 4);
    Pow256Values();
  }

  /** Start byte of slot `index` when slots of `width` bytes follow `off`. */
  function SlotStart(off: nat, width: nat, index: nat): nat { off + index * width }

  /** The unsigned value held in slot `index` (a typed load at that slot). */
  function SlotAt(data: seq<byte>, off: nat, width: nat, index: nat): (v: nat)
    requires SlotStart(off, width, index) + width <= |data|
    ensures v < Pow256(width)
  {
    DecodeLE(data[SlotStart(off, width, index)..SlotStart(off, width, index) + width])
  }

  /** A typed store of `value` into slot `index`, growing the vector when needed. */
  function WriteSlot(data: seq<byte>, off: nat, width: nat, index: nat, value: nat): (r: seq<byte>)
  {
    WriteAt(data, SlotStart(off, width, index), EncodeLE(value, width))
  }

  /** Storing then loading a slot gives the value cut to the slot's width. */
  lemma SlotRoundTrip(data: seq<byte>, off: nat, width: nat, index: nat, value: nat)
    ensures SlotStart(off, width, index) + width <= |WriteSlot(data, off, width, index, value)|
    ensures SlotAt(WriteSlot(data, off, width, index, value), off, width, index) == value % Pow256(width)
  {
    var at := SlotStart(off, width, index);
    WriteAtEffect(data, at, EncodeLE(value, width));
    DecodeEncode(value, width);
  }

  lemma MulMono(a: nat, b: nat, w: nat)
    requires a <= b
    ensures a * w <= b * w
  {
    assert b * w == a * w + (b - a) * w;
  }

  /** `m_byteOffset + index * m_byteStride`, computed in uint32_t arithmetic. */
  function StructuredTarget(byteOffset: nat, index: nat, byteStride: nat): (t: nat)
    ensures t < U32_MOD
    ensures byteOffset + index * byteStride < U32_MOD ==> t == byteOffset + index * byteStride
  {
    (byteOffset + index * byteStride) % U32_MOD
  }

  /** Concatenation of the object representations of a span of elements. */
  function Flatten(values: seq<seq<byte>>): (r: seq<byte>)
  {
    if values == [] then [] else values[0] + Flatten(values[1..])
  }

  /** Bytes wholly before or after the written range keep their old values. */
  lemma WriteAtPreserves(data: seq<byte>, at: nat, src: seq<byte>, lo: nat, hi: nat)
    requires lo <= hi <= |data| && (hi <= at || at + |src| <= lo)
    ensures hi <= |WriteAt(data, at, src)|
    ensures WriteAt(data, at, src)[lo..hi] == data[lo..hi]
  {
    WriteAtEffect(data, at, src);
  }

  /** Storing into one slot leaves every other slot that already existed unchanged. */
  lemma SlotFrame(data: seq<byte>, off: nat, width: nat, index: nat, value: nat, j: nat)
    requires j != index && SlotStart(off, width, j) + width <= |data|
    ensures SlotStart(off, width, j) + width <= |WriteSlot(data, off, width, index, value)|
    ensures SlotAt(WriteSlot(data, off, width, index, value), off, width, j) == SlotAt(data, off, width, j)
  {
    var at := SlotStart(off, width, index);
    var js := SlotStart(off, width, j);
    if j < index {
      MulMono(j + 1, index, width);
      assert (j + 1) * width == j * width + width;
      assert js + width <= at;
    } else {
      MulMono(index + 1, j, width);
      assert (index + 1) * width == index * width + width;
      assert at + width <= js;
    }
    WriteAtPreserves(data, at, EncodeLE(value, width), js, js + width);
  }

  /**
   * A slot store: afterwards the slot exists and holds the value cut to the
   * slot's width, the vector never shrinks, and every other slot that existed
   * keeps its value.
   */
  lemma SlotWriteEffect(before: seq<byte>, off: nat, width: nat, index: nat, value: nat)
    ensures var after := WriteSlot(before, off, width, index, value);
      SlotStart(off, width, index) + width <= |after| && SlotAt(after, off, width, index) == value % Pow256(width) &&
      |after| >= |before| &&
      forall j :: j != index && SlotStart(off, width, j) + width <= |before| ==>
        SlotStart(off, width, j) + width <= |after| && SlotAt(after, off, width, j) == SlotAt(before, off, width, j)
  {
    SlotRoundTrip(before, off, width, index, value);
    WriteAtEffect(before, SlotStart(off, width, index), EncodeLE(value, width));
    forall j | j != index && SlotStart(off, width, j) + width <= |before|
      ensures SlotStart(off, width, j) + width <= |WriteSlot(before, off, width, index, value)|
      ensures SlotAt(WriteSlot(before, off, width, index, value), off, width, j) == SlotAt(before, off, width, j)
    {
      SlotFrame(before, off, width, index, value, j);
    }
  }
}

=== FILE: draw_packet.dfy ===
/**
 * The part of a `DrawPacket` the scene renderables fill in: either nothing
 * to draw, or a draw from a geometry set with a first index, an index count
 * and a vertex offset into the renderable's allocation.
 */
module Drawing {
  datatype DrawPacket =
    | NoDraw
    | DrawGeometrySet(indexOffset: nat, numIndices: nat, vertexOffset: nat)
}

=== FILE: forge_handles.dfy ===
/**
 * `RefHandle` (HPL2/core/include/graphics/ForgeHandles.h): the address of a GPU
 * resource shared between copies through a heap-allocated reference
 * counter; the last copy to let go frees the resource.
 *
 * Resources are modelled by number.  Each counter carries, as ghost state,
 * the multiset of handles it counts, so "the count equals the number of
 * handles holding it" (`Counted`) can be stated and kept.  `Free` calls into
 * the graphics API and is modelled by `TryFree` reporting that it ran.
 */
module ForgeHandles {
  import opened Wrappers

  /** `RefCounter`. */
  class RefCounter {
    /** `m_refCount`. */
    var refCount: nat
    /** The handles `refCount` counts, once per increment. */
    ghost var holders: multiset<RefHandle>

    constructor ()
      ensures refCount == 0 && holders == multiset{}
    {
      refCount := 0;
      holders := multiset{};
    }

    /** The count is exactly the number of handles holding this counter. */
    ghost predicate Counted()
      reads this
    {
      refCount == |holders|
    }
  }

  class RefHandle {
    /** `m_handle`: the resource, or none for a null handle. */
    var handle: Option<nat>
    /** `m_initialized`. */
    var initialized: bool
    /** `m_refCounter`. */
    var refCounter: RefCounter?

    /** A handle holding its counter and counted by it. */
    ghost predicate Holds()
      reads this, refCounter
    {
      refCounter != null && refCounter.Counted() && this in refCounter.holders
    }

    /** The default constructor: a null handle. */
    constructor ()
      ensures handle.None? && !initialized && refCounter == null
    {
      handle := None;
      initialized := false;
      refCounter := null;
    }

    /** `IsValid`: the handle points at a resource. */
    predicate IsValid()
      reads this
    {
      handle.Some?
    }

    /** Resource creation (`addResource`) stores the new resource into `m_handle` directly. */
    method SetResource(resource: nat)
      modifies this
      ensures handle == Some(resource) && initialized == old(initialized) && refCounter == old(refCounter)
    {
      handle := Some(resource);
    }

    /**
     * `Initialize`: a non-null handle not yet initialised gets a new
     * counter holding one reference (asserting it had none); any other
     * handle is left as it is.
     */
    method Initialize()
      requires !initialized && handle.Some? ==> refCounter == null
      modifies this
      ensures handle == old(handle)
      ensures old(!initialized && handle.Some?) ==>
        initialized && fresh(refCounter) && refCounter.refCount == 1 && refCounter.holders == multiset{this} && Holds()
      ensures !old(!initialized && handle.Some?) ==> initialized == old(initialized) && refCounter == old(refCounter)
    {
      if !initialized && handle.Some? {
        var counter := new RefCounter();
        counter.refCount := counter.refCount + 1;
        counter.holders := multiset{this};
        refCounter := counter;
        initialized := true;
      }
    }

    /**
     * `TryFree`: nothing for a null handle.  Otherwise (the counter is
     * asserted to exist and be positive) one reference is dropped, the
     * resource is freed exactly when that was the last one, and the handle
     * becomes null and uninitialised.
     */
    method TryFree() returns (freed: bool)
      requires handle.Some? ==> Holds()
      modifies this, refCounter
      ensures freed <==> old(handle).Some? && old(refCounter.refCount) == 1
      ensures old(handle).None? ==> initialized == old(initialized) && refCounter == old(refCounter) && handle.None?
      ensures old(handle).None? && refCounter != null ==> unchanged(refCounter)
      ensures old(handle).Some? ==>
        handle.None? && !initialized && refCounter == null &&
        old(refCounter).refCount == old(refCounter.refCount) - 1 &&
        old(refCounter).holders == old(refCounter.holders) - multiset{this} && old(refCounter).Counted()
    {
      freed := false;
      if handle.None? {
        return;
      }
      refCounter.refCount := refCounter.refCount - 1;
      refCounter.holders := refCounter.holders - multiset{this};
      if refCounter.refCount == 0 {
        freed := true;
      }
      handle := None;
      initialized := false;
      refCounter := null;
    }

    /** The copy constructor: shares the handle and counter, adding a reference when initialised. */
    constructor Copy(other: RefHandle)
      requires other.initialized ==> other.Holds()
      modifies other.refCounter
      ensures handle == other.handle && initialized == other.initialized && refCounter == other.refCounter
      ensures other.initialized ==>
        Holds() && other.Holds() && refCounter.refCount == old(other.refCounter.refCount) + 1
    {
      handle := other.handle;
      refCounter := other.refCounter;
      initialized := other.initialized;
      new;
      if initialized {
        refCounter.refCount := refCounter.refCount + 1;
        refCounter.holders := refCounter.holders + multiset{this};
      }
    }

    /** The move constructor: takes handle, counter and flag; the source is left null and uninitialised. */
    constructor Move(other: RefHandle)
      requires other.refCounter != null ==> other.Holds()
      modifies other, other.refCounter
      ensures handle == old(other.handle) && initialized == old(other.initialized) && refCounter == old(other.refCounter)
      ensures refCounter != null ==> Holds() && refCounter.refCount == old(other.refCounter.refCount)
      ensures other.handle.None? && !other.initialized && other.refCounter == null
    {
      handle := other.handle;
      refCounter := other.refCounter;
      initialized := other.initialized;
      new;
      if refCounter != null {
        refCounter.holders := refCounter.holders - multiset{other} + multiset{this};
      }
      other.handle := None;
      other.refCounter := null;
      other.initialized := false;
    }

    /**
     * Copy assignment as written: the handle takes the other's handle and
     * counter and adds a reference, but never lets go of the reference it
     * held before, which stays counted although nothing holds it any more.
     */
    method AssignCopyAsWritten(other: RefHandle)
      requires other.initialized ==> other.Holds()
      modifies this, refCounter, other.refCounter
      ensures handle == old(other.handle) && initialized == old(other.initialized) && refCounter == old(other.refCounter)
      ensures old(other.initialized) ==>
        refCounter.refCount == old(other.refCounter.refCount) + 1 && Holds() && other.Holds() &&
        refCounter.holders == old(other.refCounter.holders) + multiset{this}
      ensures old(refCounter) != null && old(refCounter) != refCounter ==>
        old(refCounter).refCount == old(refCounter.refCount) &&
        old(refCounter).holders == old(refCounter.holders) - multiset{this}
    {
      ghost var previous := refCounter;
      handle := other.handle;
      refCounter := other.refCounter;
      initialized := other.initialized;
      if initialized {
        refCounter.refCount := refCounter.refCount + 1;
        refCounter.holders := refCounter.holders + multiset{this};
      }
      if previous != null && previous != refCounter {
        previous.holders := previous.holders - multiset{this};
      }
    }

    /**
     * Copy assignment releasing the reference held before (as move
     * assignment does), skipped for self-assignment.
     */
    method AssignCopy(other: RefHandle) returns (freed: bool)
      requires handle.Some? ==> Holds()
      requires other.initialized ==> other.Holds()
      modifies this, refCounter, other.refCounter
      ensures other == this ==> !freed && handle == old(handle) && refCounter == old(refCounter)
      ensures other != this ==>
        handle == old(other.handle) && initialized == old(other.initialized) && refCounter == old(other.refCounter)
      ensures other != this && old(other.initialized) ==> Holds() && other.Holds()
      ensures other != this && old(handle).Some? && old(refCounter) != old(other.refCounter) ==>
        old(refCounter).refCount == old(refCounter.refCount) - 1 && old(refCounter).Counted()
      ensures other != this && old(other.initialized) && (old(handle).None? || old(refCounter) != old(other.refCounter)) ==>
        refCounter.refCount == old(other.refCounter.refCount) + 1
      ensures freed <==> other != this && old(handle).Some? && old(refCounter.refCount) == 1
    {
      if other == this {
        return false;
      }
      ghost var shared := other.refCounter;
      freed := TryFree();
      assert other.refCounter == shared;
      if other.initialized {
        assert (old(shared.holders) - multiset{this})[other] == old(shared.holders)[other];
        assert other in shared.holders;
      }
      AssignCopyAsWritten(other);
    }

    /**
     * Move assignment as written: the current reference is released, the
     * other's handle and counter are taken, and the other is nulled, but
     * its initialised flag is left as it was.  Moving a handle into itself
     * releases its reference first and so leaves it null.
     */
    method AssignMoveAsWritten(other: RefHandle) returns (freed: bool)
      requires handle.Some? ==> Holds()
      requires other.refCounter != null ==> other.Holds()
      modifies this, refCounter, other, other.refCounter
      ensures freed <==> old(handle).Some? && old(refCounter.refCount) == 1
      ensures other != this ==>
        handle == old(other.handle) && initialized == old(other.initialized) && refCounter == old(other.refCounter)
      ensures other.handle.None? && other.refCounter == null
      ensures other != this ==> other.initialized == old(other.initialized)
      ensures other == this ==> initialized == (old(initialized) && old(handle).None?)
    {
      freed := TryFree();
      handle := other.handle;
      refCounter := other.refCounter;
      initialized := other.initialized;
      if refCounter != null {
        refCounter.holders := refCounter.holders - multiset{other} + multiset{this};
      }
      other.handle := None;
      other.refCounter := null;
    }

    /** Move assignment leaving the source uninitialised, as the move constructor does. */
    method AssignMove(other: RefHandle) returns (freed: bool)
      requires handle.Some? ==> Holds()
      requires other.refCounter != null ==> other.Holds()
      modifies this, refCounter, other, other.refCounter
      ensures freed <==> old(handle).Some? && old(refCounter.refCount) == 1
      ensures other != this ==>
        handle == old(other.handle) && initialized == old(other.initialized) && refCounter == old(other.refCounter)
      ensures other.handle.None? && other.refCounter == null && !other.initialized
    {
      freed := AssignMoveAsWritten(other);
      other.initialized := false;
    }
  }

  /** A handle to a new resource, initialised: its own counter holds one reference. */
  method NewInitialized(resource: nat) returns (h: RefHandle)
    ensures fresh(h) && fresh(h.refCounter)
    ensures h.handle == Some(resource) && h.initialized && h.Holds()
    ensures h.refCounter.refCount == 1 && h.refCounter.holders == multiset{h}
  {
    h := new RefHandle();
    h.SetResource(resource);
    h.Initialize();
  }

  /**
   * Two handles to two resources; assigning the second to the first as
   * written and then dropping both frees the second resource, while the
   * first one's counter is left at 1 with no handle holding it: that
   * resource is never freed.
   */
  method CopyAssignLeaks() returns (lost: RefCounter, firstFreed: bool, secondFreed: bool)
    ensures lost.refCount == 1 && lost.holders == multiset{} && !lost.Counted()
    ensures !firstFreed && secondFreed
  {
    var a := NewInitialized(1);
    var b := NewInitialized(2);
    lost := a.refCounter;
    a.AssignCopyAsWritten(b);
    firstFreed, secondFreed := DropSharing(a, b);
  }

  /** Dropping two handles that share one counter frees the resource once, on the second drop. */
  method DropSharing(a: RefHandle, b: RefHandle) returns (firstFreed: bool, secondFreed: bool)
    requires a != b && a.refCounter == b.refCounter && a.refCounter != null
    requires a.handle.Some? && b.handle.Some?
    requires a.Holds() && b.Holds() && a.refCounter.refCount == 2
    modifies a, b, a.refCounter
    ensures !firstFreed && secondFreed
    ensures a.refCounter == null && b.refCounter == null
  {
    var shared := a.refCounter;
    firstFreed := a.TryFree();
    assert shared.refCount == 1 && b in shared.holders;
    secondFreed := b.TryFree();
  }

  /** The same sequence with the releasing copy assignment frees both resources. */
  method CopyAssignFreesBoth() returns (first: RefCounter, firstFreed: bool, secondFreed: bool, lastFreed: bool)
    ensures first.refCount == 0 && first.Counted()
    ensures firstFreed && !secondFreed && lastFreed
  {
    var a := NewInitialized(1);
    var b := NewInitialized(2);
    first := a.refCounter;
    firstFreed := a.AssignCopy(b);
    assert first.refCount == 0 && first.Counted();
    secondFreed, lastFreed := DropSharing(a, b);
  }

  /**
   * After move assignment as written, the moved-from handle claims to be
   * initialised without a counter: copying it trips the copy constructor's
   * "RefCounter is null" assertion.  With the corrected move it can be
   * copied.
   */
  method MovedFromCopyFails() returns (source: RefHandle, fixedSource: RefHandle)
    ensures !(source.initialized ==> source.Holds())
    ensures fixedSource.initialized ==> fixedSource.Holds()
  {
    var a := new RefHandle();
    source := NewInitialized(7);
    var _ := a.AssignMoveAsWritten(source);
    var c := new RefHandle();
    fixedSource := NewInitialized(8);
    var _ := c.AssignMove(fixedSource);
  }
}

=== FILE: forge_texture.dfy ===
/**
 * `ForgeTextureHandle` (HPL2/core/sources/graphics/ForgeHandles.cpp): the
 * mapping from the engine's pixel formats to The Forge's image formats, and
 * the texture descriptions `LoadFromHPLBitmap` and
 * `CreateCubemapFromHPLBitmaps` build from bitmaps.  The texel copies are
 * left out; which bitmap image lands in which cube face is modelled.
 */
module ForgeTexture {
  import opened Wrappers
  import opened Image
  import opened ForgeHandles

  /** The `TinyImageFormat` values the mapping produces. */
  datatype TinyImageFormat =
    | A8Unorm | R8Unorm | R8G8Unorm | R8G8B8Unorm | R8G8B8A8Unorm | B8G8R8A8Unorm | B8G8R8Unorm
    | Dxbc1RgbaUnorm | Dxbc2Unorm | Dxbc3Unorm | Dxbc4Unorm | Dxbc5Unorm
    | D16Unorm | D24UnormS8Uint | D32Sfloat
    | R16Unorm | R16G16Unorm | R16G16B16Unorm | R16G16B16A16Unorm
    | R32Sfloat | R32G32Sfloat | R32G32B32A32Sfloat
    | Undefined

  /**
   * `FromHPLPixelFormat` as written: DXTn is sent to BCn, although DXT3 is
   * stored as BC2 and DXT4 and DXT5 as BC3 (BC4 and BC5 are one- and
   * two-channel formats); RGB32 has no case and falls to UNDEFINED.
   */
  function FromHPLPixelFormatAsWritten(p: PixelFormat): (f: TinyImageFormat)
    ensures p !in {DXT2, DXT3, DXT4, DXT5} ==> f == FromHPLPixelFormat(p)
    ensures p == DXT2 ==> f == Dxbc2Unorm
    ensures p == DXT3 ==> f == Dxbc3Unorm
    ensures p == DXT4 ==> f == Dxbc4Unorm
    ensures p == DXT5 ==> f == Dxbc5Unorm
  {
    match p
    case DXT2 => Dxbc2Unorm
    case DXT3 => Dxbc3Unorm
    case DXT4 => Dxbc4Unorm
    case DXT5 => Dxbc5Unorm
    case _ => FromHPLPixelFormat(p)
  }

  /** `FromHPLPixelFormat` with the DXT encodings mapped as `Image::FromHPLTextureFormat` maps them. */
  function FromHPLPixelFormat(p: PixelFormat): (f: TinyImageFormat)
    ensures f == Undefined <==> p in {RGB32, PixelFormatLastEnum}
    ensures p in {DXT2, DXT3} <==> f == Dxbc2Unorm
    ensures p in {DXT4, DXT5} <==> f == Dxbc3Unorm
  {
    match p
    case Alpha => A8Unorm
    case Luminance => R8Unorm
    case LuminanceAlpha => R8G8Unorm
    case RGB => R8G8B8Unorm
    case RGBA => R8G8B8A8Unorm
    case BGRA => B8G8R8A8Unorm
    case DXT1 => Dxbc1RgbaUnorm
    case DXT2 => Dxbc2Unorm
    case DXT3 => Dxbc2Unorm
    case DXT4 => Dxbc3Unorm
    case DXT5 => Dxbc3Unorm
    case Depth16 => D16Unorm
    case Depth24 => D24UnormS8Uint
    case Depth32 => D32Sfloat
    case Alpha16 => R16Unorm
    case Luminance16 => R16Unorm
    case LuminanceAlpha16 => R16G16Unorm
    case RGBA16 => R16G16B16A16Unorm
    case Alpha32 => R32Sfloat
    case Luminance32 => R32Sfloat
    case LuminanceAlpha32 => R32G32Sfloat
    case RGBA32 => R32G32B32A32Sfloat
    case RGB16 => R16G16B16Unorm
    case BGR => B8G8R8Unorm
    case RGB32 => Undefined
    case PixelFormatLastEnum => Undefined
  }

  /**
   * The bgfx and The Forge formats that store texels the same way.  The
   * 16-bit formats are not related: bgfx used half floats, The Forge uses
   * normalised integers.
   */
  predicate SameEncoding(b: TextureFormat, t: TinyImageFormat)
  {
    match b
    case A8 => t == A8Unorm
    case R8 => t == R8Unorm
    case RG8 => t == R8G8Unorm
    case RGB8 => t == R8G8B8Unorm
    case RGBA8 => t == R8G8B8A8Unorm
    case BGRA8 => t == B8G8R8A8Unorm
    case BC1 => t == Dxbc1RgbaUnorm
    case BC2 => t == Dxbc2Unorm
    case BC3 => t == Dxbc3Unorm
    case D16 => t == D16Unorm
    case D24 => t == D24UnormS8Uint
    case D32 => t == D32Sfloat
    case R32F => t == R32Sfloat
    case RG32F => t == R32G32Sfloat
    case RGBA32F => t == R32G32B32A32Sfloat
    case _ => false
  }

  /** The 16-bit formats, where the two back ends deliberately differ. */
  predicate Wide16(p: PixelFormat)
  {
    p in {Alpha16, Luminance16, LuminanceAlpha16, RGBA16}
  }

  /**
   * Wherever the bgfx mapping supports a format (outside the 16-bit ones),
   * The Forge mapping stores it the same way; of the formats bgfx rejects,
   * only RGB32 stays unsupported.
   */
  lemma ForgeAgreesWithBgfx(p: PixelFormat)
    ensures FromHPLTextureFormat(p) != Unknown && !Wide16(p) ==> SameEncoding(FromHPLTextureFormat(p), FromHPLPixelFormat(p))
    ensures FromHPLTextureFormat(p) == Unknown ==> (FromHPLPixelFormat(p) == Undefined <==> p in {RGB32, PixelFormatLastEnum})
  {
  }

  /**
   * As written, DXT3, DXT4 and DXT5 textures get an encoding different from
   * the one their data is in, and DXT2 keeps the right one; the corrected
   * mapping agrees for all four.
   */
  lemma DxtMappedToWrongBlocks()
    ensures !SameEncoding(FromHPLTextureFormat(DXT3), FromHPLPixelFormatAsWritten(DXT3))
    ensures !SameEncoding(FromHPLTextureFormat(DXT4), FromHPLPixelFormatAsWritten(DXT4))
    ensures !SameEncoding(FromHPLTextureFormat(DXT5), FromHPLPixelFormatAsWritten(DXT5))
    ensures SameEncoding(FromHPLTextureFormat(DXT2), FromHPLPixelFormatAsWritten(DXT2))
    ensures forall p :: p in {DXT2, DXT3, DXT4, DXT5} ==> SameEncoding(FromHPLTextureFormat(p), FromHPLPixelFormat(p))
  {
  }

  // ---------------------------------------------------------- descriptions

  /** `BitmapLoadOptions`. */
  datatype BitmapLoadOptions = BitmapLoadOptions(useCubeMap: bool, useArray: bool, useMipmaps: bool)

  /** The fields of `TextureDesc` the loaders set; `cube` is the cube-texture descriptor bit. */
  datatype TextureDesc = TextureDesc(
    width: nat, height: nat, depth: nat, mipLevels: nat, arraySize: nat, cube: bool, format: TinyImageFormat)

  /** The assertions `LoadFromHPLBitmap` makes about a cube map's image count. */
  predicate CubeImagesOk(b: Bitmap, o: BitmapLoadOptions)
  {
    o.useCubeMap ==> if o.useArray then b.images % 6 == 0 else b.images == 6
  }

  /**
   * The description `LoadFromHPLBitmap` builds, as written: `mFormat` is
   * never assigned and stays UNDEFINED.
   */
  function LoadDescAsWritten(b: Bitmap, o: BitmapLoadOptions): (d: TextureDesc)
    requires CubeImagesOk(b, o)
    ensures d.format == Undefined
    ensures d.(format := FromHPLPixelFormat(b.format)) == LoadDesc(b, o)
  {
    LoadDesc(b, o).(format := Undefined)
  }

  /**
   * The description `LoadFromHPLBitmap` builds, with the format taken from
   * the bitmap as `CreateCubemapFromHPLBitmaps` does: the bitmap's size;
   * its mip count only when mipmaps are used; all its images for an array,
   * six faces for a plain cube map, otherwise one layer.
   */
  function LoadDesc(b: Bitmap, o: BitmapLoadOptions): (d: TextureDesc)
    requires CubeImagesOk(b, o)
    ensures d.width == b.width && d.height == b.height && d.depth == b.depth
    ensures d.mipLevels == if o.useMipmaps then b.mipMaps else 1
    ensures d.arraySize == if o.useArray then b.images else if o.useCubeMap then 6 else 1
    ensures d.cube == o.useCubeMap
    ensures d.cube ==> d.arraySize % 6 == 0 && d.arraySize == b.images
    ensures d.format == FromHPLPixelFormat(b.format)
  {
    var arraySize := if o.useArray then b.images else 1;
    var d := TextureDesc(b.width, b.height, b.depth, if o.useMipmaps then b.mipMaps else 1,
                         arraySize, false, FromHPLPixelFormat(b.format));
    if o.useCubeMap then
      d.(cube := true, arraySize := if o.useArray then b.images else 6)
    else d
  }

  /** As written, every loaded texture is described with no format, whatever the bitmap holds. */
  lemma LoadedFormatLost(b: Bitmap, o: BitmapLoadOptions)
    requires CubeImagesOk(b, o) && b.format !in {RGB32, PixelFormatLastEnum}
    ensures LoadDescAsWritten(b, o).format == Undefined != LoadDesc(b, o).format
  {
  }

  /** Six bitmaps, all of the first one's size. */
  predicate CubemapSized(bitmaps: seq<Bitmap>)
  {
    |bitmaps| == 6 &&
    forall k :: 0 <= k < 6 ==>
      bitmaps[k].width == bitmaps[0].width && bitmaps[k].height == bitmaps[0].height &&
      bitmaps[k].depth == bitmaps[0].depth
  }

  /**
   * The assertions of `CreateCubemapFromHPLBitmaps` as written: six bitmaps
   * of the first one's size, and mip counts checked only when mipmaps are
   * not used, so with mipmaps on the size is all that is checked.
   */
  predicate CubemapBitmapsOkAsWritten(bitmaps: seq<Bitmap>, useMipmaps: bool): (r: bool)
    ensures r ==> CubemapSized(bitmaps)
    ensures useMipmaps ==> (r <==> CubemapSized(bitmaps))
    ensures !useMipmaps ==> (r <==> CubemapSized(bitmaps) && forall k :: 0 <= k < 6 ==> bitmaps[k].mipMaps == 1)
  {
    |bitmaps| == 6 &&
    forall k :: 0 <= k < 6 ==>
      (useMipmaps || bitmaps[k].mipMaps == CubemapDescAsWritten(bitmaps[0], useMipmaps).mipLevels) &&
      bitmaps[k].width == bitmaps[0].width && bitmaps[k].height == bitmaps[0].height &&
      bitmaps[k].depth == bitmaps[0].depth
  }

  /**
   * The same assertions with the mip count checked when mipmaps are used, as
   * the message says: without mipmaps only the size is checked, and with
   * them every face has at least the mip levels the description asks for.
   */
  predicate CubemapBitmapsOk(bitmaps: seq<Bitmap>, useMipmaps: bool): (r: bool)
    ensures r ==> CubemapSized(bitmaps)
    ensures !useMipmaps ==> (r <==> CubemapSized(bitmaps))
    ensures r && useMipmaps ==> forall k :: 0 <= k < 6 ==> CubemapDesc(bitmaps[0], true).mipLevels <= bitmaps[k].mipMaps
  {
    |bitmaps| == 6 &&
    forall k :: 0 <= k < 6 ==>
      (!useMipmaps || bitmaps[k].mipMaps == bitmaps[0].mipMaps) &&
      bitmaps[k].width == bitmaps[0].width && bitmaps[k].height == bitmaps[0].height &&
      bitmaps[k].depth == bitmaps[0].depth
  }

  /** The description of a cube map built from six bitmaps: the first one's size, format and mips; six layers. */
  function CubemapDesc(first: Bitmap, useMipmaps: bool): (d: TextureDesc)
    ensures d.width == first.width && d.height == first.height && d.depth == first.depth
    ensures d.format == FromHPLPixelFormat(first.format)
    ensures d.mipLevels == if useMipmaps then first.mipMaps else 1
    ensures d.arraySize == 6 && d.cube
  {
    TextureDesc(first.width, first.height, first.depth, if useMipmaps then first.mipMaps else 1, 6, true,
                FromHPLPixelFormat(first.format))
  }

  /**
   * The description `CreateCubemapFromHPLBitmaps` builds as written: as
   * `CubemapDesc`, but with the format from the as-written mapping.
   */
  function CubemapDescAsWritten(first: Bitmap, useMipmaps: bool): (d: TextureDesc)
    ensures d.format == FromHPLPixelFormatAsWritten(first.format)
    ensures d.(format := FromHPLPixelFormat(first.format)) == CubemapDesc(first, useMipmaps)
    ensures first.format !in {DXT2, DXT3, DXT4, DXT5} ==> d == CubemapDesc(first, useMipmaps)
  {
    CubemapDesc(first, useMipmaps).(format := FromHPLPixelFormatAsWritten(first.format))
  }

  /**
   * As written, a cube map whose first bitmap is DXT3, DXT4 or DXT5 is
   * described with a block encoding its data is not in; the corrected
   * description keeps the encoding.
   */
  lemma CubemapDxtFormatWrong(first: Bitmap, useMipmaps: bool)
    requires first.format in {DXT3, DXT4, DXT5}
    ensures !SameEncoding(FromHPLTextureFormat(first.format), CubemapDescAsWritten(first, useMipmaps).format)
    ensures SameEncoding(FromHPLTextureFormat(first.format), CubemapDesc(first, useMipmaps).format)
  {
    DxtMappedToWrongBlocks();
  }

  /**
   * As written, with mipmaps on, a face with fewer mip levels than the
   * first passes the checks, and the upload then reads levels it lacks;
   * the corrected check refuses it, and whatever it accepts has every
   * level the upload reads.
   */
  lemma CubemapMipCheckInverted(bitmaps: seq<Bitmap>)
    requires |bitmaps| == 6 && bitmaps[0].mipMaps == 5 && bitmaps[1].mipMaps == 1
    requires forall k :: 0 <= k < 6 ==> bitmaps[k].width == bitmaps[0].width && bitmaps[k].height == bitmaps[0].height && bitmaps[k].depth == bitmaps[0].depth
    ensures CubemapBitmapsOkAsWritten(bitmaps, true) && !CubemapBitmapsOk(bitmaps, true)
    ensures bitmaps[1].mipMaps < CubemapDesc(bitmaps[0], true).mipLevels
  {
  }

  lemma CubemapMipCheckSound(bitmaps: seq<Bitmap>, useMipmaps: bool, k: nat)
    requires CubemapBitmapsOk(bitmaps, useMipmaps) && k < 6
    ensures useMipmaps ==> CubemapDesc(bitmaps[0], useMipmaps).mipLevels <= bitmaps[k].mipMaps
  {
  }

  // ---------------------------------------------------------------- uploads

  /**
   * The upload loops of `CreateCubemapFromHPLBitmaps` as written: for every
   * bitmap, every layer and every mip level, layer `arrIndex` receives the
   * bitmap's image `arrIndex`.  The result maps (layer, mip) to the
   * (bitmap, image) last written there.
   */
  method CubemapUploadsAsWritten(mipLevels: nat) returns (uploads: map<(nat, nat), (nat, nat)>)
    ensures forall layer, mip :: 0 <= layer < 6 && 0 <= mip < mipLevels ==>
      (layer, mip) in uploads && uploads[(layer, mip)] == (5, layer)
  {
    uploads := map[];
    var b := 0;
    while b < 6
      invariant 0 <= b <= 6
      invariant b > 0 ==> forall layer, mip :: 0 <= layer < 6 && 0 <= mip < mipLevels ==>
        (layer, mip) in uploads && uploads[(layer, mip)] == (b - 1, layer)
    {
      uploads := UploadBitmap(uploads, b, mipLevels, 6, true);
      b := b + 1;
    }
  }

  /**
   * One bitmap's pass over `layers` layers: each (layer, mip) gets image
   * `layer` of the bitmap when `imagePerLayer`, otherwise its image 0.
   */
  method UploadBitmap(uploads0: map<(nat, nat), (nat, nat)>, b: nat, mipLevels: nat, layers: nat, imagePerLayer: bool)
    returns (uploads: map<(nat, nat), (nat, nat)>)
    ensures forall layer, mip :: 0 <= layer < layers && 0 <= mip < mipLevels ==>
      (layer, mip) in uploads && uploads[(layer, mip)] == (b, if imagePerLayer then layer else 0)
    ensures forall key :: key in uploads0 && key.0 >= layers ==> key in uploads && uploads[key] == uploads0[key]
  {
    uploads := uploads0;
    var arrIndex := 0;
    while arrIndex < layers
      invariant 0 <= arrIndex <= layers
      invariant forall layer, mip :: 0 <= layer < arrIndex && 0 <= mip < mipLevels ==>
        (layer, mip) in uploads && uploads[(layer, mip)] == (b, if imagePerLayer then layer else 0)
      invariant forall key :: key in uploads0 && key.0 >= layers ==> key in uploads && uploads[key] == uploads0[key]
    {
      uploads := UploadLayer(uploads, b, arrIndex, mipLevels, if imagePerLayer then arrIndex else 0);
      arrIndex := arrIndex + 1;
    }
  }

  /** The `mipLevel` loop for one layer: every mip of that layer gets (bitmap, image); other layers keep theirs. */
  method UploadLayer(uploads0: map<(nat, nat), (nat, nat)>, b: nat, layer: nat, mipLevels: nat, image: nat)
    returns (uploads: map<(nat, nat), (nat, nat)>)
    ensures forall mip :: 0 <= mip < mipLevels ==> (layer, mip) in uploads && uploads[(layer, mip)] == (b, image)
    ensures forall key :: key in uploads0 && key.0 != layer ==> key in uploads && uploads[key] == uploads0[key]
  {
    uploads := uploads0;
    var mipLevel := 0;
    while mipLevel < mipLevels
      invariant 0 <= mipLevel <= mipLevels
      invariant forall mip :: 0 <= mip < mipLevel ==> (layer, mip) in uploads && uploads[(layer, mip)] == (b, image)
      invariant forall key :: key in uploads0 && key.0 != layer ==> key in uploads && uploads[key] == uploads0[key]
    {
      uploads := uploads[(layer, mipLevel) := (b, image)];
      mipLevel := mipLevel + 1;
    }
  }

  /** The intended uploads: face k takes the single image of bitmap k. */
  method CubemapUploads(mipLevels: nat) returns (uploads: map<(nat, nat), (nat, nat)>)
    ensures forall layer, mip :: 0 <= layer < 6 && 0 <= mip < mipLevels ==>
      (layer, mip) in uploads && uploads[(layer, mip)] == (layer, 0)
  {
    uploads := map[];
    var b := 0;
    while b < 6
      invariant 0 <= b <= 6
      invariant forall layer, mip :: 0 <= layer < b && 0 <= mip < mipLevels ==>
        (layer, mip) in uploads && uploads[(layer, mip)] == (layer, 0)
    {
      var single := UploadBitmap(map[], b, mipLevels, 1, false);
      uploads := ShiftLayer(uploads, single, b, mipLevels);
      b := b + 1;
    }
  }

  /** Copies layer 0 of `single` to layer `b` of `uploads`, keeping the other layers. */
  method ShiftLayer(uploads0: map<(nat, nat), (nat, nat)>, single: map<(nat, nat), (nat, nat)>, b: nat, mipLevels: nat)
    returns (uploads: map<(nat, nat), (nat, nat)>)
    requires forall mip :: 0 <= mip < mipLevels ==> (0, mip) in single && single[(0, mip)] == (b, 0)
    ensures forall mip :: 0 <= mip < mipLevels ==> (b, mip) in uploads && uploads[(b, mip)] == (b, 0)
    ensures forall key :: key in uploads0 && key.0 != b ==> key in uploads && uploads[key] == uploads0[key]
  {
    uploads := uploads0;
    var mip := 0;
    while mip < mipLevels
      invariant 0 <= mip <= mipLevels
      invariant forall m :: 0 <= m < mip ==> (b, m) in uploads && uploads[(b, m)] == (b, 0)
      invariant forall key :: key in uploads0 && key.0 != b ==> key in uploads && uploads[key] == uploads0[key]
    {
      uploads := uploads[(b, mip) := single[(0, mip)]];
      mip := mip + 1;
    }
  }

  // ---------------------------------------------------------------- loaders

  /**
   * `LoadFromHPLBitmap`'s handle: the new resource, initialised, so that
   * it owns a counter with one reference.
   */
  method LoadFromHPLBitmap(b: Bitmap, o: BitmapLoadOptions, resource: nat) returns (h: RefHandle, desc: TextureDesc)
    requires CubeImagesOk(b, o)
    ensures fresh(h) && h.handle == Some(resource) && h.initialized && h.Holds() && h.refCounter.refCount == 1
    ensures desc == LoadDesc(b, o)
  {
    desc := LoadDesc(b, o);
    h := new RefHandle();
    h.SetResource(resource);
    h.Initialize();
  }

  /**
   * `CreateCubemapFromHPLBitmaps` as written never initialises the handle
   * it returns: it points at the resource without a counter, so releasing
   * it fails `TryFree`'s assertion that a counter exists.
   */
  method CreateCubemapFromHPLBitmapsAsWritten(bitmaps: seq<Bitmap>, useMipmaps: bool, resource: nat) returns (h: RefHandle, desc: TextureDesc)
    requires CubemapBitmapsOkAsWritten(bitmaps, useMipmaps)
    ensures fresh(h) && h.handle == Some(resource) && !h.initialized && h.refCounter == null
    ensures !(h.handle.Some? ==> h.Holds())
    ensures desc == CubemapDescAsWritten(bitmaps[0], useMipmaps)
  {
    desc := CubemapDescAsWritten(bitmaps[0], useMipmaps);
    h := new RefHandle();
    h.SetResource(resource);
  }

  /** `CreateCubemapFromHPLBitmaps` initialising its handle as `LoadFromHPLBitmap` does. */
  method CreateCubemapFromHPLBitmaps(bitmaps: seq<Bitmap>, useMipmaps: bool, resource: nat) returns (h: RefHandle, desc: TextureDesc)
    requires CubemapBitmapsOk(bitmaps, useMipmaps)
    ensures fresh(h) && h.handle == Some(resource) && h.initialized && h.Holds() && h.refCounter.refCount == 1
    ensures desc == CubemapDesc(bitmaps[0], useMipmaps)
  {
    desc := CubemapDesc(bitmaps[0], useMipmaps);
    h := new RefHandle();
    h.SetResource(resource);
    h.Initialize();
  }
}

=== FILE: graphics_buffer.dfy ===
/**
 * `GraphicsBuffer` (HPL2/include/graphics/GraphicsBuffer.h): a CPU-side byte
 * vector with three kinds of views over it — raw bytes, 16/32-bit indices and
 * fixed-stride structured elements.  Every view refers to the buffer
 * and a byte offset; writes grow the vector as needed.
 *
 * Only the `ResourceBuffer` kind is modelled: a `MappedBuffer` writes into
 * memory owned by the graphics API.
 */
module GraphicsBuffer {
  import opened Bytes

  datatype IndexBufferType = Uint16 | Uint32

  /** sizeof(uint16_t) or sizeof(uint32_t). */
  function IndexWidth(t: IndexBufferType): (w: nat)
    ensures w == 2 || w == 4
    ensures Pow256(w) == if t == Uint16 then U16_MOD else U32_MOD
  {
    Pow256Values();
    match t
    case Uint16 => 2
    case Uint32 => 4
  }

  /** What a `uint32_t` becomes once stored in an index slot (`uint16_t v = value` truncates). */
  function StoredIndex(t: IndexBufferType, value: nat): nat
  {
    if t == Uint16 then value % U16_MOD else value
  }

  /**
   * An index store into slot `index` of a byte vector: the slot reads back
   * the stored index, the vector never shrinks, and every other slot that
   * existed keeps its index.
   */
  lemma IndexWriteEffect(before: seq<byte>, off: nat, t: IndexBufferType, index: nat, value: nat)
    requires value < U32_MOD
    ensures var w := IndexWidth(t);
      var after := WriteSlot(before, off, w, index, value);
      SlotStart(off, w, index) + w <= |after| && SlotAt(after, off, w, index) == StoredIndex(t, value) &&
      |after| >= |before| &&
      forall j :: j != index && SlotStart(off, w, j) + w <= |before| ==>
        SlotStart(off, w, j) + w <= |after| && SlotAt(after, off, w, j) == SlotAt(before, off, w, j)
  {
    var w := IndexWidth(t);
    assert value % Pow256(w) == StoredIndex(t, value);
    SlotWriteEffect(before, off, w, index, value);
  }

  class GraphicsBuffer {
    var buffer: seq<byte>

    constructor ()
      ensures buffer == []
    {
      buffer := [];
    }

    /** `CreateViewRaw`. */
    method CreateViewRaw(byteOffset: nat) returns (v: BufferRawView)
      requires byteOffset < U32_MOD
      ensures fresh(v) && v.asset == this && v.byteOffset == byteOffset
    {
      v := new BufferRawView(this, byteOffset);
    }

    /** `CreateIndexView`; the source defaults the type to Uint32. */
    method CreateIndexView(byteOffset: nat, t: IndexBufferType) returns (v: BufferIndexView)
      requires byteOffset < U32_MOD
      ensures fresh(v) && v.asset == this && v.byteOffset == byteOffset && v.indexType == t
    {
      v := new BufferIndexView(this, byteOffset, t);
    }

    /** `CreateStructuredView<T>`: a stride of 0 means sizeof(T). */
    method CreateStructuredView(byteOffset: nat, byteStride: nat, elemSize: nat) returns (v: BufferStructuredView)
      requires byteOffset < U32_MOD && byteStride < U32_MOD && 0 < elemSize < U32_MOD
      requires byteStride == 0 || byteStride >= elemSize
      ensures fresh(v) && v.asset == this && v.byteOffset == byteOffset && v.elemSize == elemSize
      ensures v.byteStride == if byteStride == 0 then elemSize else byteStride
    {
      v := new BufferStructuredView(this, byteOffset, if byteStride == 0 then elemSize else byteStride, elemSize);
    }
  }

  class BufferRawView {
    const asset: GraphicsBuffer
    const byteOffset: nat

    constructor (asset: GraphicsBuffer, byteOffset: nat)
      requires byteOffset < U32_MOD
      ensures this.asset == asset && this.byteOffset == byteOffset
    {
      this.asset := asset;
      this.byteOffset := byteOffset;
    }

    /**
     * `WriteRaw`: grows the buffer to reach the end of the write, then copies.
     * The resize adds the two offsets as uint32_t but the copy adds them to an
     * iterator, so the two agree only when the sum stays below 2^32.
     */
    method WriteRaw(offset: nat, data: seq<byte>)
      requires byteOffset + offset < U32_MOD
      modifies asset
      ensures asset.buffer == WriteAt(old(asset.buffer), byteOffset + offset, data)
      ensures var at := byteOffset + offset;
        |asset.buffer| == Max(|old(asset.buffer)|, at + |data|) &&
        asset.buffer[at..at + |data|] == data &&
        forall i :: 0 <= i < |old(asset.buffer)| && !(at <= i < at + |data|) ==> asset.buffer[i] == old(asset.buffer)[i]
    {
      var at := byteOffset + offset;
      WriteAtEffect(asset.buffer, at, data);
      asset.buffer := WriteAt(asset.buffer, at, data);
    }

    /** `NumBytes`: the bytes from the view's start to the end, as a uint32_t difference. */
    function NumBytes(): (n: nat)
      reads asset
      ensures n < U32_MOD
      ensures byteOffset <= |asset.buffer| < U32_MOD ==> byteOffset + n == |asset.buffer|
    {
      (|asset.buffer| - byteOffset) % U32_MOD
    }
  }

  class BufferIndexView {
    const asset: GraphicsBuffer
    const byteOffset: nat
    const indexType: IndexBufferType

    constructor (asset: GraphicsBuffer, byteOffset: nat, t: IndexBufferType)
      requires byteOffset < U32_MOD
      ensures this.asset == asset && this.byteOffset == byteOffset && indexType == t
    {
      this.asset := asset;
      this.byteOffset := byteOffset;
      indexType := t;
    }

    /** Whether slot `index` lies wholly inside the buffer. */
    predicate HasSlot(index: nat)
      reads asset
    {
      SlotStart(byteOffset, IndexWidth(indexType), index) + IndexWidth(indexType) <= |asset.buffer|
    }

    /** `ResizeElements`: the buffer ends exactly after `n` slots. */
    method ResizeElements(n: nat)
      modifies asset
      ensures asset.buffer == Resized(old(asset.buffer), byteOffset + n * IndexWidth(indexType))
      ensures forall k :: 0 <= k < n ==> HasSlot(k)
      ensures !HasSlot(n)
    {
      asset.buffer := Resized(asset.buffer, byteOffset + n * IndexWidth(indexType));
      forall k | 0 <= k < n ensures HasSlot(k) {
        MulMono(k + 1, n, IndexWidth(indexType));
      }
    }

    /** `Get`: the index stored in slot `index`, zero-extended to 32 bits. */
    function Get(index: nat): (v: nat)
      reads asset
      requires HasSlot(index)
      ensures v < U32_MOD
      ensures indexType == Uint16 ==> v < U16_MOD
    {
      SlotAt(asset.buffer, byteOffset, IndexWidth(indexType), index)
    }

    /**
     * `Write`: stores `value` in slot `index`, growing the buffer when the slot
     * is past its end.  Reading the slot back gives the value (truncated to 16
     * bits for Uint16), and every other existing slot keeps its index.
     */
    method Write(index: nat, value: nat)
      requires value < U32_MOD
      modifies asset
      ensures asset.buffer == WriteSlot(old(asset.buffer), byteOffset, IndexWidth(indexType), index, value)
      ensures HasSlot(index) && Get(index) == StoredIndex(indexType, value)
      ensures forall j :: j != index && old(HasSlot(j)) ==> HasSlot(j) && Get(j) == old(Get(j))
      ensures |asset.buffer| >= |old(asset.buffer)|
    {
      IndexWriteEffect(asset.buffer, byteOffset, indexType, index, value);
      asset.buffer := WriteSlot(asset.buffer, byteOffset, IndexWidth(indexType), index, value);
    }
  }

  class BufferStructuredView {
    const asset: GraphicsBuffer
    const byteOffset: nat
    const byteStride: nat
    /** sizeof(T) of the element type. */
    const elemSize: nat

    constructor (asset: GraphicsBuffer, byteOffset: nat, byteStride: nat, elemSize: nat)
      requires byteOffset < U32_MOD && byteStride < U32_MOD && 0 < elemSize <= byteStride
      ensures this.asset == asset && this.byteOffset == byteOffset
      ensures this.byteStride == byteStride && this.elemSize == elemSize
      ensures Valid()
    {
      this.asset := asset;
      this.byteOffset := byteOffset;
      this.byteStride := byteStride;
      this.elemSize := elemSize;
    }

    /** The constructor's ASSERT: the stride holds at least one element. */
    predicate Valid()
    {
      0 < elemSize <= byteStride && byteOffset < U32_MOD && byteStride < U32_MOD
    }

    predicate HasElement(index: nat)
      reads asset
    {
      StructuredTarget(byteOffset, index, byteStride) + elemSize <= |asset.buffer|
    }

    /** `NumBytes() / m_byteStride`. */
    function NumElements(): (n: nat)
      reads asset
      requires Valid()
      ensures byteOffset <= |asset.buffer| < U32_MOD ==> n * byteStride <= |asset.buffer| - byteOffset < (n + 1) * byteStride
    {
      ((|asset.buffer| - byteOffset) % U32_MOD) / byteStride
    }

    /** `Get`: the object representation of element `index`. */
    function Get(index: nat): (e: seq<byte>)
      reads asset
      requires HasElement(index)
      ensures |e| == elemSize
    {
      var at := StructuredTarget(byteOffset, index, byteStride);
      asset.buffer[at..at + elemSize]
    }

    /**
     * `Write(index, value)`: copies sizeof(T) bytes to the element's slot,
     * growing the buffer when needed; only those bytes change.
     */
    method Write(index: nat, value: seq<byte>)
      requires Valid() && |value| == elemSize
      modifies asset
      ensures asset.buffer == WriteAt(old(asset.buffer), StructuredTarget(byteOffset, index, byteStride), value)
      ensures HasElement(index) && Get(index) == value
      ensures var at := StructuredTarget(byteOffset, index, byteStride);
        forall i :: 0 <= i < |old(asset.buffer)| && !(at <= i < at + elemSize) ==> asset.buffer[i] == old(asset.buffer)[i]
    {
      var at := StructuredTarget(byteOffset, index, byteStride);
      WriteAtEffect(asset.buffer, at, value);
      asset.buffer := WriteAt(asset.buffer, at, value);
    }

    /**
     * `Write(index, span)` as the header writes it: the span's bytes are copied
     * contiguously from element `index`, i.e. at sizeof(T) apart, whatever the stride.
     */
    method WriteSpan(index: nat, values: seq<seq<byte>>)
      requires Valid()
      modifies asset
      ensures asset.buffer == WriteAt(old(asset.buffer), StructuredTarget(byteOffset, index, byteStride), Flatten(values))
    {
      asset.buffer := WriteAt(asset.buffer, StructuredTarget(byteOffset, index, byteStride), Flatten(values));
    }

    /**
     * The span write the single-element `Write` implies: element k of the span
     * lands in slot index+k, so each reads back with `Get`.
     */
    method WriteSpanStrided(index: nat, values: seq<seq<byte>>)
      requires Valid()
      requires forall k :: 0 <= k < |values| ==> |values[k]| == elemSize
      requires byteOffset + (index + |values|) * byteStride < U32_MOD
      modifies asset
      ensures forall i :: index <= i < index + |values| ==> HasElement(i) && Get(i) == values[i - index]
    {
      var k := 0;
      while k < |values|
        invariant 0 <= k <= |values|
        invariant StridedPrefix(asset.buffer, byteOffset, byteStride, elemSize, index, values, k)
      {
        StridedStep(asset.buffer, byteOffset, byteStride, elemSize, index, values, k);
        asset.buffer := WriteAt(asset.buffer, StructuredTarget(byteOffset, index + k, byteStride), values[k]);
        k := k + 1;
      }
      forall i | index <= i < index + |values|
        ensures HasElement(i) && Get(i) == values[i - index]
      {
        assert SlotHolds(asset.buffer, byteOffset, byteStride, elemSize, index + (i - index), values[i - index]);
      }
    }

    /** `ResizeElements`: the buffer ends after `n` strides (a uint32_t sum). */
    method ResizeElements(n: nat)
      requires Valid()
      modifies asset
      ensures asset.buffer == Resized(old(asset.buffer), (byteOffset + n * byteStride) % U32_MOD)
      ensures byteOffset + n * byteStride < U32_MOD ==> NumElements() == n
    {
      var size := (byteOffset + n * byteStride) % U32_MOD;
      asset.buffer := Resized(asset.buffer, size);
      if byteOffset + n * byteStride < U32_MOD {
        assert |asset.buffer| == size == byteOffset + n * byteStride;
        ResizedCount(byteOffset, n, byteStride);
      }
    }
  }

  /** After a resize to offset + n*stride the view counts exactly n elements. */
  lemma ResizedCount(off: nat, n: nat, stride: nat)
    requires stride > 0 && off + n * stride < U32_MOD
    ensures ((off + n * stride - off) % U32_MOD) / stride == n
  {
    assert off + n * stride - off == n * stride;
    ModUnique(n * stride, stride, n, 0);
  }

  /** Element slot `i` holds the bytes `v`. */
  ghost predicate SlotHolds(data: seq<byte>, off: nat, stride: nat, size: nat, i: nat, v: seq<byte>)
  {
    var at := StructuredTarget(off, i, stride);
    at + size <= |data| && data[at..at + size] == v
  }

  /** The first k elements of `values` sit in slots index .. index+k-1. */
  ghost predicate StridedPrefix(data: seq<byte>, off: nat, stride: nat, size: nat, index: nat, values: seq<seq<byte>>, k: nat)
  {
    k <= |values| &&
    forall m :: 0 <= m < k ==> SlotHolds(data, off, stride, size, index + m, values[m])
  }

  /** Writing element k into its slot extends the prefix without disturbing earlier slots. */
  lemma StridedStep(data: seq<byte>, off: nat, stride: nat, size: nat, index: nat, values: seq<seq<byte>>, k: nat)
    requires 0 < size <= stride && k < |values| && |values[k]| == size
    requires off + (index + |values|) * stride < U32_MOD
    requires StridedPrefix(data, off, stride, size, index, values, k)
    ensures StridedPrefix(WriteAt(data, StructuredTarget(off, index + k, stride), values[k]), off, stride, size, index, values, k + 1)
  {
    var at := StructuredTarget(off, index + k, stride);
    var r := WriteAt(data, at, values[k]);
    WriteAtEffect(data, at, values[k]);
    assert SlotHolds(r, off, stride, size, index + k, values[k]);
    forall m | 0 <= m < k
      ensures SlotHolds(r, off, stride, size, index + m, values[m])
    {
      var am := StructuredTarget(off, index + m, stride);
      assert SlotHolds(data, off, stride, size, index + m, values[m]);
      StrideGap(off, stride, size, index, m, k, |values|);
      WriteAtPreserves(data, at, values[k], am, am + size);
    }
  }

  /** Element `index + m` ends before element `index + k` starts, when nothing wraps. */
  lemma StrideGap(off: nat, stride: nat, size: nat, index: nat, m: nat, k: nat, count: nat)
    requires 0 < size <= stride && m < k < count && off + (index + count) * stride < U32_MOD
    ensures StructuredTarget(off, index + k, stride) == off + (index + k) * stride
    ensures StructuredTarget(off, index + m, stride) == off + (index + m) * stride
    ensures off + (index + m) * stride + size <= off + (index + k) * stride
  {
    MulMono(index + k, index + count, stride);
    MulMono(index + m, index + count, stride);
    MulMono(index + m + 1, index + k, stride);
    assert (index + m + 1) * stride == (index + m) * stride + stride;
  }

  /**
   * The packed span write does not put element 1 where `Get(1)` reads it once
   * the stride exceeds sizeof(T): over 16 zero bytes, with 4-byte elements
   * 8 bytes apart, writing [a, b] at element 0 puts b in the padding of
   * element 0 and leaves element 1 all zero.
   */
  lemma SpanWriteIgnoresStride()
    ensures var a, b := [1 as byte, 1, 1, 1], [2 as byte, 2, 2, 2];
      var data := WriteAt(Zeros(16), StructuredTarget(0, 0, 8), Flatten([a, b]));
      var at1 := StructuredTarget(0, 1, 8);
      |data| == 16 && at1 == 8 && data[at1..at1 + 4] == [0, 0, 0, 0] && data[at1..at1 + 4] != b && data[4..8] == b
  {
    var a, b := [1 as byte, 1, 1, 1], [2 as byte, 2, 2, 2];
    assert Flatten([a, b]) == a + b by {
      assert [a, b][1..] == [b];
      assert Flatten([b]) == b + Flatten([]);
    }
    var data := WriteAt(Zeros(16), 0, a + b);
    WriteAtEffect(Zeros(16), 0, a + b);
    assert data[8..12] == [0, 0, 0, 0];
  }
}

=== FILE: image.dfy ===
/**
 * `Image` (HPL2/core/sources/graphics/Image.cpp): the mapping from the
 * engine's pixel formats to bgfx texture formats, and `ImageDescriptor`,
 * the plain record a texture is created from.
 */
module Image {
  import opened Wrappers

  /** `ePixelFormat`; `PixelFormatLastEnum` stands for any value outside the named ones. */
  datatype PixelFormat =
    | Alpha | Luminance | LuminanceAlpha | RGB | RGBA | BGR | BGRA
    | DXT1 | DXT2 | DXT3 | DXT4 | DXT5
    | Depth16 | Depth24 | Depth32
    | Alpha16 | Luminance16 | LuminanceAlpha16 | RGB16 | RGBA16
    | Alpha32 | Luminance32 | LuminanceAlpha32 | RGB32 | RGBA32
    | PixelFormatLastEnum

  /** The `bgfx::TextureFormat` values the mapping produces. */
  datatype TextureFormat =
    | A8 | R8 | RG8 | RGB8 | RGBA8 | BGRA8 | BC1 | BC2 | BC3 | D16 | D24 | D32
    | R16F | RG16F | RGBA16F | R32F | RG32F | RGBA32F | Unknown

  /** The 16- and 32-bit single-channel formats: alpha and luminance data are stored alike. */
  predicate SingleChannelWide(p: PixelFormat)
  {
    p in {Alpha16, Luminance16, Alpha32, Luminance32}
  }

  /** `Image::FromHPLTextureFormat`. */
  function FromHPLTextureFormat(p: PixelFormat): (f: TextureFormat)
    ensures f == Unknown <==> p in {BGR, RGB16, RGB32, PixelFormatLastEnum}
    ensures p in {DXT2, DXT3} <==> f == BC2
    ensures p in {DXT4, DXT5} <==> f == BC3
  {
    match p
    case Alpha => A8
    case Luminance => R8
    case LuminanceAlpha => RG8
    case RGB => RGB8
    case RGBA => RGBA8
    case BGR => Unknown
    case BGRA => BGRA8
    case DXT1 => BC1
    case DXT2 => BC2
    case DXT3 => BC2
    case DXT4 => BC3
    case DXT5 => BC3
    case Depth16 => D16
    case Depth24 => D24
    case Depth32 => D32
    case Alpha16 => R16F
    case Luminance16 => R16F
    case LuminanceAlpha16 => RG16F
    case RGB16 => Unknown
    case RGBA16 => RGBA16F
    case Alpha32 => R32F
    case Luminance32 => R32F
    case LuminanceAlpha32 => RG32F
    case RGB32 => Unknown
    case RGBA32 => RGBA32F
    case PixelFormatLastEnum => Unknown
  }

  /**
   * Two supported pixel formats share a texture format only when they are
   * the premultiplied and plain variant of one DXT encoding, or alpha and
   * luminance of one width.
   */
  lemma FromHPLTextureFormatAliases(p: PixelFormat, q: PixelFormat)
    requires FromHPLTextureFormat(p) == FromHPLTextureFormat(q) != Unknown
    ensures p == q || {p, q} == {DXT2, DXT3} || {p, q} == {DXT4, DXT5}
      || (SingleChannelWide(p) && SingleChannelWide(q))
  {
  }

  /** What `cBitmap` reports about itself. */
  datatype Bitmap = Bitmap(width: nat, height: nat, depth: nat, mipMaps: nat, images: nat, format: PixelFormat)

  /**
   * `ImageDescriptor`.  `depth` is `None` where the descriptor keeps the
   * in-class initial value of `m_depth` (the header is not part of this
   * model); `name` is `m_name`.
   */
  datatype ImageDescriptor = ImageDescriptor(
    width: nat, height: nat, depth: Option<nat>, arraySize: nat, hasMipMaps: bool,
    format: TextureFormat, name: Option<string>)

  /** The default descriptor: empty, one array layer, no mips, unknown format. */
  function DefaultDescriptor(): (d: ImageDescriptor)
    ensures d.width == 0 && d.height == 0 && d.arraySize == 1 && !d.hasMipMaps && d.format == Unknown
    ensures d.depth.None? && d.name.None?
  {
    ImageDescriptor(0, 0, None, 1, false, Unknown, None)
  }

  /**
   * The copy constructor as written: width, height, array size, mips and
   * format are copied, while the depth and name fall back to their initial
   * values.
   */
  function CopyDescriptorAsWritten(d: ImageDescriptor): (r: ImageDescriptor)
    ensures r.width == d.width && r.height == d.height && r.arraySize == d.arraySize
    ensures r.hasMipMaps == d.hasMipMaps && r.format == d.format
    ensures r.depth.None? && r.name.None?
  {
    DefaultDescriptor().(width := d.width, height := d.height, arraySize := d.arraySize,
                         hasMipMaps := d.hasMipMaps, format := d.format)
  }

  /** A copy that keeps every field. */
  function CopyDescriptor(d: ImageDescriptor): (r: ImageDescriptor)
    ensures r == d
  {
    d
  }

  /** Copying a 3D descriptor as written loses its depth (and a named one its name). */
  lemma CopyLosesDepth(d: ImageDescriptor)
    requires d.depth.Some? || d.name.Some?
    ensures CopyDescriptorAsWritten(d) != d
    ensures CopyDescriptor(d) == d
  {
  }

  /**
   * `CreateFromBitmap`: asserts the bitmap holds one image; takes its size
   * and mapped format, and has mips exactly when the bitmap has more than one.
   */
  function CreateFromBitmap(b: Bitmap): (d: ImageDescriptor)
    requires b.images == 1
    ensures d.hasMipMaps <==> b.mipMaps > 1
    ensures d.format == FromHPLTextureFormat(b.format)
    ensures d.width == b.width && d.height == b.height && d.depth == Some(b.depth)
    ensures d.arraySize == 1 && d.name.None?
  {
    DefaultDescriptor().(format := FromHPLTextureFormat(b.format), width := b.width, height := b.height,
                         depth := Some(b.depth), hasMipMaps := b.mipMaps > 1)
  }

  /** The `uint16_t` parameters of the creators: wider values are truncated. */
  function AsUint16(v: nat): (r: nat)
    ensures r < 0x1_0000 && (v < 0x1_0000 ==> r == v)
  {
    v % 0x1_0000
  }

  /** `CreateTexture2D` (with or without a name): the given size, mips and format, one layer. */
  function CreateTexture2D(name: Option<string>, width: nat, height: nat, hasMipMaps: bool, format: TextureFormat): (d: ImageDescriptor)
    ensures d.width == AsUint16(width) && d.height == AsUint16(height)
    ensures d.hasMipMaps == hasMipMaps && d.format == format && d.name == name
    ensures d.arraySize == 1 && d.depth.None?
  {
    DefaultDescriptor().(width := AsUint16(width), height := AsUint16(height), hasMipMaps := hasMipMaps,
                         format := format, name := name)
  }

  /** `CreateTexture3D` (with or without a name): as 2D, plus the depth. */
  function CreateTexture3D(name: Option<string>, width: nat, height: nat, depth: nat, hasMipMaps: bool, format: TextureFormat): (d: ImageDescriptor)
    ensures d.width == AsUint16(width) && d.height == AsUint16(height) && d.depth == Some(AsUint16(depth))
    ensures d.hasMipMaps == hasMipMaps && d.format == format && d.name == name && d.arraySize == 1
  {
    CreateTexture2D(name, width, height, hasMipMaps, format).(depth := Some(AsUint16(depth)))
  }
}

=== FILE: index_patterns.dfy ===
/**
 * The index patterns the mesh builders emit, as pure sequences: the side
 * strip and the two caps of a cylinder-like mesh (`WrapSides`,
 * `WrapUpperCap`, `WrapLowerCap` in HPL2/sources/graphics/MeshUtility.cpp and
 * HPL2/sources/graphics/MeshCreator.cpp) and the two-triangle quad used for
 * box faces, particles, rope segments and billboards.  Vertex numbers are
 * `int`s in the source and are stored as `unsigned int`, hence `AsUint32`.
 */
module IndexPatterns {
  import opened Bytes

  /** Conversion of an `int` vertex number to the `uint32_t` an index slot holds. */
  function AsUint32(v: int): (r: nat)
    ensures r < U32_MOD
    ensures 0 <= v < U32_MOD ==> r == v
  {
    v % U32_MOD
  }

  /** The parts laid end to end. */
  function Concat(parts: seq<seq<int>>): (r: seq<int>)
  {
    if parts == [] then [] else Concat(parts[..|parts| - 1]) + parts[|parts| - 1]
  }

  predicate Uniform(parts: seq<seq<int>>, width: nat)
  {
    forall k :: 0 <= k < |parts| ==> |parts[k]| == width
  }

  /** Parts of equal width: part i, entry j sits at width*i + j. */
  lemma {:induction false} ConcatAt(parts: seq<seq<int>>, width: nat, i: nat, j: nat)
    requires Uniform(parts, width) && i < |parts| && j < width
    ensures |Concat(parts)| == width * |parts|
    ensures width * i + j < |Concat(parts)|
    ensures Concat(parts)[width * i + j] == parts[i][j]
  {
    var init := parts[..|parts| - 1];
    ConcatLength(parts, width);
    ConcatLength(init, width);
    assert width * |parts| == width * |init| + width;
    if i < |init| {
      ConcatAt(init, width, i, j);
    } else {
      assert width * i == width * |init|;
    }
  }

  lemma {:induction false} ConcatLength(parts: seq<seq<int>>, width: nat)
    requires Uniform(parts, width)
    ensures |Concat(parts)| == width * |parts|
  {
    if parts != [] {
      var init := parts[..|parts| - 1];
      ConcatLength(init, width);
      assert width * |parts| == width * |init| + width;
    }
  }

  /** Concatenating one part more appends it. */
  lemma ConcatSnoc(parts: seq<seq<int>>, i: nat)
    requires i < |parts|
    ensures Concat(parts[..i + 1]) == Concat(parts[..i]) + parts[i]
  {
    assert parts[..i + 1][..i] == parts[..i];
  }

  // ---------------------------------------------------------------- side strip

  /**
   * Quad i of the side strip between the ring starting at `start` and the
   * ring `sections` further on: two triangles p0,p2,p1 and p1,p2,p3.  The
   * last quad closes the ring back onto its first vertex.
   */
  function SideQuad(start: int, sections: int, i: int): (q: seq<int>)
    ensures |q| == 6
  {
    if i < sections - 1 then
      var p0 := start + i;
      [p0, p0 + sections, p0 + 1, p0 + 1, p0 + sections, p0 + sections + 1]
    else
      var p0 := start + sections - 1;
      [p0, p0 + sections, start, start, p0 + sections, p0 + 1]
  }

  /** Quads emitted: one per loop pass (sections-1 of them) plus the closing one. */
  function QuadCount(sections: int): (n: nat)
    ensures sections >= 1 ==> n == sections
  {
    if sections >= 1 then sections else 1
  }

  function SideQuads(start: int, sections: int): (parts: seq<seq<int>>)
    ensures |parts| == QuadCount(sections) && Uniform(parts, 6)
  {
    seq(QuadCount(sections), i requires 0 <= i < QuadCount(sections) => SideQuad(start, sections, i))
  }

  /** Every index `WrapSides` emits. */
  function SidesIndices(start: int, sections: int): (s: seq<int>)
  {
    Concat(SideQuads(start, sections))
  }

  /** `WrapSides` emits 6 indices per section, all naming a vertex of the two rings. */
  lemma SidesShape(start: int, sections: int)
    requires sections >= 1
    ensures |SidesIndices(start, sections)| == 6 * sections
    ensures forall k :: 0 <= k < 6 * sections ==>
      start <= SidesIndices(start, sections)[k] < start + 2 * sections
  {
    var parts := SideQuads(start, sections);
    ConcatLength(parts, 6);
    forall k | 0 <= k < 6 * sections
      ensures start <= SidesIndices(start, sections)[k] < start + 2 * sections
    {
      var i, j := k / 6, k % 6;
      ModUnique(k, 6, i, j);
      assert i < sections;
      ConcatAt(parts, 6, i, j);
    }
  }

  // ---------------------------------------------------------------------- caps

  /** Triangle i of the upper cap: the centre, then ring vertices i and i+1. */
  function UpperTri(center: int, start: int, sections: int, i: int): (t: seq<int>)
    ensures |t| == 3
  {
    if i < sections - 1 then [center, start + i, start + i + 1]
    else [center, start + sections - 1, start]
  }

  /** Triangle i of the lower cap. */
  function LowerTri(center: int, start: int, sections: int, i: int): (t: seq<int>)
    ensures |t| == 3
  {
    if i < sections - 1 then [center, start + i + 1, start + i]
    else [center, start, start + sections - 1]
  }

  function UpperTris(center: int, start: int, sections: int): (parts: seq<seq<int>>)
    ensures |parts| == QuadCount(sections) && Uniform(parts, 3)
  {
    seq(QuadCount(sections), i requires 0 <= i < QuadCount(sections) => UpperTri(center, start, sections, i))
  }

  function LowerTris(center: int, start: int, sections: int): (parts: seq<seq<int>>)
    ensures |parts| == QuadCount(sections) && Uniform(parts, 3)
  {
    seq(QuadCount(sections), i requires 0 <= i < QuadCount(sections) => LowerTri(center, start, sections, i))
  }

  function UpperCapIndices(center: int, start: int, sections: int): seq<int>
  {
    Concat(UpperTris(center, start, sections))
  }

  function LowerCapIndices(center: int, start: int, sections: int): seq<int>
  {
    Concat(LowerTris(center, start, sections))
  }

  /**
   * Each cap emits 3 indices per section; the lower cap is the upper cap with
   * every triangle's winding reversed (its 2nd and 3rd corners swapped), and
   * the upper cap's last triangle closes the fan: centre, last ring vertex, first.
   */
  lemma CapsShape(center: int, start: int, sections: int)
    requires sections >= 1
    ensures |UpperCapIndices(center, start, sections)| == 3 * sections
    ensures |LowerCapIndices(center, start, sections)| == 3 * sections
    ensures forall t :: 0 <= t < sections ==>
      var u, l := UpperCapIndices(center, start, sections), LowerCapIndices(center, start, sections);
      l[3 * t] == u[3 * t] == center && l[3 * t + 1] == u[3 * t + 2] && l[3 * t + 2] == u[3 * t + 1]
    ensures UpperCapIndices(center, start, sections)[3 * sections - 3..] == [center, start + sections - 1, start]
  {
    var up, lo := UpperTris(center, start, sections), LowerTris(center, start, sections);
    ConcatLength(up, 3);
    ConcatLength(lo, 3);
    forall t | 0 <= t < sections
      ensures var u, l := Concat(up), Concat(lo);
        l[3 * t] == u[3 * t] == center && l[3 * t + 1] == u[3 * t + 2] && l[3 * t + 2] == u[3 * t + 1]
    {
      ConcatAt(up, 3, t, 0);
      ConcatAt(up, 3, t, 1);
      ConcatAt(up, 3, t, 2);
      ConcatAt(lo, 3, t, 0);
      ConcatAt(lo, 3, t, 1);
      ConcatAt(lo, 3, t, 2);
    }
    var u := Concat(up);
    ConcatAt(up, 3, sections - 1, 0);
    ConcatAt(up, 3, sections - 1, 1);
    ConcatAt(up, 3, sections - 1, 2);
    assert u[3 * sections - 3..] == [u[3 * sections - 3], u[3 * sections - 2], u[3 * sections - 1]];
  }

  // --------------------------------------------------------------------- quads

  /** The two triangles of quad i: 4i,4i+1,4i+2 and 4i+2,4i+3,4i. */
  function Quad(i: int): (q: seq<int>)
    ensures |q| == 6
  {
    [4 * i, 4 * i + 1, 4 * i + 2, 4 * i + 2, 4 * i + 3, 4 * i]
  }

  function QuadParts(n: nat): (parts: seq<seq<int>>)
    ensures |parts| == n && Uniform(parts, 6)
  {
    seq(n, i requires 0 <= i < n => Quad(i))
  }

  /** Indices of n quads, each over its own 4 vertices. */
  function QuadIndices(n: nat): seq<int>
  {
    Concat(QuadParts(n))
  }

  /** One more quad appends its six indices. */
  lemma QuadIndicesSnoc(n: nat)
    ensures |QuadIndices(n)| == 6 * n
    ensures QuadIndices(n + 1) == QuadIndices(n) + Quad(n)
  {
    ConcatLength(QuadParts(n), 6);
    assert QuadParts(n + 1)[..n] == QuadParts(n);
    ConcatSnoc(QuadParts(n + 1), n);
    assert QuadParts(n + 1)[..n + 1] == QuadParts(n + 1);
  }

  /**
   * n quads take 6n indices; index 6i+j is corner j of quad i, so quad i only
   * names vertices 4i..4i+3, and every index is below 4n.
   */
  lemma QuadsShape(n: nat)
    ensures |QuadIndices(n)| == 6 * n
    ensures forall i, j :: 0 <= i < n && 0 <= j < 6 ==>
      6 * i + j < 6 * n && QuadIndices(n)[6 * i + j] == Quad(i)[j]
    ensures forall k :: 0 <= k < 6 * n ==> 0 <= QuadIndices(n)[k] < 4 * n
  {
    var parts := QuadParts(n);
    ConcatLength(parts, 6);
    forall i, j | 0 <= i < n && 0 <= j < 6
      ensures 6 * i + j < 6 * n && QuadIndices(n)[6 * i + j] == Quad(i)[j]
    {
      ConcatAt(parts, 6, i, j);
    }
    forall k | 0 <= k < 6 * n ensures 0 <= QuadIndices(n)[k] < 4 * n {
      var i, j := k / 6, k % 6;
      ModUnique(k, 6, i, j);
      ConcatAt(parts, 6, i, j);
      assert 4 * i + 3 < 4 * n;
    }
  }
}

=== FILE: legacy_vertex_buffer.dfy ===
/**
 * `LegacyVertexBuffer` (HPL2/core/sources/impl/LegacyVertexBuffer.cpp): a
 * vertex buffer kept on the CPU as one shadow byte vector per vertex element
 * (position, normal, colour, ...), plus a vector of 32-bit indices and the
 * flags saying which parts must be uploaded again.
 *
 * Flag words (`tVertexElementFlag`) hold one bit per element kind, so a flag
 * word is modelled as the set of kinds whose bit is set: `|=` is union and
 * `flag & mask` is membership.  Vertex components arrive as `float`s and are
 * modelled by their IEEE-754 single-precision bit patterns.
 */
module LegacyVertexBuffer {
  import opened Bytes
  import opened Wrappers

  /** `eVertexBufferElementFormat`; `LastEnum` is the out-of-range value. */
  datatype ElementFormat = Float | Int | Byte | FormatLastEnum

  /** `eVertexBufferElement`: the kinds of per-vertex data. */
  datatype ElementKind =
    | Normal | Position | Color0 | Color1 | Texture1Tangent
    | Texture0 | Texture1 | Texture2 | Texture3 | Texture4
    | User0 | User1 | User2 | User3

  /** `GetSizeFromHPL`: bytes per component; an unknown format asserts and gives 0. */
  function GetSizeFromHPL(format: ElementFormat): (n: nat)
    ensures format == Float || format == Int ==> n == 4
    ensures format == Byte ==> n == 1
    ensures n == 0 <==> format == FormatLastEnum
  {
    match format
    case Float => 4
    case Int => 4
    case Byte => 1
    case FormatLastEnum => 0
  }

  const INT_MIN: int := -0x8000_0000

  /** The bit pattern of a `float`. */
  type FloatBits = x: nat | x < 0x1_0000_0000

  /** The biased exponent field of a single-precision bit pattern. */
  function FloatExponent(bits: nat): nat { (bits / 0x80_0000) % 256 }

  /** `m` shifted left by `k` bits. */
  function Shl(m: nat, k: nat): nat
  {
    if k == 0 then m else 2 * Shl(m, k - 1)
  }

  /** `m` shifted right by `k` bits, dropping the bits shifted out. */
  function Shr(m: nat, k: nat): nat
  {
    if k == 0 then m else Shr(m, k - 1) / 2
  }

  /** The significand `m` scaled by 2^(exp - 150), truncated toward zero. */
  function Magnitude(m: nat, exp: nat): nat
  {
    if exp >= 150 then Shl(m, exp - 150) else Shr(m, 150 - exp)
  }

  /**
   * `static_cast<int>(f)` for the float whose bit pattern is `bits`: the value
   * truncated toward zero.  NaN, infinities and values outside `int` are
   * undefined in C++; the model gives INT_MIN there, as x86's conversion does.
   */
  function FloatToInt(bits: FloatBits): (r: int)
    ensures INT_MIN <= r < 0x8000_0000
    ensures FloatExponent(bits) < 127 ==> r == 0
  {
    var negative := bits >= 0x8000_0000;
    var exp := FloatExponent(bits);
    var m := bits % 0x80_0000 + 0x80_0000;
    if exp == 255 then INT_MIN
    else if exp < 127 then 0
    else
      var mag := Magnitude(m, exp);
      if negative then (if mag <= 0x8000_0000 then -(mag as int) else INT_MIN)
      else (if mag < 0x8000_0000 then mag else INT_MIN)
  }

  lemma MagnitudeValues()
    ensures Magnitude(0x80_0000, 127) == 1 && Magnitude(0xC0_0000, 128) == 3 && Magnitude(0xFF_0000, 134) == 255
  {
    assert Shr(0x80_0000, 4) == 0x8_0000 && Shr(0xC0_0000, 4) == 0xC_0000 && Shr(0xFF_0000, 4) == 0xF_F000;
    assert Shr(0x80_0000, 8) == 0x8000 && Shr(0xC0_0000, 8) == 0xC000 && Shr(0xFF_0000, 8) == 0xFF00;
    assert Shr(0x80_0000, 12) == 0x800 && Shr(0xC0_0000, 12) == 0xC00 && Shr(0xFF_0000, 12) == 0xFF0;
    assert Shr(0x80_0000, 16) == 0x80 && Shr(0xC0_0000, 16) == 0xC0;
    assert Shr(0x80_0000, 20) == 0x8 && Shr(0xC0_0000, 20) == 0xC;
  }

  /** Fractions below one convert to zero, and plus and minus one to themselves. */
  lemma FloatToIntExamples()
    ensures FloatToInt(0) == 0                // 0.0f
    ensures FloatToInt(0x3F00_0000) == 0      // 0.5f
    ensures FloatToInt(0x3F80_0000) == 1      // 1.0f
    ensures FloatToInt(0xBF80_0000) == -1     // -1.0f
  {
    assert FloatExponent(0) == 0 && FloatExponent(0x3F00_0000) == 126;
    FloatToIntOne();
    FloatToIntMinusOne();
  }

  /** Whole floats above one convert to the integer they hold. */
  lemma FloatToIntWholeExamples()
    ensures FloatToInt(0x4040_0000) == 3      // 3.0f
    ensures FloatToInt(0x437F_0000) == 255    // 255.0f
  {
    FloatToIntThree();
    FloatToInt255();
  }

  lemma FloatToIntOne() ensures FloatToInt(0x3F80_0000) == 1
  {
    MagnitudeValues();
    assert FloatExponent(0x3F80_0000) == 127;
    FloatToIntOf(0x3F80_0000, 127, 0x80_0000, 1);
  }

  lemma FloatToIntMinusOne() ensures FloatToInt(0xBF80_0000) == -1
  {
    MagnitudeValues();
    assert FloatExponent(0xBF80_0000) == 127;
    FloatToIntOf(0xBF80_0000, 127, 0x80_0000, 1);
  }

  lemma FloatToIntThree() ensures FloatToInt(0x4040_0000) == 3
  {
    MagnitudeValues();
    assert FloatExponent(0x4040_0000) == 128;
    FloatToIntOf(0x4040_0000, 128, 0xC0_0000, 3);
  }

  lemma FloatToInt255() ensures FloatToInt(0x437F_0000) == 255
  {
    MagnitudeValues();
    assert FloatExponent(0x437F_0000) == 134;
    FloatToIntOf(0x437F_0000, 134, 0xFF_0000, 255);
  }

  /** A finite float of magnitude at least one and below 2^31: its exponent and significand give its integer part. */
  lemma FloatToIntOf(bits: FloatBits, exp: nat, m: nat, v: nat)
    requires 127 <= exp < 255 && v < 0x8000_0000
    requires FloatExponent(bits) == exp && bits % 0x80_0000 + 0x80_0000 == m
    requires Magnitude(m, exp) == v
    ensures FloatToInt(bits) == if bits >= 0x8000_0000 then -(v as int) else v
  {
  }

  /**
   * The bytes one component occupies in an element of the given format: the
   * float's own bytes, the `int`'s two's-complement bytes, or one `char`.
   */
  function ComponentBytes(format: ElementFormat, bits: FloatBits): (r: seq<byte>)
    ensures |r| == GetSizeFromHPL(format)
  {
    match format
    case Float => EncodeLE(bits, 4)
    case Int => EncodeLE(FloatToInt(bits) % U32_MOD, 4)
    case Byte => [(FloatToInt(bits) % 256) as byte]
    case FormatLastEnum => []
  }

  /** A missing component is written as 0, whose bytes are all zero in every format. */
  lemma ZeroComponent(format: ElementFormat)
    ensures ComponentBytes(format, 0) == Zeros(GetSizeFromHPL(format))
  {
    var z := EncodeLE(0, 4);
    assert z == [0] + EncodeLE(0, 3);
    assert EncodeLE(0, 3) == [0] + EncodeLE(0, 2);
    assert EncodeLE(0, 2) == [0] + EncodeLE(0, 1);
    assert EncodeLE(0, 1) == [0] + EncodeLE(0, 0);
  }

  /** Exactly `num` components: the given values first, then zeros; extra values are dropped. */
  function Components(values: seq<FloatBits>, num: nat): (c: seq<FloatBits>)
    ensures |c| == num
    ensures forall i :: 0 <= i < num && i < |values| ==> c[i] == values[i]
    ensures forall i :: |values| <= i < num ==> c[i] == 0
  {
    seq(num, i requires 0 <= i < num => if i < |values| then values[i] else 0)
  }

  /** The bytes of a run of components, in order. */
  function EncodeComponents(format: ElementFormat, comps: seq<FloatBits>): (r: seq<byte>)
    ensures |r| == |comps| * GetSizeFromHPL(format)
  {
    if comps == [] then []
    else EncodeComponents(format, comps[..|comps| - 1]) + ComponentBytes(format, comps[|comps| - 1])
  }

  /** Component k of an encoded run sits at bytes [k*size, (k+1)*size). */
  lemma {:induction false} EncodedComponentAt(format: ElementFormat, comps: seq<FloatBits>, k: nat)
    requires k < |comps|
    ensures var w := GetSizeFromHPL(format);
      k * w + w <= |EncodeComponents(format, comps)| &&
      EncodeComponents(format, comps)[k * w..k * w + w] == ComponentBytes(format, comps[k])
  {
    var w := GetSizeFromHPL(format);
    var init := comps[..|comps| - 1];
    var front := EncodeComponents(format, init);
    var last := ComponentBytes(format, comps[|comps| - 1]);
    assert EncodeComponents(format, comps) == front + last;
    if k < |comps| - 1 {
      EncodedComponentAt(format, init, k);
      assert init[k] == comps[k];
      SliceOfPrefix(front, last, k * w, k * w + w);
    } else {
      assert |front| == k * w by { assert |init| == k; }
      SliceOfAppend(front, last, 0, w);
    }
  }

  lemma SliceOfPrefix(a: seq<byte>, b: seq<byte>, i: nat, j: nat)
    requires i <= j <= |a|
    ensures (a + b)[i..j] == a[i..j]
  {
  }

  lemma SliceOfAppend(a: seq<byte>, b: seq<byte>, i: nat, j: nat)
    requires i <= j <= |b|
    ensures (a + b)[|a| + i..|a| + j] == b[i..j]
  {
  }

  datatype VertexElement = VertexElement(
    kind: ElementKind,
    format: ElementFormat,
    num: nat,
    programVarIndex: int,
    shadowData: seq<byte>)
  {
    /** `Stride`: the bytes one vertex takes in this element. */
    function Stride(): (n: nat)
      ensures n == 0 <==> format == FormatLastEnum || num == 0
      ensures format != FormatLastEnum ==> n >= num
    {
      MulAtLeastOne(num, GetSizeFromHPL(format));
      GetSizeFromHPL(format) * num
    }

    /** `NumElements`: whole vertices in the shadow data (a zero stride would divide by zero). */
    function NumElements(): (n: nat)
      requires Stride() > 0
      ensures n * Stride() <= |shadowData| < (n + 1) * Stride()
    {
      Quotient(|shadowData|, Stride())
    }
  }

  lemma MulAtLeastOne(a: nat, s: nat)
    ensures s * a == 0 <==> s == 0 || a == 0
    ensures s >= 1 ==> s * a >= a
  {
    if s >= 1 {
      assert s * a == a + (s - 1) * a;
    }
  }

  /** `std::find_if` over the elements by kind: the first match, or none. */
  function Find(elements: seq<VertexElement>, kind: ElementKind): (r: Option<nat>)
    ensures r.Some? ==> r.value < |elements| && elements[r.value].kind == kind
    ensures r.Some? ==> forall j :: 0 <= j < r.value ==> elements[j].kind != kind
    ensures r.None? <==> forall j :: 0 <= j < |elements| ==> elements[j].kind != kind
  {
    if elements == [] then None
    else if elements[0].kind == kind then Some(0)
    else match Find(elements[1..], kind)
      case None => None
      case Some(j) => Some(j + 1)
  }

  /** The element kinds present, i.e. the flag word the elements' own flags make up. */
  function Kinds(elements: seq<VertexElement>): (s: set<ElementKind>)
    ensures forall k :: k in s <==> exists j :: 0 <= j < |elements| && elements[j].kind == k
  {
    set j | 0 <= j < |elements| :: elements[j].kind
  }

  /** The elements whose flag is in `mask`, in order: what `CreateCopy` copies. */
  function Selected(elements: seq<VertexElement>, mask: set<ElementKind>): (r: seq<VertexElement>)
    ensures forall e :: e in r <==> e in elements && e.kind in mask
    ensures |r| <= |elements|
  {
    if elements == [] then []
    else (if elements[0].kind in mask then [elements[0]] else []) + Selected(elements[1..], mask)
  }

  /** No two elements share a kind. */
  predicate DistinctKinds(elements: seq<VertexElement>)
  {
    forall i, j :: 0 <= i < j < |elements| ==> elements[i].kind != elements[j].kind
  }

  lemma {:induction false} SelectedDistinct(elements: seq<VertexElement>, mask: set<ElementKind>)
    requires DistinctKinds(elements)
    ensures DistinctKinds(Selected(elements, mask))
  {
    if elements != [] {
      var tail := elements[1..];
      SelectedDistinct(tail, mask);
      var rest := Selected(tail, mask);
      forall e | e in rest ensures e.kind != elements[0].kind {
        var j :| 0 <= j < |tail| && tail[j] == e;
        assert elements[j + 1] == e;
      }
    }
  }

  /** The kinds of the copied elements are the present kinds within the mask. */
  lemma SelectedKinds(elements: seq<VertexElement>, mask: set<ElementKind>)
    ensures Kinds(Selected(elements, mask)) == Kinds(elements) * mask
  {
    var s := Selected(elements, mask);
    forall k | k in Kinds(elements) * mask ensures k in Kinds(s) {
      var j :| 0 <= j < |elements| && elements[j].kind == k;
      assert elements[j] in s;
    }
    forall k | k in Kinds(s) ensures k in Kinds(elements) * mask {
      var j :| 0 <= j < |s| && s[j].kind == k;
      assert s[j] in s;
    }
  }

  /** Appending an element leaves earlier matches alone and makes the new one findable. */
  lemma {:induction false} FindSnoc(elements: seq<VertexElement>, x: VertexElement, kind: ElementKind)
    ensures Find(elements + [x], kind) ==
      if Find(elements, kind).Some? then Find(elements, kind)
      else if x.kind == kind then Some(|elements|) else None
  {
    if elements != [] {
      assert (elements + [x])[1..] == elements[1..] + [x];
      FindSnoc(elements[1..], x, kind);
    }
  }

  /** Appending an element of a new kind keeps the kinds distinct and adds that kind. */
  lemma SnocKinds(elements: seq<VertexElement>, x: VertexElement)
    requires DistinctKinds(elements) && x.kind !in Kinds(elements)
    ensures DistinctKinds(elements + [x]) && Kinds(elements + [x]) == Kinds(elements) + {x.kind}
  {
    var r := elements + [x];
    forall k | k in Kinds(elements) ensures k in Kinds(r) {
      var j :| 0 <= j < |elements| && elements[j].kind == k;
      assert r[j].kind == k;
    }
    assert r[|elements|].kind == x.kind;
  }

  /** Replacing an element by one of the same kind keeps the kinds. */
  lemma ReplaceKinds(elements: seq<VertexElement>, j: nat, x: VertexElement)
    requires j < |elements| && x.kind == elements[j].kind && DistinctKinds(elements)
    ensures DistinctKinds(elements[j := x]) && Kinds(elements[j := x]) == Kinds(elements)
  {
    var r := elements[j := x];
    forall k | k in Kinds(elements) ensures k in Kinds(r) {
      var i :| 0 <= i < |elements| && elements[i].kind == k;
      assert r[i].kind == k;
    }
  }

  /** `Find` looks only at kinds. */
  lemma {:induction false} FindSameKinds(a: seq<VertexElement>, b: seq<VertexElement>, kind: ElementKind)
    requires |a| == |b| && forall i :: 0 <= i < |a| ==> a[i].kind == b[i].kind
    ensures Find(a, kind) == Find(b, kind)
  {
    if a != [] {
      FindSameKinds(a[1..], b[1..], kind);
    }
  }

  /** An element of that kind exists, holds floats and has at least `min` components. */
  predicate HasFloatElement(elements: seq<VertexElement>, kind: ElementKind, min: nat, flags: set<ElementKind>)
  {
    kind in flags ==>
      Find(elements, kind).Some? &&
      elements[Find(elements, kind).value].format == Float &&
      elements[Find(elements, kind).value].num >= min
  }

  /** What `Compile` asserts of the position, normal and first texture elements. */
  predicate TangentInputs(elements: seq<VertexElement>)
  {
    var all := {Position, Normal, Texture0};
    HasFloatElement(elements, Position, 3, all) &&
    HasFloatElement(elements, Normal, 3, all) &&
    HasFloatElement(elements, Texture0, 2, all)
  }

  /** The inner loop of `PushVertexElements`: one vertex's components appended to the shadow data. */
  method AppendVertex(e: VertexElement, values: seq<FloatBits>) returns (data: seq<byte>)
    ensures data == Pushed(e, values).shadowData
  {
    ghost var comps := Components(values, e.num);
    var added: seq<byte> := [];
    var i := 0;
    while i < e.num
      invariant 0 <= i <= e.num
      invariant added == EncodeComponents(e.format, comps[..i])
    {
      var c := if i < |values| then values[i] else 0;
      EncodeSnoc(e.format, comps, i);
      added := added + ComponentBytes(e.format, c);
      i := i + 1;
    }
    assert comps[..e.num] == comps;
    data := e.shadowData + added;
  }

  lemma EncodeSnoc(format: ElementFormat, comps: seq<FloatBits>, i: nat)
    requires i < |comps|
    ensures EncodeComponents(format, comps[..i + 1]) == EncodeComponents(format, comps[..i]) + ComponentBytes(format, comps[i])
  {
    var p := comps[..i + 1];
    assert p[..|p| - 1] == comps[..i];
    assert p[|p| - 1] == comps[i];
  }

  /** A tangent element, if flagged or present, is a float element of at least 4 components. */
  predicate TangentSlot(elements: seq<VertexElement>, flags: set<ElementKind>)
  {
    (Texture1Tangent in flags ==> Find(elements, Texture1Tangent).Some?) &&
    (Find(elements, Texture1Tangent).Some? ==>
      elements[Find(elements, Texture1Tangent).value].format == Float &&
      elements[Find(elements, Texture1Tangent).value].num >= 4)
  }

  class LegacyVertexBuffer {
    /** `m_vertexElements`. */
    var elements: seq<VertexElement>
    /** `m_indices`. */
    var indices: seq<nat>
    /** `mVertexFlags`: the kinds `CreateElementArray` has added. */
    var vertexFlags: set<ElementKind>
    /** `m_updateFlags`: elements whose shadow data must be uploaded again. */
    var updateFlags: set<ElementKind>
    /** `m_updateIndices`. */
    var updateIndices: bool

    /** Each kind appears at most once and the flags name exactly the kinds present. */
    predicate Valid()
      reads this
    {
      DistinctKinds(elements) && vertexFlags == Kinds(elements)
    }

    constructor ()
      ensures elements == [] && indices == [] && vertexFlags == {} && updateFlags == {} && !updateIndices
      ensures Valid()
    {
      elements := [];
      indices := [];
      vertexFlags := {};
      updateFlags := {};
      updateIndices := false;
    }

    /**
     * `PushVertexElements`: the first element of that kind receives exactly
     * `num` components (missing ones written as 0, extra values dropped);
     * nothing changes when no element has that kind.
     */
    method PushVertexElements(values: seq<FloatBits>, kind: ElementKind)
      modifies this
      ensures indices == old(indices) && vertexFlags == old(vertexFlags)
      ensures updateFlags == old(updateFlags) && updateIndices == old(updateIndices)
      ensures elements == PushedElements(old(elements), kind, values)
    {
      var j := 0;
      while j < |elements|
        invariant 0 <= j <= |elements|
        invariant forall k :: 0 <= k < j ==> elements[k].kind != kind
      {
        if elements[j].kind == kind {
          var data := AppendVertex(elements[j], values);
          elements := elements[j := elements[j].(shadowData := data)];
          return;
        }
        j := j + 1;
      }
    }

    /** `AddVertexVec3f`: marks the kind dirty and pushes x, y, z. */
    method AddVertexVec3f(kind: ElementKind, x: FloatBits, y: FloatBits, z: FloatBits)
      modifies this
      ensures updateFlags == old(updateFlags) + {kind}
      ensures indices == old(indices) && vertexFlags == old(vertexFlags) && updateIndices == old(updateIndices)
      ensures elements == PushedElements(old(elements), kind, [x, y, z])
    {
      updateFlags := updateFlags + {kind};
      PushVertexElements([x, y, z], kind);
    }

    /** `AddVertexVec4f` as written: it pushes x, y, z only, so `w` is never stored. */
    method AddVertexVec4f(kind: ElementKind, x: FloatBits, y: FloatBits, z: FloatBits, w: FloatBits)
      modifies this
      ensures updateFlags == old(updateFlags) + {kind}
      ensures indices == old(indices) && vertexFlags == old(vertexFlags) && updateIndices == old(updateIndices)
      ensures elements == PushedElements(old(elements), kind, [x, y, z])
    {
      updateFlags := updateFlags + {kind};
      PushVertexElements([x, y, z], kind);
    }

    /** `AddVertexVec4f` pushing all four components, as its signature intends. */
    method AddVertexVec4fWithW(kind: ElementKind, x: FloatBits, y: FloatBits, z: FloatBits, w: FloatBits)
      modifies this
      ensures updateFlags == old(updateFlags) + {kind}
      ensures indices == old(indices) && vertexFlags == old(vertexFlags) && updateIndices == old(updateIndices)
      ensures elements == PushedElements(old(elements), kind, [x, y, z, w])
    {
      updateFlags := updateFlags + {kind};
      PushVertexElements([x, y, z, w], kind);
    }

    /** `AddVertexColor`: pushes r, g, b, a. */
    method AddVertexColor(kind: ElementKind, r: FloatBits, g: FloatBits, b: FloatBits, a: FloatBits)
      modifies this
      ensures updateFlags == old(updateFlags) + {kind}
      ensures indices == old(indices) && vertexFlags == old(vertexFlags) && updateIndices == old(updateIndices)
      ensures elements == PushedElements(old(elements), kind, [r, g, b, a])
    {
      updateFlags := updateFlags + {kind};
      PushVertexElements([r, g, b, a], kind);
    }

    /** `AddIndex`: appends one index and marks the indices dirty. */
    method AddIndex(index: nat)
      modifies this
      ensures indices == old(indices) + [index] && updateIndices
      ensures elements == old(elements) && vertexFlags == old(vertexFlags) && updateFlags == old(updateFlags)
    {
      updateIndices := true;
      indices := indices + [index];
    }

    /** `UpdateData`: ORs the given kinds and the index flag into the dirty state. */
    method UpdateData(types: set<ElementKind>, updateIdx: bool)
      modifies this
      ensures updateFlags == old(updateFlags) + types
      ensures updateIndices == (old(updateIndices) || updateIdx)
      ensures elements == old(elements) && indices == old(indices) && vertexFlags == old(vertexFlags)
    {
      updateFlags := updateFlags + types;
      updateIndices := updateIndices || updateIdx;
    }

    /** `GetElementNum`: components per vertex of that kind, 0 when absent. */
    function GetElementNum(kind: ElementKind): (n: nat)
      reads this
      ensures Find(elements, kind).None? ==> n == 0
      ensures forall j :: 0 <= j < |elements| && elements[j].kind == kind && DistinctKinds(elements) ==> n == elements[j].num
    {
      match Find(elements, kind)
      case None => 0
      case Some(j) => elements[j].num
    }

    /** `GetElementFormat`: the element's format, `LastEnum` when absent. */
    function GetElementFormat(kind: ElementKind): (f: ElementFormat)
      reads this
      ensures Find(elements, kind).None? ==> f == FormatLastEnum
      ensures forall j :: 0 <= j < |elements| && elements[j].kind == kind && DistinctKinds(elements) ==> f == elements[j].format
    {
      match Find(elements, kind)
      case None => FormatLastEnum
      case Some(j) => elements[j].format
    }

    /** `GetElementProgramVarIndex`: the element's program variable, 0 when absent. */
    function GetElementProgramVarIndex(kind: ElementKind): (v: int)
      reads this
      ensures Find(elements, kind).None? ==> v == 0
      ensures forall j :: 0 <= j < |elements| && elements[j].kind == kind && DistinctKinds(elements) ==> v == elements[j].programVarIndex
    {
      match Find(elements, kind)
      case None => 0
      case Some(j) => elements[j].programVarIndex
    }

    /** `GetVertexNum`: asserts a position element; the vertices its shadow data holds. */
    function GetVertexNum(): (n: nat)
      reads this
      requires Find(elements, Position).Some? && elements[Find(elements, Position).value].Stride() > 0
      ensures var e := elements[Find(elements, Position).value];
        n * e.Stride() <= |e.shadowData| < (n + 1) * e.Stride()
    {
      elements[Find(elements, Position).value].NumElements()
    }

    /** `GetIndexNum`. */
    function GetIndexNum(): (n: nat)
      reads this
      ensures n == |indices|
    {
      |indices|
    }

    /**
     * `ResizeArray`: the element's shadow data becomes `size` components long
     * (kept prefix, zero padding) and its kind is marked dirty; nothing happens
     * when the element is absent.
     */
    method ResizeArray(kind: ElementKind, size: nat)
      modifies this
      ensures indices == old(indices) && vertexFlags == old(vertexFlags) && updateIndices == old(updateIndices)
      ensures Find(old(elements), kind).None? ==> elements == old(elements) && updateFlags == old(updateFlags)
      ensures Find(old(elements), kind).Some? ==>
        var j := Find(old(elements), kind).value;
        var e := old(elements)[j];
        updateFlags == old(updateFlags) + {kind} &&
        elements == old(elements)[j := e.(shadowData := Resized(e.shadowData, size * GetSizeFromHPL(e.format)))]
      ensures old(Valid()) ==> Valid()
      ensures forall k :: Find(elements, k) == Find(old(elements), k)
    {
      match Find(elements, kind)
      case None =>
      case Some(j) =>
        var e := elements[j];
        updateFlags := updateFlags + {kind};
        var x := e.(shadowData := Resized(e.shadowData, size * GetSizeFromHPL(e.format)));
        forall k ensures Find(elements[j := x], k) == Find(elements, k) {
          FindSameKinds(elements, elements[j := x], k);
        }
        if Valid() {
          ReplaceKinds(elements, j, x);
        }
        elements := elements[j := e.(shadowData := Resized(e.shadowData, size * GetSizeFromHPL(e.format)))];
    }

    /** `ResizeIndices`: `std::vector::resize` of the indices, which are marked dirty. */
    method ResizeIndices(size: nat)
      modifies this
      ensures |indices| == size && updateIndices
      ensures forall i :: 0 <= i < size && i < |old(indices)| ==> indices[i] == old(indices)[i]
      ensures forall i :: |old(indices)| <= i < size ==> indices[i] == 0
      ensures elements == old(elements) && vertexFlags == old(vertexFlags) && updateFlags == old(updateFlags)
    {
      updateIndices := true;
      if size <= |indices| {
        indices := indices[..size];
      } else {
        indices := indices + seq(size - |indices|, _ => 0);
      }
    }

    /**
     * `CreateElementArray`: an element kind already flagged is refused (an
     * error is logged); otherwise its flag is set and one empty element appended.
     */
    method CreateElementArray(kind: ElementKind, format: ElementFormat, num: nat, programVarIndex: int)
      modifies this
      ensures kind in old(vertexFlags) ==> elements == old(elements) && vertexFlags == old(vertexFlags)
      ensures kind !in old(vertexFlags) ==>
        vertexFlags == old(vertexFlags) + {kind} &&
        elements == old(elements) + [VertexElement(kind, format, num, programVarIndex, [])]
      ensures indices == old(indices) && updateFlags == old(updateFlags) && updateIndices == old(updateIndices)
      ensures old(Valid()) ==> Valid()
      ensures kind !in old(vertexFlags) ==> Find(elements, kind).Some?
      ensures forall k :: Find(old(elements), k).Some? ==> Find(elements, k) == Find(old(elements), k)
    {
      if kind in vertexFlags {
        return;
      }
      var x := VertexElement(kind, format, num, programVarIndex, []);
      forall k ensures Find(elements + [x], k) == if Find(elements, k).Some? then Find(elements, k) else if x.kind == k then Some(|elements|) else None {
        FindSnoc(elements, x, k);
      }
      if Valid() {
        SnocKinds(elements, x);
      }
      vertexFlags := vertexFlags + {kind};
      elements := elements + [x];
    }

    /**
     * The tangent step of `Compile`: the position, normal, texture and tangent
     * elements are asserted to be float elements of at least 3, 3, 2 and 4
     * components; a tangent element is created and sized to four components
     * per vertex (its values come from float maths that is not modelled).
     */
    method CreateTangentArray()
      requires TangentInputs(elements) && TangentSlot(elements, vertexFlags)
      modifies this
      ensures indices == old(indices) && updateIndices == old(updateIndices)
      ensures Texture1Tangent in vertexFlags && Find(elements, Texture1Tangent).Some?
      ensures |elements[Find(elements, Texture1Tangent).value].shadowData|
          == old(elements[Find(elements, Position).value].NumElements()) * 4 * 4
      ensures updateFlags == old(updateFlags) + {Texture1Tangent}
      ensures old(Valid()) ==> Valid()
    {
      var vertices := GetVertexNum();
      CreateElementArray(Texture1Tangent, Float, 4, 0);
      assert elements[Find(elements, Texture1Tangent).value].format == Float;
      ResizeArray(Texture1Tangent, vertices * 4);
    }

    /** The loop at the end of `Compile`: every element's flag is ORed into the dirty flags. */
    method MarkElementsDirty()
      modifies this
      ensures updateFlags == old(updateFlags) + Kinds(elements)
      ensures elements == old(elements) && indices == old(indices)
      ensures vertexFlags == old(vertexFlags) && updateIndices == old(updateIndices)
    {
      var i := 0;
      while i < |elements|
        invariant 0 <= i <= |elements| && elements == old(elements)
        invariant indices == old(indices) && vertexFlags == old(vertexFlags) && updateIndices == old(updateIndices)
        invariant updateFlags == old(updateFlags) + Kinds(elements[..i])
      {
        assert Kinds(elements[..i + 1]) == Kinds(elements[..i]) + {elements[i].kind} by {
          assert elements[..i + 1] == elements[..i] + [elements[i]];
        }
        updateFlags := updateFlags + {elements[i].kind};
        i := i + 1;
      }
      assert elements[..i] == elements;
    }

    /**
     * `Compile`: the optional tangent step, then every element and the
     * indices are marked dirty; it always reports success.
     */
    method Compile(createTangents: bool) returns (ok: bool)
      requires createTangents ==> TangentInputs(elements) && TangentSlot(elements, vertexFlags)
      modifies this
      ensures ok
      ensures updateIndices && indices == old(indices)
      ensures updateFlags == old(updateFlags) + Kinds(elements)
      ensures !createTangents ==> elements == old(elements) && vertexFlags == old(vertexFlags)
      ensures createTangents ==>
        Texture1Tangent in vertexFlags && Find(elements, Texture1Tangent).Some? &&
        |elements[Find(elements, Texture1Tangent).value].shadowData|
          == old(elements[Find(elements, Position).value].NumElements()) * 4 * 4
      ensures old(Valid()) ==> Valid()
    {
      if createTangents {
        CreateTangentArray();
        assert Texture1Tangent in Kinds(elements);
      }
      MarkElementsDirty();
      updateIndices := true;
      ok := true;
    }

    /**
     * `CreateCopy`: a new buffer with all the indices and a copy of every
     * element whose flag is in `mask`, compiled so that everything is dirty.
     * As written, the copy's `mVertexFlags` is never set.  The source sizes
     * the copy by `GetVertexNum`, which asserts a position element exists.
     */
    method CreateCopy(mask: set<ElementKind>) returns (copy: LegacyVertexBuffer)
      requires Position in Kinds(elements)
      ensures fresh(copy)
      ensures copy.indices == indices
      ensures copy.elements == Selected(elements, mask)
      ensures copy.updateFlags == Kinds(Selected(elements, mask)) && copy.updateIndices
      ensures copy.vertexFlags == {}
      ensures Valid() ==> DistinctKinds(copy.elements) && Kinds(copy.elements) == Kinds(elements) * mask
    {
      copy := new LegacyVertexBuffer();
      copy.indices := indices;
      CopySelected(copy, mask);
      var _ := copy.Compile(false);
      SelectedKinds(elements, mask);
      if Valid() {
        SelectedDistinct(elements, mask);
      }
    }

    /** The loop of `CreateCopy`: appends to `copy` every element whose flag is in `mask`, in order. */
    method CopySelected(copy: LegacyVertexBuffer, mask: set<ElementKind>)
      requires copy != this && copy.elements == []
      modifies copy
      ensures copy.elements == Selected(elements, mask)
      ensures copy.indices == old(copy.indices) && copy.vertexFlags == old(copy.vertexFlags)
      ensures copy.updateFlags == old(copy.updateFlags) && copy.updateIndices == old(copy.updateIndices)
    {
      var i := 0;
      while i < |elements|
        invariant 0 <= i <= |elements|
        invariant copy.elements == Selected(elements[..i], mask)
        invariant copy.indices == old(copy.indices) && copy.vertexFlags == old(copy.vertexFlags)
        invariant copy.updateFlags == old(copy.updateFlags) && copy.updateIndices == old(copy.updateIndices)
      {
        SelectedSnoc(elements[..i], elements[i], mask);
        assert elements[..i + 1] == elements[..i] + [elements[i]];
        if elements[i].kind in mask {
          copy.elements := copy.elements + [elements[i]];
        }
        i := i + 1;
      }
      assert elements[..i] == elements;
    }
  }

  /** An element after receiving one vertex of `values`. */
  function Pushed(e: VertexElement, values: seq<FloatBits>): (r: VertexElement)
    ensures r.kind == e.kind && r.format == e.format && r.num == e.num && r.programVarIndex == e.programVarIndex
  {
    e.(shadowData := e.shadowData + EncodeComponents(e.format, Components(values, e.num)))
  }

  /** The elements after `PushVertexElements(values, kind)`. */
  function PushedElements(elements: seq<VertexElement>, kind: ElementKind, values: seq<FloatBits>): (r: seq<VertexElement>)
    ensures |r| == |elements|
    ensures forall j :: 0 <= j < |elements| && Find(elements, kind) != Some(j) ==> r[j] == elements[j]
    ensures Find(elements, kind).Some? ==> r[Find(elements, kind).value] == Pushed(elements[Find(elements, kind).value], values)
  {
    match Find(elements, kind)
    case None => elements
    case Some(j) => elements[j := Pushed(elements[j], values)]
  }

  /** Adding one stride to a whole number of strides adds one element. */
  lemma OneMoreStride(len: nat, stride: nat)
    requires stride > 0 && len % stride == 0
    ensures (len + stride) / stride == len / stride + 1 && (len + stride) % stride == 0
  {
    ModUnique(len, stride, len / stride, 0);
    ModUnique(len + stride, stride, len / stride + 1, 0);
  }

  /** Pushing grows the shadow data by exactly one stride: one more whole vertex. */
  lemma PushAddsOneVertex(e: VertexElement, values: seq<FloatBits>)
    requires e.Stride() > 0 && |e.shadowData| % e.Stride() == 0
    ensures |Pushed(e, values).shadowData| == |e.shadowData| + e.Stride()
    ensures |Pushed(e, values).shadowData| % e.Stride() == 0
    ensures Pushed(e, values).NumElements() == e.NumElements() + 1
  {
    var size := GetSizeFromHPL(e.format);
    assert |EncodeComponents(e.format, Components(values, e.num))| == e.num * size;
    assert e.num * size == size * e.num == e.Stride();
    OneMoreStride(|e.shadowData|, e.Stride());
  }

  /** Component k of the pushed vertex is value k, or 0 past the end of `values`. */
  lemma PushedComponent(e: VertexElement, values: seq<FloatBits>, k: nat)
    requires k < e.num
    ensures var at := |e.shadowData| + k * GetSizeFromHPL(e.format);
      at + GetSizeFromHPL(e.format) <= |Pushed(e, values).shadowData| &&
      Pushed(e, values).shadowData[at..at + GetSizeFromHPL(e.format)]
         == ComponentBytes(e.format, if k < |values| then values[k] else 0)
  {
    var comps := Components(values, e.num);
    assert comps[k] == if k < |values| then values[k] else 0;
    EncodedSliceAfter(e.shadowData, e.format, comps, k);
  }

  /** Component k of a run appended to `a` sits `k` sizes after the end of `a`. */
  lemma EncodedSliceAfter(a: seq<byte>, format: ElementFormat, comps: seq<FloatBits>, k: nat)
    requires k < |comps|
    ensures var w := GetSizeFromHPL(format);
      var r := a + EncodeComponents(format, comps);
      |a| + k * w + w <= |r| && r[|a| + k * w..|a| + k * w + w] == ComponentBytes(format, comps[k])
  {
    var w := GetSizeFromHPL(format);
    EncodedComponentAt(format, comps, k);
    AppendedSlice(a, EncodeComponents(format, comps), k * w, w, ComponentBytes(format, comps[k]));
  }

  /** A run of `w` bytes inside `b` keeps its contents after `a` is put in front of `b`. */
  lemma AppendedSlice(a: seq<byte>, b: seq<byte>, lo: nat, w: nat, piece: seq<byte>)
    requires lo + w <= |b| && b[lo..lo + w] == piece
    ensures |a| + lo + w <= |a + b| && (a + b)[|a| + lo..|a| + lo + w] == piece
  {
    SliceOfAppend(a, b, lo, lo + w);
  }

  /** Counterexample: with w = 1.0f, the as-written Vec4 push stores 0 as the fourth float. */
  lemma Vec4DropsW()
    ensures var e := VertexElement(Position, Float, 4, 0, []);
      Pushed(e, [0, 0, 0]).shadowData[12..16] == Zeros(4) &&
      Pushed(e, [0, 0, 0, 0x3F80_0000]).shadowData[12..16] == EncodeLE(0x3F80_0000, 4) &&
      EncodeLE(0x3F80_0000, 4) != Zeros(4)
  {
    var e := VertexElement(Position, Float, 4, 0, []);
    PushedComponent(e, [0, 0, 0], 3);
    PushedComponent(e, [0, 0, 0, 0x3F80_0000], 3);
    ZeroComponent(Float);
    assert EncodeLE(0x3F80_0000, 4)[3] == 0x3F;
  }

  /** With all four components pushed, a float element of at least 4 components stores w fourth. */
  lemma Vec4StoresW(e: VertexElement, x: FloatBits, y: FloatBits, z: FloatBits, w: FloatBits)
    requires e.format == Float && e.num >= 4
    ensures |e.shadowData| + 16 <= |Pushed(e, [x, y, z, w]).shadowData|
    ensures Pushed(e, [x, y, z, w]).shadowData[|e.shadowData| + 12..|e.shadowData| + 16] == EncodeLE(w, 4)
  {
    PushedComponent(e, [x, y, z, w], 3);
  }

  lemma {:induction false} SelectedSnoc(elements: seq<VertexElement>, e: VertexElement, mask: set<ElementKind>)
    ensures Selected(elements + [e], mask) == Selected(elements, mask) + (if e.kind in mask then [e] else [])
  {
    var tail := if e.kind in mask then [e] else [];
    if elements == [] {
      assert elements + [e] == [e] && [e][1..] == [];
    } else {
      var head := if elements[0].kind in mask then [elements[0]] else [];
      assert (elements + [e])[0] == elements[0];
      assert (elements + [e])[1..] == elements[1..] + [e];
      SelectedSnoc(elements[1..], e, mask);
      assert head + (Selected(elements[1..], mask) + tail) == (head + Selected(elements[1..], mask)) + tail;
    }
  }
}

=== FILE: material.dfy ===
/**
 * `cMaterial` (HPL2/core/sources/graphics/Material.cpp): the process-wide
 * pool material IDs are taken from, and a material's bookkeeping state —
 * its type and the type-specific variables that type created, the version
 * counter that dirties it, its textures, the blend and depth settings only
 * translucent types may change, its list of UV animations and the UV
 * matrix they build.  The matrix is kept as its list of factors, not as
 * float entries.
 */
module Material {
  import opened Wrappers

  /** `cMaterial::MaxMaterialID`: renderers keep per-material arrays of this size. */
  const MaxMaterialID: nat := 2048

  datatype MaterialTexture =
    | Diffuse | NMap | Alpha | Specular | Height | Illumination | DissolveAlpha | CubeMap | CubeMapAlpha
    | TextureLastEnum

  datatype BlendMode = BlendNone | Add | Mul | MulX2 | BlendAlpha | PremulAlpha | BlendLastEnum

  datatype AlphaMode = Solid | Trans

  datatype UvAnimationType = Translate | Sin | Rotate | UvAnimationLastEnum

  datatype AnimationAxis = AxisX | AxisY | AxisZ | AxisLastEnum

  /** `cMaterialUvAnimation`; speed and amplitude are floats, modelled as reals. */
  datatype UvAnimation = UvAnimation(kind: UvAnimationType, speed: real, amp: real, axis: AnimationAxis)

  /** A material type, by identity, and whether it draws translucently. */
  datatype MaterialType = MaterialType(id: nat, translucent: bool)

  /**
   * `mpVars`: no type-specific variables, the ones a type created, or a
   * stale address of variables that have already been deleted.
   */
  datatype Vars = NoVars | Live(owner: MaterialType) | Dangling

  /**
   * The variables after `SetType(t)` as written: the old ones are deleted,
   * but `mpVars` is only replaced when t is not null.
   */
  function SetTypeVarsAsWritten(vars: Vars, current: Option<MaterialType>, t: Option<MaterialType>): (r: Vars)
    ensures t.Some? || current == t ==> r == SetTypeVars(vars, current, t)
    ensures current != t && t.None? ==> (r == Dangling <==> vars != NoVars)
  {
    if current == t then vars
    else if t.Some? then Live(t.value)
    else if vars.Live? then Dangling
    else vars
  }

  /** The variables after `SetType(t)` with `mpVars` cleared after the delete. */
  function SetTypeVars(vars: Vars, current: Option<MaterialType>, t: Option<MaterialType>): (r: Vars)
    ensures r != Dangling || vars == Dangling
    ensures current != t ==> r == if t.Some? then Live(t.value) else NoVars
    ensures current == t ==> r == vars
  {
    if current == t then vars
    else if t.Some? then Live(t.value)
    else NoVars
  }

  /** The destructor deletes `mpVars` when it is non-null; stale variables are deleted a second time. */
  predicate DestructorDoubleDeletes(vars: Vars)
  {
    vars.Dangling?
  }

  /** A type change deletes `mpVars` whenever it is non-null; stale variables are deleted a second time. */
  predicate SetTypeDoubleDeletes(vars: Vars, current: Option<MaterialType>, t: Option<MaterialType>)
  {
    current != t && vars.Dangling?
  }

  /**
   * As written, switching a material from a type to no type leaves the
   * deleted variables behind; destroying the material, or giving it
   * another type, then deletes them again.  With `mpVars` cleared, neither
   * happens, and no sequence of type changes starting from live variables
   * can lead there.
   */
  lemma SetTypeNullDoubleDeletes(t: MaterialType, u: MaterialType)
    ensures DestructorDoubleDeletes(SetTypeVarsAsWritten(Live(t), Some(t), None))
    ensures SetTypeDoubleDeletes(SetTypeVarsAsWritten(Live(t), Some(t), None), None, Some(u))
    ensures !DestructorDoubleDeletes(SetTypeVars(Live(t), Some(t), None))
    ensures !SetTypeDoubleDeletes(SetTypeVars(Live(t), Some(t), None), None, Some(u))
  {
  }

  /** The corrected type change never leaves stale variables behind when it starts from sound ones, for any sequence of types. */
  lemma {:induction false} SetTypeNeverDangles(vars: Vars, current: Option<MaterialType>, types: seq<Option<MaterialType>>)
    requires vars != Dangling
    ensures SetTypesVars(vars, current, types) != Dangling
  {
    if types != [] {
      var init := types[..|types| - 1];
      SetTypeNeverDangles(vars, current, init);
    }
  }

  /** The variables after calling the corrected `SetType` with each type in turn. */
  function SetTypesVars(vars: Vars, current: Option<MaterialType>, types: seq<Option<MaterialType>>): Vars
  {
    if types == [] then vars
    else
      var init := types[..|types| - 1];
      SetTypeVars(SetTypesVars(vars, current, init), if init == [] then current else init[|init| - 1], types[|types| - 1])
  }

  /** `GetAxisVector`'s case map: which coordinate of the axis vector is 1, none for an unknown axis. */
  function AxisComponent(axis: AnimationAxis): (r: Option<nat>)
    ensures r.Some? ==> r.value < 3
    ensures r.None? <==> axis == AxisLastEnum
  {
    match axis
    case AxisX => Some(0)
    case AxisY => Some(1)
    case AxisZ => Some(2)
    case AxisLastEnum => None
  }

  /**
   * One factor of `m_mtxUV`: a translation by `amount` along an axis, a
   * translation by `amp * sin(phase)` along an axis, or a rotation by
   * `angle` about an axis.  `sin` is not evaluated; the factor keeps its
   * phase.
   */
  datatype UvFactor =
    | Shift(axis: AnimationAxis, amount: real)
    | Wave(axis: AnimationAxis, phase: real, amp: real)
    | Turn(axis: AnimationAxis, angle: real)

  /**
   * The factor `UpdateAnimations` multiplies in for one animation at the
   * material's clock; an animation of an unknown kind matches no branch
   * and contributes none.
   */
  function UvFactorOf(anim: UvAnimation, time: real): (r: Option<UvFactor>)
    ensures r.None? <==> anim.kind == UvAnimationLastEnum
    ensures r.Some? ==> r.value.axis == anim.axis
    ensures r.Some? && time == 0.0 ==> IsIdentityFactor(r.value)
  {
    match anim.kind
    case Translate => Some(Shift(anim.axis, anim.speed * time))
    case Sin => Some(Wave(anim.axis, time * anim.speed, anim.amp))
    case Rotate => Some(Turn(anim.axis, anim.speed * time))
    case UvAnimationLastEnum => None
  }

  /**
   * `m_mtxUV` after `UpdateAnimations` at the given clock: the identity
   * multiplied on the right by each animation's factor in list order, kept
   * as the product's factors from left to right.  Every animation of a
   * known kind contributes exactly one factor.
   */
  function UvFactors(anims: seq<UvAnimation>, time: real): (r: seq<UvFactor>)
    ensures |r| <= |anims|
    ensures |r| == |anims| <==> forall i :: 0 <= i < |anims| ==> anims[i].kind != UvAnimationLastEnum
  {
    if anims == [] then []
    else
      var init := UvFactors(anims[..|anims| - 1], time);
      match UvFactorOf(anims[|anims| - 1], time)
      case Some(f) => init + [f]
      case None => init
  }

  /**
   * A factor that is the identity matrix: one along the unknown axis
   * (`GetAxisVector` gives the zero vector), a zero move or turn, or a wave
   * of phase 0 or amplitude 0 (sin 0 = 0).
   */
  predicate IsIdentityFactor(f: UvFactor)
  {
    f.axis == AxisLastEnum ||
    match f
    case Shift(_, amount) => amount == 0.0
    case Wave(_, phase, amp) => phase == 0.0 || amp == 0.0
    case Turn(_, angle) => angle == 0.0
  }

  /**
   * At clock 0 every factor is the identity: the first update after the
   * constructor leaves `m_mtxUV` the identity whatever the animations are.
   */
  lemma {:induction false} UvFactorsAtClockZero(anims: seq<UvAnimation>)
    ensures forall i :: 0 <= i < |UvFactors(anims, 0.0)| ==> IsIdentityFactor(UvFactors(anims, 0.0)[i])
  {
    if anims != [] {
      UvFactorsAtClockZero(anims[..|anims| - 1]);
    }
  }

  /** Everything a material holds besides its pool, for stating what an operation changes. */
  datatype MaterialState = MaterialState(
    materialID: nat, materialType: Option<MaterialType>, vars: Vars, version: nat,
    images: map<MaterialTexture, nat>, blendMode: BlendMode, alphaMode: AlphaMode, depthTest: bool,
    uvAnimations: seq<UvAnimation>, hasUvAnimation: bool, uvMatrix: seq<UvFactor>, animTime: real)

  /**
   * `internal::m_id` and `internal::m_freelist`: the counter of IDs ever
   * handed out and the stack of IDs given back.  `live` is the set of IDs
   * held by materials that still exist.
   */
  class MaterialIdPool {
    var nextId: nat
    var freelist: seq<nat>
    ghost var live: set<nat>

    /**
     * Every ID below the counter is held by exactly one material or sits
     * once on the free list, and the counter never passed the limit.
     */
    ghost predicate Valid()
      reads this
    {
      nextId <= MaxMaterialID &&
      (forall i :: 0 <= i < |freelist| ==> freelist[i] < nextId && freelist[i] !in live) &&
      (forall i, j :: 0 <= i < j < |freelist| ==> freelist[i] != freelist[j]) &&
      (forall id :: id in live ==> id < nextId) &&
      (forall id :: 0 <= id < nextId ==> id in live || id in freelist)
    }

    constructor ()
      ensures Valid() && nextId == 0 && freelist == [] && live == {}
    {
      nextId := 0;
      freelist := [];
      live := {};
    }

    /**
     * The ID choice in the `cMaterial` constructor: the most recently freed
     * ID if there is one, otherwise the next fresh one, which is asserted to
     * stay below `MaxMaterialID`.
     */
    method Acquire() returns (id: nat)
      requires Valid() && (freelist != [] || nextId < MaxMaterialID)
      modifies this
      ensures Valid()
      ensures id !in old(live) && live == old(live) + {id} && id < MaxMaterialID
      ensures old(freelist) != [] ==>
        id == old(freelist)[|old(freelist)| - 1] && freelist == old(freelist)[..|old(freelist)| - 1] && nextId == old(nextId)
      ensures old(freelist) == [] ==> id == old(nextId) && nextId == old(nextId) + 1 && freelist == []
    {
      if |freelist| > 0 {
        id := freelist[|freelist| - 1];
        freelist := freelist[..|freelist| - 1];
        live := live + {id};
        forall k | 0 <= k < nextId ensures k in live || k in freelist {
          if k !in old(live) && k != id {
            var i :| 0 <= i < |old(freelist)| && old(freelist)[i] == k;
            assert i != |old(freelist)| - 1;
            assert freelist[i] == k;
          }
        }
      } else {
        id := nextId;
        nextId := nextId + 1;
        live := live + {id};
      }
    }

    /** The `cMaterial` destructor's part: its ID goes back on the free list. */
    method Release(id: nat)
      requires Valid() && id in live
      modifies this
      ensures Valid()
      ensures freelist == old(freelist) + [id] && live == old(live) - {id} && nextId == old(nextId)
    {
      freelist := freelist + [id];
      live := live - {id};
      forall k | 0 <= k < nextId ensures k in live || k in freelist {
        if k in old(freelist) {
          var i :| 0 <= i < |old(freelist)| && old(freelist)[i] == k;
          assert freelist[i] == k;
        }
      }
    }
  }

  /** Every ID a valid pool has handed out fits the renderers' per-material arrays. */
  lemma LiveIdsBelowLimit(pool: MaterialIdPool, id: nat)
    requires pool.Valid() && id in pool.live
    ensures id < MaxMaterialID
  {
  }

  class Material {
    /** The process-wide ID pool. */
    const pool: MaterialIdPool
    /** `m_materialID`. */
    var materialID: nat
    /** `mpType`. */
    var materialType: Option<MaterialType>
    /** `mpVars`. */
    var vars: Vars
    /** `m_version`: bumped whenever the material changes in a way renderers must see. */
    var version: nat
    /** `m_image`: the texture in each slot, by identity. */
    var images: map<MaterialTexture, nat>
    /** `mBlendMode`, `mAlphaMode`, `mbDepthTest`. */
    var blendMode: BlendMode
    var alphaMode: AlphaMode
    var depthTest: bool
    /** `mvUvAnimations`, `mbHasUvAnimation`, and `m_mtxUV` as its factors (none for the identity). */
    var uvAnimations: seq<UvAnimation>
    var hasUvAnimation: bool
    var uvMatrix: seq<UvFactor>
    /** `mfAnimTime`. */
    var animTime: real

    /** The material's whole state. */
    function State(): MaterialState
      reads this
    {
      MaterialState(materialID, materialType, vars, version, images, blendMode, alphaMode, depthTest,
        uvAnimations, hasUvAnimation, uvMatrix, animTime)
    }

    /**
     * The constructor: an ID from the pool, the given type with the
     * variables it creates, and blending additive for a translucent type
     * and off otherwise; solid alpha, depth test on, no UV animation, the
     * identity UV matrix and the clock at 0.
     */
    constructor (pool: MaterialIdPool, t: MaterialType)
      requires pool.Valid() && (pool.freelist != [] || pool.nextId < MaxMaterialID)
      modifies pool
      ensures this.pool == pool && pool.Valid()
      ensures materialID !in old(pool.live) && pool.live == old(pool.live) + {materialID} && materialID < MaxMaterialID
      ensures materialType == Some(t) && vars == Live(t)
      ensures blendMode == (if t.translucent then Add else BlendNone)
      ensures alphaMode == Solid && depthTest
      ensures uvAnimations == [] && !hasUvAnimation && uvMatrix == [] && images == map[] && version == 0
      ensures animTime == 0.0
    {
      this.pool := pool;
      var id := pool.Acquire();
      materialID := id;
      materialType := Some(t);
      vars := Live(t);
      version := 0;
      images := map[];
      blendMode := if t.translucent then Add else BlendNone;
      alphaMode := Solid;
      depthTest := true;
      uvAnimations := [];
      hasUvAnimation := false;
      uvMatrix := [];
      animTime := 0.0;
    }

    /** The destructor: the ID goes back to the pool, and the variables are deleted. */
    method Destroy()
      requires pool.Valid() && materialID in pool.live
      modifies this, pool
      ensures pool.Valid()
      ensures pool.freelist == old(pool.freelist) + [old(materialID)] && pool.live == old(pool.live) - {old(materialID)}
      ensures State() == old(State()).(materialID := 0, vars := NoVars)
    {
      pool.Release(materialID);
      materialID := 0;
      vars := NoVars;
    }

    /**
     * `SetType`: the same type changes nothing; another one replaces the
     * type and the variables (the old variables are deleted and `mpVars`
     * cleared when the new type is null, see `SetTypeVarsAsWritten`).
     */
    method SetType(t: Option<MaterialType>)
      modifies this
      ensures old(materialType) == t ==> State() == old(State())
      ensures State() == old(State()).(materialType := t, vars := SetTypeVars(old(vars), old(materialType), t))
    {
      if materialType == t {
        return;
      }
      materialType := t;
      if t.Some? {
        vars := Live(t.value);
      } else {
        vars := NoVars;
      }
    }

    /** `SetImage`: the slot takes the texture (or is emptied) and the version rises by one. */
    method SetImage(slot: MaterialTexture, texture: Option<nat>)
      modifies this
      ensures texture.Some? ==> State() == old(State()).(version := old(version) + 1, images := old(images)[slot := texture.value])
      ensures texture.None? ==> State() == old(State()).(version := old(version) + 1, images := old(images) - {slot})
    {
      version := version + 1;
      if texture.Some? {
        images := images[slot := texture.value];
      } else {
        images := images - {slot};
      }
    }

    /** `SetBlendMode`: ignored unless the type is translucent. */
    method SetBlendMode(mode: BlendMode)
      requires materialType.Some?
      modifies this
      ensures !old(materialType).value.translucent ==> State() == old(State())
      ensures old(materialType).value.translucent ==> State() == old(State()).(blendMode := mode)
    {
      if !materialType.value.translucent {
        return;
      }
      blendMode := mode;
    }

    /** `SetAlphaMode`: always applied. */
    method SetAlphaMode(mode: AlphaMode)
      modifies this
      ensures State() == old(State()).(alphaMode := mode)
    {
      alphaMode := mode;
    }

    /** `SetDepthTest`: ignored unless the type is translucent. */
    method SetDepthTest(depth: bool)
      requires materialType.Some?
      modifies this
      ensures !old(materialType).value.translucent ==> State() == old(State())
      ensures old(materialType).value.translucent ==> State() == old(State()).(depthTest := depth)
    {
      if !materialType.value.translucent {
        return;
      }
      depthTest := depth;
    }

    /** `AddUvAnimation`: appended, and the material now animates; the UV matrix waits for the next update. */
    method AddUvAnimation(anim: UvAnimation)
      modifies this
      ensures State() == old(State()).(uvAnimations := old(uvAnimations) + [anim], hasUvAnimation := true)
    {
      uvAnimations := uvAnimations + [anim];
      hasUvAnimation := true;
    }

    /** `ClearUvAnimations`: no animation, no animating, identity UV matrix. */
    method ClearUvAnimations()
      modifies this
      ensures State() == old(State()).(uvAnimations := [], hasUvAnimation := false, uvMatrix := [])
    {
      uvAnimations := [];
      hasUvAnimation := false;
      uvMatrix := [];
    }

    /** `UpdateBeforeRendering`: an animating material updates its animations; any other is left alone. */
    method UpdateBeforeRendering(timeStep: real)
      modifies this
      ensures old(hasUvAnimation) ==> State() == old(State()).(
        uvMatrix := UvFactors(old(uvAnimations), old(animTime)), version := old(version) + 1, animTime := old(animTime) + timeStep)
      ensures !old(hasUvAnimation) ==> State() == old(State())
    {
      if hasUvAnimation {
        UpdateAnimations(timeStep);
      }
    }

    /**
     * `UpdateAnimations`: the UV matrix is rebuilt from the identity, one
     * factor per animation at the clock's current value, then the version
     * rises by one and the clock advances by the step.
     */
    method UpdateAnimations(timeStep: real)
      modifies this
      ensures State() == old(State()).(
        uvMatrix := UvFactors(old(uvAnimations), old(animTime)), version := old(version) + 1, animTime := old(animTime) + timeStep)
    {
      uvMatrix := BuildUvMatrix(uvAnimations, animTime);
      version := version + 1;
      animTime := animTime + timeStep;
    }
  }

  /** The loop of `UpdateAnimations`: starting from the identity, each animation's factor is multiplied in on the right. */
  method BuildUvMatrix(anims: seq<UvAnimation>, time: real) returns (m: seq<UvFactor>)
    ensures m == UvFactors(anims, time)
  {
    m := [];
    var i := 0;
    while i < |anims|
      invariant 0 <= i <= |anims|
      invariant m == UvFactors(anims[..i], time)
    {
      assert anims[..i + 1][..i] == anims[..i];
      var factor := UvFactorOf(anims[i], time);
      if factor.Some? {
        m := m + [factor.value];
      }
      i := i + 1;
    }
    assert anims[..i] == anims;
  }
}

=== FILE: material_manager.dfy ===
/**
 * The attribute parsers of `cMaterialManager`
 * (HPL2/sources/resources/MaterialManager.cpp): each maps a name read from a
 * material file to an enum value, ignoring ASCII letter case, and falls back
 * to a fixed value for a name it does not know; `GetTextureString` goes the
 * other way for texture slots.
 */
module MaterialManager {
  import opened Wrappers
  import opened Material

  datatype TextureType = Texture1D | Texture2D | Texture3D | TextureCubeMap

  datatype TextureWrap = Repeat | Clamp | ClampToEdge

  datatype TextureAnimMode = AnimNone | Loop | Oscillate

  /** `tolower` on one character: only ASCII capitals change. */
  function LowerChar(c: char): (r: char)
    ensures 'A' <= c <= 'Z' ==> r as int == c as int + 32
    ensures !('A' <= c <= 'Z') ==> r == c
    ensures !('A' <= r <= 'Z')
  {
    if 'A' <= c <= 'Z' then (c as int + 32) as char else c
  }

  /** `cString::ToLowerCase`. */
  function Lower(s: string): (r: string)
    ensures |r| == |s|
    ensures forall i :: 0 <= i < |s| ==> r[i] == LowerChar(s[i])
  {
    seq(|s|, i requires 0 <= i < |s| => LowerChar(s[i]))
  }

  /** `stricmp(a, b) == 0`: equal once both are lower-cased. */
  predicate EqualsIgnoreCase(a: string, b: string)
  {
    Lower(a) == Lower(b)
  }

  /** Lower-casing twice changes nothing more. */
  lemma LowerIdempotent(s: string)
    ensures Lower(Lower(s)) == Lower(s)
  {
  }

  /** A name written in lower case compares equal to exactly the spellings that lower-case to it. */
  lemma EqualsLowerName(s: string, name: string)
    requires Lower(name) == name
    ensures EqualsIgnoreCase(s, name) <==> Lower(s) == name
  {
  }

  // ------------------------------------------------------------ texture type

  /** The name `GetType` recognises for each texture type. */
  function TextureTypeName(t: TextureType): string
  {
    match t
    case Texture1D => "1d"
    case Texture2D => "2d"
    case Texture3D => "3d"
    case TextureCubeMap => "cube"
  }

  /** `GetType`: cube, 1d, 2d or 3d in any case; 2D for anything else. */
  function GetType(s: string): (t: TextureType)
    ensures t == TextureCubeMap <==> Lower(s) == "cube"
    ensures t == Texture1D <==> Lower(s) == "1d"
    ensures t == Texture3D <==> Lower(s) == "3d"
    ensures t == Texture2D <==> Lower(s) != "cube" && Lower(s) != "1d" && Lower(s) != "3d"
  {
    LiteralsLower();
    if EqualsIgnoreCase(s, "cube") then TextureCubeMap
    else if EqualsIgnoreCase(s, "1d") then Texture1D
    else if EqualsIgnoreCase(s, "2d") then Texture2D
    else if EqualsIgnoreCase(s, "3d") then Texture3D
    else Texture2D
  }

  /** Every texture type's name, in any case, parses back to it. */
  lemma GetTypeOfName(t: TextureType, s: string)
    requires EqualsIgnoreCase(s, TextureTypeName(t))
    ensures GetType(s) == t
  {
    LiteralsLower();
  }

  // ------------------------------------------------------------- texture wrap

  function TextureWrapName(w: TextureWrap): string
  {
    match w
    case Repeat => "repeat"
    case Clamp => "clamp"
    case ClampToEdge => "clamptoedge"
  }

  /** `GetWrap`: repeat, clamp or clamptoedge in any case; Repeat for anything else. */
  function GetWrap(s: string): (w: TextureWrap)
    ensures w == Clamp <==> Lower(s) == "clamp"
    ensures w == ClampToEdge <==> Lower(s) == "clamptoedge"
    ensures w == Repeat <==> Lower(s) != "clamp" && Lower(s) != "clamptoedge"
  {
    LiteralsLower();
    if EqualsIgnoreCase(s, "repeat") then Repeat
    else if EqualsIgnoreCase(s, "clamp") then Clamp
    else if EqualsIgnoreCase(s, "clamptoedge") then ClampToEdge
    else Repeat
  }

  lemma GetWrapOfName(w: TextureWrap, s: string)
    requires EqualsIgnoreCase(s, TextureWrapName(w))
    ensures GetWrap(s) == w
  {
    LiteralsLower();
  }

  // --------------------------------------------------------------- anim mode

  function AnimModeName(m: TextureAnimMode): string
  {
    match m
    case AnimNone => "none"
    case Loop => "loop"
    case Oscillate => "oscillate"
  }

  /** `GetAnimMode`: none, loop or oscillate in any case; None for anything else. */
  function GetAnimMode(s: string): (m: TextureAnimMode)
    ensures m == Loop <==> Lower(s) == "loop"
    ensures m == Oscillate <==> Lower(s) == "oscillate"
    ensures m == AnimNone <==> Lower(s) != "loop" && Lower(s) != "oscillate"
  {
    LiteralsLower();
    if EqualsIgnoreCase(s, "none") then AnimNone
    else if EqualsIgnoreCase(s, "loop") then Loop
    else if EqualsIgnoreCase(s, "oscillate") then Oscillate
    else AnimNone
  }

  lemma GetAnimModeOfName(m: TextureAnimMode, s: string)
    requires EqualsIgnoreCase(s, AnimModeName(m))
    ensures GetAnimMode(s) == m
  {
    LiteralsLower();
  }

  // -------------------------------------------------------------- blend mode

  /** The name `GetBlendMode` recognises for each blend mode it can return. */
  function BlendModeName(b: BlendMode): Option<string>
  {
    match b
    case Add => Some("add")
    case Mul => Some("mul")
    case MulX2 => Some("mulx2")
    case BlendAlpha => Some("alpha")
    case PremulAlpha => Some("premulalpha")
    case _ => None
  }

  /** The names `GetBlendMode` knows; any other is logged as an error. */
  predicate KnownBlendMode(s: string)
  {
    EqualsIgnoreCase(s, "add") || EqualsIgnoreCase(s, "mul") || EqualsIgnoreCase(s, "mulx2")
    || EqualsIgnoreCase(s, "alpha") || EqualsIgnoreCase(s, "premulalpha")
  }

  /**
   * `GetBlendMode`: the five names in any case; an unknown name (reported
   * as an error) gives Add.  None is never produced from a name.
   */
  function GetBlendMode(s: string): (b: BlendMode)
    ensures b != BlendNone && b != BlendLastEnum
    ensures b == Mul <==> Lower(s) == "mul"
    ensures b == MulX2 <==> Lower(s) == "mulx2"
    ensures b == BlendAlpha <==> Lower(s) == "alpha"
    ensures b == PremulAlpha <==> Lower(s) == "premulalpha"
    ensures !KnownBlendMode(s) ==> b == Add
  {
    LiteralsLower();
    if EqualsIgnoreCase(s, "add") then Add
    else if EqualsIgnoreCase(s, "mul") then Mul
    else if EqualsIgnoreCase(s, "mulx2") then MulX2
    else if EqualsIgnoreCase(s, "alpha") then BlendAlpha
    else if EqualsIgnoreCase(s, "premulalpha") then PremulAlpha
    else Add
  }

  /** A blend mode's name, in any case, parses back to it, and is not an error. */
  lemma GetBlendModeOfName(b: BlendMode, s: string)
    requires BlendModeName(b).Some? && EqualsIgnoreCase(s, BlendModeName(b).value)
    ensures GetBlendMode(s) == b && KnownBlendMode(s)
  {
    LiteralsLower();
  }

  // ------------------------------------------------------------ uv animation

  function UvAnimationName(u: UvAnimationType): Option<string>
  {
    match u
    case Translate => Some("translate")
    case Sin => Some("sin")
    case Rotate => Some("rotate")
    case UvAnimationLastEnum => None
  }

  /**
   * `GetUvAnimType`: a missing attribute or an unknown name gives LastEnum
   * (and is reported); otherwise the type whose name it lower-cases to.
   */
  function GetUvAnimType(s: Option<string>): (u: UvAnimationType)
    ensures s.None? ==> u == UvAnimationLastEnum
    ensures u == Translate <==> s.Some? && Lower(s.value) == "translate"
    ensures u == Sin <==> s.Some? && Lower(s.value) == "sin"
    ensures u == Rotate <==> s.Some? && Lower(s.value) == "rotate"
  {
    if s.None? then UvAnimationLastEnum
    else
      var low := Lower(s.value);
      if low == "translate" then Translate
      else if low == "sin" then Sin
      else if low == "rotate" then Rotate
      else UvAnimationLastEnum
  }

  lemma GetUvAnimTypeOfName(u: UvAnimationType, s: string)
    requires UvAnimationName(u).Some? && Lower(s) == UvAnimationName(u).value
    ensures GetUvAnimType(Some(s)) == u
  {
  }

  // --------------------------------------------------------------- anim axis

  function AxisName(a: AnimationAxis): Option<string>
  {
    match a
    case AxisX => Some("x")
    case AxisY => Some("y")
    case AxisZ => Some("z")
    case AxisLastEnum => None
  }

  /** `GetAnimAxis`: x, y or z in any case; LastEnum (reported) for a missing or unknown one. */
  function GetAnimAxis(s: Option<string>): (a: AnimationAxis)
    ensures s.None? ==> a == AxisLastEnum
    ensures a == AxisX <==> s.Some? && Lower(s.value) == "x"
    ensures a == AxisY <==> s.Some? && Lower(s.value) == "y"
    ensures a == AxisZ <==> s.Some? && Lower(s.value) == "z"
  {
    if s.None? then AxisLastEnum
    else
      var low := Lower(s.value);
      if low == "x" then AxisX
      else if low == "y" then AxisY
      else if low == "z" then AxisZ
      else AxisLastEnum
  }

  lemma GetAnimAxisOfName(a: AnimationAxis, s: string)
    requires AxisName(a).Some? && Lower(s) == AxisName(a).value
    ensures GetAnimAxis(Some(s)) == a
  {
  }

  /** Only the letters matter: a name and its lower-cased spelling parse alike everywhere. */
  lemma ParsersIgnoreCase(s: string)
    ensures GetType(Lower(s)) == GetType(s) && GetWrap(Lower(s)) == GetWrap(s)
    ensures GetAnimMode(Lower(s)) == GetAnimMode(s) && GetBlendMode(Lower(s)) == GetBlendMode(s)
    ensures GetUvAnimType(Some(Lower(s))) == GetUvAnimType(Some(s))
    ensures GetAnimAxis(Some(Lower(s))) == GetAnimAxis(Some(s))
  {
    LowerIdempotent(s);
  }

  // ----------------------------------------------------------- texture names

  /** `GetTextureString`: each texture slot's name, "" for none. */
  function GetTextureString(t: MaterialTexture): (s: string)
    ensures s == "" <==> t == TextureLastEnum
  {
    match t
    case Diffuse => "Diffuse"
    case Alpha => "Alpha"
    case NMap => "NMap"
    case Height => "Height"
    case Illumination => "Illumination"
    case Specular => "Specular"
    case CubeMap => "CubeMap"
    case DissolveAlpha => "DissolveAlpha"
    case CubeMapAlpha => "CubeMapAlpha"
    case TextureLastEnum => ""
  }

  /** No two texture slots share a name, even ignoring case. */
  lemma TextureStringsDistinct(a: MaterialTexture, b: MaterialTexture)
    requires EqualsIgnoreCase(GetTextureString(a), GetTextureString(b))
    ensures a == b
  {
    var x, y := GetTextureString(a), GetTextureString(b);
    // Names of equal length (Diffuse/CubeMap, Illumination/CubeMapAlpha) differ in their first letter.
    assert |x| > 0 ==> Lower(x)[0] == LowerChar(x[0]);
  }

  /** The names the parsers compare against are already lower case. */
  lemma LiteralsLower()
    ensures Lower("cube") == "cube" && Lower("1d") == "1d" && Lower("2d") == "2d" && Lower("3d") == "3d"
    ensures Lower("repeat") == "repeat" && Lower("clamp") == "clamp" && Lower("clamptoedge") == "clamptoedge"
    ensures Lower("none") == "none" && Lower("loop") == "loop" && Lower("oscillate") == "oscillate"
    ensures Lower("add") == "add" && Lower("mul") == "mul" && Lower("mulx2") == "mulx2"
    ensures Lower("alpha") == "alpha" && Lower("premulalpha") == "premulalpha"
  {
  }
}

=== FILE: mesh_creator.dfy ===
/**
 * The index-building parts of `cMeshCreator`
 * (HPL2/sources/graphics/MeshCreator.cpp): the `Wrap*` helpers that append
 * the side strip and caps of cones, cylinders and capsules to a legacy vertex
 * buffer with `AddIndex`, the box corner order `GetBoxIdx`, the sky box's
 * index list, and `CreateWireframeVertexBuffer`, which turns a triangle list
 * into a line list.  Vertex positions and texture coordinates are float data
 * and are not part of this model.
 */
module MeshCreator {
  import opened Bytes
  import opened IndexPatterns
  import opened LegacyVertexBuffer

  /** `int` vertex numbers as `AddIndex` receives them, converted to `unsigned int`. */
  function AsIndices(s: seq<int>): (r: seq<nat>)
    ensures |r| == |s|
    ensures forall i :: 0 <= i < |s| ==> r[i] == AsUint32(s[i])
  {
    seq(|s|, i requires 0 <= i < |s| => AsUint32(s[i]))
  }

  lemma AsIndicesAppend(a: seq<int>, b: seq<int>)
    ensures AsIndices(a + b) == AsIndices(a) + AsIndices(b)
  {
  }

  /** Everything but the index list and its dirty flag is left alone. */
  twostate predicate OnlyIndicesChanged(vb: LegacyVertexBuffer)
    reads vb
  {
    vb.elements == old(vb.elements) && vb.vertexFlags == old(vb.vertexFlags) && vb.updateFlags == old(vb.updateFlags)
  }

  /** `AddIndex` once per value, in order. */
  method AddRun(vb: LegacyVertexBuffer, run: seq<int>)
    requires |run| > 0
    modifies vb
    ensures vb.indices == old(vb.indices) + AsIndices(run) && vb.updateIndices
    ensures OnlyIndicesChanged(vb)
  {
    var k := 0;
    while k < |run|
      invariant 0 <= k <= |run|
      invariant vb.indices == old(vb.indices) + AsIndices(run[..k])
      invariant k > 0 ==> vb.updateIndices
      invariant OnlyIndicesChanged(vb)
    {
      vb.AddIndex(AsUint32(run[k]));
      assert run[..k + 1] == run[..k] + [run[k]];
      AsIndicesAppend(run[..k], [run[k]]);
      k := k + 1;
    }
    assert run[..k] == run;
  }

  /** Appending part i after parts 0..i-1 appends parts 0..i. */
  method AddPart(vb: LegacyVertexBuffer, ghost before: seq<nat>, ghost parts: seq<seq<int>>, ghost i: nat, run: seq<int>)
    requires i < |parts| && run == parts[i] && |run| > 0
    requires vb.indices == before + AsIndices(Concat(parts[..i]))
    modifies vb
    ensures vb.indices == before + AsIndices(Concat(parts[..i + 1])) && vb.updateIndices
    ensures OnlyIndicesChanged(vb)
  {
    ConcatSnoc(parts, i);
    AsIndicesAppend(Concat(parts[..i]), run);
    AddRun(vb, run);
  }

  /**
   * `WrapSides`: appends the side strip between the ring at
   * `startVertex` and the ring `sections` further on.
   */
  method WrapSides(vb: LegacyVertexBuffer, startVertex: int, sections: int)
    modifies vb
    ensures vb.indices == old(vb.indices) + AsIndices(SidesIndices(startVertex, sections)) && vb.updateIndices
    ensures OnlyIndicesChanged(vb)
  {
    ghost var parts := SideQuads(startVertex, sections);
    var i := 0;
    assert parts[..0] == [];
    while i < sections - 1
      invariant 0 <= i <= QuadCount(sections) - 1
      invariant vb.indices == old(vb.indices) + AsIndices(Concat(parts[..i]))
      invariant OnlyIndicesChanged(vb)
    {
      var p0 := startVertex + i;
      var p1 := p0 + 1;
      var p2 := p0 + sections;
      var p3 := p2 + 1;
      AddPart(vb, old(vb.indices), parts, i, [p0, p2, p1, p1, p2, p3]);
      i := i + 1;
    }
    var p0 := startVertex + sections - 1;
    var p1 := startVertex;
    var p2 := p0 + sections;
    var p3 := p0 + 1;
    AddPart(vb, old(vb.indices), parts, i, [p0, p2, p1, p1, p2, p3]);
    assert parts[..i + 1] == parts;
  }

  /** `WrapUpperCap`: appends the upper cap fan around `center`. */
  method WrapUpperCap(vb: LegacyVertexBuffer, center: int, startVertex: int, sections: int)
    modifies vb
    ensures vb.indices == old(vb.indices) + AsIndices(UpperCapIndices(center, startVertex, sections)) && vb.updateIndices
    ensures OnlyIndicesChanged(vb)
  {
    ghost var parts := UpperTris(center, startVertex, sections);
    var i := 0;
    assert parts[..0] == [];
    while i < sections - 1
      invariant 0 <= i <= QuadCount(sections) - 1
      invariant vb.indices == old(vb.indices) + AsIndices(Concat(parts[..i]))
      invariant OnlyIndicesChanged(vb)
    {
      var base := startVertex + i;
      AddPart(vb, old(vb.indices), parts, i, [center, base, base + 1]);
      i := i + 1;
    }
    AddPart(vb, old(vb.indices), parts, i, [center, startVertex + sections - 1, startVertex]);
    assert parts[..i + 1] == parts;
  }

  /** `WrapLowerCap`: appends the lower cap fan, wound the other way. */
  method WrapLowerCap(vb: LegacyVertexBuffer, center: int, startVertex: int, sections: int)
    modifies vb
    ensures vb.indices == old(vb.indices) + AsIndices(LowerCapIndices(center, startVertex, sections)) && vb.updateIndices
    ensures OnlyIndicesChanged(vb)
  {
    ghost var parts := LowerTris(center, startVertex, sections);
    var i := 0;
    assert parts[..0] == [];
    while i < sections - 1
      invariant 0 <= i <= QuadCount(sections) - 1
      invariant vb.indices == old(vb.indices) + AsIndices(Concat(parts[..i]))
      invariant OnlyIndicesChanged(vb)
    {
      var base := startVertex + i;
      AddPart(vb, old(vb.indices), parts, i, [center, base + 1, base]);
      i := i + 1;
    }
    AddPart(vb, old(vb.indices), parts, i, [center, startVertex, startVertex + sections - 1]);
    assert parts[..i + 1] == parts;
  }

  // ----------------------------------------------------------------- box corners

  /** `GetBoxIdx`: the corner order of a box face; faces facing a positive axis run backwards. */
  function GetBoxIdx(i: int, x: int, y: int, z: int): (idx: int)
    ensures 0 <= i < 4 ==> 0 <= idx < 4
  {
    if x + y + z > 0 then 3 - i else i
  }

  /** The sky box's corner order, which reverses on negative axes instead. */
  function SkyBoxIdx(i: int, x: int, y: int, z: int): (idx: int)
  {
    if x + y + z < 0 then 3 - i else i
  }

  /**
   * On every face the corner order is a permutation of 0..3 that undoes
   * itself, and the sky box visits the corners of each face in the reverse
   * of the box's order, so its faces are seen from inside.
   */
  lemma BoxCornerOrder(x: int, y: int, z: int)
    requires x + y + z == 1 || x + y + z == -1
    ensures forall i :: 0 <= i < 4 ==> 0 <= GetBoxIdx(i, x, y, z) < 4
    ensures forall i :: 0 <= i < 4 ==> GetBoxIdx(GetBoxIdx(i, x, y, z), x, y, z) == i
    ensures forall i :: 0 <= i < 4 ==> SkyBoxIdx(i, x, y, z) == GetBoxIdx(3 - i, x, y, z)
    ensures forall i, j :: 0 <= i < j < 4 ==> GetBoxIdx(i, x, y, z) != GetBoxIdx(j, x, y, z)
  {
  }

  /** 0, 1, ..., n-1. */
  function Iota(n: nat): (r: seq<nat>)
    ensures |r| == n && forall k :: 0 <= k < n ==> r[k] == k
  {
    seq(n, k requires 0 <= k < n => k)
  }

  /** The sky box's index loop: indices 0..23 in order, one per vertex of its six faces. */
  method AddSkyBoxIndices(vb: LegacyVertexBuffer)
    modifies vb
    ensures vb.indices == old(vb.indices) + Iota(24)
    ensures vb.updateIndices && OnlyIndicesChanged(vb)
  {
    var i := 0;
    while i < 24
      invariant 0 <= i <= 24
      invariant vb.indices == old(vb.indices) + Iota(i)
      invariant i > 0 ==> vb.updateIndices
      invariant OnlyIndicesChanged(vb)
    {
      vb.AddIndex(i);
      assert Iota(i + 1) == Iota(i) + [i];
      i := i + 1;
    }
  }

  // ------------------------------------------------------------------- wireframe

  /** Entry 2*e (e = 3t + i) of the line list: edge i of triangle t runs from corner i to corner i+1 mod 3. */
  predicate EdgeAt(lines: seq<nat>, tris: seq<nat>, t: nat, i: nat)
    requires 3 * t + 2 < |tris| && 6 * t + 2 * i + 1 < |lines| && i < 3
  {
    lines[6 * t + 2 * i] == tris[3 * t + i] && lines[6 * t + 2 * i + 1] == tris[3 * t + (i + 1) % 3]
  }

  /** Writing edge i of triangle t keeps the edges already written. */
  lemma EdgeStep(lines: seq<nat>, tris: seq<nat>, t: nat, i: nat, next: nat, at: nat, tri: nat)
    requires 3 * t + 2 < |tris| && 6 * t + 6 <= |lines| && i < 3 && next == (i + 1) % 3
    requires at == 6 * t + 2 * i && tri == 3 * t
    requires forall u, j :: 0 <= u < t && 0 <= j < 3 ==> EdgeAt(lines, tris, u, j)
    requires forall j :: 0 <= j < i ==> EdgeAt(lines, tris, t, j)
    ensures var written := lines[at := tris[tri + i]][at + 1 := tris[tri + next]];
      (forall u, j :: 0 <= u < t && 0 <= j < 3 ==> EdgeAt(written, tris, u, j)) &&
      (forall j :: 0 <= j <= i ==> EdgeAt(written, tris, t, j))
  {
    var written := lines[at := tris[tri + i]][at + 1 := tris[tri + next]];
    forall u, j | 0 <= u < t && 0 <= j < 3 ensures EdgeAt(written, tris, u, j) {
      assert EdgeAt(lines, tris, u, j);
    }
    forall j | 0 <= j <= i ensures EdgeAt(written, tris, t, j) {
      if j < i {
        assert EdgeAt(lines, tris, t, j);
      }
    }
  }

  /**
   * `CreateWireframeVertexBuffer`: a copy of `src` with every vertex element
   * whose flag `src` has, and 4N indices for N source indices: the first 2N
   * are the three edges of each triangle as line pairs, the last 2N are left
   * zero by the resize.  The source reads whole triangles, so N is a
   * multiple of 3, and `CreateCopy` asserts a position element.
   */
  method CreateWireframeVertexBuffer(src: LegacyVertexBuffer) returns (dest: LegacyVertexBuffer)
    requires |src.indices| % 3 == 0 && Position in Kinds(src.elements)
    ensures fresh(dest)
    ensures dest.elements == Selected(src.elements, src.vertexFlags)
    ensures src.Valid() ==> dest.elements == src.elements
    ensures |dest.indices| == 4 * |src.indices|
    ensures forall t, i :: 0 <= t < |src.indices| / 3 && 0 <= i < 3 ==>
      6 * t + 2 * i + 1 < |dest.indices| && EdgeAt(dest.indices, src.indices, t, i)
    ensures forall k :: 2 * |src.indices| <= k < 4 * |src.indices| ==> dest.indices[k] == 0
    ensures dest.updateIndices
  {
    dest := src.CreateCopy(src.vertexFlags);
    if src.Valid() {
      SelectAll(src.elements);
    }
    var n := |src.indices|;
    dest.ResizeIndices(n * 4);
    // `pDestArray` points into the copy's own index storage; the loop writes
    // through it and the copy holds the result afterwards.
    var lines := WriteEdges(dest.indices, src.indices);
    dest.indices := lines;
    dest.UpdateData({}, true);
  }

  /**
   * The triangle loop of `CreateWireframeVertexBuffer` over the resized index
   * array `lines0` (4N slots, the first N still holding the copied triangle
   * list, the rest zero): afterwards slot pair 3t+i holds edge i of triangle t
   * and the last 2N slots are still zero.
   */
  method WriteEdges(lines0: seq<nat>, tris: seq<nat>) returns (lines: seq<nat>)
    requires |tris| % 3 == 0 && |lines0| == 4 * |tris|
    requires forall k :: |tris| <= k < 4 * |tris| ==> lines0[k] == 0
    ensures |lines| == 4 * |tris|
    ensures forall t, i :: 0 <= t < |tris| / 3 && 0 <= i < 3 ==> EdgeAt(lines, tris, t, i)
    ensures forall k :: 2 * |tris| <= k < 4 * |tris| ==> lines[k] == 0
  {
    var n := |tris|;
    lines := lines0;
    assert n == 3 * (n / 3);
    var destCount := 0;
    var tri := 0;
    ghost var t := 0;
    while tri < n
      invariant tri == 3 * t && tri <= n && destCount == 6 * t && |lines| == 4 * n
      invariant forall u, i :: 0 <= u < t && 0 <= i < 3 ==> EdgeAt(lines, tris, u, i)
      invariant forall k :: n <= k < 4 * n && destCount <= k ==> lines[k] == 0
    {
      var i := 0;
      while i < 3
        invariant 0 <= i <= 3 && destCount == 6 * t + 2 * i && |lines| == 4 * n
        invariant forall u, j :: 0 <= u < t && 0 <= j < 3 ==> EdgeAt(lines, tris, u, j)
        invariant forall j :: 0 <= j < i ==> EdgeAt(lines, tris, t, j)
        invariant forall k :: n <= k < 4 * n && destCount <= k ==> lines[k] == 0
      {
        var next := if i + 1 >= 3 then 0 else i + 1;
        EdgeStep(lines, tris, t, i, next, destCount, tri);
        lines := lines[destCount := tris[tri + i]][destCount + 1 := tris[tri + next]];
        destCount := destCount + 2;
        i := i + 1;
      }
      tri := tri + 3;
      t := t + 1;
    }
    assert tri == n && t == n / 3;
  }

  /** Selecting by the set of all kinds present keeps every element. */
  lemma {:induction false} SelectAll(elements: seq<VertexElement>)
    ensures Selected(elements, Kinds(elements)) == elements
  {
    SelectSuperset(elements, Kinds(elements));
  }

  lemma {:induction false} SelectSuperset(elements: seq<VertexElement>, mask: set<ElementKind>)
    requires Kinds(elements) <= mask
    ensures Selected(elements, mask) == elements
  {
    if elements != [] {
      assert elements[0].kind in Kinds(elements);
      assert Kinds(elements[1..]) <= Kinds(elements) by {
        forall k | k in Kinds(elements[1..]) ensures k in Kinds(elements) {
          var j :| 0 <= j < |elements[1..]| && elements[1..][j].kind == k;
          assert elements[j + 1].kind == k;
        }
      }
      SelectSuperset(elements[1..], mask);
      assert [elements[0]] + elements[1..] == elements;
    }
  }
}

=== FILE: mesh_utility.dfy ===
/**
 * The index-writing parts of HPL2/sources/graphics/MeshUtility.cpp: the
 * `Wrap*` helpers that fill a `GraphicsBuffer` index view with the side strip
 * and caps of a ring mesh, and the index halves of `CreatePlane` and
 * `CreateBox`.  Vertex positions, normals, colours and texture coordinates
 * are float data and are not part of this model; only how many vertices are
 * written is.
 */
module MeshUtility {
  import opened Bytes
  import opened GraphicsBuffer
  import opened IndexPatterns

  /** What a mesh builder reports: how many vertices and indices it wrote. */
  datatype MeshCreateResult = MeshCreateResult(numVertices: nat, numIndices: nat)

  /** Slots at..at+|values|-1 of the view hold `values`, as the view stores them. */
  predicate Holds(view: BufferIndexView, at: nat, values: seq<int>)
    reads view.asset
  {
    forall p :: at <= p < at + |values| ==>
      view.HasSlot(p) && view.Get(p) == StoredIndex(view.indexType, AsUint32(values[p - at]))
  }

  /** Every slot outside [lo, hi) that existed before keeps its index. */
  twostate predicate FramedOutside(view: BufferIndexView, lo: nat, hi: nat)
    reads view.asset
  {
    forall p: nat :: !(lo <= p < hi) && old(view.HasSlot(p)) ==> view.HasSlot(p) && view.Get(p) == old(view.Get(p))
  }

  /** One `view->Write(viewIndex++, v)` after a run already in place. */
  method WriteNext(view: BufferIndexView, ghost v0: nat, ghost written: seq<int>, at: nat, value: int) returns (next: nat)
    requires at == v0 + |written| && Holds(view, v0, written)
    modifies view.asset
    ensures next == at + 1
    ensures Holds(view, v0, written + [value])
    ensures FramedOutside(view, at, next)
  {
    view.Write(at, AsUint32(value));
    next := at + 1;
  }

  /** Consecutive `view->Write(viewIndex++, v)` calls, one per value. */
  method WriteRun(view: BufferIndexView, at: nat, values: seq<int>) returns (next: nat)
    modifies view.asset
    ensures next == at + |values|
    ensures Holds(view, at, values)
    ensures FramedOutside(view, at, next)
  {
    next := at;
    var k := 0;
    while k < |values|
      invariant 0 <= k <= |values| && next == at + k
      invariant Holds(view, at, values[..k])
      invariant FramedOutside(view, at, next)
    {
      next := WriteNext(view, at, values[..k], next, values[k]);
      assert values[..k] + [values[k]] == values[..k + 1];
      k := k + 1;
    }
    assert values[..k] == values;
  }

  /** Writing `run` right after `written` leaves both in place. */
  method ExtendRun(view: BufferIndexView, ghost v0: nat, ghost written: seq<int>, at: nat, run: seq<int>) returns (next: nat)
    requires at == v0 + |written| && Holds(view, v0, written)
    modifies view.asset
    ensures next == at + |run|
    ensures Holds(view, v0, written + run)
    ensures FramedOutside(view, at, next)
  {
    next := WriteRun(view, at, run);
  }

  /** Writing part i of `parts` after parts 0..i-1 leaves parts 0..i in place. */
  method AppendPart(view: BufferIndexView, ghost v0: nat, ghost parts: seq<seq<int>>, ghost i: nat, at: nat, run: seq<int>)
    returns (next: nat)
    requires i < |parts| && run == parts[i]
    requires at == v0 + |Concat(parts[..i])| && Holds(view, v0, Concat(parts[..i]))
    modifies view.asset
    ensures next == at + |run|
    ensures |Concat(parts[..i + 1])| == |Concat(parts[..i])| + |run|
    ensures Holds(view, v0, Concat(parts[..i + 1]))
    ensures FramedOutside(view, at, next)
  {
    ConcatSnoc(parts, i);
    next := ExtendRun(view, v0, Concat(parts[..i]), at, run);
  }

  /**
   * `WrapSides`: writes the side strip from slot `viewIndex` on and returns
   * the slot after it; no other existing slot changes.
   */
  method WrapSides(viewIndex: nat, view: BufferIndexView, startVertex: int, sections: int) returns (next: nat)
    modifies view.asset
    ensures next == viewIndex + 6 * QuadCount(sections)
    ensures Holds(view, viewIndex, SidesIndices(startVertex, sections))
    ensures FramedOutside(view, viewIndex, next)
  {
    ghost var parts := SideQuads(startVertex, sections);
    next := viewIndex;
    var i := 0;
    assert parts[..0] == [];
    while i < sections - 1
      invariant 0 <= i <= QuadCount(sections) - 1
      invariant |Concat(parts[..i])| == 6 * i && next == viewIndex + 6 * i
      invariant Holds(view, viewIndex, Concat(parts[..i]))
      invariant FramedOutside(view, viewIndex, next)
    {
      var p0 := startVertex + i;
      var p1 := p0 + 1;
      var p2 := p0 + sections;
      var p3 := p2 + 1;
      next := AppendPart(view, viewIndex, parts, i, next, [p0, p2, p1, p1, p2, p3]);
      i := i + 1;
    }
    var p0 := startVertex + sections - 1;
    var p1 := startVertex;
    var p2 := p0 + sections;
    var p3 := p0 + 1;
    next := AppendPart(view, viewIndex, parts, i, next, [p0, p2, p1, p1, p2, p3]);
    assert parts[..i + 1] == parts;
  }

  /** `WrapUpperCap`: the upper cap fan from slot `viewIndex` on. */
  method WrapUpperCap(viewIndex: nat, view: BufferIndexView, center: int, startVertex: int, sections: int) returns (next: nat)
    modifies view.asset
    ensures next == viewIndex + 3 * QuadCount(sections)
    ensures Holds(view, viewIndex, UpperCapIndices(center, startVertex, sections))
    ensures FramedOutside(view, viewIndex, next)
  {
    ghost var parts := UpperTris(center, startVertex, sections);
    next := viewIndex;
    var i := 0;
    assert parts[..0] == [];
    while i < sections - 1
      invariant 0 <= i <= QuadCount(sections) - 1
      invariant |Concat(parts[..i])| == 3 * i && next == viewIndex + 3 * i
      invariant Holds(view, viewIndex, Concat(parts[..i]))
      invariant FramedOutside(view, viewIndex, next)
    {
      var base := startVertex + i;
      next := AppendPart(view, viewIndex, parts, i, next, [center, base, base + 1]);
      i := i + 1;
    }
    next := AppendPart(view, viewIndex, parts, i, next, [center, startVertex + sections - 1, startVertex]);
    assert parts[..i + 1] == parts;
  }

  /** `WrapLowerCap`: the lower cap fan, wound the other way. */
  method WrapLowerCap(viewIndex: nat, view: BufferIndexView, center: int, startVertex: int, sections: int) returns (next: nat)
    modifies view.asset
    ensures next == viewIndex + 3 * QuadCount(sections)
    ensures Holds(view, viewIndex, LowerCapIndices(center, startVertex, sections))
    ensures FramedOutside(view, viewIndex, next)
  {
    ghost var parts := LowerTris(center, startVertex, sections);
    next := viewIndex;
    var i := 0;
    assert parts[..0] == [];
    while i < sections - 1
      invariant 0 <= i <= QuadCount(sections) - 1
      invariant |Concat(parts[..i])| == 3 * i && next == viewIndex + 3 * i
      invariant Holds(view, viewIndex, Concat(parts[..i]))
      invariant FramedOutside(view, viewIndex, next)
    {
      var base := startVertex + i;
      next := AppendPart(view, viewIndex, parts, i, next, [center, base + 1, base]);
      i := i + 1;
    }
    next := AppendPart(view, viewIndex, parts, i, next, [center, startVertex, startVertex + sections - 1]);
    assert parts[..i + 1] == parts;
  }

  /** How many of the three components of p1 - p2 are zero. */
  function ZeroCount(diffIsZero: seq<bool>): (n: nat)
    ensures n <= |diffIsZero|
  {
    if diffIsZero == [] then 0
    else ZeroCount(diffIsZero[..|diffIsZero| - 1]) + (if diffIsZero[|diffIsZero| - 1] then 1 else 0)
  }

  /**
   * `CreatePlane`, index part.  `diffIsZero[i]` says whether component i of
   * p1 - p2 is zero.  Unless exactly one is, the corners are not coplanar
   * with an axis and nothing is written; otherwise 4 vertices and the quad
   * 0,1,2,2,3,0 are written from slot 0.
   */
  method CreatePlane(index: BufferIndexView, diffIsZero: seq<bool>) returns (r: MeshCreateResult)
    requires |diffIsZero| == 3
    modifies index.asset
    ensures ZeroCount(diffIsZero) != 1 ==> r == MeshCreateResult(0, 0) && index.asset.buffer == old(index.asset.buffer)
    ensures ZeroCount(diffIsZero) == 1 ==> r == MeshCreateResult(4, 6) && Holds(index, 0, Quad(0))
    ensures FramedOutside(index, 0, r.numIndices)
  {
    var planeNormalAxis := -1;
    var numSameCoords := 0;
    var i := 0;
    while i < 3
      invariant 0 <= i <= 3 && numSameCoords == ZeroCount(diffIsZero[..i])
      invariant planeNormalAxis < 0 <==> numSameCoords == 0
    {
      assert diffIsZero[..i + 1][..i] == diffIsZero[..i];
      if diffIsZero[i] {
        planeNormalAxis := i;
        numSameCoords := numSameCoords + 1;
      }
      i := i + 1;
    }
    assert diffIsZero[..3] == diffIsZero;
    if planeNormalAxis < 0 || numSameCoords > 1 {
      return MeshCreateResult(0, 0);
    }
    var vertexBufIdx := 4;
    var indexBufIndex := 0;
    ghost var written: seq<int> := [];
    i := 0;
    while i < 3
      invariant 0 <= i <= 3 && indexBufIndex == i && written == Quad(0)[..i]
      invariant Holds(index, 0, written)
      invariant FramedOutside(index, 0, indexBufIndex)
    {
      indexBufIndex := ExtendRun(index, 0, written, indexBufIndex, [i]);
      written := written + [i];
      i := i + 1;
    }
    i := 2;
    while i < 5
      invariant 2 <= i <= 5 && indexBufIndex == i + 1 && written == Quad(0)[..i + 1]
      invariant Holds(index, 0, written)
      invariant FramedOutside(index, 0, indexBufIndex)
    {
      var v := if i == 4 then 0 else i;
      indexBufIndex := ExtendRun(index, 0, written, indexBufIndex, [v]);
      written := written + [v];
      i := i + 1;
    }
    assert written == Quad(0);
    r := MeshCreateResult(vertexBufIdx, indexBufIndex);
  }

  function Abs(x: int): nat { if x < 0 then -x else x }

  /** (x, y, z) is a face direction: a unit axis vector. */
  predicate IsFace(x: int, y: int, z: int)
  {
    !(x == 0 && y == 0 && z == 0) && Abs(x) + Abs(y) + Abs(z) <= 1
  }

  /** Face directions (x, y, z') with -1 <= z' < z. */
  function FacesZ(x: int, y: int, z: int): nat
    decreases z + 1
  {
    if z <= -1 then 0 else FacesZ(x, y, z - 1) + (if IsFace(x, y, z - 1) then 1 else 0)
  }

  /** Face directions (x, y', z') with -1 <= y' < y and -1 <= z' <= 1. */
  function FacesY(x: int, y: int): nat
    decreases y + 1
  {
    if y <= -1 then 0 else FacesY(x, y - 1) + FacesZ(x, y - 1, 2)
  }

  /** Face directions with first component x: four for x = 0, one for x = -1 or 1. */
  function SliceFaces(x: int): nat
  {
    if x == 0 then 4 else if x == -1 || x == 1 then 1 else 0
  }

  lemma SliceCount(x: int)
    requires -1 <= x <= 1
    ensures FacesY(x, 2) == SliceFaces(x)
  {
    assert FacesZ(x, -1, 2) == (if x == 0 then 1 else 0);
    assert FacesZ(x, 0, 2) == (if x == 0 then 2 else 1);
    assert FacesZ(x, 1, 2) == (if x == 0 then 1 else 0);
  }

  /** Face directions (x', y', z') with -1 <= x' < x, for x in -1..2: 0, 1, 5, 6. */
  function FacesX(x: int): nat
  {
    if x <= -1 then 0 else if x == 0 then 1 else if x == 1 then 5 else 6
  }

  /** The six indices of one box face, over the face's four new vertices. */
  method WriteFace(index: BufferIndexView, ghost faces: nat, at: nat, vtxIdx: int) returns (next: nat)
    requires at == 6 * faces && vtxIdx == 4 * faces && Holds(index, 0, QuadIndices(faces))
    modifies index.asset
    ensures next == at + 6
    ensures Holds(index, 0, QuadIndices(faces + 1))
    ensures FramedOutside(index, at, next)
  {
    QuadIndicesSnoc(faces);
    var run := [vtxIdx, vtxIdx + 1, vtxIdx + 2, vtxIdx + 2, vtxIdx + 3, vtxIdx];
    assert run == Quad(faces);
    next := ExtendRun(index, 0, QuadIndices(faces), at, run);
  }

  /**
   * The innermost loop of `CreateBox` (z from -1 to 1 at fixed x, y): one
   * face per face direction met, each after the ones already written.
   */
  method BoxRow(index: BufferIndexView, x: int, y: int, ghost faces0: nat, vtxIdx0: nat, vertexBufIdx0: nat, indexBufIndex0: nat)
    returns (vtxIdx: nat, vertexBufIdx: nat, indexBufIndex: nat)
    requires vtxIdx0 == vertexBufIdx0 == 4 * faces0 && indexBufIndex0 == 6 * faces0
    requires Holds(index, 0, QuadIndices(faces0))
    modifies index.asset
    ensures vtxIdx == vertexBufIdx == 4 * (faces0 + FacesZ(x, y, 2))
    ensures indexBufIndex == 6 * (faces0 + FacesZ(x, y, 2))
    ensures Holds(index, 0, QuadIndices(faces0 + FacesZ(x, y, 2)))
    ensures FramedOutside(index, indexBufIndex0, indexBufIndex)
  {
    vtxIdx, vertexBufIdx, indexBufIndex := vtxIdx0, vertexBufIdx0, indexBufIndex0;
    ghost var faces := faces0;
    var z := -1;
    while z <= 1
      invariant -1 <= z <= 2 && faces == faces0 + FacesZ(x, y, z)
      invariant vtxIdx == vertexBufIdx == 4 * faces && indexBufIndex == 6 * faces
      invariant Holds(index, 0, QuadIndices(faces))
      invariant FramedOutside(index, indexBufIndex0, indexBufIndex)
    {
      assert FacesZ(x, y, z + 1) == FacesZ(x, y, z) + (if IsFace(x, y, z) then 1 else 0);
      if IsFace(x, y, z) {
        vertexBufIdx := vertexBufIdx + 4;
        indexBufIndex := WriteFace(index, faces, indexBufIndex, vtxIdx);
        vtxIdx := vtxIdx + 4;
        faces := faces + 1;
      }
      z := z + 1;
    }
  }

  /** The middle loop of `CreateBox` (y from -1 to 1 at fixed x). */
  method BoxSlice(index: BufferIndexView, x: int, ghost faces0: nat, vtxIdx0: nat, vertexBufIdx0: nat, indexBufIndex0: nat)
    returns (vtxIdx: nat, vertexBufIdx: nat, indexBufIndex: nat)
    requires vtxIdx0 == vertexBufIdx0 == 4 * faces0 && indexBufIndex0 == 6 * faces0
    requires Holds(index, 0, QuadIndices(faces0))
    modifies index.asset
    ensures vtxIdx == vertexBufIdx == 4 * (faces0 + FacesY(x, 2))
    ensures indexBufIndex == 6 * (faces0 + FacesY(x, 2))
    ensures Holds(index, 0, QuadIndices(faces0 + FacesY(x, 2)))
    ensures FramedOutside(index, indexBufIndex0, indexBufIndex)
  {
    vtxIdx, vertexBufIdx, indexBufIndex := vtxIdx0, vertexBufIdx0, indexBufIndex0;
    ghost var faces := faces0;
    var y := -1;
    while y <= 1
      invariant -1 <= y <= 2 && faces == faces0 + FacesY(x, y)
      invariant vtxIdx == vertexBufIdx == 4 * faces && indexBufIndex == 6 * faces
      invariant Holds(index, 0, QuadIndices(faces))
      invariant FramedOutside(index, indexBufIndex0, indexBufIndex)
    {
      vtxIdx, vertexBufIdx, indexBufIndex := BoxRow(index, x, y, faces, vtxIdx, vertexBufIdx, indexBufIndex);
      faces := faces + FacesZ(x, y, 2);
      y := y + 1;
    }
  }

  /**
   * `CreateBox`, index part: for each of the six face directions, four
   * vertices and the quad over them, so 24 vertices and 36 indices with
   * face f using vertices 4f..4f+3.
   */
  method CreateBox(index: BufferIndexView) returns (r: MeshCreateResult)
    modifies index.asset
    ensures r == MeshCreateResult(24, 36)
    ensures Holds(index, 0, QuadIndices(6))
    ensures FramedOutside(index, 0, 36)
  {
    var vtxIdx := 0;
    var vertexBufIdx := 0;
    var indexBufIndex := 0;
    ghost var faces := 0;
    assert QuadParts(0) == [];
    var x := -1;
    while x <= 1
      invariant -1 <= x <= 2 && faces == FacesX(x)
      invariant vtxIdx == vertexBufIdx == 4 * faces && indexBufIndex == 6 * faces
      invariant Holds(index, 0, QuadIndices(faces))
      invariant FramedOutside(index, 0, indexBufIndex)
    {
      SliceCount(x);
      vtxIdx, vertexBufIdx, indexBufIndex := BoxSlice(index, x, faces, vtxIdx, vertexBufIdx, indexBufIndex);
      faces := faces + SliceFaces(x);
      x := x + 1;
    }
    r := MeshCreateResult(vertexBufIdx, indexBufIndex);
  }

  /**
   * The index loop particle emitters and ropes run once at construction:
   * quad i gets the two triangles 4i,4i+1,4i+2 and 4i+2,4i+3,4i, from slot 0 on.
   */
  method WriteQuadIndices(view: BufferIndexView, count: nat)
    modifies view.asset
    ensures Holds(view, 0, QuadIndices(count))
    ensures FramedOutside(view, 0, 6 * count)
  {
    var appendIdx := 0;
    var i := 0;
    QuadIndicesSnoc(0);
    while i < count
      invariant 0 <= i <= count && appendIdx == 6 * i
      invariant Holds(view, 0, QuadIndices(i))
      invariant FramedOutside(view, 0, appendIdx)
    {
      appendIdx := WriteQuadAt(view, i, appendIdx);
      i := i + 1;
    }
  }

  /** One pass of that loop: the two `j` loops for quad i. */
  method WriteQuadAt(view: BufferIndexView, i: nat, at: nat) returns (next: nat)
    requires at == 6 * i && Holds(view, 0, QuadIndices(i))
    modifies view.asset
    ensures next == at + 6
    ensures Holds(view, 0, QuadIndices(i + 1))
    ensures FramedOutside(view, at, next)
  {
    QuadIndicesSnoc(i);
    assert QuadIndices(i) + Quad(i)[..0] == QuadIndices(i);
    next := WriteFirstTriangle(view, QuadIndices(i), i, at);
    next := WriteSecondTriangle(view, QuadIndices(i), i, next);
    assert Quad(i)[..6] == Quad(i);
  }

  /** The first `j` loop, after the indices `base`: corners 4i, 4i+1, 4i+2. */
  method WriteFirstTriangle(view: BufferIndexView, ghost base: seq<int>, i: nat, at: nat) returns (next: nat)
    requires at == |base| && Holds(view, 0, base + Quad(i)[..0])
    modifies view.asset
    ensures next == at + 3
    ensures Holds(view, 0, base + Quad(i)[..3])
    ensures FramedOutside(view, at, next)
  {
    next := at;
    var j := 0;
    while j < 3
      invariant 0 <= j <= 3 && next == at + j
      invariant Holds(view, 0, base + Quad(i)[..j])
      invariant FramedOutside(view, at, next)
    {
      ghost var written, target := base + Quad(i)[..j], base + Quad(i)[..j + 1];
      next := WriteNext(view, 0, written, next, i * 4 + j);
      FirstTriangleCorner(i, j);
      PrefixStep(base, Quad(i), j);
      HoldsExtended(view, written, i * 4 + j, target);
      j := j + 1;
    }
  }

  /** The second `j` loop, after `base` and the first triangle: corners 4i+2, 4i+3 and, for j == 4, 4i. */
  method WriteSecondTriangle(view: BufferIndexView, ghost base: seq<int>, i: nat, at: nat) returns (next: nat)
    requires at == |base| + 3 && Holds(view, 0, base + Quad(i)[..3])
    modifies view.asset
    ensures next == at + 3
    ensures Holds(view, 0, base + Quad(i)[..6])
    ensures FramedOutside(view, at, next)
  {
    next := at;
    var j := 2;
    while j < 5
      invariant 2 <= j <= 5 && next == at + j - 2
      invariant Holds(view, 0, base + Quad(i)[..j + 1])
      invariant FramedOutside(view, at, next)
    {
      ghost var written := base + Quad(i)[..j + 1];
      var corner := i * 4 + (if j == 4 then 0 else j);
      next := WriteNext(view, 0, written, next, corner);
      SecondTriangleCorner(i, j);
      PrefixStep(base, Quad(i), j + 1);
      HoldsExtended(view, written, corner, base + Quad(i)[..j + 2]);
      j := j + 1;
    }
  }

  /** The first `j` loop writes corner j of quad i. */
  lemma FirstTriangleCorner(i: nat, j: nat)
    requires j < 3
    ensures Quad(i)[j] == i * 4 + j
  {
    if j == 0 {} else if j == 1 {} else {}
  }

  /** The second `j` loop writes corner j + 1 of quad i (4i for j == 4). */
  lemma SecondTriangleCorner(i: nat, j: nat)
    requires 2 <= j < 5
    ensures Quad(i)[j + 1] == i * 4 + (if j == 4 then 0 else j)
  {
    if j == 2 {} else if j == 3 {} else {}
  }

  /** Extending a prefix of `q` by its next element. */
  lemma PrefixStep(base: seq<int>, q: seq<int>, j: nat)
    requires j < |q|
    ensures base + q[..j] + [q[j]] == base + q[..j + 1]
  {
    assert q[..j + 1] == q[..j] + [q[j]];
  }

  /** `Holds` of a run with one more value, under another name for the same sequence. */
  lemma HoldsExtended(view: BufferIndexView, written: seq<int>, v: int, target: seq<int>)
    requires Holds(view, 0, written + [v]) && written + [v] == target
    ensures Holds(view, 0, target)
  {
  }
}

=== FILE: particle_emitter.dfy ===
/**
 * The particle pool of `iParticleEmitter`
 * (HPL2/sources/scene/ParticleEmitter.cpp): a vector of preallocated
 * particles whose first `numOfParticles` entries are alive, the index
 * pattern written once in the constructor, the ring of vertex copies the
 * emitter cycles through, and the draw packet it resolves to.  Particles are
 * modelled by their identities (the entries of `mvParticles`); their
 * positions, colours and sizes are float data and are not part of this model.
 */
module ParticleEmitter {
  import opened Bytes
  import opened IndexPatterns
  import opened GraphicsBuffer
  import opened MeshUtility
  import opened Wrappers
  import opened Drawing

  /** 0, 1, ..., n-1: the particles the constructor allocates, one identity each. */
  function Identities(n: nat): (r: seq<nat>)
    ensures |r| == n && forall k :: 0 <= k < n ==> r[k] == k
  {
    seq(n, k requires 0 <= k < n => k)
  }

  /** `SwapRemove` on the particle vector: slot i and the last live slot trade places. */
  function SwapRemoved(particles: seq<nat>, i: nat, num: nat): (r: seq<nat>)
    requires i < num <= |particles|
  {
    if i < num - 1 then particles[i := particles[num - 1]][num - 1 := particles[i]] else particles
  }

  /**
   * Removing live particle i leaves the vector a permutation of itself, and
   * the live prefix one shorter is the old live prefix without that particle;
   * the dead particles past the old live count stay where they were.
   */
  lemma SwapRemoveKeepsPool(particles: seq<nat>, i: nat, num: nat)
    requires i < num <= |particles|
    ensures |SwapRemoved(particles, i, num)| == |particles|
    ensures multiset(SwapRemoved(particles, i, num)) == multiset(particles)
    ensures multiset(SwapRemoved(particles, i, num)[..num - 1]) == multiset(particles[..num]) - multiset{particles[i]}
    ensures SwapRemoved(particles, i, num)[num..] == particles[num..]
  {
    var r := SwapRemoved(particles, i, num);
    var last := num - 1;
    if i < last {
      SwappedLive(particles, i, num);
      assert r[last] == particles[i];
      SplitMultiset(r, last);
      SplitAt(particles, num);
      assert particles[i] in multiset(particles[..num]) by {
        assert particles[..num][i] == particles[i];
      }
    } else {
      SplitMultiset(particles, last);
    }
  }

  lemma SplitAt(s: seq<nat>, k: nat)
    requires k <= |s|
    ensures multiset(s) == multiset(s[..k]) + multiset(s[k..])
  {
    assert s == s[..k] + s[k..];
  }

  /** The live prefix, slot k and the rest make up the whole vector. */
  lemma SplitMultiset(s: seq<nat>, k: nat)
    requires k < |s|
    ensures multiset(s) == multiset(s[..k]) + multiset{s[k]} + multiset(s[k + 1..])
    ensures s[..k + 1] == s[..k] + [s[k]]
  {
    assert s == s[..k] + [s[k]] + s[k + 1..];
  }

  /** After a real swap, the shortened live prefix is the old one with slot i refilled by the last. */
  lemma SwappedLive(particles: seq<nat>, i: nat, num: nat)
    requires i < num - 1 && num <= |particles|
    ensures multiset(SwapRemoved(particles, i, num)[..num - 1]) == multiset(particles[..num]) - multiset{particles[i]}
    ensures SwapRemoved(particles, i, num)[num..] == particles[num..]
  {
    var r := SwapRemoved(particles, i, num);
    var last := num - 1;
    assert particles[..num] == particles[..i] + [particles[i]] + particles[i + 1..last] + [particles[last]];
    assert r[..last] == particles[..i] + [particles[last]] + particles[i + 1..last];
  }

  class ParticleEmitter {
    /** `NumberActiveCopies`: how many vertex copies the emitter cycles through. */
    const numberActiveCopies: nat
    /** `mvParticles`. */
    var particles: seq<nat>
    /** `mlMaxParticles`. */
    var maxParticles: nat
    /** `mlNumOfParticles`: particles[..numOfParticles] are alive. */
    var numOfParticles: nat
    /** `mbDying`. */
    var dying: bool
    /** `m_activeCopy`: which vertex copy the next frame writes. */
    var activeCopy: nat
    /** `m_numberParticlesRender`. */
    var numberParticlesRender: nat

    /**
     * The live count never passes the maximum, which never passes the pool
     * size the constructor allocated; the render count, set from the live
     * count and kept by `KillInstantly`, never passes the pool size either.
     */
    predicate Valid()
      reads this
    {
      numberActiveCopies > 0 && numOfParticles <= maxParticles <= |particles| &&
      activeCopy < numberActiveCopies && numberParticlesRender <= |particles|
    }

    /** The constructor's pool set-up: `maxParticles` fresh particles, none alive. */
    constructor (maxParticles: nat, numberActiveCopies: nat)
      requires numberActiveCopies > 0
      ensures Valid()
      ensures particles == Identities(maxParticles) && this.maxParticles == maxParticles
      ensures numOfParticles == 0 && !dying && activeCopy == 0 && numberParticlesRender == 0
      ensures this.numberActiveCopies == numberActiveCopies
    {
      this.numberActiveCopies := numberActiveCopies;
      particles := Identities(maxParticles);
      this.maxParticles := maxParticles;
      numOfParticles := 0;
      dying := false;
      activeCopy := 0;
      numberParticlesRender := 0;
    }

    /**
     * The constructor's index set-up: particle i gets the two triangles
     * 4i,4i+1,4i+2 and 4i+2,4i+3,4i, from slot 0 on.
     */
    method WriteIndices(view: BufferIndexView)
      requires Valid()
      modifies view.asset
      ensures Holds(view, 0, QuadIndices(maxParticles))
      ensures FramedOutside(view, 0, 6 * maxParticles)
    {
      WriteQuadIndices(view, maxParticles);
    }

    /**
     * `CreateParticle`: none when the pool is full; otherwise the next dead
     * particle becomes alive and is returned.
     */
    method CreateParticle() returns (p: Option<nat>)
      requires Valid()
      modifies this
      ensures Valid() && particles == old(particles) && maxParticles == old(maxParticles)
      ensures old(numOfParticles) == maxParticles ==> p == None && numOfParticles == old(numOfParticles)
      ensures old(numOfParticles) < maxParticles ==>
        numOfParticles == old(numOfParticles) + 1 && p == Some(particles[numOfParticles - 1])
      ensures dying == old(dying) && activeCopy == old(activeCopy) && numberParticlesRender == old(numberParticlesRender)
    {
      if numOfParticles == maxParticles {
        return None;
      }
      numOfParticles := numOfParticles + 1;
      p := Some(particles[numOfParticles - 1]);
    }

    /**
     * `SwapRemove(index)`: live particle `index` dies by trading places with
     * the last live one.  Callers pass a live index.
     */
    method SwapRemove(index: nat)
      requires Valid() && index < numOfParticles
      modifies this
      ensures particles == SwapRemoved(old(particles), index, old(numOfParticles))
      ensures numOfParticles == old(numOfParticles) - 1
      ensures maxParticles == old(maxParticles) && dying == old(dying) && activeCopy == old(activeCopy)
      ensures numberParticlesRender == old(numberParticlesRender)
    {
      if index < numOfParticles - 1 {
        var temp := particles[index];
        particles := particles[index := particles[numOfParticles - 1]];
        particles := particles[numOfParticles - 1 := temp];
      }
      numOfParticles := numOfParticles - 1;
    }

    /**
     * `KillInstantly`: no particle is alive or may be created, and the emitter
     * is dying.  The render count is left as it was, so until the next frame
     * with particles a resolved packet still draws the last frame's quads.
     */
    method KillInstantly()
      requires Valid()
      modifies this
      ensures Valid()
      ensures maxParticles == 0 && numOfParticles == 0 && dying
      ensures particles == old(particles) && activeCopy == old(activeCopy)
      ensures numberParticlesRender == old(numberParticlesRender)
    {
      maxParticles := 0;
      numOfParticles := 0;
      dying := true;
    }

    /**
     * The bookkeeping of `UpdateGraphicsForViewport`: nothing happens for an
     * emitter without particles; otherwise the next vertex copy becomes
     * active and every live particle is to be drawn, unless the emitter's
     * colour has no alpha (`alphaPositive` false), when nothing is drawn and
     * false is returned.
     */
    method UpdateGraphicsForViewport(alphaPositive: bool) returns (r: bool)
      requires Valid()
      modifies this
      ensures Valid()
      ensures old(maxParticles) == 0 ==> r && activeCopy == old(activeCopy) && numberParticlesRender == old(numberParticlesRender)
      ensures old(maxParticles) != 0 ==> activeCopy == (old(activeCopy) + 1) % numberActiveCopies
      ensures old(maxParticles) != 0 ==> r == alphaPositive
      ensures old(maxParticles) != 0 ==> numberParticlesRender == if alphaPositive then numOfParticles else 0
      ensures particles == old(particles) && maxParticles == old(maxParticles) && numOfParticles == old(numOfParticles)
    {
      if maxParticles == 0 {
        return true;
      }
      activeCopy := (activeCopy + 1) % numberActiveCopies;
      numberParticlesRender := numOfParticles;
      if !alphaPositive {
        numberParticlesRender := 0;
        return false;
      }
      r := true;
    }

    /**
     * `ResolveDrawPacket`: nothing when no particle is to be drawn; otherwise
     * two triangles per drawn particle over the active copy's vertices.
     */
    function ResolveDrawPacket(): (packet: DrawPacket)
      reads this
      requires Valid()
      ensures numberParticlesRender == 0 <==> packet == NoDraw
      ensures packet.DrawGeometrySet? ==>
        packet.indexOffset == 0 && packet.numIndices == 6 * numberParticlesRender &&
        packet.vertexOffset == 4 * maxParticles * activeCopy
    {
      if numberParticlesRender == 0 then NoDraw
      else DrawGeometrySet(0, numberParticlesRender * 6, maxParticles * activeCopy * 4)
    }
  }

  /**
   * A drawn packet stays inside what the constructor allocated for a pool of
   * |particles|: at most the 6*|particles| indices written, each naming one
   * of the first 4*numberParticlesRender vertices of its block, and the block
   * starting at the packet's vertex offset lies inside the
   * 4*|particles|*copies vertices.  This holds after `KillInstantly` too,
   * when the offset falls back to 0.
   */
  lemma PacketInsideAllocation(e: ParticleEmitter)
    requires e.Valid() && e.ResolveDrawPacket().DrawGeometrySet?
    ensures var p := e.ResolveDrawPacket();
      p.numIndices <= 6 * |e.particles| &&
      |QuadIndices(e.numberParticlesRender)| == p.numIndices &&
      (forall k :: 0 <= k < |QuadIndices(e.numberParticlesRender)| ==> QuadIndices(e.numberParticlesRender)[k] < 4 * e.numberParticlesRender) &&
      p.vertexOffset + 4 * e.numberParticlesRender <= 4 * |e.particles| * e.numberActiveCopies
  {
    var n, m, c, pool := e.numberParticlesRender, e.maxParticles, e.activeCopy, |e.particles|;
    QuadsShape(n);
    MulMono(m, pool, 4 * c);
    MulMono(c + 1, e.numberActiveCopies, 4 * pool);
    assert 4 * m * c <= 4 * pool * c by {
      assert m * (4 * c) == 4 * m * c && pool * (4 * c) == 4 * pool * c;
    }
    assert (c + 1) * (4 * pool) == 4 * pool * c + 4 * pool;
    assert e.numberActiveCopies * (4 * pool) == 4 * pool * e.numberActiveCopies;
  }

}

=== FILE: renderer.dfy ===
/**
 * The renderer's pure helpers (HPL2/sources/graphics/Renderer.cpp, with
 * `GetShadowMapResolution` repeated in HPL2/core/sources/graphics/Renderer.cpp):
 * capping a light's shadow-map resolution, the order container nodes are
 * walked in, the visibility test on render flags and occlusion planes, and
 * the clamping of a padded clip rectangle to the screen.
 */
module Renderer {
  /** `eShadowMapResolution`, from lowest to highest. */
  datatype ShadowMapResolution = Low | Medium | High

  function Rank(r: ShadowMapResolution): nat
  {
    match r
    case Low => 0
    case Medium => 1
    case High => 2
  }

  /**
   * `GetShadowMapResolution`: the wanted resolution, but never above the
   * maximum (the lower of the two).
   */
  function GetShadowMapResolution(wanted: ShadowMapResolution, max: ShadowMapResolution): (r: ShadowMapResolution)
    ensures Rank(r) == if Rank(wanted) <= Rank(max) then Rank(wanted) else Rank(max)
    ensures Rank(r) <= Rank(max) && Rank(r) <= Rank(wanted)
  {
    if max == High then wanted
    else if max == Medium then (if wanted == High then Medium else wanted)
    else Low
  }

  /** Rank tells the resolutions apart, so the capped result is determined by it. */
  lemma RankInjective(a: ShadowMapResolution, b: ShadowMapResolution)
    requires Rank(a) == Rank(b)
    ensures a == b
  {
  }

  // ------------------------------------------------------------ node order

  /** What `cRendererNodeSortFunc` reads of a container node. */
  datatype NodeView = NodeView(insideView: bool, viewDistance: real)

  /** `cRendererNodeSortFunc`: nodes inside the view first, then the farther node first. */
  predicate NodeBefore(a: NodeView, b: NodeView): (r: bool)
    ensures a.insideView && !b.insideView ==> r
    ensures r && a.insideView == b.insideView ==> a.viewDistance > b.viewDistance
    ensures r ==> a.insideView || !b.insideView
  {
    if a.insideView != b.insideView then a.insideView && !b.insideView
    else a.viewDistance > b.viewDistance
  }

  /** Two nodes neither of which sorts before the other. */
  predicate NodeTied(a: NodeView, b: NodeView)
  {
    !NodeBefore(a, b) && !NodeBefore(b, a)
  }

  /**
   * The node order is a strict weak order, as `std::sort` requires: never
   * reflexive, transitive, and ties are exactly equal keys.
   */
  lemma NodeOrderIsStrictWeak(a: NodeView, b: NodeView, c: NodeView)
    ensures !NodeBefore(a, a)
    ensures NodeBefore(a, b) && NodeBefore(b, c) ==> NodeBefore(a, c)
    ensures NodeTied(a, b) <==> a.insideView == b.insideView && a.viewDistance == b.viewDistance
    ensures NodeTied(a, b) && NodeTied(b, c) ==> NodeTied(a, c)
  {
  }

  // ------------------------------------------------------------ visibility

  /** Every flag needed is among the object's flags. */
  predicate HasFlags(flags: bv32, needed: bv32)
  {
    flags & needed == needed
  }

  /**
   * `IsObjectVisible`: a hidden object, or one lacking a needed render
   * flag, is not visible; otherwise it is visible unless it lies outside
   * one of the occlusion planes (`outside[i]` is the plane test's outcome
   * for plane i, which is floating-point geometry).
   */
  method IsObjectVisible(objectVisible: bool, flags: bv32, needed: bv32, outside: seq<bool>) returns (visible: bool)
    ensures visible <==> objectVisible && HasFlags(flags, needed) && forall i :: 0 <= i < |outside| ==> !outside[i]
  {
    if !objectVisible {
      return false;
    }
    if flags & needed != needed {
      return false;
    }
    for i := 0 to |outside|
      invariant forall k :: 0 <= k < i ==> !outside[k]
    {
      if outside[i] {
        return false;
      }
    }
    return true;
  }

  /** Having the needed flags means every bit set in `needed` is set in `flags`. */
  lemma HasFlagsBits(flags: bv32, needed: bv32, bit: nat)
    requires HasFlags(flags, needed) && bit < 32
    ensures needed & (1 << bit) != 0 ==> flags & (1 << bit) != 0
  {
    assert (flags & needed) & (1 << bit) == flags & (needed & (1 << bit));
  }

  // ------------------------------------------------------------- clip rect

  datatype Rect = Rect(x: int, y: int, w: int, h: int)

  function Max(a: int, b: int): int { if a >= b then a else b }
  function Min(a: int, b: int): int { if a <= b then a else b }

  /**
   * The clamp at the end of `GetClipRectFromObject`: the rectangle padded
   * by `xInc`/`yInc` on each side (their values come from floating-point
   * projection), with its corner moved onto the screen and its size cut
   * at the right and bottom screen edges.
   */
  function ClampClipRect(r: Rect, xInc: int, yInc: int, screenX: int, screenY: int): (c: Rect)
    ensures c.x >= 0 && c.y >= 0
    ensures c.x + c.w <= screenX && c.y + c.h <= screenY
    ensures c.x == Max(r.x - xInc, 0) && c.y == Max(r.y - yInc, 0)
    ensures c.x + c.w >= Min(r.x + r.w + xInc, screenX)
    ensures c.y + c.h >= Min(r.y + r.h + yInc, screenY)
  {
    var x := Max(r.x - xInc, 0);
    var y := Max(r.y - yInc, 0);
    Rect(x, y, Min(r.w + xInc * 2, screenX - x), Min(r.h + yInc * 2, screenY - y))
  }
}

=== FILE: renderer_core.dfy ===
/**
 * The stateful parts of `iRenderer` and `cRenderSettings`
 * (HPL2/core/sources/graphics/Renderer.cpp): choosing a shadow map for a
 * light from one resolution's maps, deciding whether a shadow map's cache
 * is stale, and the pool of occlusion-query objects with the multimap that
 * finds them again.  Lights, queries and other engine objects are modelled
 * by number; float fields are reals.
 */
module RendererCore {
  import opened Wrappers

  datatype LightType = Point | Spot | Box | OtherLight

  /** What the shadow code reads of an `iLight`. */
  datatype Light = Light(
    id: nat, lightType: LightType, occlusionCullShadowCasters: bool,
    transformCount: int, radius: real, aspect: real, fov: real)

  /** `cShadowMapLightCache`. */
  datatype ShadowMapLightCache = ShadowMapLightCache(
    light: Option<nat>, transformCount: int, radius: real, fov: real, aspect: real)

  /** `cShadowMapData`; the render target is left out. */
  datatype ShadowMapData = ShadowMapData(frameCount: int, cache: ShadowMapLightCache)

  /** A new cache: no light, transform count -1, zero sizes. */
  function EmptyCache(): (c: ShadowMapLightCache)
    ensures c.light.None? && c.transformCount == -1
  {
    ShadowMapLightCache(None, -1, 0.0, 0.0, 0.0)
  }

  /**
   * The cache describes the light as it is now: same light, transform
   * count and radius, and for a spot light the same aspect and field of view.
   */
  predicate CacheMatches(c: ShadowMapLightCache, l: Light)
  {
    c.light == Some(l.id) && c.transformCount == l.transformCount && c.radius == l.radius &&
    (l.lightType == Spot ==> c.aspect == l.aspect && c.fov == l.fov)
  }

  /** `cShadowMapLightCache::SetFromLight`: afterwards the cache matches the light. */
  function SetFromLight(c: ShadowMapLightCache, l: Light): (r: ShadowMapLightCache)
    ensures CacheMatches(r, l)
    ensures l.lightType != Spot ==> r.aspect == c.aspect && r.fov == c.fov
  {
    var r := c.(light := Some(l.id), transformCount := l.transformCount, radius := l.radius);
    if l.lightType == Spot then r.(aspect := l.aspect, fov := l.fov) else r
  }

  /** `cMath::Abs` of the frame difference. */
  function FrameGap(d: ShadowMapData, renderFrame: int): nat
  {
    if d.frameCount >= renderFrame then d.frameCount - renderFrame else renderFrame - d.frameCount
  }

  predicate UsedBy(maps: seq<ShadowMapData>, i: int, light: nat)
    requires 0 <= i < |maps|
  {
    maps[i].cache.light == Some(light)
  }

  /**
   * The map `GetShadowMapData` settles on among several: the first one
   * already caching the light if any; otherwise the first one whose frame
   * gap is largest.
   */
  predicate IsBestShadowMap(maps: seq<ShadowMapData>, light: nat, renderFrame: int, i: int)
  {
    0 <= i < |maps| &&
    if exists j :: 0 <= j < |maps| && UsedBy(maps, j, light) then
      UsedBy(maps, i, light) && forall j :: 0 <= j < i ==> !UsedBy(maps, j, light)
    else
      (forall j :: 0 <= j < |maps| ==> FrameGap(maps[j], renderFrame) <= FrameGap(maps[i], renderFrame)) &&
      (forall j :: 0 <= j < i ==> FrameGap(maps[j], renderFrame) < FrameGap(maps[i], renderFrame))
  }

  /** At most one map is the best one. */
  lemma BestShadowMapUnique(maps: seq<ShadowMapData>, light: nat, renderFrame: int, i: int, k: int)
    requires IsBestShadowMap(maps, light, renderFrame, i) && IsBestShadowMap(maps, light, renderFrame, k)
    ensures i == k
  {
  }

  /** A non-empty set of maps always has a best one. */
  lemma BestShadowMapExists(maps: seq<ShadowMapData>, light: nat, renderFrame: int) returns (i: nat)
    requires |maps| > 0
    ensures IsBestShadowMap(maps, light, renderFrame, i)
  {
    i := 0;
    var k := 1;
    var anyUsed := UsedBy(maps, 0, light);
    while k < |maps| && !anyUsed
      invariant 1 <= k <= |maps| && i < k
      invariant anyUsed ==> i == k - 1 && UsedBy(maps, i, light)
      invariant forall j :: 0 <= j < k - (if anyUsed then 1 else 0) ==> !UsedBy(maps, j, light)
      invariant !anyUsed ==> (forall j :: 0 <= j < k ==> FrameGap(maps[j], renderFrame) <= FrameGap(maps[i], renderFrame))
      invariant !anyUsed ==> (forall j :: 0 <= j < i ==> FrameGap(maps[j], renderFrame) < FrameGap(maps[i], renderFrame))
    {
      if UsedBy(maps, k, light) {
        i, anyUsed := k, true;
      } else if FrameGap(maps[k], renderFrame) > FrameGap(maps[i], renderFrame) {
        i := k;
      }
      k := k + 1;
    }
    if !anyUsed {
      assert forall j :: 0 <= j < |maps| ==> !UsedBy(maps, j, light);
    }
  }

  /** One resolution's shadow maps (`m_shadowMapData[resolution]`). */
  class ShadowMaps {
    var maps: seq<ShadowMapData>

    constructor (count: nat)
      ensures |maps| == count && forall i :: 0 <= i < count ==> maps[i] == ShadowMapData(0, EmptyCache())
    {
      maps := seq(count, _ => ShadowMapData(0, EmptyCache()));
    }

    /**
     * `GetShadowMapData`: a single map is returned as it is; otherwise the
     * best map (none when there are no maps) is returned and its frame
     * count set to the current render frame.
     */
    method GetShadowMapData(light: nat, renderFrame: int) returns (best: Option<nat>)
      modifies this
      ensures |old(maps)| == 1 ==> best == Some(0) && maps == old(maps)
      ensures |old(maps)| == 0 ==> best.None? && maps == old(maps)
      ensures |old(maps)| > 1 ==>
        best.Some? && IsBestShadowMap(old(maps), light, renderFrame, best.value) &&
        maps == old(maps)[best.value := old(maps)[best.value].(frameCount := renderFrame)]
    {
      if |maps| == 1 {
        return Some(0);
      }
      best := None;
      var maxFrameDist: int := -1;
      var found := false;
      var i := 0;
      while i < |maps| && !found
        invariant 0 <= i <= |maps|
        invariant found ==> best.Some? && best.value == i && i < |maps| && UsedBy(maps, i, light)
        invariant forall j :: 0 <= j < i ==> !UsedBy(maps, j, light)
        invariant !found ==> (i == 0 <==> best.None?)
        invariant !found && best.Some? ==>
          best.value < i && maxFrameDist == FrameGap(maps[best.value], renderFrame) &&
          (forall j :: 0 <= j < i ==> FrameGap(maps[j], renderFrame) <= maxFrameDist) &&
          (forall j :: 0 <= j < best.value ==> FrameGap(maps[j], renderFrame) < maxFrameDist)
        invariant best.None? ==> maxFrameDist == -1
        decreases |maps| - i + (if found then 0 else 1)
      {
        if maps[i].cache.light == Some(light) {
          best := Some(i);
          found := true;
        } else {
          var frameDist := FrameGap(maps[i], renderFrame);
          if frameDist > maxFrameDist {
            maxFrameDist := frameDist;
            best := Some(i);
          }
          i := i + 1;
        }
      }
      if found {
        assert UsedBy(maps, best.value, light);
        assert IsBestShadowMap(maps, light, renderFrame, best.value);
      } else if best.Some? {
        assert forall j :: 0 <= j < |maps| ==> !UsedBy(maps, j, light);
        assert IsBestShadowMap(maps, light, renderFrame, best.value);
      }
      if best.Some? {
        maps := maps[best.value := maps[best.value].(frameCount := renderFrame)];
      }
    }

    /**
     * `ShadowMapNeedsUpdate`: always for a light that occlusion-culls its
     * casters (the cache is left alone); otherwise exactly when the cache
     * no longer matches the light or its casters changed
     * (`castersUnchanged`, computed by the light), in which case the cache
     * is refreshed from the light.
     */
    method ShadowMapNeedsUpdate(light: Light, index: nat, castersUnchanged: bool) returns (needsUpdate: bool)
      requires index < |maps|
      modifies this
      ensures light.occlusionCullShadowCasters ==> needsUpdate && maps == old(maps)
      ensures !light.occlusionCullShadowCasters ==>
        (needsUpdate <==> !(CacheMatches(old(maps)[index].cache, light) && castersUnchanged))
      ensures !light.occlusionCullShadowCasters && needsUpdate ==>
        maps == old(maps)[index := old(maps)[index].(cache := SetFromLight(old(maps)[index].cache, light))]
      ensures !needsUpdate ==> maps == old(maps)
    {
      if light.occlusionCullShadowCasters {
        return true;
      }
      var cacheData := maps[index].cache;
      var valid := cacheData.light == Some(light.id) && cacheData.transformCount == light.transformCount &&
        cacheData.radius == light.radius;
      if valid && light.lightType == Spot {
        valid := light.aspect == cacheData.aspect && light.fov == cacheData.fov;
      }
      if valid {
        valid := castersUnchanged;
      }
      if !valid {
        maps := maps[index := maps[index].(cache := SetFromLight(cacheData, light))];
      }
      return !valid;
    }
  }

  /**
   * After a refresh, asking again for the same light with unchanged casters
   * reports that no update is needed (unless the light occlusion-culls).
   */
  lemma RefreshSettles(c: ShadowMapLightCache, light: Light)
    ensures CacheMatches(SetFromLight(c, light), light)
    ensures SetFromLight(SetFromLight(c, light), light) == SetFromLight(c, light)
  {
  }

  // ------------------------------------------------------------- occlusion

  /** `cOcclusionQueryObject`; the query handle is `None` once destroyed. */
  datatype OcclusionQueryObject = OcclusionQueryObject(
    customID: int, query: Option<nat>, vtxBuffer: nat, matrix: nat, depthTest: bool, sampleResults: int)

  /** The object a new pool entry starts as. */
  function NewOcclusionQueryObject(): OcclusionQueryObject
  {
    OcclusionQueryObject(0, None, 0, 0, false, 0)
  }

  /**
   * The pool index found for (source, customIndex) among multimap entries
   * (source, pool index), visited in insertion order: the first entry for
   * the source whose object carries the custom index.
   */
  function FindOcclusionObject(entries: seq<(nat, nat)>, pool: seq<OcclusionQueryObject>, source: nat, customIndex: int): (r: Option<nat>)
    requires forall i :: 0 <= i < |entries| ==> entries[i].1 < |pool|
    ensures r.Some? ==> r.value < |pool|
  {
    if entries == [] then None
    else if entries[0].0 == source && pool[entries[0].1].customID == customIndex then Some(entries[0].1)
    else FindOcclusionObject(entries[1..], pool, source, customIndex)
  }

  /** An entry for the source carrying the custom index is what the search finds; without one, it finds nothing. */
  lemma {:induction false} FindOcclusionObjectSpec(entries: seq<(nat, nat)>, pool: seq<OcclusionQueryObject>, source: nat, customIndex: int)
    requires forall i :: 0 <= i < |entries| ==> entries[i].1 < |pool|
    ensures FindOcclusionObject(entries, pool, source, customIndex).None? <==>
      forall i :: 0 <= i < |entries| ==> !(entries[i].0 == source && pool[entries[i].1].customID == customIndex)
    ensures FindOcclusionObject(entries, pool, source, customIndex).Some? ==>
      exists i :: 0 <= i < |entries| && entries[i].0 == source && entries[i].1 == FindOcclusionObject(entries, pool, source, customIndex).value &&
        pool[entries[i].1].customID == customIndex
  {
    if entries != [] {
      FindOcclusionObjectSpec(entries[1..], pool, source, customIndex);
      if !(entries[0].0 == source && pool[entries[0].1].customID == customIndex) {
        var r := FindOcclusionObject(entries, pool, source, customIndex);
        if r.Some? {
          var i :| 0 <= i < |entries[1..]| && entries[1..][i].0 == source && entries[1..][i].1 == r.value &&
            pool[entries[1..][i].1].customID == customIndex;
          assert entries[i + 1] == entries[1..][i];
        }
        forall i | 0 <= i < |entries| && entries[i].0 == source && pool[entries[i].1].customID == customIndex
          ensures r.Some?
        {
          assert i > 0 && entries[1..][i - 1] == entries[i];
        }
      }
    }
  }

  /** The occlusion-object part of `cRenderSettings`. */
  class RenderSettings {
    /** `mvOcclusionObjectPool`. */
    var pool: seq<OcclusionQueryObject>
    /** `mlCurrentOcclusionObject`. */
    var current: nat
    /** `m_setOcclusionObjects`, as (source, pool index) in insertion order. */
    var entries: seq<(nat, nat)>

    ghost predicate Valid()
      reads this
    {
      current <= |pool| && forall i :: 0 <= i < |entries| ==> entries[i].1 < |pool|
    }

    constructor ()
      ensures Valid() && pool == [] && current == 0 && entries == []
    {
      pool := [];
      current := 0;
      entries := [];
    }

    /**
     * `AssignOcclusionObject`: the pool grows by one object only when every
     * object is in use; the next object is filled in with a new query and
     * recorded under the source, and the cursor advances.
     */
    method AssignOcclusionObject(source: nat, customIndex: int, vtxBuffer: nat, matrix: nat, depthTest: bool, query: nat)
      requires Valid()
      modifies this
      ensures Valid()
      ensures |pool| == if old(current) == old(|pool|) then old(|pool|) + 1 else old(|pool|)
      ensures current == old(current) + 1
      ensures pool[old(current)] == OcclusionQueryObject(customIndex, Some(query), vtxBuffer, matrix, depthTest,
        if old(current) < old(|pool|) then old(pool)[old(current)].sampleResults else 0)
      ensures forall i :: 0 <= i < old(|pool|) && i != old(current) ==> pool[i] == old(pool)[i]
      ensures entries == old(entries) + [(source, old(current))]
    {
      if current == |pool| {
        pool := pool + [NewOcclusionQueryObject()];
      }
      var obj := pool[current];
      pool := pool[current := obj.(customID := customIndex, query := Some(query), vtxBuffer := vtxBuffer,
                                    matrix := matrix, depthTest := depthTest)];
      entries := entries + [(source, current)];
      current := current + 1;
    }

    /**
     * `RetrieveOcclusionObjectSamples`: finds the object for (source,
     * custom index); when its query is still alive and reports visible
     * (`queryVisible`, with `numSamples`, from the graphics API) the sample
     * count is stored and the query destroyed.  It returns 0 on every path.
     */
    method RetrieveOcclusionObjectSamples(source: nat, customIndex: int, queryVisible: bool, numSamples: int) returns (samples: int)
      requires Valid()
      modifies this
      ensures Valid() && samples == 0
      ensures entries == old(entries) && current == old(current) && |pool| == old(|pool|)
      ensures var found := FindOcclusionObject(old(entries), old(pool), source, customIndex);
        if found.Some? && old(pool)[found.value].query.Some? && queryVisible then
          pool == old(pool)[found.value := old(pool)[found.value].(sampleResults := numSamples, query := None)]
        else pool == old(pool)
    {
      var found: Option<nat> := None;
      var i := 0;
      while i < |entries| && found.None?
        invariant 0 <= i <= |entries|
        invariant found.None? ==> FindOcclusionObject(entries, pool, source, customIndex) == FindOcclusionObject(entries[i..], pool, source, customIndex)
        invariant found.Some? ==> found == FindOcclusionObject(entries, pool, source, customIndex)
      {
        assert entries[i..][1..] == entries[i + 1..];
        if entries[i].0 == source && pool[entries[i].1].customID == customIndex {
          found := Some(entries[i].1);
        }
        i := i + 1;
      }
      if found.None? {
        return 0;
      }
      var index := found.value;
      if pool[index].query.Some? && queryVisible {
        pool := pool[index := pool[index].(sampleResults := numSamples, query := None)];
      }
      return 0;
    }
  }
}

=== FILE: renderer_deferred.dfy ===
/**
 * The bookkeeping of `cRendererDeferred` (HPL2/sources/graphics/RendererDeferred.cpp):
 * the sampler slot a material's texture settings select, the order lights
 * are drawn in, the per-frame table of object uniform slots, the shadow
 * resolution chosen from a spot light's distance, and the choice and
 * refresh of a shadow map for a spot light.  Engine objects (lights,
 * textures, renderables) are modelled by their address, a number.
 */
module RendererDeferred {
  import opened Wrappers
  import opened Bytes
  import opened Renderer
  import opened RendererCore

  // ------------------------------------------------------------ sampler slot

  /**
   * `resolveMaterialID`: anisotropy * (filters * wraps) + wrap * filters +
   * filter, in `uint32_t`.  `filters` and `wraps` are
   * `eTextureFilter_LastEnum` and `eTextureWrap_LastEnum`.
   */
  function ResolveMaterialID(anisotropy: nat, wrap: nat, filter: nat, filters: nat, wraps: nat): (id: nat)
    ensures id < U32_MOD
  {
    (anisotropy * (filters * wraps) + wrap * filters + filter) % U32_MOD
  }

  /** The settings a slot stands for: (anisotropy, wrap, filter). */
  function SettingsOfMaterialID(id: nat, filters: nat, wraps: nat): (s: (nat, nat, nat))
    requires filters > 0 && wraps > 0
    ensures s.1 < wraps && s.2 < filters
  {
    var fw := filters * wraps;
    var rest := id % fw;
    QuotientBelow(rest, filters, wraps);
    (id / fw, rest / filters, id % filters)
  }

  /** A value below digits * width has its quotient by width below digits. */
  lemma QuotientBelow(v: nat, width: nat, digits: nat)
    requires width > 0 && v < width * digits
    ensures v / width < digits
  {
    DivBounds(v, width);
    if v / width >= digits {
      MulMono(digits, v / width, width);
    }
  }

  lemma SlotBound(digit: nat, lower: nat, digits: nat, width: nat)
    requires digit < digits && lower < width
    ensures digit * width + lower < digits * width
  {
    MulMono(digit + 1, digits, width);
  }

  /**
   * Within range, the slot determines the settings: it is below
   * anisotropies * wraps * filters and decodes back to them.  The sampler
   * table built in the renderer's constructor therefore has one slot per
   * combination.
   */
  lemma ResolveMaterialIDRoundTrip(anisotropy: nat, wrap: nat, filter: nat, anisotropies: nat, filters: nat, wraps: nat)
    requires anisotropy < anisotropies && wrap < wraps && filter < filters
    requires anisotropies * (filters * wraps) <= U32_MOD
    ensures ResolveMaterialID(anisotropy, wrap, filter, filters, wraps) < anisotropies * (filters * wraps)
    ensures SettingsOfMaterialID(ResolveMaterialID(anisotropy, wrap, filter, filters, wraps), filters, wraps) == (anisotropy, wrap, filter)
  {
    var fw := filters * wraps;
    var inner := wrap * filters + filter;
    SlotBound(wrap, filter, wraps, filters);
    assert inner < fw;
    var raw := anisotropy * fw + inner;
    SlotBound(anisotropy, inner, anisotropies, fw);
    ModUnique(raw, U32_MOD, 0, raw);
    assert ResolveMaterialID(anisotropy, wrap, filter, filters, wraps) == raw;
    ModUnique(raw, fw, anisotropy, inner);
    ModUnique(inner, filters, wrap, filter);
    FilterDigit(anisotropy, wrap, filter, filters, wraps);
  }

  /** The filter is also the slot modulo the number of filters. */
  lemma FilterDigit(anisotropy: nat, wrap: nat, filter: nat, filters: nat, wraps: nat)
    requires filter < filters
    ensures (anisotropy * (filters * wraps) + wrap * filters + filter) % filters == filter
  {
    var q := anisotropy * wraps + wrap;
    calc {
      anisotropy * (filters * wraps) + wrap * filters;
      { assert anisotropy * (filters * wraps) == filters * (anisotropy * wraps); }
      filters * (anisotropy * wraps) + filters * wrap;
      filters * q;
    }
    ModUnique(anisotropy * (filters * wraps) + wrap * filters + filter, filters, q, filter);
  }

  /** Hence two in-range settings share a slot only if they are the same. */
  lemma ResolveMaterialIDInjective(a1: nat, w1: nat, f1: nat, a2: nat, w2: nat, f2: nat, anisotropies: nat, filters: nat, wraps: nat)
    requires a1 < anisotropies && w1 < wraps && f1 < filters
    requires a2 < anisotropies && w2 < wraps && f2 < filters
    requires anisotropies * (filters * wraps) <= U32_MOD
    requires ResolveMaterialID(a1, w1, f1, filters, wraps) == ResolveMaterialID(a2, w2, f2, filters, wraps)
    ensures a1 == a2 && w1 == w2 && f1 == f2
  {
    ResolveMaterialIDRoundTrip(a1, w1, f1, anisotropies, filters, wraps);
    ResolveMaterialIDRoundTrip(a2, w2, f2, anisotropies, filters, wraps);
  }

  // -------------------------------------------------------------- light sort

  /** What `SortDeferredLightDefault` reads of a deferred light. */
  datatype DeferredLight = DeferredLight(
    light: nat, lightType: LightType, diffuseAlpha: real, insideNearPlane: bool,
    gobo: nat, falloffMap: nat, spotFalloffMap: nat, boxLightPrio: int)

  /** `eLightType` order: point, spot, box. */
  function TypeOrder(t: LightType): nat
  {
    match t
    case Point => 0
    case Spot => 1
    case Box => 2
    case OtherLight => 3
  }

  function HasSpecular(d: DeferredLight): int
  {
    if d.diffuseAlpha > 0.0 then 1 else 0
  }

  /**
   * `SortDeferredLightDefault`: does light a go before light b?  Lights are
   * grouped by type, and no light goes before itself.
   */
  predicate SortDeferredLightDefault(a: DeferredLight, b: DeferredLight): (r: bool)
    ensures a.lightType != b.lightType ==> (r <==> TypeOrder(a.lightType) < TypeOrder(b.lightType))
    ensures a == b ==> !r
  {
    if a.lightType != b.lightType then TypeOrder(a.lightType) < TypeOrder(b.lightType)
    else if HasSpecular(a) != HasSpecular(b) then HasSpecular(a) < HasSpecular(b)
    else if a.lightType == Point then !a.insideNearPlane && b.insideNearPlane
    else if a.gobo != b.gobo then a.gobo < b.gobo
    else if a.falloffMap != b.falloffMap then a.falloffMap < b.falloffMap
    else if a.lightType == Spot && a.spotFalloffMap != b.spotFalloffMap then a.spotFalloffMap < b.spotFalloffMap
    else if a.lightType == Box && a.boxLightPrio != b.boxLightPrio then a.boxLightPrio < b.boxLightPrio
    else a.light < b.light
  }

  /**
   * The sort key: type, specular, then for a point light the near-plane
   * flag and nothing more; for the others gobo, falloff, the spot falloff
   * (spot) or box priority (box), and the light's address.
   */
  function SortKey(d: DeferredLight): (k: seq<int>)
    ensures |k| >= 2 && k[0] == TypeOrder(d.lightType) && k[1] == HasSpecular(d)
  {
    var head := [TypeOrder(d.lightType) as int, HasSpecular(d)];
    match d.lightType
    case Point => head + [if d.insideNearPlane then 1 else 0]
    case Spot => head + [d.gobo, d.falloffMap, d.spotFalloffMap, d.light]
    case Box => head + [d.gobo, d.falloffMap, d.boxLightPrio, d.light]
    case OtherLight => head + [d.gobo, d.falloffMap, d.light]
  }

  /** Lexicographic order on keys. */
  predicate LexLess(a: seq<int>, b: seq<int>)
  {
    |a| > 0 && |b| > 0 && (a[0] < b[0] || (a[0] == b[0] && LexLess(a[1..], b[1..])))
  }

  lemma {:induction false} LexLessIrreflexive(a: seq<int>)
    ensures !LexLess(a, a)
  {
    if |a| > 0 {
      LexLessIrreflexive(a[1..]);
    }
  }

  lemma {:induction false} LexLessTransitive(a: seq<int>, b: seq<int>, c: seq<int>)
    requires LexLess(a, b) && LexLess(b, c)
    ensures LexLess(a, c)
  {
    if a[0] == b[0] && b[0] == c[0] {
      LexLessTransitive(a[1..], b[1..], c[1..]);
    }
  }

  /** Keys of the same length are equal or ordered one way. */
  lemma {:induction false} LexLessTotal(a: seq<int>, b: seq<int>)
    requires |a| == |b| && a != b
    ensures LexLess(a, b) || LexLess(b, a)
  {
    assert |a| > 0;
    if a[0] == b[0] {
      assert a[1..] != b[1..] by {
        assert a == [a[0]] + a[1..] && b == [b[0]] + b[1..];
      }
      LexLessTotal(a[1..], b[1..]);
    }
  }

  /** Equal entries at k defer the comparison to the rest of the keys. */
  lemma LexStep(a: seq<int>, b: seq<int>, k: nat)
    requires k < |a| && k < |b|
    ensures a[k] != b[k] ==> (LexLess(a[k..], b[k..]) <==> a[k] < b[k])
    ensures a[k] == b[k] ==> (LexLess(a[k..], b[k..]) <==> LexLess(a[k + 1..], b[k + 1..]))
  {
    assert a[k..][1..] == a[k + 1..] && b[k..][1..] == b[k + 1..];
  }

  /** Walking the key one entry at a time is the comparator's if-chain. */
  lemma SortIsKeyOrder(a: DeferredLight, b: DeferredLight)
    ensures SortDeferredLightDefault(a, b) <==> LexLess(SortKey(a), SortKey(b))
  {
    var ka, kb := SortKey(a), SortKey(b);
    assert ka[0..] == ka && kb[0..] == kb;
    LexStep(ka, kb, 0);
    if a.lightType == b.lightType {
      LexStep(ka, kb, 1);
      if HasSpecular(a) == HasSpecular(b) {
        match a.lightType
        case Point => PointKeyOrder(a, b);
        case Spot => TailKeyOrder(a, b);
        case Box => TailKeyOrder(a, b);
        case OtherLight => OtherKeyOrder(a, b);
      }
    }
  }

  lemma PointKeyOrder(a: DeferredLight, b: DeferredLight)
    requires a.lightType == b.lightType == Point
    ensures LexLess(SortKey(a)[2..], SortKey(b)[2..]) <==> !a.insideNearPlane && b.insideNearPlane
  {
    var ka, kb := SortKey(a), SortKey(b);
    LexStep(ka, kb, 2);
    assert ka[3..] == [] && kb[3..] == [];
  }

  lemma OtherKeyOrder(a: DeferredLight, b: DeferredLight)
    requires a.lightType == b.lightType == OtherLight
    ensures LexLess(SortKey(a)[2..], SortKey(b)[2..]) <==>
      if a.gobo != b.gobo then a.gobo < b.gobo
      else if a.falloffMap != b.falloffMap then a.falloffMap < b.falloffMap
      else a.light < b.light
  {
    var ka, kb := SortKey(a), SortKey(b);
    LexStep(ka, kb, 2);
    LexStep(ka, kb, 3);
    LexStep(ka, kb, 4);
    assert ka[5..] == [] && kb[5..] == [];
  }

  /** Spot and box keys: gobo, falloff, the type's own entry, address. */
  lemma TailKeyOrder(a: DeferredLight, b: DeferredLight)
    requires a.lightType == b.lightType && a.lightType in {Spot, Box}
    ensures var ka, kb := SortKey(a), SortKey(b);
      LexLess(ka[2..], kb[2..]) <==>
      if a.gobo != b.gobo then a.gobo < b.gobo
      else if a.falloffMap != b.falloffMap then a.falloffMap < b.falloffMap
      else if ka[4] != kb[4] then ka[4] < kb[4]
      else a.light < b.light
    ensures SortKey(a)[4] == (if a.lightType == Spot then a.spotFalloffMap else a.boxLightPrio)
    ensures SortKey(b)[4] == (if b.lightType == Spot then b.spotFalloffMap else b.boxLightPrio)
  {
    var ka, kb := SortKey(a), SortKey(b);
    LexStep(ka, kb, 2);
    LexStep(ka, kb, 3);
    LexStep(ka, kb, 4);
    LexStep(ka, kb, 5);
    assert ka[6..] == [] && kb[6..] == [];
  }

  /** Lights tie in the comparator exactly when their keys are equal. */
  lemma SortTiesAreEqualKeys(a: DeferredLight, b: DeferredLight)
    ensures (!SortDeferredLightDefault(a, b) && !SortDeferredLightDefault(b, a)) <==> SortKey(a) == SortKey(b)
  {
    SortIsKeyOrder(a, b);
    SortIsKeyOrder(b, a);
    if SortKey(a) == SortKey(b) {
      LexLessIrreflexive(SortKey(a));
    } else if a.lightType == b.lightType {
      LexLessTotal(SortKey(a), SortKey(b));
    } else {
      assert SortKey(a)[0] != SortKey(b)[0];
    }
  }

  /**
   * The comparator is a strict weak order, as `std::sort` requires:
   * irreflexive, transitive, and with transitive ties.
   */
  lemma SortIsStrictWeakOrder(a: DeferredLight, b: DeferredLight, c: DeferredLight)
    ensures !SortDeferredLightDefault(a, a)
    ensures SortDeferredLightDefault(a, b) && SortDeferredLightDefault(b, c) ==> SortDeferredLightDefault(a, c)
    ensures (!SortDeferredLightDefault(a, b) && !SortDeferredLightDefault(b, a) &&
             !SortDeferredLightDefault(b, c) && !SortDeferredLightDefault(c, b)) ==>
            !SortDeferredLightDefault(a, c) && !SortDeferredLightDefault(c, a)
  {
    SortIsKeyOrder(a, a);
    LexLessIrreflexive(SortKey(a));
    SortIsKeyOrder(a, b);
    SortIsKeyOrder(b, c);
    SortIsKeyOrder(a, c);
    if LexLess(SortKey(a), SortKey(b)) && LexLess(SortKey(b), SortKey(c)) {
      LexLessTransitive(SortKey(a), SortKey(b), SortKey(c));
    }
    SortTiesAreEqualKeys(a, b);
    SortTiesAreEqualKeys(b, c);
    SortTiesAreEqualKeys(a, c);
  }

  /** Only point lights can tie with a different light: every other pair is ordered by address at worst. */
  lemma OnlyPointLightsTie(a: DeferredLight, b: DeferredLight)
    requires a.lightType != Point
    requires !SortDeferredLightDefault(a, b) && !SortDeferredLightDefault(b, a)
    ensures a.light == b.light && a.lightType == b.lightType
  {
    SortTiesAreEqualKeys(a, b);
    var k := SortKey(a);
    assert k[|k| - 1] == a.light;
    assert SortKey(b)[|k| - 1] == b.light;
  }

  // ------------------------------------------------------- object uniform slots

  /**
   * `m_materialSet.m_objectIndex` and `m_objectDescriptorLookup`: each
   * object drawn in a frame gets a uniform slot, handed out from a counter
   * and remembered until the frame changes.
   */
  class ObjectSlots {
    var objectIndex: nat
    var lookup: map<nat, nat>
    var activeFrame: nat

    /** Slots are below the counter and no two objects share one. */
    predicate Valid()
      reads this
    {
      (forall o :: o in lookup ==> lookup[o] < objectIndex) &&
      (forall o1, o2 :: o1 in lookup && o2 in lookup && o1 != o2 ==> lookup[o1] != lookup[o2])
    }

    constructor ()
      ensures Valid() && objectIndex == 0 && lookup == map[] && activeFrame == 0
    {
      objectIndex := 0;
      lookup := map[];
      activeFrame := 0;
    }

    /** The start of `Draw`: a new frame forgets every slot and restarts the counter. */
    method BeginFrame(currentFrame: nat)
      requires Valid()
      modifies this
      ensures Valid() && activeFrame == currentFrame
      ensures currentFrame != old(activeFrame) ==> objectIndex == 0 && lookup == map[]
      ensures currentFrame == old(activeFrame) ==> objectIndex == old(objectIndex) && lookup == old(lookup)
    {
      if currentFrame != activeFrame {
        objectIndex := 0;
        lookup := map[];
        activeFrame := currentFrame;
      }
    }

    /**
     * The slot lookup in `cmdBindMaterialAndObject`: an object already seen
     * this frame keeps its slot; a new one takes the counter's value, which
     * then advances.
     */
    method SlotOf(obj: nat) returns (index: nat)
      requires Valid()
      modifies this
      ensures Valid() && activeFrame == old(activeFrame)
      ensures obj in old(lookup) ==> index == old(lookup)[obj] && lookup == old(lookup) && objectIndex == old(objectIndex)
      ensures obj !in old(lookup) ==>
        index == old(objectIndex) && objectIndex == old(objectIndex) + 1 && lookup == old(lookup)[obj := index]
      ensures lookup[obj] == index
    {
      if obj in lookup {
        index := lookup[obj];
      } else {
        index := objectIndex;
        objectIndex := objectIndex + 1;
        lookup := lookup[obj := index];
      }
    }
  }

  // ------------------------------------------------------- shadow resolution

  /**
   * The shadow decision for a spot light: inside the near plane, the
   * capped resolution `base`; otherwise by distance to the light: beyond
   * `none` no shadow; beyond `low` the lowest resolution, and none at all
   * when `base` was already the lowest; beyond `medium` one step down from
   * high, the lowest otherwise; closer, `base`.
   */
  function ShadowTier(insideNearPlane: bool, dist: real, base: ShadowMapResolution,
                      distNone: real, distLow: real, distMedium: real): (r: (bool, ShadowMapResolution))
    ensures insideNearPlane ==> r == (true, base)
    ensures !insideNearPlane && dist > distNone ==> !r.0
    ensures !insideNearPlane && dist <= distNone && distLow < dist ==> r.1 == Low && (r.0 <==> base != Low)
    ensures !insideNearPlane && dist <= distNone && dist <= distLow && distMedium < dist ==>
      r.0 && r.1 == (if base == High then Medium else Low)
    ensures !insideNearPlane && dist <= distMedium && dist <= distLow && dist <= distNone ==> r == (true, base)
    ensures r.0 ==> Rank(r.1) <= Rank(base)
  {
    if insideNearPlane then (true, base)
    else if dist > distNone then (false, base)
    else if dist > distLow then (base != Low, Low)
    else if dist > distMedium then (true, if base == High then Medium else Low)
    else (true, base)
  }

  /**
   * With thresholds in order (medium <= low <= none), moving a light
   * further away never turns a shadow on nor raises its resolution.
   */
  lemma ShadowTierMonotone(d1: real, d2: real, base: ShadowMapResolution, distNone: real, distLow: real, distMedium: real)
    requires distMedium <= distLow <= distNone && d1 <= d2
    ensures ShadowTier(false, d2, base, distNone, distLow, distMedium).0 ==>
      ShadowTier(false, d1, base, distNone, distLow, distMedium).0 &&
      Rank(ShadowTier(false, d2, base, distNone, distLow, distMedium).1) <= Rank(ShadowTier(false, d1, base, distNone, distLow, distMedium).1)
  {
  }

  // ------------------------------------------------------------ shadow maps

  /** `cRendererDeferred::ShadowMapData`, without its render target, fence and command buffer. */
  datatype ShadowMap = ShadowMap(
    light: Option<nat>, frameCount: nat, transformCount: int, radius: real, aspect: real, fov: real)

  /** `frame.m_currentFrame - m_frameCount` in `uint32_t`. */
  function FrameDistance(currentFrame: nat, frameCount: nat): (d: nat)
    ensures d < U32_MOD
    ensures currentFrame < U32_MOD && frameCount <= currentFrame ==> d == currentFrame - frameCount
  {
    (currentFrame - frameCount) % U32_MOD
  }

  predicate Owns(maps: seq<ShadowMap>, i: int, light: nat)
    requires 0 <= i < |maps|
  {
    maps[i].light == Some(light)
  }

  /**
   * The map `findBestShadowMap` settles on: the first one rendered for the
   * light if any; otherwise the first one with the largest frame distance.
   */
  predicate IsBestMap(maps: seq<ShadowMap>, light: nat, currentFrame: nat, i: int)
  {
    0 <= i < |maps| &&
    if exists j :: 0 <= j < |maps| && Owns(maps, j, light) then
      Owns(maps, i, light) && forall j :: 0 <= j < i ==> !Owns(maps, j, light)
    else
      (forall j :: 0 <= j < |maps| ==> FrameDistance(currentFrame, maps[j].frameCount) <= FrameDistance(currentFrame, maps[i].frameCount)) &&
      (forall j :: 0 <= j < i ==> FrameDistance(currentFrame, maps[j].frameCount) < FrameDistance(currentFrame, maps[i].frameCount))
  }

  lemma BestMapUnique(maps: seq<ShadowMap>, light: nat, currentFrame: nat, i: int, k: int)
    requires IsBestMap(maps, light, currentFrame, i) && IsBestMap(maps, light, currentFrame, k)
    ensures i == k
  {
  }

  /**
   * Whether the chosen map is re-rendered, as written: only the transform
   * count, the occlusion-cull flag, a spot light's aspect and field of view
   * and the light's caster cache are checked, not whose shadow the map holds.
   */
  predicate NeedsRedrawAsWritten(m: ShadowMap, l: Light, castersUnchanged: bool): (r: bool)
    ensures !r ==> m.transformCount == l.transformCount && !l.occlusionCullShadowCasters && castersUnchanged
  {
    m.transformCount != l.transformCount || l.occlusionCullShadowCasters ||
    (l.lightType == Spot && (l.aspect != m.aspect || l.fov != m.fov)) ||
    !castersUnchanged
  }

  /**
   * The same test with the owner checked as well, as
   * `iRenderer::ShadowMapNeedsUpdate` does: it redraws whenever the
   * as-written test does, agrees with it on a map the light already owns,
   * and keeps a map only for its owner.
   */
  predicate NeedsRedraw(m: ShadowMap, l: Light, castersUnchanged: bool): (r: bool)
    ensures NeedsRedrawAsWritten(m, l, castersUnchanged) ==> r
    ensures m.light == Some(l.id) ==> (r <==> NeedsRedrawAsWritten(m, l, castersUnchanged))
    ensures !r ==> m.light == Some(l.id)
  {
    m.light != Some(l.id) || NeedsRedrawAsWritten(m, l, castersUnchanged)
  }

  /** The map after it was re-rendered for the light. */
  function Redrawn(m: ShadowMap, l: Light): (r: ShadowMap)
    ensures r.light == Some(l.id) && r.frameCount == m.frameCount
  {
    m.(light := Some(l.id), transformCount := l.transformCount, radius := l.radius, aspect := l.aspect, fov := l.fov)
  }

  /**
   * As written, a map another light rendered is reused without a redraw
   * when the new light happens to have the same transform count, aspect
   * and field of view: the new light shows the old light's shadow.
   */
  lemma StaleShadowOfAnotherLight()
    ensures var m := ShadowMap(Some(1), 0, 3, 2.0, 1.0, 45.0);
      var l := Light(2, Spot, false, 3, 5.0, 1.0, 45.0);
      !NeedsRedrawAsWritten(m, l, true) && m.light != Some(l.id)
  {
  }

  /**
   * With the owner checked, a map kept without a redraw was rendered for
   * this very light with its current transform count; and a map just
   * redrawn is kept on the next frame if nothing changed.
   */
  lemma RedrawKeepsOwner(m: ShadowMap, l: Light, castersUnchanged: bool)
    ensures !NeedsRedraw(m, l, castersUnchanged) ==> m.light == Some(l.id) && m.transformCount == l.transformCount
    ensures !l.occlusionCullShadowCasters ==> !NeedsRedraw(Redrawn(m, l), l, true)
  {
  }

  /** One resolution's shadow maps (`m_shadowMapData[resolution]`). */
  class ShadowMapPool {
    var maps: seq<ShadowMap>

    /**
     * `findBestShadowMap`: picks the best map and stamps it with the
     * current frame.  The source indexes the vector unchecked, so it must
     * not be empty.
     */
    method FindBestShadowMap(light: nat, currentFrame: nat) returns (best: nat)
      requires |maps| > 0
      modifies this
      ensures IsBestMap(old(maps), light, currentFrame, best)
      ensures maps == old(maps)[best := old(maps)[best].(frameCount := currentFrame)]
    {
      var maxFrameDistance := 0;
      var bestIndex := 0;
      var found := false;
      var i := 0;
      while i < |maps| && !found
        invariant 0 <= i <= |maps| && bestIndex < |maps|
        invariant found ==> bestIndex == i && i < |maps| && Owns(maps, i, light)
        invariant forall j :: 0 <= j < i ==> !Owns(maps, j, light)
        invariant !found ==> bestIndex <= i && (i > 0 ==> bestIndex < i)
        invariant !found ==> maxFrameDistance == FrameDistance(currentFrame, maps[bestIndex].frameCount) || (maxFrameDistance == 0 && bestIndex == 0)
        invariant !found ==> forall j :: 0 <= j < i ==> FrameDistance(currentFrame, maps[j].frameCount) <= maxFrameDistance
        invariant !found ==> forall j :: 0 <= j < bestIndex ==> FrameDistance(currentFrame, maps[j].frameCount) < maxFrameDistance
        invariant !found && i > 0 ==> maxFrameDistance == FrameDistance(currentFrame, maps[bestIndex].frameCount)
        decreases |maps| - i + (if found then 0 else 1)
      {
        if maps[i].light == Some(light) {
          bestIndex := i;
          found := true;
        } else {
          var frameDist := FrameDistance(currentFrame, maps[i].frameCount);
          if frameDist > maxFrameDistance {
            maxFrameDistance := frameDist;
            bestIndex := i;
          }
          i := i + 1;
        }
      }
      if found {
        assert Owns(maps, bestIndex, light);
      } else {
        assert forall j :: 0 <= j < |maps| ==> !Owns(maps, j, light);
      }
      best := bestIndex;
      maps := maps[best := maps[best].(frameCount := currentFrame)];
    }

    /** The redraw decision, with the owner checked, and the refresh of the map's cache. */
    method UpdateShadowMap(index: nat, l: Light, castersUnchanged: bool) returns (redraw: bool)
      requires index < |maps|
      modifies this
      ensures redraw == NeedsRedraw(old(maps)[index], l, castersUnchanged)
      ensures maps == if redraw then old(maps)[index := Redrawn(old(maps)[index], l)] else old(maps)
      ensures maps[index].light == Some(l.id)
    {
      redraw := NeedsRedraw(maps[index], l, castersUnchanged);
      if redraw {
        maps := maps[index := Redrawn(maps[index], l)];
      }
    }
  }
}

=== FILE: renderer_deferred2.dfy ===
/**
 * Two helpers of `cRendererDeferred2` (HPL2/include/graphics/RendererDeferred2.h):
 * `RangeSubsetAlloc`, which hands out consecutive slots from a shared
 * `uint32_t` counter and reports the run handed out since the last call
 * to `End`, and the particle pipeline picked for a blend mode.
 */
module RendererDeferred2 {
  import opened Bytes
  import opened Material

  /** `RangeSubset`: the slots [start, end) of a `uint32_t` counter. */
  datatype RangeSubset = RangeSubset(start: nat, end: nat)
  {
    /** `size()`: end - start in `uint32_t`. */
    function Size(): (n: nat)
      ensures n < U32_MOD
      ensures start <= end < U32_MOD ==> n == end - start
    {
      (end - start) % U32_MOD
    }
  }

  /**
   * After k increments from `start`, the counter stands at start + k
   * (wrapped); the range then has size k, as long as fewer than 2^32
   * slots were taken, wrap-around included.
   */
  lemma SizeCountsIncrements(start: nat, k: nat)
    requires start < U32_MOD && k < U32_MOD
    ensures RangeSubset(start, (start + k) % U32_MOD).Size() == k
  {
    var end := (start + k) % U32_MOD;
    if start + k < U32_MOD {
      ModUnique(start + k, U32_MOD, 0, start + k);
    } else {
      ModUnique(start + k, U32_MOD, 1, start + k - U32_MOD);
      assert end - start == k - U32_MOD;
    }
  }

  /** The `uint32_t` the allocator refers to. */
  class IndexCounter {
    var value: nat

    constructor (value: nat)
      requires value < U32_MOD
      ensures this.value == value
    {
      this.value := value;
    }
  }

  class RangeSubsetAlloc {
    /** `m_index`, shared with whoever owns the counter. */
    const index: IndexCounter
    /** `m_start`. */
    var start: nat
    /** The slots handed out since the last `End`. */
    ghost var issued: seq<nat>

    ghost predicate Valid()
      reads this, index
    {
      index.value < U32_MOD && start < U32_MOD &&
      index.value == (start + |issued|) % U32_MOD &&
      forall k :: 0 <= k < |issued| ==> issued[k] == (start + k) % U32_MOD
    }

    /** The run starts where the counter stands. */
    constructor (index: IndexCounter)
      requires index.value < U32_MOD
      ensures Valid() && this.index == index && start == index.value && issued == []
    {
      this.index := index;
      start := index.value;
      issued := [];
    }

    /** `Increment`: returns the counter's value and advances it by one, wrapping at 2^32. */
    method Increment() returns (slot: nat)
      requires Valid()
      modifies index, this
      ensures Valid() && start == old(start)
      ensures slot == old(index.value) && index.value == (slot + 1) % U32_MOD
      ensures issued == old(issued) + [slot]
    {
      slot := index.value;
      index.value := (index.value + 1) % U32_MOD;
      issued := issued + [slot];
      ModSum(start, |old(issued)|);
    }

    /**
     * `End`: the run from the previous start to the counter; the next run
     * starts at the counter.  Its size is the number of slots handed out.
     */
    method End() returns (range: RangeSubset)
      requires Valid()
      modifies this
      ensures Valid() && issued == [] && start == index.value
      ensures range == RangeSubset(old(start), index.value)
      ensures |old(issued)| < U32_MOD ==> range.Size() == |old(issued)|
      ensures forall k :: 0 <= k < |old(issued)| ==> old(issued)[k] == (range.start + k) % U32_MOD
    {
      var first := start;
      start := index.value;
      issued := [];
      range := RangeSubset(first, index.value);
      if |old(issued)| < U32_MOD {
        SizeCountsIncrements(first, |old(issued)|);
      }
    }
  }

  /** (s + k) + 1 wrapped is s + (k + 1) wrapped. */
  lemma ModSum(s: nat, k: nat)
    ensures ((s + k) % U32_MOD + 1) % U32_MOD == (s + k + 1) % U32_MOD
  {
    var q, r := (s + k) / U32_MOD, (s + k) % U32_MOD;
    if r + 1 < U32_MOD {
      ModUnique(s + k + 1, U32_MOD, q, r + 1);
    } else {
      ModUnique(s + k + 1, U32_MOD, q + 1, 0);
    }
  }

  // ----------------------------------------------------------- blend pipelines

  /** The five pipelines of `BlendPipelines`. */
  datatype BlendPipeline = PipelineBlendAdd | PipelineBlendMul | PipelineBlendMulX2 | PipelineBlendAlpha | PipelineBlendPremulAlpha

  /**
   * `getPipelineByBlendMode`: each blend mode has its pipeline; no blend,
   * additive and any other value draw with the additive pipeline.
   */
  function GetPipelineByBlendMode(mode: BlendMode): (p: BlendPipeline)
    ensures p == PipelineBlendAdd <==> mode in {BlendNone, Add, BlendLastEnum}
  {
    match mode
    case BlendNone => PipelineBlendAdd
    case Add => PipelineBlendAdd
    case Mul => PipelineBlendMul
    case MulX2 => PipelineBlendMulX2
    case BlendAlpha => PipelineBlendAlpha
    case PremulAlpha => PipelineBlendPremulAlpha
    case BlendLastEnum => PipelineBlendAdd
  }

  /** The blend mode a pipeline was built for. */
  function PipelineBlendMode(p: BlendPipeline): BlendMode
  {
    match p
    case PipelineBlendAdd => Add
    case PipelineBlendMul => Mul
    case PipelineBlendMulX2 => MulX2
    case PipelineBlendAlpha => BlendAlpha
    case PipelineBlendPremulAlpha => PremulAlpha
  }

  /**
   * The pipeline drawn with blends the way the mode asks, treating no
   * blend and an unknown mode as additive; every pipeline is used by its
   * own mode.
   */
  lemma PipelineMatchesMode(mode: BlendMode, p: BlendPipeline)
    ensures PipelineBlendMode(GetPipelineByBlendMode(mode)) == if mode in {BlendNone, BlendLastEnum} then Add else mode
    ensures GetPipelineByBlendMode(PipelineBlendMode(p)) == p
  {
  }
}

=== FILE: rope_entity.dfy ===
/**
 * The segment bookkeeping of `cRopeEntity` (HPL2/sources/scene/RopeEntity.cpp):
 * one quad of four vertices per segment between consecutive rope particles,
 * written into one of `NumberOfCopies` vertex blocks of `4 * mlMaxSegments`
 * vertices, and the draw packet over the block written last.  Vertex
 * positions, texture coordinates, normals and colours are float data and are
 * not part of this model; only which slots are written is.
 */
module RopeEntity {
  import opened Bytes
  import opened IndexPatterns
  import opened GraphicsBuffer
  import opened MeshUtility
  import opened Drawing

  function Min(a: int, b: int): int { if a < b then a else b }

  class RopeEntity {
    /** `NumberOfCopies`: how many vertex blocks the rope cycles through. */
    const numberOfCopies: nat
    /** `mlMaxSegments`. */
    const maxSegments: nat
    /** `m_activeCopy`. */
    var activeCopy: nat
    /** `m_numberSegments`: particles visited minus one, so -1 for a rope without particles. */
    var numberSegments: int

    /** The active block exists, and no more segments are counted than a block holds. */
    predicate Valid()
      reads this
    {
      numberOfCopies > 0 && activeCopy < numberOfCopies && numberSegments <= maxSegments
    }

    /** A rope of at most `maxSegments` segments that has drawn nothing yet. */
    constructor (maxSegments: nat, numberOfCopies: nat)
      requires numberOfCopies > 0
      ensures Valid()
      ensures this.maxSegments == maxSegments && this.numberOfCopies == numberOfCopies
      ensures activeCopy == 0 && numberSegments == 0
    {
      this.maxSegments := maxSegments;
      this.numberOfCopies := numberOfCopies;
      activeCopy := 0;
      numberSegments := 0;
    }

    /** The constructor's index set-up: segment i gets 4i,4i+1,4i+2 and 4i+2,4i+3,4i. */
    method WriteIndices(view: BufferIndexView)
      modifies view.asset
      ensures Holds(view, 0, QuadIndices(maxSegments))
      ensures FramedOutside(view, 0, 6 * maxSegments)
    {
      WriteQuadIndices(view, maxSegments);
    }

    /**
     * The counting in `UpdateGraphicsForViewport` for a rope of
     * `particleCount` particles: the next block becomes active, at most
     * `maxSegments` particles are visited, each after the first closes one
     * segment whose quad is written at slot `segmentsWritten` of the block,
     * and the segment count is the particles visited minus one.
     */
    method UpdateGraphicsForViewport(particleCount: nat) returns (segmentsWritten: nat)
      requires Valid()
      modifies this
      ensures Valid()
      ensures activeCopy == (old(activeCopy) + 1) % numberOfCopies
      ensures numberSegments == Min(particleCount, maxSegments) - 1
      ensures segmentsWritten == if numberSegments > 0 then numberSegments else 0
      ensures 4 * segmentsWritten <= 4 * maxSegments
    {
      activeCopy := (activeCopy + 1) % numberOfCopies;
      var lCount := 0;
      var visited := 0;
      var segmentIndex := 0;
      while visited < particleCount
        invariant visited <= particleCount && lCount == visited <= maxSegments
        invariant segmentIndex == if lCount > 0 then lCount - 1 else 0
        invariant activeCopy < numberOfCopies
      {
        if lCount >= maxSegments {
          break;
        }
        lCount := lCount + 1;
        visited := visited + 1;
        if lCount == 1 {
          continue;
        }
        segmentIndex := segmentIndex + 1;
      }
      numberSegments := lCount - 1;
      segmentsWritten := segmentIndex;
    }

    /**
     * `ResolveDrawPacket`: nothing without a segment; otherwise six indices
     * per segment over the active block.
     */
    function ResolveDrawPacket(): (packet: DrawPacket)
      reads this
      ensures numberSegments <= 0 <==> packet == NoDraw
      ensures packet.DrawGeometrySet? ==>
        packet.indexOffset == 0 && packet.numIndices == 6 * numberSegments &&
        packet.vertexOffset == 4 * maxSegments * activeCopy
    {
      if numberSegments <= 0 then NoDraw
      else DrawGeometrySet(0, 6 * numberSegments, activeCopy * maxSegments * 4)
    }
  }

  /**
   * A drawn packet covers exactly the quads the last update wrote: its
   * indices name vertices below 4 * segments of the active block, and that
   * block lies inside the 4 * maxSegments * copies vertices allocated.
   */
  lemma PacketInsideAllocation(e: RopeEntity)
    requires e.Valid() && e.ResolveDrawPacket().DrawGeometrySet?
    ensures var p := e.ResolveDrawPacket();
      |QuadIndices(e.numberSegments)| == p.numIndices &&
      (forall k :: 0 <= k < |QuadIndices(e.numberSegments)| ==> QuadIndices(e.numberSegments)[k] < 4 * e.numberSegments) &&
      4 * e.numberSegments <= 4 * e.maxSegments &&
      p.vertexOffset + 4 * e.maxSegments <= 4 * e.maxSegments * e.numberOfCopies
  {
    var m, c := e.maxSegments, e.activeCopy;
    QuadsShape(e.numberSegments);
    MulMono(c + 1, e.numberOfCopies, 4 * m);
    assert (c + 1) * (4 * m) == 4 * m * c + 4 * m;
    assert e.numberOfCopies * (4 * m) == 4 * m * e.numberOfCopies;
  }
}

=== FILE: shader_compile.dfy ===
/**
 * The shader build script HPL2/core/shader_compile.py: the jobs each
 * shader becomes on each platform, the variants a shader with variant axes
 * expands to, and the queue of compiler processes that is drained in
 * batches and stops the script at the first compiler error.  Running the
 * compiler is left to a parameter `fails` that says whether a job's
 * compiler run writes to stderr.
 */
module ShaderCompile {
  import opened Wrappers

  /** `ShaderType`, plus any other value a shader entry might carry. */
  datatype ShaderType = FS | VS | CS | UnknownType

  /** `sys.platform`, as far as the script tells platforms apart. */
  datatype Platform = Win32 | Darwin | OtherPlatform

  /** The output directories under `shaders/`. */
  datatype Target = Dx9 | Dx11 | Osx | Glsl | Essl | Spirv

  /** A variant axis: its bit, its defines, and an optional `bit_required`. */
  datatype Variant = Variant(bit: nat, defines: seq<string>, bitRequired: Option<nat>)

  /** A shader entry of the `shaders` table. */
  datatype Shader = Shader(
    shaderType: ShaderType, input: string, name: Option<string>,
    defines: seq<string>, variants: Option<seq<Variant>>)

  /** The options `create_shader` is called with: a name and extra defines. */
  datatype Build = Build(name: string, defines: seq<string>)

  /** One compiler process: output directory, file name, `--type`, `--profile` and `--define`. */
  datatype Job = Job(target: Target, name: string, typeName: string, profile: Option<string>, defines: string)

  /** How the script ends: normally, through `exit`, or with the exception raised for an unknown type. */
  datatype Outcome = Finished | Exited(code: int) | Raised

  // ------------------------------------------------------------ type names

  /** `toType`; `None` where the script raises "Unknown shader type". */
  function ToType(t: ShaderType): (r: Option<string>)
    ensures r.None? <==> t == UnknownType
  {
    match t
    case FS => Some("fragment")
    case VS => Some("vertex")
    case CS => Some("compute")
    case UnknownType => None
  }

  /** `toD3dPrefix`; `None` where the script raises. */
  function ToD3dPrefix(t: ShaderType): (r: Option<string>)
    ensures r.None? <==> t == UnknownType
  {
    match t
    case FS => Some("ps")
    case VS => Some("vs")
    case CS => Some("cs")
    case UnknownType => None
  }

  /** The shader type a `--type` value names. */
  function TypeOfName(s: string): ShaderType
  {
    if s == "fragment" then FS else if s == "vertex" then VS else if s == "compute" then CS else UnknownType
  }

  /** The type names and the D3D prefixes tell the three types apart. */
  lemma TypeNamesDistinct(t: ShaderType, u: ShaderType)
    requires t != UnknownType && u != UnknownType
    ensures TypeOfName(ToType(t).value) == t
    ensures t != u ==> ToType(t) != ToType(u) && ToD3dPrefix(t) != ToD3dPrefix(u)
  {
    assert "fragment"[0] != "vertex"[0] && "vertex"[0] != "compute"[0] && "fragment"[0] != "compute"[0];
    assert "ps"[0] != "vs"[0] && "ps"[0] != "cs"[0] && "vs"[0] != "cs"[0];
  }

  // ------------------------------------------------------------------ names

  /** The last position of c in s. */
  function LastIndexOf(s: string, c: char): (r: Option<nat>)
    ensures r.Some? ==> r.value < |s| && s[r.value] == c && forall k :: r.value < k < |s| ==> s[k] != c
    ensures r.None? ==> forall k :: 0 <= k < |s| ==> s[k] != c
  {
    if s == [] then None
    else if s[|s| - 1] == c then Some(|s| - 1)
    else LastIndexOf(s[..|s| - 1], c)
  }

  /** `os.path.basename`: what follows the last '/'. */
  function Basename(p: string): (b: string)
    ensures forall k :: 0 <= k < |b| ==> b[k] != '/'
    ensures |b| <= |p| && b == p[|p| - |b|..]
  {
    match LastIndexOf(p, '/')
    case None => p
    case Some(i) => p[i + 1..]
  }

  /**
   * `os.path.splitext(...)[0]` of a base name: up to the last '.', unless
   * only dots precede it (a leading-dot name has no extension).
   */
  function StripExtension(b: string): (r: string)
    ensures |r| <= |b| && r == b[..|r|]
  {
    match LastIndexOf(b, '.')
    case None => b
    case Some(i) => if exists k :: 0 <= k < i && b[k] != '.' then b[..i] else b
  }

  /** `get_name`: the entry's "name", else the input's base name without extension. */
  function GetName(s: Shader): (r: string)
    ensures s.name.Some? ==> r == s.name.value
    ensures s.name.None? ==> forall k :: 0 <= k < |r| ==> r[k] != '/'
  {
    if s.name.Some? then s.name.value else StripExtension(Basename(s.input))
  }

  /** A position holding c with no c after it is the last position of c. */
  lemma {:induction false} LastIndexOfIs(s: string, c: char, i: nat)
    requires i < |s| && s[i] == c && forall k :: i < k < |s| ==> s[k] != c
    ensures LastIndexOf(s, c) == Some(i)
  {
    if i < |s| - 1 {
      LastIndexOfIs(s[..|s| - 1], c, i);
    }
  }

  /** The base name of dir/b, for b without '/', is b. */
  lemma BasenameOf(dir: string, b: string)
    requires forall k :: 0 <= k < |b| ==> b[k] != '/'
    ensures Basename(dir + "/" + b) == b
  {
    var p := dir + "/" + b;
    forall k | |dir| < k < |p| ensures p[k] != '/' {
      assert p[k] == b[k - |dir| - 1];
    }
    LastIndexOfIs(p, '/', |dir|);
  }

  /** stem.ext loses .ext when stem is a non-empty run without dots and ext has none. */
  lemma StripOf(stem: string, ext: string)
    requires |stem| > 0 && forall k :: 0 <= k < |stem| ==> stem[k] != '.'
    requires forall k :: 0 <= k < |ext| ==> ext[k] != '.'
    ensures StripExtension(stem + "." + ext) == stem
  {
    var b := stem + "." + ext;
    forall k | |stem| < k < |b| ensures b[k] != '.' {
      assert b[k] == ext[k - |stem| - 1];
    }
    LastIndexOfIs(b, '.', |stem|);
    assert b[0] == stem[0] != '.';
    assert b[..|stem|] == stem;
  }

  /** A shader without a name is named after its file: dir/stem.ext gives stem. */
  lemma GetNameOfPath(s: Shader, dir: string, stem: string, ext: string)
    requires s.name.None? && s.input == dir + "/" + (stem + "." + ext)
    requires |stem| > 0 && forall k :: 0 <= k < |stem| ==> stem[k] != '/' && stem[k] != '.'
    requires forall k :: 0 <= k < |ext| ==> ext[k] != '/' && ext[k] != '.'
    ensures GetName(s) == stem
  {
    var b := stem + "." + ext;
    forall k | 0 <= k < |b| ensures b[k] != '/' {
      if k > |stem| {
        assert b[k] == ext[k - |stem| - 1];
      }
    }
    BasenameOf(dir, b);
    StripOf(stem, ext);
  }

  // --------------------------------------------------------------- variants

  /** Python's `|` on non-negative integers. */
  function BitOr(a: nat, b: nat): nat
  {
    if a == 0 then b else if b == 0 then a
    else 2 * BitOr(a / 2, b / 2) + (if a % 2 == 1 || b % 2 == 1 then 1 else 0)
  }

  /** Python's `&` on non-negative integers. */
  function BitAnd(a: nat, b: nat): nat
  {
    if a == 0 || b == 0 then 0
    else 2 * BitAnd(a / 2, b / 2) + (if a % 2 == 1 && b % 2 == 1 then 1 else 0)
  }

  /** `num_variants`: the union of the axes' bits. */
  function VariantMask(vs: seq<Variant>): nat
  {
    if vs == [] then 0 else BitOr(VariantMask(vs[..|vs| - 1]), vs[|vs| - 1].bit)
  }

  /** The `bit_required` of an axis, 0 when absent. */
  function RequiredOf(v: Variant): nat
  {
    if v.bitRequired.Some? then v.bitRequired.value else 0
  }

  /** The defines of variant i: those of the axes whose bit i has, in axis order. */
  function VariantDefines(vs: seq<Variant>, i: nat): seq<string>
  {
    if vs == [] then []
    else if BitAnd(vs[|vs| - 1].bit, i) > 0 then VariantDefines(vs[..|vs| - 1], i) + vs[|vs| - 1].defines
    else VariantDefines(vs[..|vs| - 1], i)
  }

  /** `require_bit` of variant i: the union of the required bits of the axes i has. */
  function RequiredBits(vs: seq<Variant>, i: nat): nat
  {
    if vs == [] then 0
    else if BitAnd(vs[|vs| - 1].bit, i) > 0 then BitOr(RequiredBits(vs[..|vs| - 1], i), RequiredOf(vs[|vs| - 1]))
    else RequiredBits(vs[..|vs| - 1], i)
  }

  /** Variant i is built when it has every bit its axes require. */
  predicate VariantBuilt(vs: seq<Variant>, i: nat)
  {
    BitAnd(RequiredBits(vs, i), i) == RequiredBits(vs, i)
  }

  /** Decimal digits of n, as `str` writes them. */
  function NatToString(n: nat): (s: string)
    ensures |s| > 0 && forall k :: 0 <= k < |s| ==> '0' <= s[k] <= '9'
    decreases n
  {
    if n < 10 then [(48 + n) as char] else NatToString(n / 10) + [(48 + n % 10) as char]
  }

  /** The number decimal digits spell. */
  function ParseDigits(s: string): int
  {
    if s == [] then 0 else ParseDigits(s[..|s| - 1]) * 10 + (s[|s| - 1] as int - 48)
  }

  lemma {:induction false} ParseNatToString(n: nat)
    ensures ParseDigits(NatToString(n)) == n
    decreases n
  {
    if n >= 10 {
      ParseNatToString(n / 10);
      var s := NatToString(n);
      assert s[..|s| - 1] == NatToString(n / 10);
    }
  }

  /** The name of variant i: `get_name(shader)_i`. */
  function VariantName(base: string, i: nat): (r: string)
    ensures |r| > |base| + 1 && r[..|base| + 1] == base + "_"
  {
    base + "_" + NatToString(i)
  }

  /** Different variants get different names, so no two overwrite one output file. */
  lemma VariantNameInjective(base: string, i: nat, j: nat)
    requires VariantName(base, i) == VariantName(base, j)
    ensures i == j
  {
    var a, b := VariantName(base, i), VariantName(base, j);
    assert a[|base| + 1..] == NatToString(i);
    assert b[|base| + 1..] == NatToString(j);
    ParseNatToString(i);
    ParseNatToString(j);
  }

  /** The builds for variants 0..n-1, skipping those missing a required bit. */
  function VariantBuilds(base: string, vs: seq<Variant>, n: nat): (r: seq<Build>)
    ensures |r| <= n
  {
    if n == 0 then []
    else if VariantBuilt(vs, n - 1) then VariantBuilds(base, vs, n - 1) + [Build(VariantName(base, n - 1), VariantDefines(vs, n - 1))]
    else VariantBuilds(base, vs, n - 1)
  }

  /** What `create_shader` is called with for a shader: once per built variant, or once plain. */
  function ShaderBuilds(s: Shader): (r: seq<Build>)
    ensures s.variants.None? ==> |r| == 1 && r[0].defines == []
    ensures s.variants.Some? ==> |r| <= VariantMask(s.variants.value) + 1
  {
    match s.variants
    case None => [Build(GetName(s), [])]
    case Some(vs) => VariantBuilds(GetName(s), vs, VariantMask(vs) + 1)
  }

  /** Variant 0 never requires anything, so it is always built. */
  lemma {:induction false} VariantZeroBuilt(vs: seq<Variant>)
    ensures RequiredBits(vs, 0) == 0 && VariantBuilt(vs, 0)
  {
    if vs != [] {
      VariantZeroBuilt(vs[..|vs| - 1]);
    }
  }

  /** Every build among variants 0..n-1 is named after one of them. */
  lemma {:induction false} BuildNamesBelow(base: string, vs: seq<Variant>, n: nat, k: nat)
    requires k < |VariantBuilds(base, vs, n)|
    ensures exists j: nat :: j < n && VariantBuilds(base, vs, n)[k].name == VariantName(base, j)
  {
    var prev := VariantBuilds(base, vs, n - 1);
    if k < |prev| {
      BuildNamesBelow(base, vs, n - 1, k);
      assert VariantBuilds(base, vs, n)[k] == prev[k];
    } else {
      assert VariantBuilds(base, vs, n)[k].name == VariantName(base, n - 1);
    }
  }

  /** Some build in r carries the name. */
  predicate HasBuild(r: seq<Build>, name: string)
  {
    exists k :: 0 <= k < |r| && r[k].name == name
  }

  /**
   * Among variants 0..n-1, a build is named after variant i exactly when
   * variant i is built, and it then carries that variant's defines.
   */
  lemma {:induction false} VariantBuiltIff(base: string, vs: seq<Variant>, n: nat, i: nat)
    requires i < n
    ensures HasBuild(VariantBuilds(base, vs, n), VariantName(base, i)) <==> VariantBuilt(vs, i)
    ensures forall k :: 0 <= k < |VariantBuilds(base, vs, n)| && VariantBuilds(base, vs, n)[k].name == VariantName(base, i) ==>
      VariantBuilds(base, vs, n)[k].defines == VariantDefines(vs, i)
  {
    var r := VariantBuilds(base, vs, n);
    var prev := VariantBuilds(base, vs, n - 1);
    var name := VariantName(base, i);
    if !VariantBuilt(vs, n - 1) {
      assert r == prev;
      if i < n - 1 {
        VariantBuiltIff(base, vs, n - 1, i);
      } else {
        NotNamedBelow(base, vs, n - 1);
      }
    } else {
      assert r == prev + [Build(VariantName(base, n - 1), VariantDefines(vs, n - 1))];
      if i < n - 1 {
        VariantBuiltIff(base, vs, n - 1, i);
        if VariantName(base, n - 1) == name {
          VariantNameInjective(base, i, n - 1);
        }
        forall k | 0 <= k < |r| && r[k].name == name ensures k < |prev| && r[k] == prev[k] {
        }
        if HasBuild(prev, name) {
          var k :| 0 <= k < |prev| && prev[k].name == name;
          assert r[k] == prev[k];
        }
      } else {
        NotNamedBelow(base, vs, n - 1);
        assert r[|prev|].name == name;
      }
    }
  }

  /** No build among variants 0..n-1 is named after variant n. */
  lemma NotNamedBelow(base: string, vs: seq<Variant>, n: nat)
    ensures forall k :: 0 <= k < |VariantBuilds(base, vs, n)| ==> VariantBuilds(base, vs, n)[k].name != VariantName(base, n)
  {
    var r := VariantBuilds(base, vs, n);
    forall k | 0 <= k < |r| ensures r[k].name != VariantName(base, n) {
      BuildNamesBelow(base, vs, n, k);
      var j: nat :| j < n && r[k].name == VariantName(base, j);
      if r[k].name == VariantName(base, n) {
        VariantNameInjective(base, n, j);
      }
    }
  }

  /** Axes without `bit_required` never require a bit. */
  lemma {:induction false} NoRequirements(vs: seq<Variant>, i: nat)
    requires forall k :: 0 <= k < |vs| ==> vs[k].bitRequired.None?
    ensures RequiredBits(vs, i) == 0
  {
    if vs != [] {
      NoRequirements(vs[..|vs| - 1], i);
    }
  }

  /** Without requirements every variant 0..n-1 is built, in order. */
  lemma {:induction false} AllVariantsBuilt(base: string, vs: seq<Variant>, n: nat)
    requires forall k :: 0 <= k < |vs| ==> vs[k].bitRequired.None?
    ensures |VariantBuilds(base, vs, n)| == n
    ensures forall i :: 0 <= i < n ==> VariantBuilds(base, vs, n)[i].name == VariantName(base, i)
  {
    if n > 0 {
      AllVariantsBuilt(base, vs, n - 1);
      NoRequirements(vs, n - 1);
    }
  }

  /** Four axes with bits 1, 2, 4 and 8 and no requirements give the 16 variants 0..15. */
  lemma SixteenVariants(s: Shader, d1: seq<string>, d2: seq<string>, d3: seq<string>, d4: seq<string>)
    requires s.variants == Some([Variant(1, d1, None), Variant(2, d2, None), Variant(4, d3, None), Variant(8, d4, None)])
    ensures |ShaderBuilds(s)| == 16
    ensures forall i :: 0 <= i < 16 ==> ShaderBuilds(s)[i].name == VariantName(GetName(s), i)
  {
    var vs := s.variants.value;
    assert VariantMask(vs[..1]) == 1 by { assert vs[..1][..0] == []; }
    assert VariantMask(vs[..2]) == 3 by { assert vs[..2][..1] == vs[..1]; }
    assert VariantMask(vs[..3]) == 7 by { assert vs[..3][..2] == vs[..2]; }
    assert VariantMask(vs) == 15 by { assert vs[..3] == vs[..|vs| - 1]; }
    AllVariantsBuilt(GetName(s), vs, 16);
  }

  /**
   * The variant loop of `main`: for i from 0 to the union of the bits,
   * collects variant i's defines and required bits axis by axis, and
   * builds it only if it has every required bit; the others are reported
   * as skipped.
   */
  method ExpandVariants(s: Shader) returns (builds: seq<Build>, skipped: seq<nat>)
    ensures builds == ShaderBuilds(s)
    ensures s.variants.Some? ==> forall k :: 0 <= k < |skipped| ==> !VariantBuilt(s.variants.value, skipped[k])
  {
    if s.variants.None? {
      return [Build(GetName(s), [])], [];
    }
    var vs := s.variants.value;
    var mask := ComputeMask(vs);
    var base := GetName(s);
    builds, skipped := [], [];
    var i: nat := 0;
    while i < mask + 1
      invariant i <= mask + 1
      invariant builds == VariantBuilds(base, vs, i)
      invariant forall k :: 0 <= k < |skipped| ==> !VariantBuilt(vs, skipped[k])
    {
      var defines, requireBit := VariantOptions(vs, i);
      if BitAnd(requireBit, i) == requireBit {
        builds := builds + [Build(VariantName(base, i), defines)];
      } else {
        skipped := skipped + [i];
      }
      i := i + 1;
    }
  }

  /** The loop computing `num_variants`. */
  method ComputeMask(vs: seq<Variant>) returns (mask: nat)
    ensures mask == VariantMask(vs)
  {
    mask := 0;
    var a := 0;
    while a < |vs|
      invariant 0 <= a <= |vs| && mask == VariantMask(vs[..a])
    {
      assert vs[..a + 1][..a] == vs[..a];
      mask := BitOr(mask, vs[a].bit);
      a := a + 1;
    }
    assert vs[..|vs|] == vs;
  }

  /** The inner loop for variant i: its defines and its `require_bit`. */
  method VariantOptions(vs: seq<Variant>, i: nat) returns (defines: seq<string>, requireBit: nat)
    ensures defines == VariantDefines(vs, i) && requireBit == RequiredBits(vs, i)
  {
    defines, requireBit := [], 0;
    var a := 0;
    while a < |vs|
      invariant 0 <= a <= |vs|
      invariant defines == VariantDefines(vs[..a], i) && requireBit == RequiredBits(vs[..a], i)
    {
      assert vs[..a + 1][..a] == vs[..a];
      if BitAnd(vs[a].bit, i) > 0 {
        defines := defines + vs[a].defines;
        requireBit := BitOr(requireBit, RequiredOf(vs[a]));
      }
      a := a + 1;
    }
    assert vs[..|vs|] == vs;
  }

  // ------------------------------------------------------------------- jobs

  /** The combined length of a list of strings. */
  function TotalLength(ds: seq<string>): nat
  {
    if ds == [] then 0 else TotalLength(ds[..|ds| - 1]) + |ds[|ds| - 1]|
  }

  /** `";".join(...)`: the defines in order with one `;` between neighbours, starting with the first. */
  function JoinDefines(ds: seq<string>): (r: string)
    ensures ds == [] ==> r == ""
    ensures ds != [] ==> ds[0] <= r && |r| == TotalLength(ds) + |ds| - 1
  {
    if ds == [] then "" else if |ds| == 1 then ds[0] else JoinDefines(ds[..|ds| - 1]) + ";" + ds[|ds| - 1]
  }

  /**
   * The output directories `create_shader` starts a job for, in order:
   * dx9 (not for compute) and dx11 on Windows, osx on macOS, essl (not for
   * compute), glsl, and spirv (not for compute).
   */
  function JobTargets(t: ShaderType, platform: Platform): (r: seq<Target>)
    ensures 1 <= |r| <= 5
  {
    var cs := t == CS;
    (if platform != Win32 then [] else if cs then [Dx11] else [Dx9, Dx11]) +
    (if platform == Darwin then [Osx] else []) +
    (if cs then [] else [Essl]) + [Glsl] + (if cs then [] else [Spirv])
  }

  /** A compute shader gets no dx9, essl or spirv job; any other gets essl, glsl and spirv, and dx9 on Windows. */
  lemma JobTargetsSpec(t: ShaderType, platform: Platform)
    ensures t == CS ==> Dx9 !in JobTargets(t, platform) && Essl !in JobTargets(t, platform) && Spirv !in JobTargets(t, platform)
    ensures t != CS ==> (Essl in JobTargets(t, platform) && Spirv in JobTargets(t, platform) &&
      (Dx9 in JobTargets(t, platform) <==> platform == Win32))
    ensures Glsl in JobTargets(t, platform)
    ensures (Dx11 in JobTargets(t, platform) <==> platform == Win32) && (Osx in JobTargets(t, platform) <==> platform == Darwin)
  {
    if t == CS {
      ComputeTargets(platform);
    } else {
      GraphicsTargets(t, platform);
    }
  }

  /** The targets of a compute shader, platform by platform. */
  lemma ComputeTargets(platform: Platform)
    ensures JobTargets(CS, platform) ==
      match platform
      case Win32 => [Dx11, Glsl]
      case Darwin => [Osx, Glsl]
      case OtherPlatform => [Glsl]
  {
  }

  /** The targets of any other shader, platform by platform. */
  lemma GraphicsTargets(t: ShaderType, platform: Platform)
    requires t != CS
    ensures JobTargets(t, platform) ==
      match platform
      case Win32 => [Dx9, Dx11, Essl, Glsl, Spirv]
      case Darwin => [Osx, Essl, Glsl, Spirv]
      case OtherPlatform => [Essl, Glsl, Spirv]
  {
    match platform
    case Win32 => assert JobTargets(t, platform) == [Dx9, Dx11, Essl, Glsl, Spirv];
    case Darwin => assert JobTargets(t, platform) == [Osx, Essl, Glsl, Spirv];
    case OtherPlatform => assert JobTargets(t, platform) == [Essl, Glsl, Spirv];
  }

  /** The `--profile` of a job: D3D prefix with _3_0 or _5_0, metal, none for essl, 430 or 130 for glsl, spirv. */
  function Profile(target: Target, t: ShaderType, prefix: string): (r: Option<string>)
    ensures r.None? <==> target == Essl
    ensures target in {Dx9, Dx11} ==> r.Some? && prefix <= r.value
    ensures target == Glsl ==> (r == Some("430") <==> t == CS)
  {
    match target
    case Dx9 => Some(prefix + "_3_0")
    case Dx11 => Some(prefix + "_5_0")
    case Osx => Some("metal")
    case Essl => None
    case Glsl => Some(if t == CS then "430" else "130")
    case Spirv => Some("spirv")
  }

  /**
   * `create_shader`: one job per target, in order; `None` for an unknown
   * shader type, which raises before any job starts.  Every job writes the
   * build's name with the shader's and the build's defines.
   */
  function CreateShaderJobs(s: Shader, platform: Platform, b: Build): (r: Option<seq<Job>>)
    ensures r.None? <==> s.shaderType == UnknownType
    ensures r.Some? ==> (|r.value| == |JobTargets(s.shaderType, platform)| &&
      forall k :: 0 <= k < |r.value| ==>
        r.value[k].target == JobTargets(s.shaderType, platform)[k] && r.value[k].name == b.name &&
        r.value[k].typeName == ToType(s.shaderType).value && r.value[k].defines == JoinDefines(s.defines + b.defines) &&
        r.value[k].profile == Profile(r.value[k].target, s.shaderType, ToD3dPrefix(s.shaderType).value))
  {
    if s.shaderType == UnknownType then None
    else
      var targets := JobTargets(s.shaderType, platform);
      var t, prefix := ToType(s.shaderType).value, ToD3dPrefix(s.shaderType).value;
      var d := JoinDefines(s.defines + b.defines);
      Some(seq(|targets|, k requires 0 <= k < |targets| => Job(targets[k], b.name, t, Profile(targets[k], s.shaderType, prefix), d)))
  }

  /** The jobs of a list of builds of one shader, in order. */
  function BuildsJobs(s: Shader, platform: Platform, bs: seq<Build>): (r: Option<seq<Job>>)
    ensures bs != [] ==> (r.None? <==> s.shaderType == UnknownType)
    ensures bs == [] ==> r == Some([])
    ensures r.Some? ==> |r.value| >= |bs|
  {
    if bs == [] then Some([])
    else
      match BuildsJobs(s, platform, bs[..|bs| - 1])
      case None => None
      case Some(js) =>
        match CreateShaderJobs(s, platform, bs[|bs| - 1])
        case None => None
        case Some(j) => Some(js + j)
  }

  /** The jobs of the first builds come first. */
  lemma {:induction false} BuildsJobsPrefix(s: Shader, platform: Platform, bs: seq<Build>, i: nat)
    requires i <= |bs| && s.shaderType != UnknownType
    ensures BuildsJobs(s, platform, bs[..i]).value <= BuildsJobs(s, platform, bs).value
  {
    if i < |bs| {
      BuildsJobsPrefix(s, platform, bs[..|bs| - 1], i);
      assert bs[..|bs| - 1][..i] == bs[..i];
    } else {
      assert bs[..i] == bs;
    }
  }

  /** Every job the script would start for a shader table, in order; `None` if it raises. */
  function AllJobs(shaders: seq<Shader>, platform: Platform): (r: Option<seq<Job>>)
    ensures r.Some? ==> |r.value| >= |shaders|
  {
    if shaders == [] then Some([])
    else
      ShaderBuildsNonEmpty(shaders[|shaders| - 1]);
      match AllJobs(shaders[..|shaders| - 1], platform)
      case None => None
      case Some(js) =>
        match BuildsJobs(shaders[|shaders| - 1], platform, ShaderBuilds(shaders[|shaders| - 1]))
        case None => None
        case Some(j) => Some(js + j)
  }

  /** The jobs of the first shaders come first. */
  lemma {:induction false} AllJobsPrefix(shaders: seq<Shader>, platform: Platform, i: nat)
    requires i <= |shaders| && AllJobs(shaders, platform).Some?
    ensures AllJobs(shaders[..i], platform).Some?
    ensures AllJobs(shaders[..i], platform).value <= AllJobs(shaders, platform).value
  {
    if i < |shaders| {
      AllJobsPrefix(shaders[..|shaders| - 1], platform, i);
      assert shaders[..|shaders| - 1][..i] == shaders[..i];
    } else {
      assert shaders[..i] == shaders;
    }
  }

  /** The script raises exactly when some entry has an unknown type. */
  lemma {:induction false} AllJobsRaise(shaders: seq<Shader>, platform: Platform)
    ensures AllJobs(shaders, platform).None? <==> exists k :: 0 <= k < |shaders| && shaders[k].shaderType == UnknownType
  {
    if shaders != [] {
      var init := shaders[..|shaders| - 1];
      AllJobsRaise(init, platform);
      ShaderBuildsNonEmpty(shaders[|shaders| - 1]);
      if exists k :: 0 <= k < |init| && init[k].shaderType == UnknownType {
        var k :| 0 <= k < |init| && init[k].shaderType == UnknownType;
        assert shaders[k] == init[k];
      }
      forall k | 0 <= k < |shaders| - 1 ensures shaders[k] == init[k] { }
    }
  }

  /** `create_shader` runs at least once per shader: variant 0 is always built. */
  lemma ShaderBuildsNonEmpty(s: Shader)
    ensures |ShaderBuilds(s)| > 0
  {
    if s.variants.Some? {
      var vs := s.variants.value;
      VariantZeroBuilt(vs);
      var n := VariantMask(vs) + 1;
      VariantBuildsStart(GetName(s), vs, n);
    }
  }

  lemma {:induction false} VariantBuildsStart(base: string, vs: seq<Variant>, n: nat)
    requires 0 < n && VariantBuilt(vs, 0)
    ensures |VariantBuilds(base, vs, n)| > 0
  {
    if n > 1 {
      VariantBuildsStart(base, vs, n - 1);
    }
  }

  // ------------------------------------------------------------ the queue

  /** The position of the first job whose compiler run fails. */
  function FirstFailure(ps: seq<Job>, fails: Job -> bool): (r: Option<nat>)
    ensures r.Some? ==> r.value < |ps| && fails(ps[r.value]) && forall k :: 0 <= k < r.value ==> !fails(ps[k])
    ensures r.None? <==> forall k :: 0 <= k < |ps| ==> !fails(ps[k])
  {
    if ps == [] then None
    else if fails(ps[0]) then Some(0)
    else
      var rest := FirstFailure(ps[1..], fails);
      assert forall k :: 1 <= k < |ps| ==> ps[k] == ps[1..][k - 1];
      if rest.None? then None else Some(rest.value + 1)
  }

  predicate NoneFail(ps: seq<Job>, fails: Job -> bool)
  {
    forall k :: 0 <= k < |ps| ==> !fails(ps[k])
  }

  /** A failing job among the first jobs is a failing job of them all. */
  lemma PrefixFails(ps: seq<Job>, all: seq<Job>, fails: Job -> bool)
    requires ps <= all && !NoneFail(ps, fails)
    ensures !NoneFail(all, fails)
  {
    var k :| 0 <= k < |ps| && fails(ps[k]);
    assert all[k] == ps[k];
  }

  /** The global `processes` list, and the jobs whose output was collected so far. */
  class ProcessQueue {
    var processes: seq<Job>
    var collected: seq<Job>

    constructor ()
      ensures processes == [] && collected == []
    {
      processes := [];
      collected := [];
    }

    /**
     * `wait_subprocesses`: collects the jobs in order and exits with
     * status 1 at the first that wrote to stderr; otherwise empties the list.
     */
    method WaitSubprocesses(fails: Job -> bool) returns (exited: bool)
      modifies this
      ensures exited <==> !NoneFail(old(processes), fails)
      ensures !exited ==> processes == [] && collected == old(collected) + old(processes)
      ensures exited ==> (processes == old(processes) &&
        collected == old(collected) + old(processes)[..FirstFailure(old(processes), fails).value + 1])
    {
      var i := 0;
      while i < |processes|
        invariant 0 <= i <= |processes| && processes == old(processes)
        invariant NoneFail(processes[..i], fails)
        invariant collected == old(collected) + processes[..i]
      {
        collected := collected + [processes[i]];
        if fails(processes[i]) {
          assert processes[..i + 1] == processes[..i] + [processes[i]];
          assert FirstFailure(processes, fails) == Some(i);
          return true;
        }
        assert processes[..i + 1] == processes[..i] + [processes[i]];
        i := i + 1;
      }
      assert processes[..i] == processes;
      processes := [];
      return false;
    }

    /**
     * `wrap_subprocess`: with more than 100 jobs pending, drains them all
     * first; then starts the job and adds it to the list.
     */
    method WrapSubprocess(job: Job, fails: Job -> bool) returns (exited: bool)
      modifies this
      ensures exited ==> (|old(processes)| > 100 && !NoneFail(collected, fails) &&
        collected <= old(collected) + old(processes))
      ensures !exited && |old(processes)| > 100 ==> (NoneFail(old(processes), fails) &&
        collected == old(collected) + old(processes) && processes == [job])
      ensures !exited && |old(processes)| <= 100 ==> (collected == old(collected) && processes == old(processes) + [job])
    {
      if |processes| > 100 {
        exited := WaitSubprocesses(fails);
        if exited {
          var f := FirstFailure(old(processes), fails).value;
          assert collected[|old(collected)| + f] == old(processes)[f];
          return;
        }
      }
      processes := processes + [job];
      exited := false;
    }
  }

  /** The queue stays small and every job collected so far compiled, as long as the script runs. */
  ghost predicate Running(q: ProcessQueue, fails: Job -> bool)
    reads q
  {
    |q.processes| <= 101 && NoneFail(q.collected, fails) &&
    (q.collected != [] ==> |q.collected| + |q.processes| > 101)
  }

  /** Starts the jobs of one build in order. */
  method StartJobs(q: ProcessQueue, jobs: seq<Job>, fails: Job -> bool) returns (exited: bool)
    requires Running(q, fails)
    modifies q
    ensures exited ==> (!NoneFail(q.collected, fails) && q.collected <= old(q.collected + q.processes) + jobs &&
      |old(q.collected + q.processes)| + |jobs| > 101)
    ensures !exited ==> Running(q, fails) && q.collected + q.processes == old(q.collected + q.processes) + jobs
  {
    var i := 0;
    while i < |jobs|
      invariant 0 <= i <= |jobs| && Running(q, fails)
      invariant q.collected + q.processes == old(q.collected + q.processes) + jobs[..i]
    {
      ghost var c, p := q.collected, q.processes;
      exited := q.WrapSubprocess(jobs[i], fails);
      if exited {
        assert c + p <= old(q.collected + q.processes) + jobs;
        return;
      }
      assert jobs[..i + 1] == jobs[..i] + [jobs[i]];
      if |p| > 100 {
        assert forall k :: 0 <= k < |q.collected| ==> q.collected[k] == if k < |c| then c[k] else p[k - |c|];
      } else {
        assert q.collected + q.processes == (c + p) + [jobs[i]];
      }
      i := i + 1;
    }
    assert jobs[..i] == jobs;
    exited := false;
  }

  /** The body of the `for shader in shaders` loop for one entry. */
  method CompileShader(q: ProcessQueue, s: Shader, platform: Platform, fails: Job -> bool) returns (outcome: Outcome)
    requires Running(q, fails)
    modifies q
    ensures outcome == Raised <==> s.shaderType == UnknownType
    ensures outcome != Raised ==> BuildsJobs(s, platform, ShaderBuilds(s)).Some?
    ensures outcome.Exited? ==> (outcome.code == 1 && !NoneFail(q.collected, fails) &&
      q.collected <= old(q.collected + q.processes) + BuildsJobs(s, platform, ShaderBuilds(s)).value &&
      |old(q.collected + q.processes)| + |BuildsJobs(s, platform, ShaderBuilds(s)).value| > 101)
    ensures outcome == Finished ==> (Running(q, fails) &&
      q.collected + q.processes == old(q.collected + q.processes) + BuildsJobs(s, platform, ShaderBuilds(s)).value)
  {
    var builds, _ := ExpandVariants(s);
    ShaderBuildsNonEmpty(s);
    if s.shaderType == UnknownType {
      var jobs := CreateShaderJobs(s, platform, builds[0]);
      return Raised;
    }
    outcome := StartBuilds(q, s, platform, builds, fails);
  }

  /** `create_shader` for each build of a shader of known type, in order. */
  method StartBuilds(q: ProcessQueue, s: Shader, platform: Platform, builds: seq<Build>, fails: Job -> bool) returns (outcome: Outcome)
    requires Running(q, fails) && s.shaderType != UnknownType
    modifies q
    ensures outcome == Finished || outcome == Exited(1)
    ensures outcome.Exited? ==> (!NoneFail(q.collected, fails) &&
      q.collected <= old(q.collected + q.processes) + BuildsJobs(s, platform, builds).value &&
      |old(q.collected + q.processes)| + |BuildsJobs(s, platform, builds).value| > 101)
    ensures outcome == Finished ==> (Running(q, fails) &&
      q.collected + q.processes == old(q.collected + q.processes) + BuildsJobs(s, platform, builds).value)
  {
    ghost var before := q.collected + q.processes;
    var i := 0;
    while i < |builds|
      invariant 0 <= i <= |builds| && Running(q, fails)
      invariant q.collected + q.processes == before + BuildsJobs(s, platform, builds[..i]).value
    {
      var exited := StartBuild(q, s, platform, builds, i, fails, before);
      if exited {
        return Exited(1);
      }
      i := i + 1;
    }
    assert builds[..i] == builds;
    outcome := Finished;
  }

  /** `create_shader` for build i, after builds 0..i-1 started the jobs past `before`. */
  method StartBuild(q: ProcessQueue, s: Shader, platform: Platform, builds: seq<Build>, i: nat, fails: Job -> bool,
                    ghost before: seq<Job>) returns (exited: bool)
    requires Running(q, fails) && s.shaderType != UnknownType && i < |builds|
    requires q.collected + q.processes == before + BuildsJobs(s, platform, builds[..i]).value
    modifies q
    ensures exited ==> (!NoneFail(q.collected, fails) &&
      q.collected <= before + BuildsJobs(s, platform, builds).value &&
      |before| + |BuildsJobs(s, platform, builds).value| > 101)
    ensures !exited ==> (Running(q, fails) &&
      q.collected + q.processes == before + BuildsJobs(s, platform, builds[..i + 1]).value)
  {
    var jobs := CreateShaderJobs(s, platform, builds[i]).value;
    BuildsJobsSnoc(s, platform, builds, i);
    BuildsJobsPrefix(s, platform, builds, i + 1);
    exited := StartStreamJobs(q, jobs, fails, before, BuildsJobs(s, platform, builds[..i]).value,
      BuildsJobs(s, platform, builds[..i + 1]).value, BuildsJobs(s, platform, builds).value);
  }

  /**
   * Starts the jobs of one build when the jobs `prev` of the earlier builds
   * were started past `before`, and `prev + jobs` is a prefix of `all`.
   */
  method StartStreamJobs(q: ProcessQueue, jobs: seq<Job>, fails: Job -> bool,
                         ghost before: seq<Job>, ghost prev: seq<Job>, ghost next: seq<Job>, ghost all: seq<Job>)
    returns (exited: bool)
    requires Running(q, fails) && q.collected + q.processes == before + prev
    requires next == prev + jobs && next <= all
    modifies q
    ensures exited ==> (!NoneFail(q.collected, fails) && q.collected <= before + all && |before| + |all| > 101)
    ensures !exited ==> Running(q, fails) && q.collected + q.processes == before + next
  {
    ghost var stream := q.collected + q.processes;
    exited := StartJobs(q, jobs, fails);
    if exited {
      StreamWithin(q.collected, stream, jobs, before, prev, next, all);
    } else {
      assert (before + prev) + jobs == before + next;
    }
  }

  /** Prefixes of prefixes are prefixes, and shorter. */
  lemma PrefixTrans(a: seq<Job>, b: seq<Job>, c: seq<Job>)
    requires a <= b && b <= c
    ensures a <= c && |b| <= |c|
  {
  }

  /**
   * What was collected from the stream plus a build's jobs was collected
   * from the whole stream of the shader's jobs.
   */
  lemma StreamWithin(c: seq<Job>, stream: seq<Job>, jobs: seq<Job>, before: seq<Job>, prev: seq<Job>, done: seq<Job>, all: seq<Job>)
    requires c <= stream + jobs && stream == before + prev && done == prev + jobs && done <= all
    ensures c <= before + all && |stream| + |jobs| <= |before| + |all|
  {
    assert stream + jobs == before + done;
    assert (before + all)[..|before + done|] == before + done;
  }

  /** One build more appends its jobs. */
  lemma BuildsJobsSnoc(s: Shader, platform: Platform, bs: seq<Build>, i: nat)
    requires i < |bs| && s.shaderType != UnknownType
    ensures BuildsJobs(s, platform, bs[..i + 1]).value ==
      BuildsJobs(s, platform, bs[..i]).value + CreateShaderJobs(s, platform, bs[i]).value
  {
    assert bs[..i + 1][..i] == bs[..i];
  }

  /** One shader more appends its jobs. */
  lemma AllJobsSnoc(shaders: seq<Shader>, platform: Platform, k: nat)
    requires k < |shaders| && AllJobs(shaders[..k], platform).Some?
    requires BuildsJobs(shaders[k], platform, ShaderBuilds(shaders[k])).Some?
    ensures AllJobs(shaders[..k + 1], platform) ==
      Some(AllJobs(shaders[..k], platform).value + BuildsJobs(shaders[k], platform, ShaderBuilds(shaders[k])).value)
  {
    assert shaders[..k + 1][..k] == shaders[..k];
  }

  /** The `for shader in shaders` loop of `main`, on a queue that starts empty. */
  method CompileInto(q: ProcessQueue, shaders: seq<Shader>, platform: Platform, fails: Job -> bool) returns (outcome: Outcome)
    requires q.processes == [] && q.collected == []
    modifies q
    ensures outcome == Raised ==> AllJobs(shaders, platform).None?
    ensures outcome.Exited? ==> (outcome.code == 1 && !NoneFail(q.collected, fails) &&
      (AllJobs(shaders, platform).Some? ==> q.collected <= AllJobs(shaders, platform).value && |AllJobs(shaders, platform).value| > 101))
    ensures AllJobs(shaders, platform).None? ==> outcome != Finished
    ensures outcome == Finished ==> Running(q, fails) && AllJobs(shaders, platform) == Some(q.collected + q.processes)
  {
    var k := 0;
    assert shaders[..0] == [];
    assert q.collected + q.processes == [];
    while k < |shaders|
      invariant 0 <= k <= |shaders| && Running(q, fails)
      invariant AllJobs(shaders[..k], platform) == Some(q.collected + q.processes)
    {
      outcome := CompileNext(q, shaders, k, platform, fails);
      if outcome != Finished {
        return;
      }
      k := k + 1;
    }
    assert shaders[..k] == shaders;
    outcome := Finished;
  }

  /** Pass k of the `for shader in shaders` loop. */
  method CompileNext(q: ProcessQueue, shaders: seq<Shader>, k: nat, platform: Platform, fails: Job -> bool) returns (outcome: Outcome)
    requires k < |shaders| && Running(q, fails)
    requires AllJobs(shaders[..k], platform) == Some(q.collected + q.processes)
    modifies q
    ensures outcome == Raised ==> AllJobs(shaders, platform).None?
    ensures outcome.Exited? ==> (outcome.code == 1 && !NoneFail(q.collected, fails) &&
      (AllJobs(shaders, platform).Some? ==> q.collected <= AllJobs(shaders, platform).value && |AllJobs(shaders, platform).value| > 101))
    ensures outcome == Finished ==> Running(q, fails) && AllJobs(shaders[..k + 1], platform) == Some(q.collected + q.processes)
  {
    outcome := CompileShader(q, shaders[k], platform, fails);
    if outcome == Raised {
      AllJobsRaise(shaders, platform);
      return;
    }
    AllJobsSnoc(shaders, platform, k);
    if outcome.Exited? && AllJobs(shaders, platform).Some? {
      AllJobsPrefix(shaders, platform, k + 1);
      PrefixTrans(q.collected, AllJobs(shaders[..k + 1], platform).value, AllJobs(shaders, platform).value);
    }
  }

  /**
   * The script: `main()` and then `wait_subprocesses()` for the jobs still
   * pending.  It ends normally exactly when no job failed, and otherwise
   * exits with status 1 (unless it raises on an unknown type first).
   */
  method CompileShaders(shaders: seq<Shader>, platform: Platform, fails: Job -> bool) returns (outcome: Outcome)
    ensures outcome == Raised ==> AllJobs(shaders, platform).None?
    ensures AllJobs(shaders, platform).None? ==> outcome != Finished
    ensures outcome != Finished && outcome != Raised ==> outcome == Exited(1)
    ensures AllJobs(shaders, platform).Some? ==>
      (outcome == Finished <==> NoneFail(AllJobs(shaders, platform).value, fails))
  {
    var q := new ProcessQueue();
    outcome := CompileInto(q, shaders, platform, fails);
    if outcome == Finished {
      ghost var done := q.collected;
      ghost var pending := q.processes;
      var exited := q.WaitSubprocesses(fails);
      if exited {
        outcome := Exited(1);
        ghost var k :| 0 <= k < |pending| && fails(pending[k]);
        assert (done + pending)[|done| + k] == pending[k];
      }
    } else if outcome.Exited? && AllJobs(shaders, platform).Some? {
      PrefixFails(q.collected, AllJobs(shaders, platform).value, fails);
    }
  }
}

=== FILE: sub_mesh.dfy ===
/**
 * The skinning and collider bookkeeping of `cSubMesh`
 * (HPL2/sources/graphics/SubMesh.cpp): the vertex-bone pair list, the packing
 * of pairs into four bone slots per vertex in `Compile`, the normalisation
 * of each vertex's weights, the index-count gate of the one-sided test, and
 * the shape `CreateCollideShape` builds.  Weights are floats in the source
 * and reals here.
 */
module SubMesh {
  import opened Wrappers

  /** `cVertexBonePair`: vertex `vtxIdx` is moved by bone `boneIdx` with `weight`. */
  datatype VertexBonePair = VertexBonePair(vtxIdx: nat, boneIdx: int, weight: real)

  /** The four weight slots and four bone slots of every vertex, flattened. */
  datatype Slots = Slots(weights: seq<real>, bones: seq<int>)

  /** The one-sided test only looks at sub-meshes of at most 400 triangles. */
  const MaxOneSidedIndices: nat := 400 * 3

  /** `std::vector::resize(n, fill)`: the first n old entries, then `fill`. */
  function ResizedWith<T>(s: seq<T>, n: nat, fill: T): (r: seq<T>)
    ensures |r| == n
    ensures forall i :: 0 <= i < n ==> r[i] == if i < |s| then s[i] else fill
  {
    if n <= |s| then s[..n] else s + seq(n - |s|, _ => fill)
  }

  // ------------------------------------------------------------ vertex slots

  /** The four slots of vertex v. */
  function Slice<T>(s: seq<T>, v: nat): (r: seq<T>)
    requires 4 * v + 4 <= |s|
    ensures |r| == 4
  {
    s[4 * v..4 * v + 4]
  }

  /** The vector with the four slots of vertex v replaced. */
  function Splice<T>(s: seq<T>, v: nat, slots: seq<T>): (r: seq<T>)
    requires 4 * v + 4 <= |s| && |slots| == 4
    ensures |r| == |s|
  {
    s[..4 * v] + slots + s[4 * v + 4..]
  }

  /** Replacing vertex v's slots leaves every other vertex's slots alone. */
  lemma SpliceSlice<T>(s: seq<T>, v: nat, slots: seq<T>, u: nat)
    requires 4 * v + 4 <= |s| && |slots| == 4 && 4 * u + 4 <= |s|
    ensures Slice(Splice(s, v, slots), u) == if u == v then slots else Slice(s, u)
  {
    var r := Splice(s, v, slots);
    if u < v {
      assert 4 * u + 4 <= 4 * v;
    } else if u > v {
      assert 4 * v + 4 <= 4 * u;
    }
    forall j | 0 <= j < 4 ensures Slice(r, u)[j] == (if u == v then slots else Slice(s, u))[j] {
      assert 4 * u + j < |s|;
    }
  }

  /** Storing into slot j of vertex v is splicing in its updated slots. */
  lemma UpdateIsSplice<T>(s: seq<T>, v: nat, j: nat, x: T)
    requires 4 * v + 4 <= |s| && j < 4
    ensures s[4 * v + j := x] == Splice(s, v, Slice(s, v)[j := x])
  {
    var a, b := s[4 * v + j := x], Splice(s, v, Slice(s, v)[j := x]);
    forall k | 0 <= k < |s| ensures a[k] == b[k] {
      if 4 * v <= k < 4 * v + 4 {
        assert b[k] == Slice(s, v)[j := x][k - 4 * v];
      }
    }
  }

  // ------------------------------------------------------------ bone packing

  /** The first slot from `j` on whose weight is 0, if any. */
  function FreeSlot(ws: seq<real>, j: nat): (r: Option<nat>)
    requires |ws| == 4 && j <= 4
    ensures r.Some? ==> j <= r.value < 4 && ws[r.value] == 0.0
    ensures r.Some? ==> forall i :: j <= i < r.value ==> ws[i] != 0.0
    ensures r.None? ==> forall i :: j <= i < 4 ==> ws[i] != 0.0
    decreases 4 - j
  {
    if j == 4 then None
    else if ws[j] == 0.0 then Some(j)
    else FreeSlot(ws, j + 1)
  }

  predicate Fits(s: Slots, p: VertexBonePair)
  {
    |s.weights| == |s.bones| && 4 * p.vtxIdx + 4 <= |s.weights|
  }

  /** One pair of the packing loop: it takes its vertex's first free slot, or is dropped when all four are taken. */
  function Place(s: Slots, p: VertexBonePair): (r: Slots)
    requires Fits(s, p)
    ensures |r.weights| == |s.weights| && |r.bones| == |s.bones|
  {
    var v := p.vtxIdx;
    match FreeSlot(Slice(s.weights, v), 0)
    case None => s
    case Some(j) => Slots(Splice(s.weights, v, Slice(s.weights, v)[j := p.weight]),
                          Splice(s.bones, v, Slice(s.bones, v)[j := p.boneIdx]))
  }

  predicate AllFit(s: Slots, pairs: seq<VertexBonePair>)
  {
    forall i :: 0 <= i < |pairs| ==> Fits(s, pairs[i])
  }

  /** The packing loop over every pair, in list order. */
  function PlaceAll(s: Slots, pairs: seq<VertexBonePair>): (r: Slots)
    requires AllFit(s, pairs)
    ensures |r.weights| == |s.weights| && |r.bones| == |s.bones|
  {
    if pairs == [] then s else Place(PlaceAll(s, pairs[..|pairs| - 1]), pairs[|pairs| - 1])
  }

  /** The pairs naming vertex v, in list order. */
  function PairsFor(pairs: seq<VertexBonePair>, v: nat): (r: seq<VertexBonePair>)
    ensures |r| <= |pairs|
  {
    if pairs == [] then []
    else PairsFor(pairs[..|pairs| - 1], v) + (if pairs[|pairs| - 1].vtxIdx == v then [pairs[|pairs| - 1]] else [])
  }

  /** The weights of the first four pairs, then zeros. */
  function FirstWeights(ps: seq<VertexBonePair>): (r: seq<real>)
    ensures |r| == 4
  {
    seq(4, j requires 0 <= j < 4 => if j < |ps| then ps[j].weight else 0.0)
  }

  /** The bones of the first four pairs, then zeros. */
  function FirstBones(ps: seq<VertexBonePair>): (r: seq<int>)
    ensures |r| == 4
  {
    seq(4, j requires 0 <= j < 4 => if j < |ps| then ps[j].boneIdx else 0)
  }

  /** Every vertex below n holds its first four pairs in list order. */
  predicate SlotsHoldFirstFour(s: Slots, pairs: seq<VertexBonePair>, n: nat)
    requires |s.weights| == |s.bones| == 4 * n
  {
    forall v :: 0 <= v < n ==>
      Slice(s.weights, v) == FirstWeights(PairsFor(pairs, v)) && Slice(s.bones, v) == FirstBones(PairsFor(pairs, v))
  }

  /**
   * Packing positively weighted pairs into zeroed slots: every vertex ends
   * with its first (up to) four pairs in list order, and any further pair of
   * that vertex is dropped.
   */
  lemma {:induction false} PackFirstFour(n: nat, pairs: seq<VertexBonePair>)
    requires forall i :: 0 <= i < |pairs| ==> pairs[i].vtxIdx < n && pairs[i].weight > 0.0
    ensures AllFit(Slots(seq(4 * n, _ => 0.0), seq(4 * n, _ => 0)), pairs)
    ensures SlotsHoldFirstFour(PlaceAll(Slots(seq(4 * n, _ => 0.0), seq(4 * n, _ => 0)), pairs), pairs, n)
  {
    var s0 := Slots(seq(4 * n, _ => 0.0), seq(4 * n, _ => 0));
    forall i | 0 <= i < |pairs| ensures Fits(s0, pairs[i]) {
      assert pairs[i].vtxIdx + 1 <= n;
    }
    if pairs == [] {
      forall v | 0 <= v < n
        ensures Slice(s0.weights, v) == FirstWeights([]) && Slice(s0.bones, v) == FirstBones([])
      {
      }
    } else {
      var init, p := pairs[..|pairs| - 1], pairs[|pairs| - 1];
      PackFirstFour(n, init);
      PlaceNext(n, init, PlaceAll(s0, init), p);
    }
  }

  /** The induction step of `PackFirstFour`: one more pair lands in the slot after its vertex's earlier pairs. */
  lemma PlaceNext(n: nat, init: seq<VertexBonePair>, s: Slots, p: VertexBonePair)
    requires |s.weights| == |s.bones| == 4 * n && p.vtxIdx < n && p.weight > 0.0
    requires forall i :: 0 <= i < |init| ==> init[i].weight > 0.0
    requires SlotsHoldFirstFour(s, init, n)
    ensures Fits(s, p)
    ensures SlotsHoldFirstFour(Place(s, p), init + [p], n)
  {
    var u := p.vtxIdx;
    assert u + 1 <= n;
    var pairs := init + [p];
    assert pairs[..|pairs| - 1] == init;
    var before := PairsFor(init, u);
    PairsForPositive(init, u);
    var free := FreeSlotAfter(before);
    var r := Place(s, p);
    forall v | 0 <= v < n
      ensures Slice(r.weights, v) == FirstWeights(PairsFor(pairs, v)) && Slice(r.bones, v) == FirstBones(PairsFor(pairs, v))
    {
      assert v + 1 <= n;
      if free.Some? {
        SpliceSlice(s.weights, u, Slice(s.weights, u)[free.value := p.weight], v);
        SpliceSlice(s.bones, u, Slice(s.bones, u)[free.value := p.boneIdx], v);
      }
    }
  }

  /**
   * A vertex holding its first pairs, all positively weighted, has its first
   * free slot right after them; with four or more it has none, and another
   * pair leaves its first four unchanged.
   */
  lemma FreeSlotAfter(before: seq<VertexBonePair>) returns (free: Option<nat>)
    requires forall i :: 0 <= i < |before| ==> before[i].weight > 0.0
    ensures free == FreeSlot(FirstWeights(before), 0)
    ensures free == if |before| < 4 then Some(|before|) else None
    ensures forall p: VertexBonePair :: free.Some? ==>
      FirstWeights(before + [p]) == FirstWeights(before)[free.value := p.weight] &&
      FirstBones(before + [p]) == FirstBones(before)[free.value := p.boneIdx]
    ensures forall p: VertexBonePair :: free.None? ==>
      FirstWeights(before + [p]) == FirstWeights(before) && FirstBones(before + [p]) == FirstBones(before)
  {
    var ws := FirstWeights(before);
    free := FreeSlot(ws, 0);
    if |before| < 4 {
      assert ws[|before|] == 0.0;
    }
  }

  /** The pairs kept for vertex u all name u and carry positive weights. */
  lemma {:induction false} PairsForPositive(pairs: seq<VertexBonePair>, u: nat)
    requires forall i :: 0 <= i < |pairs| ==> pairs[i].weight > 0.0
    ensures forall i :: 0 <= i < |PairsFor(pairs, u)| ==> PairsFor(pairs, u)[i].weight > 0.0 && PairsFor(pairs, u)[i].vtxIdx == u
  {
    if pairs != [] {
      PairsForPositive(pairs[..|pairs| - 1], u);
    }
  }

  /** The inner loop of the packing: the first free slot of vertex v. */
  method FindFreeSlot(weights: seq<real>, v: nat) returns (found: bool, j: nat)
    requires 4 * v + 4 <= |weights|
    ensures found <==> FreeSlot(Slice(weights, v), 0).Some?
    ensures found ==> j == FreeSlot(Slice(weights, v), 0).value
  {
    found := false;
    j := 0;
    while j < 4
      invariant j <= 4 && FreeSlot(Slice(weights, v), 0) == FreeSlot(Slice(weights, v), j)
    {
      if weights[4 * v + j] == 0.0 {
        found := true;
        break;
      }
      j := j + 1;
    }
  }

  /** The packing loop of `Compile`, on the resized slot vectors. */
  method PackBonePairs(weights0: seq<real>, bones0: seq<int>, pairs: seq<VertexBonePair>) returns (weights: seq<real>, bones: seq<int>)
    requires AllFit(Slots(weights0, bones0), pairs)
    ensures Slots(weights, bones) == PlaceAll(Slots(weights0, bones0), pairs)
  {
    weights, bones := weights0, bones0;
    var i := 0;
    while i < |pairs|
      invariant i <= |pairs| && |weights| == |weights0| && |bones| == |bones0|
      invariant AllFit(Slots(weights0, bones0), pairs[..i])
      invariant Slots(weights, bones) == PlaceAll(Slots(weights0, bones0), pairs[..i])
    {
      var pair := pairs[i];
      assert pairs[..i + 1][..i] == pairs[..i];
      var found, j := FindFreeSlot(weights, pair.vtxIdx);
      if found {
        UpdateIsSplice(weights, pair.vtxIdx, j, pair.weight);
        UpdateIsSplice(bones, pair.vtxIdx, j, pair.boneIdx);
        weights := weights[4 * pair.vtxIdx + j := pair.weight];
        bones := bones[4 * pair.vtxIdx + j := pair.boneIdx];
      }
      i := i + 1;
    }
    assert pairs[..|pairs|] == pairs;
  }

  // ----------------------------------------------------------- normalisation

  /** How many leading slots hold a non-zero weight (the `count` loop). */
  function PrefixCount(ws: seq<real>, from: nat): (c: nat)
    requires |ws| == 4 && from <= 4
    ensures from <= c <= 4
    ensures forall j :: from <= j < c ==> ws[j] != 0.0
    ensures c < 4 ==> ws[c] == 0.0
    decreases 4 - from
  {
    if from == 4 || ws[from] == 0.0 then from else PrefixCount(ws, from + 1)
  }

  /** The sum of the first c weights. */
  function PrefixTotal(ws: seq<real>, c: nat): real
    requires c <= |ws|
  {
    if c == 0 then 0.0 else PrefixTotal(ws, c - 1) + ws[c - 1]
  }

  /** One vertex's normalisation: its leading non-zero weights divided by their sum. */
  function NormalizeSlots(ws: seq<real>): (r: seq<real>)
    requires |ws| == 4
    ensures |r| == 4
  {
    var c := PrefixCount(ws, 0);
    var t := PrefixTotal(ws, c);
    seq(4, j requires 0 <= j < 4 => if j < c && t != 0.0 then ws[j] / t else ws[j])
  }

  /** The first n vertices normalised one after the other. */
  function Normalized(weights: seq<real>, n: nat): (r: seq<real>)
    requires 4 * n <= |weights|
    ensures |r| == |weights|
  {
    if n == 0 then weights
    else
      var w := Normalized(weights, n - 1);
      Splice(w, n - 1, NormalizeSlots(Slice(w, n - 1)))
  }

  predicate NonNegative(weights: seq<real>)
  {
    forall k :: 0 <= k < |weights| ==> weights[k] >= 0.0
  }

  /** Normalising the first n vertices leaves the slots of later vertices alone. */
  lemma {:induction false} NormalizedBeyond(weights: seq<real>, n: nat, v: nat)
    requires 4 * n <= |weights| && 4 * v + 4 <= |weights| && n <= v
    ensures Slice(Normalized(weights, n), v) == Slice(weights, v)
  {
    if n > 0 {
      var w := Normalized(weights, n - 1);
      SpliceSlice(w, n - 1, NormalizeSlots(Slice(w, n - 1)), v);
      NormalizedBeyond(weights, n - 1, v);
    }
  }

  /** Each vertex below n is normalised on its own slots, untouched by the other vertices. */
  lemma {:induction false} NormalizedSlice(weights: seq<real>, n: nat, v: nat)
    requires 4 * n <= |weights| && v < n
    ensures Slice(Normalized(weights, n), v) == NormalizeSlots(Slice(weights, v))
  {
    var w := Normalized(weights, n - 1);
    var last := NormalizeSlots(Slice(w, n - 1));
    SpliceSlice(w, n - 1, last, v);
    if v == n - 1 {
      NormalizedBeyond(weights, n - 1, v);
    } else {
      NormalizedSlice(weights, n - 1, v);
    }
  }

  /** Non-negative weights: a non-empty leading run has a positive sum. */
  lemma {:induction false} PositiveTotal(ws: seq<real>, c: nat)
    requires |ws| == 4 && c <= PrefixCount(ws, 0)
    requires forall j :: 0 <= j < 4 ==> ws[j] >= 0.0
    ensures c > 0 ==> PrefixTotal(ws, c) > 0.0
    ensures PrefixTotal(ws, c) >= 0.0
  {
    if c > 0 {
      PositiveTotal(ws, c - 1);
      assert ws[c - 1] != 0.0;
    }
  }

  /** Dividing each of the first c weights by t divides their sum by t. */
  lemma {:induction false} TotalScaled(ws: seq<real>, scaled: seq<real>, c: nat, t: real)
    requires c <= |ws| && c <= |scaled| && t != 0.0
    requires forall j :: 0 <= j < c ==> scaled[j] == ws[j] / t
    ensures PrefixTotal(scaled, c) == PrefixTotal(ws, c) / t
  {
    if c > 0 {
      TotalScaled(ws, scaled, c - 1, t);
    }
  }

  /** The leading run keeps its length when each weight in it is divided by a non-zero total. */
  lemma {:induction false} CountScaled(ws: seq<real>, scaled: seq<real>, from: nat, t: real)
    requires |ws| == |scaled| == 4 && from <= PrefixCount(ws, 0) && t != 0.0
    requires forall j :: 0 <= j < PrefixCount(ws, 0) ==> scaled[j] == ws[j] / t
    requires PrefixCount(ws, 0) < 4 ==> scaled[PrefixCount(ws, 0)] == 0.0
    ensures PrefixCount(scaled, from) == PrefixCount(ws, 0)
    decreases 4 - from
  {
    if from < PrefixCount(ws, 0) {
      assert ws[from] != 0.0;
      assert scaled[from] == ws[from] / t;
      CountScaled(ws, scaled, from + 1, t);
    }
  }

  /**
   * One vertex with non-negative weights and at least one bone: after
   * normalisation it has the same number of bones and their weights sum to 1.
   */
  lemma SlotsSumToOne(ws: seq<real>)
    requires |ws| == 4 && forall j :: 0 <= j < 4 ==> ws[j] >= 0.0
    requires PrefixCount(ws, 0) > 0
    ensures PrefixCount(NormalizeSlots(ws), 0) == PrefixCount(ws, 0)
    ensures PrefixTotal(NormalizeSlots(ws), PrefixCount(ws, 0)) == 1.0
  {
    var r, c := NormalizeSlots(ws), PrefixCount(ws, 0);
    var t := PrefixTotal(ws, c);
    PositiveTotal(ws, c);
    CountScaled(ws, r, 0, t);
    TotalScaled(ws, r, c, t);
    DivSelf(t);
  }

  lemma DivSelf(t: real)
    requires t != 0.0
    ensures t / t == 1.0
  {
  }

  /**
   * After normalising n vertices, every one of them that has a bone has the
   * same number of bones and their weights sum to 1; vertices without a
   * bone and vertices past n are unchanged.
   */
  lemma NormalizedSumsToOne(weights: seq<real>, n: nat, v: nat)
    requires 4 * n <= |weights| && 4 * v + 4 <= |weights| && NonNegative(weights)
    ensures v < n && PrefixCount(Slice(weights, v), 0) > 0 ==>
      PrefixCount(Slice(Normalized(weights, n), v), 0) == PrefixCount(Slice(weights, v), 0) &&
      PrefixTotal(Slice(Normalized(weights, n), v), PrefixCount(Slice(weights, v), 0)) == 1.0
    ensures (v >= n || PrefixCount(Slice(weights, v), 0) == 0) ==> Slice(Normalized(weights, n), v) == Slice(weights, v)
  {
    if v < n {
      NormalizedSlice(weights, n, v);
    } else {
      NormalizedBeyond(weights, n, v);
    }
    var ws := Slice(weights, v);
    forall j | 0 <= j < 4 ensures ws[j] >= 0.0 {
      assert ws[j] == weights[4 * v + j];
    }
    if v < n && PrefixCount(ws, 0) > 0 {
      SlotsSumToOne(ws);
    }
    if v < n && PrefixCount(ws, 0) == 0 {
      assert NormalizeSlots(ws) == ws;
    }
  }

  /** One pass of the normalisation loop: vertex `vtx`'s leading weights divided by their sum. */
  method NormalizeVertex(weights: seq<real>, vtx: nat) returns (next: seq<real>)
    requires 4 * vtx + 4 <= |weights| && forall j :: 0 <= j < 4 ==> Slice(weights, vtx)[j] >= 0.0
    ensures next == Splice(weights, vtx, NormalizeSlots(Slice(weights, vtx)))
  {
    ghost var ws := Slice(weights, vtx);
    var total := 0.0;
    var count := 0;
    while count < 4
      invariant count <= PrefixCount(ws, 0) && total == PrefixTotal(ws, count)
    {
      var weight := weights[4 * vtx + count];
      if weight == 0.0 {
        break;
      }
      total := total + weight;
      count := count + 1;
    }
    next := weights;
    if count == 0 {
      assert NormalizeSlots(ws) == ws;
      SpliceSame(weights, vtx);
      return;
    }
    PositiveTotal(ws, count);
    PositiveCount(ws, count, total);
    var j := 0;
    while j < count
      invariant j <= count && next == Splice(weights, vtx, Divided(ws, j, total))
    {
      SpliceStep(weights, vtx, ws, j, total);
      next := next[4 * vtx + j := next[4 * vtx + j] / total];
      j := j + 1;
    }
  }

  /** The first j slots divided by t, the rest as they were. */
  function Divided(ws: seq<real>, j: nat, t: real): (r: seq<real>)
    requires |ws| == 4 && t != 0.0
    ensures |r| == 4
  {
    seq(4, i requires 0 <= i < 4 => if i < j then ws[i] / t else ws[i])
  }

  /** The counting loop found a non-empty run, so its total is the one `NormalizeSlots` divides by. */
  lemma PositiveCount(ws: seq<real>, count: nat, total: real)
    requires |ws| == 4 && 0 < count == PrefixCount(ws, 0) && total == PrefixTotal(ws, count)
    ensures total != 0.0 ==> NormalizeSlots(ws) == Divided(ws, count, total)
  {
  }

  /** Dividing slot j in place extends the divided run by one. */
  lemma SpliceStep(weights: seq<real>, v: nat, ws: seq<real>, j: nat, t: real)
    requires 4 * v + 4 <= |weights| && ws == Slice(weights, v) && j < 4 && t != 0.0
    ensures Splice(weights, v, Divided(ws, j, t))[4 * v + j] == ws[j]
    ensures Splice(weights, v, Divided(ws, j, t))[4 * v + j := ws[j] / t] == Splice(weights, v, Divided(ws, j + 1, t))
  {
    var a := Splice(weights, v, Divided(ws, j, t));
    UpdateIsSplice(a, v, j, ws[j] / t);
    SpliceSlice(weights, v, Divided(ws, j, t), v);
    assert Divided(ws, j, t)[j := ws[j] / t] == Divided(ws, j + 1, t);
    SpliceTwice(weights, v, Divided(ws, j, t), Divided(ws, j + 1, t));
  }

  /** Splicing a vertex's own slots back changes nothing. */
  lemma SpliceSame<T>(s: seq<T>, v: nat)
    requires 4 * v + 4 <= |s|
    ensures Splice(s, v, Slice(s, v)) == s
  {
    assert s == s[..4 * v] + s[4 * v..4 * v + 4] + s[4 * v + 4..];
  }

  /** Splicing twice at the same vertex keeps only the second. */
  lemma SpliceTwice<T>(s: seq<T>, v: nat, a: seq<T>, b: seq<T>)
    requires 4 * v + 4 <= |s| && |a| == |b| == 4
    ensures Splice(Splice(s, v, a), v, b) == Splice(s, v, b)
  {
    var sa := Splice(s, v, a);
    assert sa[..4 * v] == s[..4 * v];
    assert sa[4 * v + 4..] == s[4 * v + 4..];
  }

  /** The normalisation loop of `Compile` over the first n vertices. */
  method NormalizeWeights(weights0: seq<real>, n: nat) returns (weights: seq<real>)
    requires 4 * n <= |weights0| && NonNegative(weights0)
    ensures weights == Normalized(weights0, n)
  {
    weights := weights0;
    var vtx := 0;
    while vtx < n
      invariant vtx <= n && weights == Normalized(weights0, vtx)
    {
      NormalizedBeyond(weights0, vtx, vtx);
      assert forall j :: 0 <= j < 4 ==> Slice(weights, vtx)[j] == weights0[4 * vtx + j];
      weights := NormalizeVertex(weights, vtx);
      vtx := vtx + 1;
    }
  }

  // --------------------------------------------------------------- colliders

  /** `eCollideShapeType`: the four kinds a collider can build, and the rest. */
  datatype CollideShapeType = Box | Sphere | Cylinder | Capsule | OtherShape

  /** The shape the physics world hands back. */
  datatype CollideShape = Primitive(kind: CollideShapeType) | Compound(parts: seq<Option<CollideShape>>)

  /** `CreateCollideShapeFromCollider`: a primitive for the four known kinds, null otherwise. */
  function ShapeFromCollider(kind: CollideShapeType): (r: Option<CollideShape>)
    ensures r.None? <==> kind == OtherShape
    ensures r.Some? ==> r.value == Primitive(kind)
  {
    if kind == OtherShape then None else Some(Primitive(kind))
  }

  /**
   * `CreateCollideShape`: null without a collider, the collider's own shape
   * for one, and otherwise a compound of every collider's shape in order.
   */
  function CreateCollideShape(colliders: seq<CollideShapeType>): (r: Option<CollideShape>)
    ensures colliders == [] ==> r == None
    ensures |colliders| == 1 ==> r == ShapeFromCollider(colliders[0])
    ensures |colliders| > 1 ==> r.Some? && r.value.Compound? && |r.value.parts| == |colliders|
    ensures |colliders| > 1 ==> forall i :: 0 <= i < |colliders| ==> r.value.parts[i] == ShapeFromCollider(colliders[i])
  {
    if colliders == [] then None
    else if |colliders| == 1 then ShapeFromCollider(colliders[0])
    else Some(Compound(seq(|colliders|, i requires 0 <= i < |colliders| => ShapeFromCollider(colliders[i]))))
  }

  // ------------------------------------------------------------------ the class

  class SubMesh {
    /** `m_vtxBonePairs`. */
    var vtxBonePairs: seq<VertexBonePair>
    /** `m_colliders`, by kind. */
    var colliders: seq<CollideShapeType>
    /** `m_vertexWeights` and `m_vertexBones`: four slots per vertex. */
    var vertexWeights: seq<real>
    var vertexBones: seq<int>
    /** `m_isOneSided`. */
    var isOneSided: bool

    constructor ()
      ensures vtxBonePairs == [] && colliders == [] && vertexWeights == [] && vertexBones == [] && !isOneSided
    {
      vtxBonePairs := [];
      colliders := [];
      vertexWeights := [];
      vertexBones := [];
      isOneSided := false;
    }

    /** `AddVertexBonePair`. */
    method AddVertexBonePair(pair: VertexBonePair)
      modifies this
      ensures vtxBonePairs == old(vtxBonePairs) + [pair]
      ensures colliders == old(colliders) && vertexWeights == old(vertexWeights) && vertexBones == old(vertexBones)
      ensures isOneSided == old(isOneSided)
    {
      vtxBonePairs := vtxBonePairs + [pair];
    }

    /** `ResizeVertexBonePairs`: the first `size` pairs, padded with value-initialised ones. */
    method ResizeVertexBonePairs(size: nat)
      modifies this
      ensures vtxBonePairs == ResizedWith(old(vtxBonePairs), size, VertexBonePair(0, 0, 0.0))
      ensures colliders == old(colliders) && vertexWeights == old(vertexWeights) && vertexBones == old(vertexBones)
      ensures isOneSided == old(isOneSided)
    {
      vtxBonePairs := ResizedWith(vtxBonePairs, size, VertexBonePair(0, 0, 0.0));
    }

    /** `ClearVertexBonePairs`. */
    method ClearVertexBonePairs()
      modifies this
      ensures vtxBonePairs == []
      ensures colliders == old(colliders) && vertexWeights == old(vertexWeights) && vertexBones == old(vertexBones)
      ensures isOneSided == old(isOneSided)
    {
      vtxBonePairs := [];
    }

    /** `AddCollider`. */
    method AddCollider(kind: CollideShapeType)
      modifies this
      ensures colliders == old(colliders) + [kind]
      ensures vtxBonePairs == old(vtxBonePairs) && vertexWeights == old(vertexWeights) && vertexBones == old(vertexBones)
      ensures isOneSided == old(isOneSided)
    {
      colliders := colliders + [kind];
    }

    /**
     * `Compile` for a sub-mesh whose vertex buffer holds `vertexNum`
     * vertices and `indexNum` indices (`hasVertexBuffer` false for none).
     * The one-sided test runs only for a buffer of at most 1200 indices and
     * marks the mesh one-sided when every triangle's normal stays within
     * the test's angle of the first (`facesAligned`, a float computation
     * outside this model); it never clears the mark.  With bone pairs, the
     * slot vectors are resized to four per vertex, every pair is packed into
     * its vertex's first free slot, and each vertex's weights are normalised.
     */
    method Compile(hasVertexBuffer: bool, vertexNum: nat, indexNum: nat, facesAligned: bool)
      requires vtxBonePairs != [] ==> hasVertexBuffer
      requires forall i :: 0 <= i < |vtxBonePairs| ==> vtxBonePairs[i].vtxIdx < vertexNum && vtxBonePairs[i].weight > 0.0
      requires NonNegative(vertexWeights)
      modifies this
      ensures isOneSided == (old(isOneSided) || (hasVertexBuffer && indexNum <= MaxOneSidedIndices && facesAligned))
      ensures old(vtxBonePairs) == [] ==> vertexWeights == old(vertexWeights) && vertexBones == old(vertexBones)
      ensures old(vtxBonePairs) != [] ==>
        var s0 := Slots(ResizedWith(old(vertexWeights), 4 * vertexNum, 0.0), ResizedWith(old(vertexBones), 4 * vertexNum, 0));
        AllFit(s0, vtxBonePairs) &&
        vertexBones == PlaceAll(s0, vtxBonePairs).bones &&
        NonNegative(PlaceAll(s0, vtxBonePairs).weights) &&
        vertexWeights == Normalized(PlaceAll(s0, vtxBonePairs).weights, vertexNum)
      ensures vtxBonePairs == old(vtxBonePairs) && colliders == old(colliders)
    {
      if hasVertexBuffer && indexNum <= MaxOneSidedIndices && facesAligned {
        isOneSided := true;
      }
      if vtxBonePairs != [] {
        var w0 := ResizedWith(vertexWeights, 4 * vertexNum, 0.0);
        var b0 := ResizedWith(vertexBones, 4 * vertexNum, 0);
        forall i | 0 <= i < |vtxBonePairs| ensures Fits(Slots(w0, b0), vtxBonePairs[i]) {
          assert vtxBonePairs[i].vtxIdx + 1 <= vertexNum;
        }
        var w, b := PackBonePairs(w0, b0, vtxBonePairs);
        PlaceAllNonNegative(Slots(w0, b0), vtxBonePairs);
        w := NormalizeWeights(w, vertexNum);
        vertexWeights := w;
        vertexBones := b;
      }
    }
  }

  /** Packing positive weights into non-negative slots keeps them non-negative. */
  lemma {:induction false} PlaceAllNonNegative(s: Slots, pairs: seq<VertexBonePair>)
    requires AllFit(s, pairs) && NonNegative(s.weights)
    requires forall i :: 0 <= i < |pairs| ==> pairs[i].weight > 0.0
    ensures NonNegative(PlaceAll(s, pairs).weights)
  {
    if pairs != [] {
      PlaceAllNonNegative(s, pairs[..|pairs| - 1]);
    }
  }
}

=== FILE: wrappers.dfy ===
/** The optional value the engine returns as null or as a missing entry. */
module Wrappers {
  datatype Option<T> = None | Some(value: T)
}
